=== FILE: README.md ===
# wozeknetwork, modelled in Dafny

wozeknetwork connects three programs:

- **WozekServer** accepts TCP sessions from host clients and controllers. It registers hosts and controllers in an in-memory database and receives and sends world map files in acknowledged segments. It answers UDP datagrams that echo, fetch or update a controller's rotation state, and it admits clients only from the IPv4 networks of an allow list it reloads from a file.
- **WozekHostClient** speaks to the server over TCP and UDP. It sends heartbeats and echo requests, registers, uploads and downloads maps, and packs UDP datagrams into a fixed buffer.
- **ControllerController** registers with the server as a controller. It fetches rotation state over UDP, keeps that state with a dirty flag, and forwards it to a serial device in a 7-bit framing. A mutex-guarded linked queue carries work between its threads.

The model follows the source file by file, with one Dafny module each. Code that only computes becomes datatypes, functions and lemmas: the segmented-transfer skeleton, the wire layouts, the serial framing, the request validation and the allow-list parser. Code that changes state in place becomes classes with `modifies` clauses:

- the sessions and their callback stacks;
- the transfer states and their staging buffers;
- the database tables;
- the world;
- the file manager;
- the allow-list holders;
- the controller state, the serial device and the queue.

Network, clock, file-system and serial-port I/O are outside the model. What they would return comes in as parameters: the received bytes, whether a write fails, the file contents, a modification time. What the program would send is appended to a log field.

Where a natural contract could not be proved because the code does something else, the model has both halves. An "as written" member shows the behaviour with a concrete input. A corrected member, which the rest of the model uses, has the intended property proved. These are listed under "## Findings".

## Model

| member | source | states |
|---|---|---|
| BufferUtils.PackSizeOfIsSum | WozekServer/asio_lib/asioBufferUtils.hpp:8-18 | PACKSIZEOF, which adds the head's size to the tail's, is the sum of the sizes |
| BufferUtils.FlattenInjective | WozekServer/asio_lib/asioBufferUtils.hpp:24-46 | objects of known sizes are determined by their concatenation, so loadMultiple over the same types reads back what saveMultiple wrote |
| BufferUtils.StaticCheckMissesLastObject | WozekServer/asio_lib/asioBufferUtils.hpp:29-34 | the static_assert at the last object checks only the objects before it: two 4-byte objects pass for a 4-byte buffer |
| BufferUtils.StaticCheckCoversEveryCopy | WozekServer/asio_lib/asioBufferUtils.hpp:36-46 | the check that includes the last object implies the one as written, and keeps every copy of saveMultiple from offset 0 inside the buffer |
| BufferUtils.ArrayBuffer.constructor | WozekServer/asio_lib/asioBufferUtils.hpp:109-112 | a new buffer has BufferSize bytes, all zero |
| BufferUtils.ArrayBuffer.LoadBytes | WozekServer/asio_lib/asioBufferUtils.hpp:116-120 | the first length bytes, for a length within the buffer |
| BufferUtils.ArrayBuffer.LoadBytesAt | WozekServer/asio_lib/asioBufferUtils.hpp:121-126 | the length bytes from offset, and the offset just past them, when offset + length fits |
| BufferUtils.ArrayBuffer.SaveBytes | WozekServer/asio_lib/asioBufferUtils.hpp:128-132 | the buffer with its first bytes replaced by the source's and the rest unchanged |
| BufferUtils.ArrayBuffer.SaveBytesAt | WozekServer/asio_lib/asioBufferUtils.hpp:133-138 | the buffer with the bytes from offset replaced and the rest unchanged; returns the offset past them |
| BufferUtils.ArrayBuffer.LoadMultipleAt | WozekServer/asio_lib/asioBufferUtils.hpp:24-34 | one object of each size, back to back from offset, whose concatenation is the buffer range they cover; returns the offset past the last |
| BufferUtils.ArrayBuffer.SaveMultipleAt | WozekServer/asio_lib/asioBufferUtils.hpp:36-46 | the objects' concatenation written from offset, nothing else changed; returns the offset past the last |
| BufferUtils.ArrayBuffer.Get | WozekServer/asio_lib/asioBufferUtils.hpp:140-143 | a view from byte 0 whose length is clamped to the buffer's size, as asio::buffer over an array clamps it |
| BufferUtils.ArrayBuffer.GetAt | WozekServer/asio_lib/asioBufferUtils.hpp:144-147 | the raw range, with no clamping |
| BufferUtils.Splice | WozekServer/asio_lib/asioBufferUtils.hpp:133-138 | what a memcpy at an offset leaves: the copied bytes in their range and the other bytes unchanged |
| BufferUtils.SpliceSplice | WozekServer/asio_lib/asioBufferUtils.hpp:36-40 | two adjacent copies, as saveMultiple makes them, equal one copy of the concatenation |
| AsyncUtils.Execute | WozekServer/asio_lib/asyncUtils.hpp:35-46 | execute runs the handler's code, whether it is given as a member-function pointer or a callable |
| AsyncUtils.ExecuteForms | WozekServer/asio_lib/asyncUtils.hpp:38-45 | both forms of a handler for the same code make the same call |
| AsyncUtils.ErrorBranch | WozekServer/asio_lib/asyncUtils.hpp:48-58 | the two-handler closure has no continue handler, and holds the session exactly in the safe variant (lines 105-115) |
| AsyncUtils.ErrorBranchContinue | WozekServer/asio_lib/asyncUtils.hpp:59-71 | the three-handler closure keeps its continue handler, and holds the session exactly in the safe variant (lines 117-129) |
| AsyncUtils.Run | WozekServer/asio_lib/asyncUtils.hpp:52-57 | calling the closure runs continue first when present, then the error handler with the code when the code is set, else the success handler |
| AsyncUtils.ExactlyOneHandler | WozekServer/asio_lib/asyncUtils.hpp:52-57 | of the success and error handlers exactly one runs, chosen by whether the code is set |
| AsyncUtils.ContinueRunsFirst | WozekServer/asio_lib/asyncUtils.hpp:64-70 | the three-handler closure is continue followed by what the two-handler closure does |
| AsyncUtils.SafeBranchesAsUnsafe | WozekServer/asio_lib/asyncUtils.hpp:105-129 | holding the session changes nothing about which handlers run |
| Callbacks.MakeResult | WozekServer/asio_lib/callbackStack.hpp:6-15 | a result with the given status, Good by default, and no value |
| Callbacks.MakeValueResult | WozekServer/asio_lib/callbackStack.hpp:31-39 | a value result with the given status, Good by default, carrying its value |
| Callbacks.DefaultsAreGood | WozekServer/asio_lib/callbackStack.hpp:11-20 | default-constructed results, with or without a value, are Good and not critical |
| Callbacks.CriticalIffCriticalError | WozekServer/asio_lib/callbackStack.hpp:17-20 | isCritical holds exactly for the CriticalError status |
| Callbacks.Pop | WozekServer/asio_lib/callbackStack.hpp:26 | popping the stack removes one element |
| Callbacks.Push | WozekServer/asio_lib/callbackStack.hpp:26 | a pushed element is on top, and popping it gives the old stack back |
| Callbacks.PushAllLength | WozekServer/asio_lib/callbackStack.hpp:26 | pushing elements in order appends them to the stack |
| Callbacks.LastInFirstOut | WozekServer/asio_lib/callbackStack.hpp:26 | after pushing xs, popping as many elements gives xs reversed and the stack as it was |
| Base.DecodeEncodeLE | WozekServer/Datagrams.hpp:14 | an unsigned integer copied out with memcpy and copied back in is unchanged whenever it fits its width |
| Base.EncodeDecodeLE | WozekServer/Datagrams.hpp:14 | every byte string is the little-endian image of the value read from it, so distinct values have distinct images |
| Datagrams.TcpCodes | WozekServer/Datagrams.hpp:69-222 | the seven TCP request codes, heartbeat to file download |
| Datagrams.CodesDistinct | WozekServer/Datagrams.hpp:69-222 | the TCP request codes are pairwise distinct, the echo request id equals the registration code, and the ack, map and registration response codes are distinct |
| Datagrams.EncodeHostHeader | WozekServer/Datagrams.hpp:39-45 | Host::Header is the 4-byte id followed by the 32-byte name, 36 bytes with no padding |
| Datagrams.HostHeaderRoundTrip | WozekServer/Datagrams.hpp:39-45 | decoding an encoded host header gives it back |
| Datagrams.EncodeCodeAndId | WozekServer/Datagrams.hpp:104-111 | a code-and-id response is 8 bytes: the code, 3 padding bytes, the id |
| Datagrams.CodeAndIdRoundTrip | WozekServer/Datagrams.hpp:104-111 | decoding an encoded code-and-id response, as RegisterNewHost and StartTheWorld (lines 185-192) send it, gives it back |
| Datagrams.EncodeSegmentHeader | WozekServer/Datagrams.hpp:127-133 | the segment header is the 8-byte size |
| Datagrams.SegmentHeaderRoundTrip | WozekServer/Datagrams.hpp:127-133 | decoding an encoded segment header gives the size back |
| Datagrams.SegmentHeaderBytesRoundTrip | WozekServer/Datagrams.hpp:127-133 | every 8 bytes are the header of exactly one size |
| Datagrams.EncodeUploadMapRequest | WozekServer/Datagrams.hpp:141-145 | the upload-map request is 16 bytes: the host id, 4 padding bytes, the size |
| Datagrams.UploadMapRequestRoundTrip | WozekServer/Datagrams.hpp:141-145 | decoding an encoded upload-map request gives it back |
| Datagrams.EncodeDownloadMapRequest | WozekServer/Datagrams.hpp:161-164 | the download-map request is the 4-byte host id |
| Datagrams.DownloadMapRequestRoundTrip | WozekServer/Datagrams.hpp:161-164 | decoding an encoded download-map request gives the id back |
| Datagrams.EncodeDownloadMapResponse | WozekServer/Datagrams.hpp:165-173 | the download-map response is 16 bytes: the code, 7 padding bytes, the size |
| Datagrams.DownloadMapResponseRoundTrip | WozekServer/Datagrams.hpp:165-173 | decoding an encoded download-map response gives it back |
| Datagrams.EncodeStartWorldRequest | WozekServer/Datagrams.hpp:180-183 | the start-the-world request is the 2-byte port |
| Datagrams.StartWorldRequestRoundTrip | WozekServer/Datagrams.hpp:180-183 | decoding an encoded start-the-world request gives the port back |
| Datagrams.EncodeFileUploadRequest | WozekServer/Datagrams.hpp:201-205 | the upload request is the 128-byte name followed by the 8-byte size |
| Datagrams.EncodeFileDownloadResponse | WozekServer/Datagrams.hpp:228-235 | the download response is the size, the code at byte 8, and 7 padding bytes |
| Datagrams.FileTransferSizes | WozekServer/Datagrams.hpp:216-239 | the upload request has 136 bytes and the download response 16, as the static_asserts say |
| Datagrams.EncodeUpdateHostStateHeader | WozekServer/Datagrams.hpp:250-257 | the update-host-state header is 24 bytes: world id, 4 padding bytes, timepoint, count |
| Datagrams.EncodeControllerData | WozekServer/Datagrams.hpp:259-263 | a controller record is 32 bytes: the id and the 28-byte desired state |
| Datagrams.EncodeControllers | WozekServer/Datagrams.hpp:265-266 | the records after the header take 32 bytes each |
| Datagrams.GetSizeofIsDatagramLength | WozekServer/Datagrams.hpp:256 | a datagram whose header counts its records has exactly getSizeof() bytes when that size does not overflow |
| Datagrams.GetSizeofWraps | WozekServer/Datagrams.hpp:256 | with 2^59 records getSizeof() wraps around to 24 |
| Base.Decimal | WozekServer/fileManager.hpp:66 | std::to_string of an unsigned id: at least one decimal digit, a single one exactly for values below 10 |
| Base.DecimalInjective | WozekServer/fileManager.hpp:66 | distinct ids have distinct decimal texts |
| FileManager.MapFileName | WozekServer/fileManager.hpp:65-66 | a map file's name is "map_" followed by the id in decimal |
| FileManager.MapFileNameInjective | WozekServer/fileManager.hpp:65-66 | two map file names agree only for the same id |
| FileManager.FileManager.constructor | WozekServer/fileManager.hpp:43 | a new manager has an empty working directory |
| FileManager.FileManager.HasWorkingDirectory | WozekServer/fileManager.hpp:49 | true exactly when the working directory is empty, the opposite of what the name says |
| FileManager.FileManager.SetWorkingDirectory | WozekServer/fileManager.hpp:50-57 | refused, changing nothing, unless the path is a directory; otherwise the path becomes the working directory and its maps folder exists |
| FileManager.FileManager.GetPathToMapFile | WozekServer/fileManager.hpp:61-68 | the working directory, then "maps", then the map file's name |
| FileManager.FileManager.DeleteMapFile | WozekServer/fileManager.hpp:70-74 | exactly the id's map file is removed, if it exists |
| FileManager.MapPathsDistinct | WozekServer/fileManager.hpp:61-74 | different hosts have different map paths, so deleting one host's map keeps every other host's |
| SerialCodec.EncodedLength | ControllerController/Device.hpp:44 | getEncodedLength: the fewest 7-bit groups that hold the opcode bits and 8 bits per data byte, and one byte for an empty stream |
| SerialCodec.Value | ControllerController/Device.hpp:90-105 | data bytes read big-endian, below 2^(8n) |
| SerialCodec.EncodeSteps | ControllerController/Device.hpp:46-62 | encodeStep's recursion keeps the buffer's length |
| SerialCodec.TemplateEncode | ControllerController/Device.hpp:64-70 | encode<opcode, dataLength, opcodeSize> keeps the buffer's length |
| SerialCodec.StepsFrame | ControllerController/Device.hpp:46-62 | from any byte and bit position the template steps end inside the buffer, extend a well-framed prefix by the remaining data bits and the padding, and leave the bytes after the frame alone |
| SerialCodec.TemplateFrame | ControllerController/Device.hpp:64-70 | the compile-time encoder writes a frame of the data (framing bit on the first byte only, the opcode bits, the data, zero padding) and nothing past it |
| SerialCodec.Encode | ControllerController/Device.hpp:72-88 | the runtime encoder writes byte for byte what the compile-time encoder writes: a frame of the first n data bytes, with the rest of the buffer unchanged |
| SerialCodec.DecodeSteps | ControllerController/Device.hpp:96-104 | the decoder's loop produces one byte per remaining result index |
| SerialCodec.DecodeFrame | ControllerController/Device.hpp:90-105 | decode yields exactly resLength bytes |
| SerialCodec.Decode | ControllerController/Device.hpp:90-105 | the decoder reads only the frame's bytes, writes only the first n result bytes, and on a clean frame yields the 8n stream bits after the opcode |
| SerialCodec.DecodeFrameValue | ControllerController/Device.hpp:90-105 | on a frame whose later bytes have the framing bit clear, the decoded bytes are the stream without its padding, cut to its low 8n bits |
| SerialCodec.FrameData | ControllerController/Device.hpp:64-88 | a frame's later bytes have the framing bit clear, and its stream without the padding ends with the data |
| SerialCodec.FrameDecodes | ControllerController/test.cpp:259-297 | decoding a frame of non-empty data gives the data back |
| SerialCodec.TemplateRoundTrip | ControllerController/Device.hpp:64-105 | the compile-time encoder and the decoder are inverse |
| SerialCodec.EncodeThenDecode | ControllerController/test.cpp:259-297 | encoding one or more bytes with any opcode and opcode width up to 7, then decoding, gives the bytes back, as the test checks byte by byte |
| SerialCodec.ValueInjective | ControllerController/test.cpp:289-295 | equal-length byte strings with the same big-endian value are equal |
| SerialDevice.PortName | ControllerController/Device.hpp:29-42 | the empty name exactly for port 0; otherwise the device path of COM p |
| SerialDevice.PortNamesDistinct | ControllerController/Device.hpp:29-42 | different ports have different device names |
| SerialDevice.Device.constructor | ControllerController/Device.hpp:120-124 | the baud rate as given, and the port as setPort selects it: the given one in range, else 0 |
| SerialDevice.Device.GetPort | ControllerController/Device.hpp:126 | the selected port |
| SerialDevice.Device.SetPort | ControllerController/Device.hpp:128-139 | true exactly for ports 0 to 32, which are selected; any other selects port 0; the stored name always belongs to the stored port |
| SerialDevice.Device.PostEncodedRequest | ControllerController/Device.hpp:168-173 | the write buffer holds the compile-time encoder's frame of the data, exactly the frame's bytes are written, and the result is whether the port reports a positive count |
| ControllerState.UpdateableStateComponent.constructor | ControllerController/State.hpp:12-19 | a component holding its initial value, not marked updated |
| ControllerState.UpdateableStateComponent.UpdateValue | ControllerController/State.hpp:21-27 | the first sizeof(T) bytes of the new data become the value and the component is marked updated |
| ControllerState.UpdateableStateComponent.PostRequest | ControllerController/State.hpp:29-34 | the value goes to the device as a frame with the component's opcode, which decodes back to the value |
| ControllerState.UpdateableStateComponent.CheckIfUpdatedAndPostRequest | ControllerController/State.hpp:38-49 | without the flag: UpToDate and nothing written; with it: one frame of the value, decoding back to it, Posted or PostFailed by the write's outcome; the flag is cleared either way and the value kept |
| ControllerState.State.constructor | ControllerController/State.hpp:52-61 | the rotation component: opcode 5, three bytes, all zero, not marked updated |
| ThreadedQueues.Node.constructor | ControllerController/ThreadedQueues.hpp:12-16 | a node with no value and no successor |
| ThreadedQueues.MutexCopyQueue.constructor | ControllerController/ThreadedQueues.hpp:18-21 | an empty queue whose head and tail are one sentinel node, with the empty flag set |
| ThreadedQueues.MutexCopyQueue.Push | ControllerController/ThreadedQueues.hpp:27-33 | the value is queued last, the list stays linked from head to a valueless tail, and the empty flag is cleared |
| ThreadedQueues.MutexCopyQueue.Pop | ControllerController/ThreadedQueues.hpp:35-46 | the oldest value is dropped and counted as taken out; an empty queue is left as it is; the empty flag keeps matching the contents |
| ThreadedQueues.MutexCopyQueue.TopAndPop | ControllerController/ThreadedQueues.hpp:48-61 | the oldest value, dropped from the queue, or no value from an empty queue, which is left alone; values come out in the order they went in |
| ThreadedQueues.MutexCopyQueue.IsEmpty | ControllerController/ThreadedQueues.hpp:63-66 | true exactly when no value is queued, which is exactly when every value pushed has been taken out |
| ThreadedQueues.MutexCopyQueue.Top | ControllerController/ThreadedQueues.hpp:68-72 | the oldest value without removing it, or no value for an empty queue |
| HostUdp.Connection.constructor | WozekHostClient/UDP.hpp:33-37 | a 65550-byte buffer, a default remote endpoint and an Empty state |
| HostUdp.Connection.Memcpy | WozekHostClient/UDP.hpp:42 | the object's bytes are copied to the offset and the rest of the buffer is unchanged |
| HostUdp.Connection.WriteObjectsToBufferFromOffset | WozekHostClient/UDP.hpp:39-51 | the objects are laid out back to back from the offset, the result is the offset plus the sum of their sizes, and nothing outside that range changes |
| HostUdp.Connection.Send | WozekHostClient/UDP.hpp:55-60 | requires a non-default remote endpoint; the first length bytes of the buffer, capped at its size, are sent unless the send fails |
| HostUdp.Connection.SetRemoteEndpoint | WozekHostClient/UDP.hpp:84-88 | the remote endpoint becomes the first endpoint the resolver returns |
| HostUdp.Connection.SetState | WozekHostClient/UDP.hpp:66-70 | the state variant becomes a fresh state of the requested kind |
| HostUdp.Connection.ResetState | WozekHostClient/UDP.hpp:72-75 | the state variant goes back to Empty |
| ClientEcho.EchoRequest | WozekHostClient/ClientTCP.cpp:17-32 | the bytes of an echo request: the request id byte, the message, then a NUL |
| ClientEcho.EchoWritesSendRequest | WozekHostClient/ClientTCP.cpp:25-32 | the three writes, done in order, put exactly the echo request on the wire, and each prefix of them puts the matching prefix |
| ClientEcho.CollectWaits | WozekHostClient/ClientTCP.cpp:48-58 | as long as no NUL arrives, the handler keeps waiting and delivers nothing |
| ClientEcho.CollectDelivers | WozekHostClient/ClientTCP.cpp:48-58 | the bytes before the first NUL are delivered, appended to what was collected; the NUL and anything after it are not |
| ClientEcho.EchoRoundTrip | WozekHostClient/ClientTCP.cpp:17-58 | if the peer sends back the request without its id byte, the client delivers the original message, provided the message holds no NUL |
| ClientEcho.EchoCutAtNul | WozekHostClient/ClientTCP.cpp:17-58 | a message with a NUL at index k comes back as its first k bytes |
| ClientEcho.EchoSession.constructor | WozekHostClient/ClientTCP.hpp:59-67 | a session with nothing sent, no state and no results |
| ClientEcho.EchoSession.ErrorCritical | WozekHostClient/ClientTCP.hpp:59-67 | one CriticalError result goes to the callback stack and nothing else changes |
| ClientEcho.EchoSession.EchoReadFailed | WozekHostClient/ClientTCP.cpp:40-46 | a failed response read ends the read and reports a CriticalError |
| ClientEcho.EchoSession.SendHeartbeat | WozekHostClient/ClientTCP.cpp:5-14 | one 0x00 byte is sent followed by a Good result, or a failed write gives a CriticalError and sends nothing |
| ClientEcho.EchoSession.PerformEchoRequest | WozekHostClient/ClientTCP.cpp:17-38 | the writes done before the first failure are sent, and a failure gives one CriticalError; if all three succeed, the state becomes an empty echo buffer and the first byte is awaited |
| ClientEcho.EchoSession.HandleEchoResponsePart | WozekHostClient/ClientTCP.cpp:48-68 | a NUL hands the buffer to the callback stack as a text value and resets the state; any other byte is appended and the next one is awaited |
| EnumNames.Content | WozekServer/enum.hpp:8-14 | the characters before the first NUL, which is where the C string ends |
| EnumNames.StrLen | WozekServer/enum.hpp:8-14 | the index of the first NUL, which is the length of the C string |
| EnumNames.CountCommas | WozekServer/enum.hpp:16-25 | the number of commas before the NUL |
| EnumNames.EnumSize | WozekServer/enum.hpp:70 | one enumerator more than there are commas, so at least one |
| EnumNames.LeadingBlanks | WozekServer/enum.hpp:43-49 | the blanks skipped at the start of a field are all blanks, and the next character is not one |
| EnumNames.LastCommaIsLast | WozekServer/enum.hpp:50-55 | no comma comes after the one that opens the last field |
| EnumNames.NoNonBlank | WozekServer/enum.hpp:43-49 | a field has no non-blank character exactly when it is all blanks |
| EnumNames.ViewsSplit | WozekServer/enum.hpp:50-55 | the fields are those closed by commas, then the field after the last comma |
| EnumNames.ScanComma | WozekServer/enum.hpp:50-55 | a comma closes the current field with its view and starts an empty one after it |
| EnumNames.ScanOther | WozekServer/enum.hpp:43-59 | a blank or any other character leaves the closed fields alone and extends the current one |
| EnumNames.ScanInvariant | WozekServer/enum.hpp:40-60 | after any text without a NUL, the views written are those of the closed fields, and beg and end bound the current field |
| EnumNames.NamesAreViews | WozekServer/enum.hpp:31-61 | the loop writes exactly one view per field, one more than there are commas |
| EnumNames.ViewCount | WozekServer/enum.hpp:70 | there is one field per comma and one more, so the table's Size is exactly the number of views |
| EnumNames.SplitNames | WozekServer/enum.hpp:27-62 | the table's first Size entries are the views of the fields in order, and any extra entries are empty |
| EnumNames.NamesRound | WozekServer/enum.hpp:42-59 | one pass of the loop: a blank before a field moves beg and end on, a comma or the NUL writes the view and starts the next field, and any other character extends the view |
| EnumNames.GetName | WozekServer/enum.hpp:72 | for n below Size, the n-th view, which lies inside the text |
| EnumNames.ViewsInside | WozekServer/enum.hpp:52 | every view lies inside the text |
| EnumNames.FieldTrimmed | WozekServer/enum.hpp:43-59 | a word with blanks around it is cut to the word |
| EnumNames.TwoNames | WozekServer/enum.hpp:68-72 | the list "x, y" names x and y; the blank after the comma is skipped |
| EnumNames.InnerBlankMisplaced | WozekServer/enum.hpp:43-59 | a blank inside a field is not skipped in place: the view of "a b" reads "a " |
| ControllerSession.KeptLength | ControllerController/ControllerSessionClient.cpp:13-22 | the bytes of the name kept: all of them when the name is shorter than the field, otherwise the field's size minus one, so a NUL always fits after them |
| ControllerSession.NameField | ControllerController/ControllerSessionClient.cpp:12-22 | the field after the copy: the kept bytes of the name, then a NUL, then whatever the field held beyond it |
| ControllerSession.CStringOfTerminated | ControllerController/ControllerSessionClient.cpp:16-21 | the bytes before a NUL are the C string, whatever comes after the NUL |
| ControllerSession.NameFieldReadsBack | ControllerController/ControllerSessionClient.cpp:12-22 | a name without NUL bytes reads back whole from the field when it is shorter than the field, and cut to the field's size minus one otherwise |
| ControllerSession.CopyName | ControllerController/ControllerSessionClient.cpp:13-22 | the memcpy and the NUL store leave the array holding the name field |
| ControllerSession.RegisterControllerVerdict | ControllerController/ControllerSessionClient.cpp:41-71 | a result exactly for Accepted, Invalid or InUse; it is Good and carries the id exactly for Accepted, and is an Error carrying 1 or 2 otherwise |
| ControllerSession.RegisterVerdictDistinct | ControllerController/ControllerSessionClient.cpp:53-70 | with distinct codes, Invalid gives Error with 1 and InUse gives Error with 2 |
| ControllerSession.CollidingCodesAllAccept | ControllerController/ControllerSessionClient.cpp:45-52 | if the three codes had one value, every result would be Good, because Accepted is checked first |
| ControllerSession.ControllerClient.constructor | ControllerController/ControllerSessionClient.cpp:10-12 | a client with the request id, the codes and the name field size, and nothing sent |
| ControllerSession.ControllerClient.RegisterAsControllerRequest | ControllerController/ControllerSessionClient.cpp:10-31 | the request id and the name field are written and the response read starts; a failed write is reported as a CriticalError and nothing is written |
| ControllerSession.ControllerClient.ResponseReadFailed | ControllerController/ControllerSessionClient.cpp:33-39 | a failed response read gives a CriticalError |
| ControllerSession.ControllerClient.HandleRegisterAsControllerResponse | ControllerController/ControllerSessionClient.cpp:41-71 | the verdict is returned to the callback stack when there is one; any other code returns nothing |
| ControllerSession.EchoLengthAsWritten | ControllerController/ControllerSessionUDP.cpp:11 | the length as written: the message size capped at the whole 1024-byte buffer |
| ControllerSession.EchoLengthAsWrittenOverflows | ControllerController/ControllerSessionUDP.cpp:11-13 | for a message of 1024 bytes or more, the code byte plus the message bytes take one byte more than the buffer holds |
| ControllerSession.EchoLength | ControllerController/ControllerSessionUDP.cpp:11-13 | the corrected length fits after the code byte and keeps every message shorter than the buffer whole |
| ControllerSession.EchoLengthCorrection | ControllerController/ControllerSessionUDP.cpp:11 | the corrected length equals the written one below 1024 bytes and is one less from there on |
| ControllerSession.EchoDatagram | ControllerController/ControllerSessionUDP.cpp:9-18 | the echo request code, then the message, cut to fit the buffer; a message shorter than the buffer is kept whole |
| ControllerSession.FetchDatagram | ControllerController/ControllerSessionUDP.cpp:25-36 | the fetch-state request code, then the id's four little-endian bytes |
| ControllerSession.ControllerUdpSender.constructor | ControllerController/ControllerSessionUDP.hpp:13-35 | a sender with a 1024-byte buffer and nothing sent |
| ControllerSession.ControllerUdpSender.Complete | ControllerController/ControllerSessionUDP.hpp:40-44 | a sent datagram gives a Good result; a failed send gives a CriticalError and sends nothing |
| ControllerSession.ControllerUdpSender.SendEchoMessage | ControllerController/ControllerSessionUDP.cpp:9-23 | with the corrected length, the buffer starts with the echo datagram, which is sent to the remote endpoint, and the result is Good or CriticalError |
| ControllerSession.ControllerUdpSender.SendFetchStateRequest | ControllerController/ControllerSessionUDP.cpp:25-36 | the buffer starts with the fetch datagram, which is sent to the remote endpoint, and the result is Good or CriticalError |
| ControllerSession.ResponseKind | ControllerController/ControllerSessionUDP.cpp:44-60 | an echo response exactly for its code and a fetch-state response exactly for its code; any other code is unknown |
| ControllerSession.ControllerUdpReceiver.constructor | ControllerController/ControllerSessionUDP.hpp:47-84 | a 512-byte buffer holding the datagram received, its size, and the associated state |
| ControllerSession.ControllerUdpReceiver.HandleEchoResponse | ControllerController/ControllerSessionUDP.cpp:63-70 | the message is the bytes after the code; an empty datagram is an error, because the size minus one wraps and the resize throws |
| ControllerSession.ControllerUdpReceiver.HandleFetchStateResponse | ControllerController/ControllerSessionUDP.cpp:72-83 | the three bytes after the code become the rotation state's value, which is marked updated |
| ControllerSession.ControllerUdpReceiver.HandleDatagram | ControllerController/ControllerSessionUDP.cpp:39-61 | the first byte picks the echo or the fetch-state handler; only a fetch-state response changes the state, and an unknown code changes nothing |
| ControllerSession.ReceivedPrefix | ControllerController/ControllerSessionUDP.hpp:47-51 | the first bytes of a fresh receive buffer are the datagram |
| ControllerSession.EchoComesBack | WozekServer/UDPWozekServer.cpp:80-90 | an echo shorter than the receiver's buffer reaches the server as an echo request, and the reply reaches the controller as an echo response holding the same message |
| ControllerSession.FetchComesBack | WozekServer/UDPWozekServer.cpp:42-78 | a fetch-state request reaches the server with its id; when the fetch is allowed, the controller reads the reply as a fetch-state response carrying the record's rotation |
| ClientTcp.RegisterNewHostRequest | WozekHostClient/TCP.cpp:17-19 | the register code byte, then the encoded host header, 1 + 4 + 256 bytes |
| ClientTcp.UploadMapRequest | WozekHostClient/TCP.cpp:58-64 | the upload code byte, then the request header carrying the client's id and the file's size, 17 bytes |
| ClientTcp.DownloadMapRequest | WozekHostClient/TCP.cpp:113-118 | the download code byte, then the id of the host whose map is wanted, 5 bytes |
| ClientTcp.RegisterRequestReachesServer | WozekServer/TCPWozekServer.cpp:45-100 | the server sends the registration request to its handler and decodes the header the client sent |
| ClientTcp.UploadRequestReachesServer | WozekServer/TCPWozekServer.cpp:157-164 | the server sends the upload request to its handler and decodes the client's id and the size it announced |
| ClientTcp.DownloadRequestReachesServer | WozekServer/TCPWozekServer.cpp:200-208 | the server sends the download request to its handler and decodes the host id |
| ClientTcp.RegisterVerdict | WozekHostClient/TCP.cpp:25-37 | Error exactly for the Failure code; any other code is a Success and never a CriticalError |
| ClientTcp.UploadVerdict | WozekHostClient/TCP.cpp:67-90 | Error exactly for DenyAccess or InvalidSize, the upload of the announced size exactly for Accept, and a CriticalError for any other code |
| ClientTcp.DownloadVerdict | WozekHostClient/TCP.cpp:121-138 | Error exactly for DenyAccess, the download of the announced size exactly for Accept, and a CriticalError for any other code, InvalidSize included |
| ClientTcp.RegisterVerdictMatchesServer | WozekServer/TCPWozekServer.cpp:87-152 | against the server's registration, the client reports Success exactly when the server registered the connection as a host, adopts the id the server gave it, and never reports a CriticalError |
| ClientTcp.UploadVerdictMatchesServer | WozekServer/TCPWozekServer.cpp:157-190 | against the server's upload handler, the client uploads exactly when the size is positive and it is the registered host with that id; an empty file ends in an Error, never a CriticalError |
| ClientTcp.DownloadVerdictMatchesServer | WozekServer/TCPWozekServer.cpp:200-229 | against the server's replies (DenyAccess, or Accept with the file's size), the client downloads exactly on Accept and exactly that many bytes, and never reports a CriticalError |
| ClientTcp.HostConnection.constructor | WozekHostClient/TCP.cpp:34 | a connection whose id is 0 until it is registered |
| ClientTcp.HostConnection.RegisterAsNewHost | WozekHostClient/TCP.cpp:7-41 | the registration request is sent; a transport error is a CriticalError; otherwise the reply's verdict, and a Success adopts the reply's id |
| ClientTcp.HostConnection.UploadMap | WozekHostClient/TCP.cpp:43-95 | a path that is not a regular file is an Error and nothing is sent; otherwise the request carries the connection's id and the file's size, and the reply decides |
| ClientTcp.HostConnection.DownloadMap | WozekHostClient/TCP.cpp:97-143 | a file that cannot be opened is an Error and nothing is sent; otherwise the request names the host, and the reply decides |
| ClientTcp.Download.constructor | WozekHostClient/TCP.cpp:145-177 | an unopenable file is a CriticalError; otherwise a buffer of min(size, 4 MiB) bytes with its top at 0, and the skeleton's readFile started |
| ClientTcp.Download.Flush | WozekHostClient/TCP.cpp:168-175 | an empty buffer is left alone; otherwise its bytes go to the file and the top goes back to 0; a failed write is reported and those bytes are lost |
| ClientTcp.Download.OnHeader | WozekHostClient/TCP.cpp:198-206 | the corrected header check (see Findings): a segment that would go past the announced size is a CriticalError; otherwise the segment's data is read next; every byte read so far stays in the file or the buffer, in order |
| ClientTcp.Download.OnHeaderAsWritten | WozekHostClient/TCP.cpp:198-206 | the header check as written, with the `size_t` sum that wraps: a segment whose wrapped sum exceeds the announced size is a CriticalError, any other segment's data is read next, even one past the announced size |
| ClientTcp.DownloadHeaderAsWrittenWraps | WozekHostClient/TCP.cpp:181-206 | after 1 byte of a 100-byte map, the header bytes announcing 2^64 - 1 bytes pass the check as written and the data receiver's assertion, which wrap; the corrected check refuses them |
| ClientTcp.Download.ReadLength | WozekHostClient/TCP.cpp:191 | the bytes read next: the rest of the segment or a full buffer, whichever is less, and at least one |
| ClientTcp.Download.OnData | WozekHostClient/TCP.cpp:181-196 | after a flush, which fails only with a failed write, the chunk is read to the buffer's top; the file followed by the buffer is every byte read, in order |
| ClientTcp.Download.AckSender | WozekHostClient/TCP.cpp:207-232 | once every announced byte is in, a last flush, then Finished and, when the write completes, the Success with the file holding exactly the bytes received; before that, Continue and the next header |
| ClientTcp.Download.OnTransportError | WozekHostClient/TCP.cpp:147-151 | a failed read or write is a CriticalError |
| ClientTcp.Upload.constructor | WozekHostClient/TCP.cpp:236-274 | an unopenable or unreadable file is a CriticalError; otherwise the buffer holds the file's first min(size, 4 MiB) bytes and the first segment's header is saved |
| ClientTcp.Upload.TryReload | WozekHostClient/TCP.cpp:280-293 | only when the buffer is used up, the file's next min(remaining, buffer size) bytes are read into it, and a failed read is a CriticalError; the bytes available are returned |
| ClientTcp.Upload.Emit | WozekHostClient/TCP.cpp:294-301 | the n bytes written from the buffer's top are the file's next n bytes, with the header first when asked |
| ClientTcp.Upload.OnSend | WozekHostClient/TCP.cpp:275-302 | after the refill, min(rest of segment, bytes available) bytes of the file are sent at the current offset, and progress is made whenever the segment is not finished |
| ClientTcp.Upload.OnAck | WozekHostClient/TCP.cpp:303-338 | Error is an Error; Finished after the whole file is the Success, and then the writes carried exactly the file; Continue moves to the next segment but fails the skeleton's assertion once nothing is left; any other code is a CriticalError |
| ClientTcp.Upload.OnTransportError | WozekHostClient/TCP.cpp:238-242 | a failed read or write is a CriticalError |
| ConnectionHandler.ShutdownRunsSnoc | WozekServer/TCPWozekServer.hpp:70-79 | one more event adds a run of shutdownHandler exactly when that event is one |
| ConnectionHandler.Branch | WozekServer/TCPWozekServer.hpp:342-375 | a shut connection ignores the completion; otherwise an error shuts it exactly when the error handler asks to abort, and the success handler runs in every other case, after the error handler when there was an error |
| ConnectionHandler.BuiltInHandlersAbort | WozekServer/TCPWozekServer.hpp:304-326 | each built-in error handler asks to abort, end of file included, so after an error the success handler never runs |
| ConnectionHandler.StoreObject | WozekServer/TCPWozekServer.hpp:238-243 | the buffer keeps its size after an object is copied to its start |
| ConnectionHandler.LoadObject | WozekServer/TCPWozekServer.hpp:204-209 | an object of the size asked for, taken from the buffer's start |
| ConnectionHandler.LoadAfterStore | WozekServer/TCPWozekServer.hpp:204-243 | loading an object of the size just saved gives that object back, and the rest of the buffer is untouched |
| ConnectionHandler.WozekConnection.constructor | WozekServer/TCPWozekServer.hpp:34-91 | a running connection with no timer armed, a zeroed 4096-byte buffer, an Empty state, no type and id 0 |
| ConnectionHandler.WozekConnection.Destroy | WozekServer/TCPWozekServer.hpp:70-79 | shutdownHandler runs in the destructor exactly when the connection was never shut, so at most once in its life |
| ConnectionHandler.WozekConnection.ShutConnection | WozekServer/TCPWozekServer.hpp:287-300 | the connection is marked shut and the timer cancelled; the throwing shutdown either succeeds and the socket is closed, or throws and the socket stays open; shutdownHandler never runs after shutConnection |
| ConnectionHandler.WozekConnection.HandleTimeout | WozekServer/TCPWozekServer.hpp:257-264 | a cancelled wait, or a connection already shut, changes nothing, the socket included; otherwise timeoutHandler runs and the connection is shut, the socket staying open if the shutdown throws; type, id and transfer state never change |
| ConnectionHandler.WozekConnection.StartTimeoutTimer | WozekServer/TCPWozekServer.hpp:266-269 | the timeout wait is armed; the flags, socket, events, type, id and transfer state are unchanged |
| ConnectionHandler.WozekConnection.CancelTimeoutTimer | WozekServer/TCPWozekServer.hpp:271-273 | the timeout wait is cancelled; the flags, socket, events, type, id and transfer state are unchanged |
| ConnectionHandler.WozekConnection.RefreshTimeoutTimer | WozekServer/TCPWozekServer.hpp:279-283 | the wait is re-armed exactly when the connection runs and a wait was pending |
| ConnectionHandler.WozekConnection.CompleteBranch | WozekServer/TCPWozekServer.hpp:342-375 | the asyncBranch closure: the handlers run in the order Branch decides, and an abort shuts the connection, the socket staying open if the shutdown throws; without an abort the timer and socket stay; type, id and transfer state never change |
| ConnectionHandler.WozekConnection.AsyncRead | WozekServer/TCPWozekServer.hpp:178-202 | a read arms the timeout first; the flags, socket, events, type, id and transfer state are unchanged |
| ConnectionHandler.WozekConnection.CompleteRead | WozekServer/TCPWozekServer.hpp:182-201 | a read's completion cancels the timeout, then runs the asyncBranch closure: an abort shuts the connection (the socket staying open if the shutdown throws); otherwise the shut flag and the socket stay; type, id and transfer state never change |
| ConnectionHandler.WozekConnection.SaveObjectToMainBuffer | WozekServer/TCPWozekServer.hpp:238-243 | the object's bytes are copied to the buffer's start and the rest is unchanged |
| ConnectionHandler.WozekConnection.LoadObjectFromMainBuffer | WozekServer/TCPWozekServer.hpp:204-209 | the object's bytes are copied out from the buffer's start |
| ConnectionHandler.WozekConnection.AsyncWriteObject | WozekServer/TCPWozekServer.hpp:127-236 | the object is saved to the buffer and exactly its bytes are written |
| ConnectionHandler.WozekConnection.SetReceiveState | WozekServer/TCPWozekServer.hpp:53-57 | the variant holds a fresh receive state with an empty buffer and nothing received; the flags, timer, socket, events, type and id are unchanged |
| ConnectionHandler.WozekConnection.SetSendState | WozekServer/TCPWozekServer.hpp:53-57 | the variant holds a fresh send state with an empty buffer and nothing sent; the flags, timer, socket, events, type and id are unchanged |
| ConnectionHandler.WozekConnection.ResetState | WozekServer/TCPWozekServer.hpp:59-62 | the variant goes back to Empty; the flags, timer, socket, events, type and id are unchanged |
| Database.Dist | WozekServer/DatabaseManager.hpp:72-79 | how far an id lies after the last id, counting upward with 32-bit wrap-around; always below 2^32 |
| Database.CyclicFresh | WozekServer/DatabaseManager.hpp:77 | the id reached after k increments lies exactly k places on, so it is none of the ids passed before it |
| Database.SubsetCardinality | WozekServer/DatabaseManager.hpp:77 | a subset of the used ids is no larger than the set, which bounds the scan |
| Database.NextFreeId | WozekServer/DatabaseManager.hpp:72-79 | the first id after the last one handed out, wrapping past 2^32 - 1, that the table does not use; without wrap-around it is above the last id |
| Database.Orphan | WozekServer/DatabaseManager.hpp:130-138 | each listed controller still pointing at the removed host is set to host 0, and every other record is unchanged |
| Database.OrphanNone | WozekServer/DatabaseManager.hpp:130-138 | with no controller listed, nothing changes |
| Database.OrphanStep | WozekServer/DatabaseManager.hpp:131-138 | handling one more listed controller changes at most that controller's record |
| Database.OrphanListed | WozekServer/DatabaseManager.hpp:130-138 | the loop over the host's listed controllers orphans exactly the ones still pointing at it, whatever order it visits them in |
| Database.RemoveHost | WozekServer/DatabaseManager.hpp:121-147 | the host is erased and the controller table keeps its ids |
| Database.ConnectAsWritten | WozekServer/DatabaseManager.cpp:7-37 | as written: false when either record is missing; true with no change when already connected to that host; otherwise erase from the old host's set through find, which is undefined when the controller is not there, and point the controller at the new host without listing it there |
| Database.Connect | WozekServer/DatabaseManager.cpp:7-37 | corrected: succeeds exactly when both records exist and then points the controller at the host, listing it with that host; the tables are unchanged on failure |
| Database.ConnectKeepsLinked | WozekServer/DatabaseData.hpp:23-47 | the corrected connect keeps every controller pointing at an existing host listed by that host, and every listed controller pointing at its host |
| Database.RemoveHostOrphansAll | WozekServer/DatabaseManager.hpp:128-139 | with linked tables, no controller points at a host after it is removed |
| Database.ConnectAsWrittenMoveIsUndefined | WozekServer/DatabaseManager.cpp:28-32 | as written, moving controller 5 from host 1 to host 2 erases find's end() from host 1's set, which is undefined behaviour |
| Database.ConnectAsWrittenLeavesDanglingHost | WozekServer/DatabaseManager.cpp:35 | as written, a controller connected to host 1 is not listed by it, and still points at host 1 after host 1 is removed |
| Database.DatabaseManager.constructor | WozekServer/DatabaseManager.hpp:24-75 | empty tables, and both last ids 0 |
| Database.DatabaseManager.GetHost | WozekServer/DatabaseManager.hpp:87-95 | the host record exactly when the id is in the table |
| Database.DatabaseManager.GetController | WozekServer/DatabaseManager.hpp:87-95 | the controller record exactly when the id is in the table |
| Database.DatabaseManager.GetNextFreeId | WozekServer/DatabaseManager.hpp:72-79 | an id the table does not use, which becomes that table's last id; the records and the other table's last id are unchanged |
| Database.DatabaseManager.AddHostRecord | WozekServer/DatabaseManager.hpp:97-106 | fails exactly when the header's id is taken; otherwise a new record with that header, linked to nothing |
| Database.DatabaseManager.AddControllerRecord | WozekServer/DatabaseManager.hpp:97-106 | fails exactly when the id is taken; otherwise a new controller with no host |
| Database.DatabaseManager.CreateAndAddHostRecord | WozekServer/DatabaseManager.hpp:108-119 | the header gets the next free id and its record is added, which cannot fail; the result is addRecord's bool, true, and not the id; the controllers and their last id are unchanged |
| Database.DatabaseManager.CreateAndAddControllerRecord | WozekServer/DatabaseManager.hpp:108-119 | a controller record under the next free id, which was unused; the hosts and their last id are unchanged |
| Database.DatabaseManager.SetHostConnection | WozekServer/TCPWozekServer.cpp:132 | the host's record refers to the connection and nothing else changes |
| Database.DatabaseManager.RemoveHostRecord | WozekServer/DatabaseManager.hpp:121-147 | false when the host is absent; otherwise the host's listed controllers are orphaned and the host is erased |
| Database.DatabaseManager.RemoveControllerRecord | WozekServer/DatabaseManager.hpp:121-147 | false when the controller is absent; otherwise it is erased; the hosts and both last ids are unchanged |
| Database.DatabaseManager.ConnectControllerToHost | WozekServer/DatabaseManager.cpp:7-37 | the as-written connect on the tables, reporting when it reaches the undefined erase |
| Database.DatabaseManager.ConnectControllerToHostLinked | WozekServer/DatabaseManager.cpp:7-37 | the corrected connect on the tables, which keeps them linked |
| DatabaseBase.TableBase.constructor | WozekServer/DatabaseBase.hpp:25-62 | IdSlots + 1 empty slots and the counter at 1 |
| DatabaseBase.TableBase.GetNextIndex | WozekServer/DatabaseBase.hpp:27-33 | the counter's value, at most IdSlots, which names an empty slot; the counter moves on by one |
| DatabaseBase.TableBase.GetRecordById | WozekServer/DatabaseBase.hpp:39-44 | the slot's record, for an id that names a slot other than 0; a record is only found below the counter |
| DatabaseBase.TableBase.CreateNewRecord | WozekServer/DatabaseBase.hpp:46-52 | a fresh id whose slot was empty now holds the record, and no other slot changes |
| DatabaseBase.IndexBase.constructor | WozekServer/DatabaseBase.hpp:68-97 | no strand and an empty index |
| DatabaseBase.IndexBase.SetContext | WozekServer/DatabaseBase.hpp:74-75 | there is now a strand, and the index is unchanged |
| DatabaseBase.IndexBase.GetSafeCallbackAsWritten | WozekServer/DatabaseBase.hpp:84-95 | as written: a known value calls the callback with its id and then with 0; an unknown value calls it once with 0 |
| DatabaseBase.IndexBase.GetSafeCallback | WozekServer/DatabaseBase.hpp:84-95 | corrected: exactly one call, with the value's id or with 0 when the value is unknown |
| DatabaseBase.SafeCallbackAgreesWhenUnknown | WozekServer/DatabaseBase.hpp:93 | for an unknown value, the code as written and the corrected code both make one call, with 0 |
| DatabaseBase.SafeCallbackAsWrittenCallsTwice | WozekServer/DatabaseBase.hpp:89-93 | as written, a value indexed under 7 makes the callback run with 7 and then with 0 |
| IpAllowList.ExtractInt | WozekServer/config.hpp:42 | `ss >> temp` succeeds only on an optional sign and at least one digit after white space, with a value in int's range, ending on a digit; a negative value needs a '-' in the line |
| IpAllowList.ExtractChar | WozekServer/config.hpp:42 | `ss >> tempc` yields the first non-space character after the position and moves past it |
| IpAllowList.Separator | WozekServer/config.hpp:46 | the expected separators '.', '.', '.', '/' are neither digits nor white space |
| IpAllowList.Wrap32IsRemainder | WozekServer/config.hpp:54-55 | uint32_t assignment of the shifted sum is the value modulo 2^32 |
| IpAllowList.Round | WozekServer/config.hpp:40-56 | a round that succeeds leaves the position inside the line |
| IpAllowList.ReadOctets | WozekServer/config.hpp:40-56 | the rounds run in order and stop at the first failure, never moving past the line's end |
| IpAllowList.ParseWith | WozekServer/config.hpp:29-69 | an accepted line starts with a digit, its netmask is a prefix mask and its address is already masked; with lower bounds the undefined shift is unreachable |
| IpAllowList.ParseAddress | WozekServer/config.hpp:29-69 | the corrected parser: an entry comes only from a line starting with a digit, and is a masked address with a prefix netmask |
| IpAllowList.NetmaskTopBits | WozekServer/config.hpp:66 | the netmask of prefix p is the top p bits set and the rest clear |
| IpAllowList.MaskKeepsTopBits | WozekServer/config.hpp:66-67 | `address & netmask` keeps the top p bits of the address and clears the rest |
| IpAllowList.MaskIdempotent | WozekServer/config.hpp:67 | masking twice is masking once, so a stored entry satisfies address & netmask == address |
| IpAllowList.OctetsRead | WozekServer/config.hpp:40-56 | on a line laid out as four numerals and separators, the rounds read the numbers in order while the separators are right and fail at the first wrong one |
| IpAllowList.ParseWithPrefix | WozekServer/config.hpp:58-67 | after four good rounds, a prefix over the bound rejects, a negative one reaches the undefined shift, and one in 0..32 gives the masked address and its netmask |
| IpAllowList.ParseWithRejects | WozekServer/config.hpp:42-49 | a failed round rejects the line |
| IpAllowList.LaidOutRead | WozekServer/config.hpp:40-58 | on a laid-out line the four rounds yield the big-endian address exactly when the separators are ".../", and the prefix is read next |
| IpAllowList.LineParsed | WozekServer/config.hpp:29-69 | a line of four octets and a prefix up to 32 is accepted exactly when its separators are '.', '.', '.', '/', and then its entry is the big-endian address masked with the prefix's netmask |
| IpAllowList.CorrectionOnlyRemoves | WozekServer/config.hpp:50-53 | the parser with lower bounds accepts only lines the source accepts, with the same entry |
| IpAllowList.CorrectionOnlyAffectsMinus | WozekServer/config.hpp:50-65 | on a line without '-' the two parsers agree and the source's shift is defined |
| IpAllowList.NegativeOctetAccepted | WozekServer/config.hpp:50-53 | "a.0.-1.0/32" passes the source's `temp > 255` check and is accepted; the corrected parser rejects it |
| IpAllowList.NegativePrefixUndefined | WozekServer/config.hpp:62-66 | every line of four octets and a negative prefix passes `temp > 32` and reaches `~0 >> temp` with a negative count; the corrected parser rejects it |
| IpAllowList.ReadRound | WozekServer/config.hpp:42-55 | one pass of the loop computes exactly the next round |
| IpAllowList.ReadAddressLoop | WozekServer/config.hpp:40-56 | the loop computes exactly the four rounds, leaving at the first failure |
| IpAllowList.ParseAddressString | WozekServer/config.hpp:29-69 | the method returns exactly the corrected parser's result |
| IpAllowList.Kept | WozekServer/config.hpp:85-92 | no more entries are kept than there are lines |
| IpAllowList.KeptAppend | WozekServer/config.hpp:85-92 | the entries of two blocks of lines are the first block's followed by the second's |
| IpAllowList.MatchesIffSameTopBits | WozekServer/config.hpp:158 | an entry from a line matches exactly the addresses that agree with the line's address in the top p bits |
| IpAllowList.ShlInjective | WozekServer/config.hpp:54 | a left shift by the same count is injective |
| IpAllowList.AllowedByKept | WozekServer/config.hpp:85-92 | an address is allowed by the kept entries exactly when some line parses to an entry it matches |
| IpAllowList.AllowedByLines | WozekServer/config.hpp:152-162 | after a reload an address is allowed exactly when some line of the file parses to an entry that matches it |
| IpAllowList.ParseLines | WozekServer/config.hpp:85-92 | the getline loop keeps exactly the parseable lines' entries, in order |
| IpAllowList.CheckIfIpv4IsAllowed | WozekServer/config.hpp:152-162 | true exactly when some entry has `(address & entry.netmask) == entry.address` |
| IpAllowList.Reloads | WozekServer/config.hpp:110-122 | a chain of expiries reloads at most once per expiry |
| IpAllowList.PollingSeesEveryChange | WozekServer/config.hpp:110-122 | a timer that always re-arms reloads at every change of the file's modification time |
| IpAllowList.AuthorizerStopsPolling | WozekServer/ipAuthorization.hpp:98-112 | a timer that re-arms only after a change misses a later change once it sees one unchanged expiry |
| IpAllowList.Config.constructor | WozekServer/config.hpp:25-27 | an empty allow list, no timer and no strand |
| IpAllowList.Config.SetStrand | WozekServer/config.hpp:128-132 | the strand exists afterwards, the list and timer untouched |
| IpAllowList.Config.UpdateIpv4 | WozekServer/config.hpp:73-103 | false and nothing changed when the file cannot be opened; otherwise the parseable lines replace the list and the modification time is noted |
| IpAllowList.Config.Init | WozekServer/config.hpp:136-150 | refused without a strand; otherwise one load and the timer started |
| IpAllowList.Config.OnTimer | WozekServer/config.hpp:110-122 | an error ends the chain; otherwise a changed time reloads, an unchanged one leaves the list, and the timer re-arms |
| IpAllowList.Config.IsAllowed | WozekServer/config.hpp:152-162 | true exactly when an entry of the current list matches |
| IpAllowList.IpAuthorizer.constructor | WozekServer/ipAuthorization.hpp:116-118 | an empty allow list and no timer armed |
| IpAllowList.IpAuthorizer.UpdateIpv4 | WozekServer/ipAuthorization.hpp:67-96 | false and nothing changed when the file cannot be opened; otherwise the parseable lines replace the list |
| IpAllowList.IpAuthorizer.Init | WozekServer/ipAuthorization.hpp:116-126 | the file is loaded, the timer started and the modification time noted |
| IpAllowList.IpAuthorizer.OnTimer | WozekServer/ipAuthorization.hpp:98-112 | the corrected timer: an error ends the chain, a changed time is noted and reloads, and every other expiry re-arms too |
| IpAllowList.IpAuthorizer.IsAllowed | WozekServer/ipAuthorization.hpp:128-139 | true exactly when an entry of the current list matches |
| IpAllowList.ExtractDigits | WozekServer/config.hpp:42 | a run of digits, when there is one, ends within the line on a digit |
| IpAllowList.ParseableAppend | WozekServer/config.hpp:85-92 | the entries of a file of two blocks of lines are the first block's followed by the second's |
| SegmentedTransfer.SendFile | WozekServer/segmentedFileTransfer.hpp:9-13 | the announced segment is min(remaining file, max segment): no larger than either and equal to one of them |
| SegmentedTransfer.SendSegmentData | WozekServer/segmentedFileTransfer.hpp:27-41 | the ack handler is reached exactly when nothing of the segment is left; otherwise the sender is asked, without the header, for all of the rest |
| SegmentedTransfer.HeaderConsumed | WozekServer/segmentedFileTransfer.hpp:13-15 | the first send of a segment carries the header and asks for the whole segment |
| SegmentedTransfer.Sent | WozekServer/segmentedFileTransfer.hpp:15-39 | after a send of at most what was asked, the next send never carries the header and asks for exactly the unsent rest; the ack handler comes exactly when the rest is 0 |
| SegmentedTransfer.Acked | WozekServer/segmentedFileTransfer.hpp:18-20 | after the ack, sendFile starts over on the file minus this segment, which the source asserts is non-empty |
| SegmentedTransfer.HeaderChain | WozekServer/segmentedFileTransfer.hpp:9-25 | a transfer announces at least one segment |
| SegmentedTransfer.HeaderChainCoversFile | WozekServer/segmentedFileTransfer.hpp:9-25 | the announced segments add up to the file size, all but the last are full, and the last is non-empty unless the file is empty |
| SegmentedTransfer.SubSizeT | WozekServer/segmentedFileTransfer.hpp:60-75 | size_t subtraction is exact without underflow and wraps by 2^64 below zero |
| SegmentedTransfer.ReadFile | WozekServer/segmentedFileTransfer.hpp:45-50 | readFile first asks the header receiver, keeping the remaining file size |
| SegmentedTransfer.ReadSegmentData | WozekServer/segmentedFileTransfer.hpp:66-77 | nothing left sends the ack without calling the data receiver; otherwise the receiver is asked for all of the rest |
| SegmentedTransfer.HeaderReceived | WozekServer/segmentedFileTransfer.hpp:50-55 | the 8 header bytes are decoded and handed to the verifier before any data is read |
| SegmentedTransfer.Verified | WozekServer/segmentedFileTransfer.hpp:55-57 | after verification exactly header.size bytes are asked for |
| SegmentedTransfer.DataReceived | WozekServer/segmentedFileTransfer.hpp:74-76 | after a piece no larger than asked, the rest of the segment is asked for |
| SegmentedTransfer.AckSent | WozekServer/segmentedFileTransfer.hpp:59-60 | after the ack the next header is awaited, for the file minus this segment when that does not underflow |
| SegmentedTransfer.HeaderReachesVerifier | WozekServer/segmentedFileTransfer.hpp:11-55 | the size the sender announces is the size the receiver's verifier sees |
| SegmentedTransfer.ReceivePiecesAcks | WozekServer/segmentedFileTransfer.hpp:66-77 | a segment read in non-empty pieces ends in the ack exactly when the pieces add up to its size |
| SegmentedTransfer.LoopsContinueAfterAck | WozekServer/segmentedFileTransfer.hpp:18-60 | neither loop ends by itself: after an ack the sender announces another header and the receiver awaits one |
| TransferStates.BigBufferCursor.constructor | WozekServer/states.hpp:16-41 | a fresh state has an empty buffer and top, total and progress all 0 |
| TransferStates.BigBufferCursor.Resize | WozekServer/states.hpp:19 | resizing the vector keeps the first bytes and pads with zeros, the cursor staying valid exactly when it still fits |
| TransferStates.BigBufferCursor.Remaining | WozekServer/states.hpp:25 | the free space and the cursor add up to the buffer's size |
| TransferStates.BigBufferCursor.WriteAtEnd | WozekServer/states.hpp:26 | bytes written at getBigBufferEnd land right after the used part and change nothing else |
| TransferStates.BigBufferCursor.ReadAtEnd | WozekServer/states.hpp:26 | bytes taken from getBigBufferEnd are the buffer's bytes from the cursor on |
| TransferStates.BigBufferCursor.Advance | WozekServer/states.hpp:27-40 | the cursor and the running total move by the same count; the cursor stays in the buffer exactly when the count fits |
| ServerRequests.Dispatch | WozekServer/TCPWozekServer.cpp:45-82 | a code goes unrecognised (logged, no further read) exactly when it is not the heartbeat or one of the four request codes |
| ServerRequests.RequestCode | WozekServer/TCPWozekServer.cpp:54-75 | every request's code is one the dispatcher handles |
| ServerRequests.DispatchRoundTrip | WozekServer/TCPWozekServer.cpp:45-82 | dispatching a request's code gives the request back, and every recognised code is its request's code |
| ServerRequests.SanitiseName | WozekServer/TCPWozekServer.cpp:94-95 | the name's last byte becomes NUL and every other byte and the id are kept |
| ServerRequests.RegisterAsWritten | WozekServer/TCPWozekServer.cpp:102-136 | as written, a registration can fail to produce a result only for id 0 with no host 1 and a fresh id other than 1 (the null record dereferenced) |
| ServerRequests.RegisterOutcome | WozekServer/TCPWozekServer.cpp:102-152 | the intended registration succeeds exactly when the connection had no type and the id was free (or a nonzero fresh id was found); success makes the connection a host whose id, sent in the reply, keys a new record linked to this connection and leaves every other host alone; failure leaves the connection as it was |
| ServerRequests.RegisterAgreesUnlessRenumbered | WozekServer/TCPWozekServer.cpp:112-132 | as written and as intended agree for a nonzero id, and for id 0 when the fresh id is 1 |
| ServerRequests.RegisterAsWrittenStealsHostOne | WozekServer/TCPWozekServer.cpp:115-132 | as written, a second id-0 registration gets record 2 but is told id 1 and takes over host 1's connection, while record 2 has none |
| ServerRequests.RegisterAsWrittenWithoutHostOne | WozekServer/TCPWozekServer.cpp:115-132 | as written, an id-0 registration with no host 1 dereferences a null record, where the corrected one succeeds with the fresh id |
| ServerRequests.HandleRegisterHostRequest | WozekServer/TCPWozekServer.cpp:87-136 | the connection and the host table end exactly as the intended registration of the sanitised header says, with the table's fresh id; the hosts' last id moves only when a fresh id is drawn; controllers, their last id, and the connection's flags, timer, socket, events and transfer state are untouched |
| ServerRequests.UploadMapResponse | WozekServer/TCPWozekServer.cpp:163-184 | InvalidSize exactly for a zero size; Accept exactly for a positive size from the host the request names; otherwise DenyAccess |
| ServerRequests.HandleUploadMapRequest | WozekServer/TCPWozekServer.cpp:157-190 | on Accept the host's map file is deleted and becomes the transfer's target; on a refusal no file changes |
| ServerRequests.UploadKeepsOtherMaps | WozekServer/TCPWozekServer.cpp:181-182 | an accepted upload keeps every other host's map file as it was |
| ServerRequests.HandleDownloadMapRequest | WozekServer/TCPWozekServer.cpp:200-229 | Accept exactly when the host's map file exists, with its size and its bytes as the transfer's source; otherwise DenyAccess and no transfer |
| ServerRequests.StartTheWorldAsWritten | WozekServer/TCPWozekServer.cpp:239-281 | as written, success exactly for a host with nonzero id, nonzero port and a new world id, while every failure goes to the connection that first ran the handler |
| ServerRequests.StartTheWorldReply | WozekServer/TCPWozekServer.cpp:239-281 | as intended, every reply goes to the requesting connection, success exactly when allowed and a world was created, carrying the world id |
| ServerRequests.StartTheWorldAgreesForFirstCaller | WozekServer/TCPWozekServer.cpp:241-245 | as written and as intended agree for the first connection and on every success |
| ServerRequests.StartTheWorldAsWrittenAnswersFirstCaller | WozekServer/TCPWozekServer.cpp:241-256 | as written, connection 2's refused request is answered on connection 1 |
| ServerRequests.HandleStartTheWorld | WozekServer/TCPWozekServer.cpp:239-281 | the reply is the intended one, and a success creates a fresh world whose main host is this host at its address and the requested port |
| ServerTransfer.BufferSize | WozekServer/TCPWozekServer.cpp:292-293 | the staging buffer is the whole file when it fits in 4 MiB and exactly 4 MiB otherwise, empty only for an empty file |
| ServerTransfer.ExceedsTotal | WozekServer/TCPWozekServer.cpp:340 | the corrected verifier refuses a segment exactly when it would take the bytes read past the declared size |
| ServerTransfer.ExceedsTotalAgreesWithoutWrap | WozekServer/TCPWozekServer.cpp:340 | short of a size_t wrap-around, the test as written and the corrected one agree |
| ServerTransfer.ExceedsTotalAsWrittenLetsHugeSegmentThrough | WozekServer/TCPWozekServer.cpp:340 | as written, a header of 2^64 - 1 bytes after one byte read wraps to 0 and passes, where the corrected test refuses it |
| ServerTransfer.FileReceive.constructor | WozekServer/TCPWozekServer.cpp:287-318 | a receive starts with nothing read, written or acknowledged, awaiting the first header |
| ServerTransfer.FileReceive.ReadLength | WozekServer/TCPWozekServer.cpp:324-338 | the data receiver asks for the rest of the segment when it is smaller than the free buffer, otherwise exactly the free buffer; never nothing |
| ServerTransfer.FileReceive.Flush | WozekServer/TCPWozekServer.cpp:298-316 | an empty buffer is left alone; otherwise its used part is appended to the file and the buffer emptied, unless the append fails, which changes nothing |
| ServerTransfer.FileReceive.AckSender | WozekServer/TCPWozekServer.cpp:348-374 | once every declared byte is in, a flush and then Finished and success (or failure without an ack when the flush fails); before that, Continue and on to the next header |
| ServerTransfer.FileReceive.OnHeader | WozekServer/TCPWozekServer.cpp:318-347 | the corrected verifier fails a segment that would exceed the declared size, without an ack; otherwise the segment's data is asked for, or an empty segment is acknowledged at once |
| ServerTransfer.FileReceive.Take | WozekServer/TCPWozekServer.cpp:328-335 | a read into the buffer's end and advance append the bytes to the stream read, keeping it equal to the file followed by the buffer's used part |
| ServerTransfer.FileReceive.OnData | WozekServer/TCPWozekServer.cpp:324-338 | the bytes read join the stream; a read that filled the buffer is flushed first; the rest of the segment is asked for, or Continue is sent once it is complete; failure only from a failed append |
| ServerTransfer.WrittenDataSnoc | WozekServer/TCPWozekServer.cpp:427-437 | the data of a run of writes grows by each write's data |
| ServerTransfer.EmitKeepsSending | WozekServer/TCPWozekServer.cpp:426-428 | the bytes at the window's top are the file's next bytes, and sending them keeps the written data equal to the file's prefix |
| ServerTransfer.EmitKeepsSenderData | WozekServer/TCPWozekServer.cpp:426-437 | one write from the buffer's top keeps the sender's data invariant and carries the file's next bytes |
| ServerTransfer.ReloadWindow | WozekServer/TCPWozekServer.cpp:400-409 | a reload from offset totalBytesSent leaves the buffer a window on the file from there, with the top at 0 |
| ServerTransfer.EmitWindow | WozekServer/TCPWozekServer.cpp:426-428 | the bytes at a window's top are the file's next bytes and the window continues past them |
| ServerTransfer.FileSend.constructor | WozekServer/TCPWozekServer.cpp:377-418 | a send starts with its buffer used up, nothing written, and the first header saved for a send of the whole first segment |
| ServerTransfer.FileSend.TryReload | WozekServer/TCPWozekServer.cpp:392-411 | only a used-up buffer is reloaded; failure exactly when that read fails, and afterwards the buffer has bytes to send (or the file is empty) |
| ServerTransfer.FileSend.Emit | WozekServer/TCPWozekServer.cpp:426-437 | a write of n bytes from the buffer's top carries exactly the file's next n bytes, with the header when asked |
| ServerTransfer.FileSend.OnSend | WozekServer/TCPWozekServer.cpp:419-439 | failure exactly when a needed reload fails; a request for 0 bytes stops at the assertion, which only an empty file reaches; otherwise some bytes up to the request are written, being the file's next bytes, and reported to the skeleton |
| ServerTransfer.FileSend.OnAck | WozekServer/TCPWozekServer.cpp:440-470 | Error fails; Finished succeeds exactly when everything was sent, and then the writes carried the whole file; Continue saves the next header or stops at the skeleton's assertion when nothing is left; any other code fails |
| TcpSession.FirstError | WozekServer/asio_lib/TCP.hpp:327-356 | the first of the three steps' errors that is set, and none exactly when no step failed |
| TcpSession.HandlerEventsSnoc | WozekServer/asio_lib/TCP.hpp:176-185 | a completion's handler events and its stopping of the timer are built up one invocation at a time |
| TcpSession.ReadCompletionStopsTimerThenBranches | WozekServer/asio_lib/TCP.hpp:171-230 | a read's completion stops the timer first and then runs exactly one handler, the error handler with the code when it is set; a write's runs the same handler and leaves the timer alone |
| TcpSession.BasicSession.constructor | WozekServer/asio_lib/TCP.hpp:245-251 | a new session is shut, with the shutting-down callback at the bottom of its stack |
| TcpSession.BasicSession.Accepted | WozekServer/asio_lib/TCP.hpp:58-59 | the accept connects the socket and changes nothing else |
| TcpSession.BasicSession.ShutdownSession | WozekServer/asio_lib/TCP.hpp:118-131 | a shut session is left alone; otherwise the flag is set, the timer stopped, the socket closed and shutdown_impl called once, keeping starts and shutdowns alternating |
| TcpSession.BasicSession.StartTimeoutTimer | WozekServer/asio_lib/TCP.hpp:135-147 | the timer is armed and nothing else changes |
| TcpSession.BasicSession.StopTimeoutTimer | WozekServer/asio_lib/TCP.hpp:149-152 | the timer is cancelled and nothing else changes |
| TcpSession.BasicSession.OnTimerExpired | WozekServer/asio_lib/TCP.hpp:137-146 | a cancelled wait or a shut session is ignored; otherwise timeoutHandler_impl runs and then the session shuts down |
| TcpSession.BasicSession.AsyncRead | WozekServer/asio_lib/TCP.hpp:171-186 | a read arms the timer and installs the completion that stops it and branches |
| TcpSession.BasicSession.AsyncWrite | WozekServer/asio_lib/TCP.hpp:217-230 | a write installs a completion that only branches |
| TcpSession.BasicSession.Invoke | WozekServer/asio_lib/TCP.hpp:180-184 | one invocation either stops the timer or runs a handler of the derived session |
| TcpSession.BasicSession.Complete | WozekServer/asio_lib/TCP.hpp:177-185 | a completion records exactly its handlers' events, in order, and disarms the timer exactly when it stops it |
| TcpSession.BasicSession.PushCallbackStack | WozekServer/asio_lib/TCP.hpp:263 | the callback goes on top of the stack and nothing else changes |
| TcpSession.BasicSession.ReturnCallbackStack | WozekServer/asio_lib/TCP.hpp:265-273 | an empty stack changes nothing; otherwise the top is popped and then invoked once with the result, seeing the stack without itself; the bottom entry shuts the session down |
| TcpSession.BasicSession.ReturnCallbackDefault | WozekServer/asio_lib/TCP.hpp:275-286 | an empty stack changes nothing; otherwise the top is popped and invoked once with a result of exactly that status and no value: a client callback records that and changes nothing else, the bottom entry shuts the session down (timer stopped, socket closed); the remote endpoint never changes |
| TcpSession.BasicSession.Start | WozekServer/asio_lib/TCP.hpp:291-309 | the session is shut first, which stops the timer and closes the socket of a running session; an unreadable remote endpoint is reported through startError_impl and leaves it shut; otherwise it is up and the result is start_impl's |
| TcpSession.BasicSession.Connect | WozekServer/asio_lib/TCP.hpp:311-325 | as start, with the connect's error: the leading shutdown stops the timer and closes the socket of a running session; a successful connect opens the socket and records the endpoint, a failed one leaves both as the shutdown left them |
| TcpSession.BasicSession.ResolveAndConnect | WozekServer/asio_lib/TCP.hpp:327-356 | resolution, connection and the remote endpoint in that order; the leading shutdown stops the timer; when resolve and connect succeed the socket is open and the endpoint recorded, otherwise both stay as the shutdown left them; the first failure is reported and the session stays shut; otherwise up with start_impl's result |
| TcpSession.BasicServer.constructor | WozekServer/asio_lib/TCP.hpp:33-36 | a new server is not running and accepts nothing yet |
| TcpSession.BasicServer.Start | WozekServer/asio_lib/TCP.hpp:38-49 | start refuses only while running, which is never set, and otherwise begins accepting |
| TcpSession.BasicServer.HandleNewSession | WozekServer/asio_lib/TCP.hpp:63-80 | an accept error whose handler returns true stops accepting; otherwise the session starts exactly when authorised and the next accept is issued |
| UdpEngine.RunCallback | WozekServer/asio_lib/UDP.hpp:138-163 | invoking the bottom entry records nothing; a client callback records one run with the result and the stack without itself |
| UdpEngine.BasicHandler.constructor | WozekServer/asio_lib/UDP.hpp:135-141 | a new handler's stack holds only the do-nothing bottom entry |
| UdpEngine.BasicHandler.PushCallbackStack | WozekServer/asio_lib/UDP.hpp:153-154 | the callback goes on top and nothing else changes |
| UdpEngine.BasicHandler.ReturnCallbackStack | WozekServer/asio_lib/UDP.hpp:156-164 | an empty stack changes nothing; otherwise the top is popped and then invoked once on the stack without itself |
| UdpEngine.BasicHandler.ReturnCallbackDefault | WozekServer/asio_lib/UDP.hpp:166-177 | an empty stack changes nothing; otherwise the top is popped and invoked once with a result with exactly that status and no value; `handled` is unchanged |
| UdpEngine.BasicHandler.ReturnCallbackGood | WozekServer/asio_lib/UDP.hpp:178 | as returnCallbackDefault with Good: an empty stack changes nothing; otherwise the top is popped and invoked once with a Good result and no value; `handled` is unchanged |
| UdpEngine.BasicHandler.ReturnCallbackError | WozekServer/asio_lib/UDP.hpp:179 | as returnCallbackDefault with Error: an empty stack changes nothing; otherwise the top is popped and invoked once with an Error result and no value; `handled` is unchanged |
| UdpEngine.BasicHandler.ReturnCallbackCriticalError | WozekServer/asio_lib/UDP.hpp:180 | as returnCallbackDefault with CriticalError: an empty stack changes nothing; otherwise the top is popped and invoked once with a CriticalError result and no value; `handled` is unchanged |
| UdpEngine.BasicHandler.AsyncWriteTo | WozekServer/asio_lib/UDP.hpp:104-118 | the send's completion branches on its error code |
| UdpEngine.SendCompletionBranches | WozekServer/asio_lib/UDP.hpp:104-118 | a send's completion runs exactly one handler: the error handler with the code when it is set, the success handler otherwise |
| UdpEngine.BasicHandler.Handle | WozekServer/asio_lib/UDP.hpp:182-186 | handle posts handle_impl with exactly the datagram's size |
| UdpEngine.BasicHandler.ResolveAndConnect | WozekServer/asio_lib/UDP.hpp:188-200 | true exactly when resolution yields an endpoint; a resolution error counts as none |
| UdpEngine.BasicServer.constructor | WozekServer/asio_lib/UDP.hpp:37-40 | a new server is not running and not receiving |
| UdpEngine.BasicServer.Start | WozekServer/asio_lib/UDP.hpp:42-54 | start refuses only while running, which is never set, and otherwise starts receiving |
| UdpEngine.BasicServer.OnDatagram | WozekServer/asio_lib/UDP.hpp:58-76 | an error whose handler returns true stops the loop; another error is dropped; a datagram goes to its handler; otherwise the next receive is issued |
| World.World.constructor | WozekServer/World.hpp:11-26 | a new world's main host has id 0 and the default endpoint |
| World.World.SetMainHost | WozekServer/World.hpp:35-40 | only while the main host id is 0, which the source asserts; stores the id and endpoint |
| World.World.ValidateMainHostEndpoint | WozekServer/World.hpp:47-50 | a sender passes exactly when its address is the main host's |
| World.ValidationIgnoresPort | WozekServer/World.hpp:47-50 | the port never matters, and the main host's own endpoint passes |
| UdpHandlerBase.LoadObjectFromBufferSafe | WozekServer/UDPServerHandlerBase.hpp:12-21 | fails exactly when fewer than sizeof(obj) bytes follow off within the length received, leaving obj and off alone; otherwise obj takes those bytes and off moves past them |
| UdpHandlerBase.LoadObjectFromBuffer | WozekServer/UDPServerHandlerBase.hpp:23-28 | with no check, obj takes the sizeof(obj) bytes at off and off moves past them |
| UdpHandlerBase.SafeLoadsFit | WozekServer/UDPServerHandlerBase.hpp:12-21 | a chain of checked loads succeeds exactly when the objects' sizes together fit in the length after the offset, and then ends just past them |
| UdpServer.Dispatch | WozekServer/UDPWozekServer.cpp:11-40 | byte 0 selects echo, fetch-state or update-state exactly when it is that request's code |
| UdpServer.FetchReplyData | WozekServer/UDPWozekServer.cpp:42-78 | the 4-byte reply is the response code followed by the record's rotation when the record exists and the sender's address is the record's, and otherwise by bytes 1 to 3 of the buffer |
| UdpServer.UpdatedRecords | WozekServer/UDPWozekServer.cpp:92-112 | the record with the requested id, if any, takes the 3 bytes after the id as its rotation; every other record and the set of ids are unchanged |
| UdpServer.FetchReturnsUpdate | WozekServer/UDPWozekServer.cpp:42-112 | an update followed by a fetch of the same id from the record's address returns the rotation the update carried |
| UdpServer.Receiver.constructor | WozekServer/UDPWozekServer.hpp:88-91 | a receiver holds the datagram at the front of a zeroed 512-byte buffer, with its size and sender |
| UdpServer.Receiver.HandleEchoRequest | WozekServer/UDPWozekServer.cpp:80-90 | byte 0 becomes the echo response code and exactly the received bytes go back to the sender, the rest of them unchanged |
| UdpServer.Receiver.HandleFetchStateRequest | WozekServer/UDPWozekServer.cpp:42-78 | the reply goes to the sender and carries exactly the fetch reply, which is also what the buffer's first 4 bytes become |
| UdpServer.Receiver.HandleUpdateStateRequest | WozekServer/UDPWozekServer.cpp:92-112 | the table becomes exactly the updated records; the sender is not checked and nothing is sent |
| UdpServer.Receiver.HandleRequest | WozekServer/UDPWozekServer.cpp:11-40 | a reply exactly for echo and fetch-state, with the fetch reply's bytes; only update-state changes the table; an update or an unrecognised code leaves the buffer alone |

## Left out

- Asio itself: sockets, acceptors, resolvers, steady timers, `async_read`, `async_write` and `post`. Their completions are method calls whose outcome (error code, bytes received, resolved endpoints) is a parameter. A strand post runs at once: `IpAllowList.Config.UpdateIpv4` replaces the list directly.
- DatabaseBase.IndexBase.GetSafeCallback: the posted lambda captures `callback` by reference (WozekServer/DatabaseBase.hpp:87). Because a post runs at once here, the model cannot show that reference dangling once the caller has returned.
- Concurrency: strands, mutexes, atomics and thread pools, including ControllerController/App.hpp. Each component runs one call at a time, so interleavings are not modelled.
- The file system and the serial port. File contents, whether an open, read, append or remove succeeds, and a file's modification time are parameters. Directories and files are a set of paths and a map from paths to contents. The `serialib` calls behind `Device::connect` and `postRawData` are left out.
- Device `postEncodedRequestAndAwaitResponse` (ControllerController/Device.hpp:175-186) is left out. It is unfinished: it has no return on success and writes `length` raw bytes where the frame is longer.
- Floating point and clocks: progress percentages and timestamps are left out. The percentage field of the transfer states is kept but never computed.
- Logging and its counters (WozekServer/logging.hpp) are left out. A log call is a no-op.
- ControllerSessionClient `startKeepAlive`/`stopKeepAlive` (ControllerController/ControllerSessionClient.cpp:75-83) are empty stubs and are left out.
- Types used but not defined are parameters. This covers the layout of the `RegisterAsController` request header, the size of its name field and the values of its response codes. It also covers the codes of `UdpFetchState`, `UdpUpdateState` and their responses, and `RotationType`, which is 3 bytes.
- The controller table behind `accessSafeRead`/`accessSafeWrite` is not part of this model. Only a record's endpoint and rotation are kept.
- A controller's desired and measured states, the world's controller list and its strand are left out, because the modelled code never reads or writes them.
- The file stream and path held by each transfer state are left out, and so is `FileTransferSendThreadsafe`.
- `World.World.GetMainHostRemoteEndpoint` is modelled but has no row: its contract only returns the stored endpoint.
- Menus, argument parsing, the `main` files and the DLL/C# glue are left out. So is the code that is commented out: WozekServer/UDPWozekServerState.hpp, the old `Connection` in ClientTCP.hpp, and the old commander.
- The send-only `updateState` in WozekHostClient/UDP.cpp and ClientUDP.cpp is left out.
- Object layout assumes an x86-64 little-endian target: 8-byte `size_t`, natural alignment, and padding bytes written as 0. Fields the source leaves uninitialised are also written as 0, such as `ResponseHeader::worldId` in the start-the-world failure reply (WozekServer/TCPWozekServer.cpp:241-245). Other targets are not modelled.
- Exceptions: two are modelled. The one thrown by `socket.shutdown` in shutConnection is the `ShutdownThrew` event. The `std::length_error` that `message.resize(bytesTransfered - 1)` throws for an empty datagram in handleEchoResponse (ControllerController/ControllerSessionUDP.cpp:67) is the `LengthError` result of `ControllerSession.ControllerUdpReceiver.HandleEchoResponse`. How the program goes on after either exception leaves its completion handler is not part of this model.
- Unsigned arithmetic wraps only where the model writes it out: ids at 32 bits, the `size_t` sums of both header checks at 64 bits, 8-bit bytes. Every other count is an unbounded integer.

## Findings

| source | as written | input that shows it | evidently intended | confidence | as-written member | corrected member |
|---|---|---|---|---|---|---|
| WozekServer/TCPWozekServer.cpp:115 | the bool returned by `createAndAddRecord` is stored as the new host's id, so every freshly registered host is told id 1 | a host with id 1 exists, a new host asks for id 0 and gets fresh id 2: it is told id 1 and replaces host 1's connection | the new host is told and keeps its fresh id | not executed | ServerRequests.RegisterAsWrittenStealsHostOne | ServerRequests.RegisterAgreesUnlessRenumbered |
| WozekServer/TCPWozekServer.cpp:340 | the header check `header.size + totalBytesRead > totalSize` is computed in 64-bit `size_t` and can wrap | a segment header of size 2^64-1 after 1 byte read, with a total of 100: the sum wraps to 0 and the segment is accepted | a segment larger than what remains is refused | not executed | ServerTransfer.ExceedsTotalAsWrittenLetsHugeSegmentThrough | ServerTransfer.ExceedsTotalAgreesWithoutWrap |
| WozekHostClient/TCP.cpp:199 | the download's header check `header.size + state->totalBytesReceived > totalSize` is a `size_t` sum that can wrap, and so is the data receiver's assertion at line 183 | a 100-byte map after 1 byte received, then a segment header of size 2^64-1: both sums wrap to 0, and the client reads data past the announced size | a segment larger than what remains is a CriticalError | not executed | ClientTcp.DownloadHeaderAsWrittenWraps | ClientTcp.Download.OnHeader |
| WozekServer/DatabaseManager.cpp:7-37 | `connectControllerToHost` never inserts the controller into the new host's set, and moving it later erases an id that is not in the old host's set | a controller connected to host 1 is not in host 1's set; removing host 1 leaves it pointing at a host that is gone | the target host's set gains the controller, so host and controller stay linked | not executed | Database.ConnectAsWrittenLeavesDanglingHost | Database.ConnectKeepsLinked |
| WozekServer/DatabaseBase.hpp:84-95 | `getSafeCallback` has no return after calling the callback with the found id | a known value: the callback runs with its id and then again with 0 | the callback runs once, with the id or with 0 | not executed | DatabaseBase.SafeCallbackAsWrittenCallsTwice | DatabaseBase.IndexBase.GetSafeCallback |
| ControllerController/ControllerSessionUDP.cpp:11-13 | the echo copies `min(size, 1024)` message bytes after a 1-byte code into a 1024-byte buffer | a 1024-byte message needs 1025 bytes | at most 1023 message bytes are copied | not executed | ControllerSession.EchoLengthAsWrittenOverflows | ControllerSession.EchoLengthCorrection |
| WozekServer/config.hpp:50-66 | octets and the prefix are checked only against their upper bounds (ipAuthorization.hpp repeats the code) | the line "1.0.-1.0/32" is accepted, and a prefix of -1 shifts by a negative count | a negative octet or prefix rejects the line | not executed | IpAllowList.NegativeOctetAccepted | IpAllowList.CorrectionOnlyRemoves |
| WozekServer/ipAuthorization.hpp:98-112 | the reload timer is re-armed only inside the branch that saw a new modification time | mtime 5 at load, then ticks seeing 5 and 6: the first tick stops polling, and the change to 6 is never read | the timer is re-armed after every tick that did not fail | not executed | IpAllowList.AuthorizerStopsPolling | IpAllowList.PollingSeesEveryChange |
| WozekServer/TCPWozekServer.cpp:241-245 | the `static` failure routine captures the first connection that starts a world | connection 1 starts a world, then connection 2 sends port 0: the failure reply goes to connection 1 | the failure reply goes to the connection that asked | not executed | ServerRequests.StartTheWorldAsWrittenAnswersFirstCaller | ServerRequests.StartTheWorldAgreesForFirstCaller |
| WozekServer/asio_lib/asioBufferUtils.hpp:29-34 | the static bound checks the offset of the last object but not its end | two 4-byte objects from offset 0 pass the check for a 4-byte buffer | the bound covers the end of every copied object | not executed | BufferUtils.StaticCheckMissesLastObject | BufferUtils.StaticCheckCoversEveryCopy |

=== FILE: async_utils.dfy ===
// The completion-handler combinators of the session utilities
// (WozekServer/asio_lib/asyncUtils.hpp). errorBranch builds the closure
// that asio calls when an operation completes; here that closure is a
// value, and calling it yields the sequence of handler invocations it
// performs.

module AsyncUtils {
  import opened Base

  /** asio's error_code: the value 0 means success, anything else is set. */
  datatype ErrorCode = ErrorCode(value: int)

  const NoError: ErrorCode := ErrorCode(0)

  /** The error code's conversion to bool. */
  predicate IsSet(e: ErrorCode)
  {
    e.value != 0
  }

  /** A handler as execute receives it: a member-function pointer of the session, or a plain callable. */
  datatype Handler<H> = Member(member: H) | Callable(callable: H)

  /** The code a handler stands for, whichever form it takes. */
  function Target<H>(h: Handler<H>): H
  {
    match h
    case Member(m) => m
    case Callable(f) => f
  }

  /** One handler invocation: what ran, and the error code it was given, if any. */
  datatype Invocation<H> = Invocation(target: H, error: Option<ErrorCode>)

  /** execute(handler, args...). */
  function Execute<H>(h: Handler<H>, arg: Option<ErrorCode>): (c: Invocation<H>)
    ensures c.target == Target(h)
  {
    Invocation(Target(h), arg)
  }

  /** A member-function pointer and a callable for the same code run it with the same arguments. */
  lemma ExecuteForms<H>(x: H, arg: Option<ErrorCode>)
    ensures Execute(Member(x), arg) == Execute(Callable(x), arg)
  {
  }

  /**
   * The closure errorBranch returns. cont is present in the three-handler
   * form; holdsSession marks the safe variant, which captures a strong
   * reference to the session and so keeps it alive until the completion.
   */
  datatype Completion<H> = Completion(cont: Option<Handler<H>>, success: Handler<H>, error: Handler<H>, holdsSession: bool)

  /** errorBranch(success, error), in its unsafe (safe = false) or safe form. */
  function ErrorBranch<H>(success: Handler<H>, error: Handler<H>, safe: bool): (c: Completion<H>)
    ensures c.cont.None? && c.holdsSession == safe
  {
    Completion(None, success, error, safe)
  }

  /** errorBranch(continue, success, error). */
  function ErrorBranchContinue<H>(cont: Handler<H>, success: Handler<H>, error: Handler<H>, safe: bool): (c: Completion<H>)
    ensures c.cont == Some(cont) && c.holdsSession == safe
  {
    Completion(Some(cont), success, error, safe)
  }

  /** Calling the closure with the operation's error code. */
  function Run<H>(c: Completion<H>, err: ErrorCode): (calls: seq<Invocation<H>>)
    ensures |calls| == if c.cont.Some? then 2 else 1
    ensures c.cont.Some? ==> calls[0] == Execute(c.cont.value, None)
    ensures IsSet(err) ==> calls[|calls| - 1] == Execute(c.error, Some(err))
    ensures !IsSet(err) ==> calls[|calls| - 1] == Execute(c.success, None)
  {
    var first := if c.cont.Some? then [Execute(c.cont.value, None)] else [];
    if IsSet(err) then first + [Execute(c.error, Some(err))]
    else first + [Execute(c.success, None)]
  }

  /** How often an invocation sequence runs target x. */
  function Runs<H(==)>(calls: seq<Invocation<H>>, x: H): nat
  {
    if |calls| == 0 then 0
    else Runs(calls[..|calls| - 1], x) + (if calls[|calls| - 1].target == x then 1 else 0)
  }

  /**
   * The two-handler closure invokes exactly one of its handlers: the error
   * handler, with the code, when the code is set, and otherwise the success
   * handler with no argument.
   */
  lemma ExactlyOneHandler<H>(success: Handler<H>, error: Handler<H>, safe: bool, err: ErrorCode)
    requires Target(success) != Target(error)
    ensures var calls := Run(ErrorBranch(success, error, safe), err);
      && Runs(calls, Target(success)) == (if IsSet(err) then 0 else 1)
      && Runs(calls, Target(error)) == (if IsSet(err) then 1 else 0)
  {
    var calls := Run(ErrorBranch(success, error, safe), err);
    assert calls[..0] == [];
  }

  /** The three-handler closure first runs continue, then does exactly what the two-handler closure does. */
  lemma ContinueRunsFirst<H>(cont: Handler<H>, success: Handler<H>, error: Handler<H>, safe: bool, err: ErrorCode)
    ensures Run(ErrorBranchContinue(cont, success, error, safe), err)
         == [Execute(cont, None)] + Run(ErrorBranch(success, error, safe), err)
  {
  }

  /** The safe and unsafe variants branch identically. */
  lemma SafeBranchesAsUnsafe<H>(c: Completion<H>, err: ErrorCode)
    ensures Run(c.(holdsSession := true), err) == Run(c.(holdsSession := false), err)
  {
  }
}

=== FILE: base.dfy ===
// Shared vocabulary of the model: bytes, fixed-width unsigned integers,
// optional values, and the little-endian object representation that the
// C++ code produces with memcpy on an x86-64 host.

module Base {

  /** One octet on a socket, in a buffer or in a file. */
  type byte = x: int | 0 <= x < 256

  const U16_LIMIT: nat := 0x1_0000
  const U32_LIMIT: nat := 0x1_0000_0000
  const U64_LIMIT: nat := 0x1_0000_0000_0000_0000

  type u16 = x: int | 0 <= x < U16_LIMIT
  type u32 = x: int | 0 <= x < U32_LIMIT
  type u64 = x: int | 0 <= x < U64_LIMIT

  datatype Option<T> = None | Some(value: T)

  function Min(a: int, b: int): (r: int)
    ensures r <= a && r <= b
    ensures r == a || r == b
  {
    if a < b then a else b
  }

  /** Sum of a sequence of sizes. */
  function Sum(s: seq<nat>): nat
  {
    if |s| == 0 then 0 else Sum(s[..|s| - 1]) + s[|s| - 1]
  }

  lemma {:induction false} SumAppend(s: seq<nat>, t: seq<nat>)
    ensures Sum(s + t) == Sum(s) + Sum(t)
    decreases |t|
  {
    if |t| == 0 {
      assert s + t == s;
    } else {
      assert (s + t)[..|s + t| - 1] == s + t[..|t| - 1];
      SumAppend(s, t[..|t| - 1]);
    }
  }

  /** Concatenation of a sequence of byte strings. */
  function Flatten(parts: seq<seq<byte>>): (r: seq<byte>)
  {
    if |parts| == 0 then [] else Flatten(parts[..|parts| - 1]) + parts[|parts| - 1]
  }

  function Lengths(parts: seq<seq<byte>>): (r: seq<nat>)
    ensures |r| == |parts|
    ensures forall i :: 0 <= i < |parts| ==> r[i] == |parts[i]|
  {
    if |parts| == 0 then [] else Lengths(parts[..|parts| - 1]) + [|parts[|parts| - 1]|]
  }

  lemma {:induction false} FlattenLength(parts: seq<seq<byte>>)
    ensures |Flatten(parts)| == Sum(Lengths(parts))
    decreases |parts|
  {
    if |parts| > 0 {
      FlattenLength(parts[..|parts| - 1]);
    }
  }

  /** 256 to the power n: the number of values an n-byte unsigned integer holds. */
  function Pow256(n: nat): (r: nat)
    ensures r >= 1
  {
    if n == 0 then 1 else 256 * Pow256(n - 1)
  }

  /**
   * The n-byte little-endian representation of x, which is how memcpy lays
   * out an unsigned integer on the little-endian hosts the programs target.
   * Values that do not fit are truncated modulo 256^n, like a C cast.
   */
  function EncodeLE(x: nat, n: nat): (r: seq<byte>)
    ensures |r| == n
  {
    if n == 0 then [] else [x % 256] + EncodeLE(x / 256, n - 1)
  }

  /** Reads a little-endian unsigned integer back from its bytes. */
  function DecodeLE(b: seq<byte>): (r: nat)
    ensures r < Pow256(|b|)
  {
    if |b| == 0 then 0 else b[0] + 256 * DecodeLE(b[1..])
  }

  /** Decoding an encoding gives back the value whenever it fits in n bytes. */
  lemma {:induction false} DecodeEncodeLE(x: nat, n: nat)
    requires x < Pow256(n)
    ensures DecodeLE(EncodeLE(x, n)) == x
    decreases n
  {
    if n > 0 {
      var e := EncodeLE(x, n);
      assert e[1..] == EncodeLE(x / 256, n - 1);
      DecodeEncodeLE(x / 256, n - 1);
    }
  }

  /** Encoding is injective on the values that fit, so distinct values give distinct bytes. */
  lemma {:induction false} EncodeDecodeLE(b: seq<byte>)
    ensures EncodeLE(DecodeLE(b), |b|) == b
    decreases |b|
  {
    if |b| > 0 {
      var x := DecodeLE(b);
      assert x % 256 == b[0];
      assert x / 256 == DecodeLE(b[1..]);
      EncodeDecodeLE(b[1..]);
    }
  }

  // ---------------------------------------------------------------------
  // Decimal text (std::to_string on an unsigned value)
  // ---------------------------------------------------------------------

  function DigitChar(d: nat): (c: char)
    requires d < 10
    ensures '0' <= c <= '9'
  {
    "0123456789"[d]
  }

  /** The decimal digits of n, most significant first, with no leading zeros. */
  function Decimal(n: nat): (s: string)
    ensures 1 <= |s|
    ensures n < 10 <==> |s| == 1
    ensures forall i :: 0 <= i < |s| ==> '0' <= s[i] <= '9'
  {
    if n < 10 then [DigitChar(n)] else Decimal(n / 10) + [DigitChar(n % 10)]
  }

  /** Distinct numbers have distinct decimal texts. */
  lemma {:induction false} DecimalInjective(a: nat, b: nat)
    requires Decimal(a) == Decimal(b)
    ensures a == b
    decreases a
  {
    if a >= 10 && b >= 10 {
      var s := Decimal(a);
      assert s[..|s| - 1] == Decimal(a / 10);
      assert Decimal(b)[..|s| - 1] == Decimal(b / 10);
      DecimalInjective(a / 10, b / 10);
      assert DigitChar(a % 10) == DigitChar(b % 10);
    } else if a < 10 && b < 10 {
      assert DigitChar(a) == DigitChar(b);
    }
  }
}

=== FILE: bitwise.dfy ===
// The C operators on unsigned integers that the model uses, defined on
// natural numbers: shifts, the low bits of a value, bitwise AND and OR,
// complement at a fixed width, and the truncation that an assignment to an
// 8-bit unsigned variable performs. Shifts are defined one bit at a time,
// so every fact about them is proved by induction with linear steps.

module Bitwise {
  import opened Base

  function Pow2(n: nat): (r: nat)
    ensures r >= 1
  {
    if n == 0 then 1 else 2 * Pow2(n - 1)
  }

  /** x << s, on a value wide enough that nothing is shifted out. */
  function Shl(x: nat, s: nat): nat
  {
    if s == 0 then x else 2 * Shl(x, s - 1)
  }

  /** x >> s on an unsigned value. */
  function Shr(x: nat, s: nat): (r: nat)
    ensures r <= x
  {
    if s == 0 then x else Shr(x / 2, s - 1)
  }

  /** The low s bits of x: x & (2^s - 1). */
  function Low(x: nat, s: nat): (r: nat)
    ensures r < Pow2(s)
  {
    if s == 0 then 0 else 2 * Low(x / 2, s - 1) + x % 2
  }

  /** The width of a byte, named so that proofs treat it as a value rather than unfolding on it. */
  const ByteBits: nat := 8

  /** Assignment to an 8-bit unsigned variable keeps the low eight bits. */
  function Trunc8(x: nat): byte
  {
    Pow2Byte();
    Low(x, ByteBits)
  }

  lemma Pow2Byte()
    ensures Pow2(ByteBits) == 256
  {
    assert Pow2(8) == 256;
  }

  /** Bitwise OR (the C operator |). */
  function Or(a: nat, b: nat): nat
    decreases a + b
  {
    if a == 0 then b
    else if b == 0 then a
    else 2 * Or(a / 2, b / 2) + (if a % 2 == 1 || b % 2 == 1 then 1 else 0)
  }

  /** Bitwise AND (the C operator &). */
  function And(a: nat, b: nat): (r: nat)
    ensures r <= b
    decreases a
  {
    if a == 0 || b == 0 then 0
    else 2 * And(a / 2, b / 2) + (if a % 2 == 1 && b % 2 == 1 then 1 else 0)
  }

  /** Complement at width w, for a value of that width (the C operator ~ on an unsigned type). */
  function Not(x: nat, w: nat): (r: nat)
    requires x < Pow2(w)
    ensures r < Pow2(w)
    ensures x + r == Pow2(w) - 1
  {
    Pow2(w) - 1 - x
  }

  // ---------------------------------------------------------------------
  // Shifts and low bits
  // ---------------------------------------------------------------------

  /** A value is its high part shifted back up plus its low bits. */
  lemma {:induction false} Split(x: nat, s: nat)
    ensures x == Shl(Shr(x, s), s) + Low(x, s)
    decreases s
  {
    if s > 0 {
      Split(x / 2, s - 1);
    }
  }

  /** The high part and the low bits are the only such decomposition. */
  lemma {:induction false} SplitUnique(x: nat, s: nat, q: nat, l: nat)
    requires x == Shl(q, s) + l
    requires l < Pow2(s)
    ensures Shr(x, s) == q
    ensures Low(x, s) == l
    decreases s
  {
    if s > 0 {
      assert x / 2 == Shl(q, s - 1) + l / 2;
      SplitUnique(x / 2, s - 1, q, l / 2);
    }
  }

  lemma {:induction false} ShlZero(s: nat)
    ensures Shl(0, s) == 0
    decreases s
  {
    if s > 0 {
      ShlZero(s - 1);
    }
  }

  /** Shifting distributes over the sum x = a + b. */
  lemma {:induction false} ShlAdd(x: nat, a: nat, b: nat, s: nat)
    requires x == a + b
    ensures Shl(x, s) == Shl(a, s) + Shl(b, s)
    decreases s
  {
    if s > 0 {
      ShlAdd(x, a, b, s - 1);
    }
  }

  /** Shifting by a and then by b is shifting by w = a + b. */
  lemma {:induction false} ShlShl(x: nat, a: nat, b: nat, w: nat)
    requires w == a + b
    ensures Shl(Shl(x, a), b) == Shl(x, w)
    decreases b
  {
    if b > 0 {
      ShlShl(x, a, b - 1, w - 1);
    }
  }

  /** s << q for s = (a << p) + b, with w = p + q. */
  lemma ShlAddShl(s: nat, a: nat, p: nat, b: nat, q: nat, w: nat)
    requires s == Shl(a, p) + b
    requires w == p + q
    ensures Shl(s, q) == Shl(a, w) + Shl(b, q)
  {
    ShlAdd(s, Shl(a, p), b, q);
    ShlShl(a, p, q, w);
  }

  lemma {:induction false} ShlOne(s: nat)
    ensures Shl(1, s) == Pow2(s)
    decreases s
  {
    if s > 0 {
      ShlOne(s - 1);
    }
  }



  /** A value below 2^t shifted up by s, plus a value below 2^s, is below 2^w with w = s + t. */
  lemma {:induction false} ShlBound(q: nat, h: nat, s: nat, t: nat, w: nat)
    requires w == s + t
    requires q < Pow2(t)
    requires h < Pow2(s)
    ensures Shl(q, s) + h < Pow2(w)
    decreases s
  {
    if s > 0 {
      ShlBound(q, h / 2, s - 1, t, w - 1);
    }
  }

  /** A value below 2^w shifted down by a is below 2^b, where w = a + b. */
  lemma {:induction false} ShrBound(y: nat, a: nat, b: nat, w: nat)
    requires w == a + b
    requires y < Pow2(w)
    ensures Shr(y, a) < Pow2(b)
    decreases a
  {
    if a > 0 {
      ShrBound(y / 2, a - 1, b, w - 1);
    }
  }

  /** The low w = c + t bits of (o << c) + lo, for lo below 2^c, are the low t bits of o shifted up, plus lo. */
  lemma {:induction false} LowShlAdd(o: nat, lo: nat, c: nat, t: nat, w: nat)
    requires w == c + t
    requires lo < Pow2(c)
    ensures Low(Shl(o, c) + lo, w) == Shl(Low(o, t), c) + lo
    decreases c
  {
    if c > 0 {
      var h := Shl(o, c - 1);
      assert (Shl(o, c) + lo) / 2 == h + lo / 2;
      LowShlAdd(o, lo / 2, c - 1, t, w - 1);
    }
  }

  /** The low w = c + t bits of o << c are the low t bits of o, shifted up. */
  lemma LowShl(o: nat, c: nat, t: nat, w: nat)
    requires w == c + t
    ensures Low(Shl(o, c), w) == Shl(Low(o, t), c)
  {
    LowShlAdd(o, 0, c, t, w);
  }

  /** A value that fits in s bits is its own low s bits. */
  lemma LowSmall(v: nat, s: nat)
    requires v < Pow2(s)
    ensures Low(v, s) == v
  {
    ShlZero(s);
    SplitUnique(v, s, 0, v);
  }

  /** Taking the low s bits after the low w bits, for w >= s. */
  lemma {:induction false} LowLow(x: nat, s: nat, w: nat)
    requires s <= w
    ensures Low(Low(x, w), s) == Low(x, s)
    decreases s
  {
    if s > 0 {
      LowLow(x / 2, s - 1, w - 1);
    }
  }


  // ---------------------------------------------------------------------
  // OR on disjoint bits is addition
  // ---------------------------------------------------------------------

  lemma {:induction false} OrComm(a: nat, b: nat)
    ensures Or(a, b) == Or(b, a)
    decreases a + b
  {
    if a != 0 && b != 0 {
      OrComm(a / 2, b / 2);
    }
  }

  /** OR with a value shifted up by c acts above bit c and keeps the low c bits. */
  lemma {:induction false} OrAbove(q: nat, lo: nat, m: nat, c: nat)
    requires lo < Pow2(c)
    ensures Or(Shl(q, c) + lo, Shl(m, c)) == Shl(Or(q, m), c) + lo
    decreases c
  {
    if c > 0 {
      var x := Shl(q, c) + lo;
      var h := Shl(q, c - 1) + lo / 2;
      var b := Shl(m, c - 1);
      var o := Shl(Or(q, m), c - 1);
      OrAbove(q, lo / 2, m, c - 1);
      assert Or(h, b) == o + lo / 2;
      if x == 0 {
        ShlZeroOnly(q, c - 1);
        assert Or(q, m) == m;
      } else if b == 0 {
        ShlZeroOnly(m, c - 1);
        assert Or(q, m) == q;
      } else {
        OrStep(x, Shl(m, c), h, b);
        assert Or(x, Shl(m, c)) == 2 * (o + lo / 2) + lo % 2;
      }
    }
  }

  /** The definition of OR one bit down, for operands given by name. */
  lemma OrStep(x: nat, y: nat, h: nat, b: nat)
    requires x != 0 && y != 0
    requires h == x / 2 && b == y / 2
    ensures Or(x, y) == 2 * Or(h, b) + (if x % 2 == 1 || y % 2 == 1 then 1 else 0)
  {
  }

  lemma {:induction false} ShlZeroOnly(x: nat, s: nat)
    requires Shl(x, s) == 0
    ensures x == 0
    decreases s
  {
    if s > 0 {
      ShlZeroOnly(x, s - 1);
    }
  }

  /** OR of a value shifted up by c with a value below 2^c is their sum. */
  lemma OrDisjoint(q: nat, lo: nat, c: nat)
    requires lo < Pow2(c)
    ensures Or(Shl(q, c), lo) == Shl(q, c) + lo
    ensures Or(lo, Shl(q, c)) == Shl(q, c) + lo
  {
    ShlZero(c);
    OrAbove(0, lo, q, c);
    assert Or(0, q) == q;
    OrComm(lo, Shl(q, c));
  }

  /** Setting bit 0 of a value leaves it odd. */
  lemma OrOne(q: nat)
    ensures Or(q, 1) % 2 == 1
  {
  }

  // ---------------------------------------------------------------------
  // AND with a mask
  // ---------------------------------------------------------------------

  /** x & (2^n - 1) keeps the low n bits. */
  lemma {:induction false} AndLow(x: nat, n: nat)
    ensures And(x, Pow2(n) - 1) == Low(x, n)
    decreases n
  {
    if n > 0 && x != 0 {
      var m := Pow2(n) - 1;
      assert m / 2 == Pow2(n - 1) - 1 && m % 2 == 1;
      AndLow(x / 2, n - 1);
    } else if n > 0 {
      LowZero(n);
    }
  }

  lemma {:induction false} LowZero(n: nat)
    ensures Low(0, n) == 0
    decreases n
  {
    if n > 0 {
      LowZero(n - 1);
    }
  }
}

=== FILE: buffer_utils.dfy ===
// Offset-based loading and saving of objects in a fixed-size byte buffer
// (WozekServer/asio_lib/asioBufferUtils.hpp). An object is represented by
// its bytes, so loadObject(At) and saveObject(At) are loadBytes(At) and
// saveBytes(At) with the object's size as the length, and the parameter
// packs of loadMultiple and saveMultiple are sequences of byte strings.

module BufferUtils {
  import opened Base

  /** PACKSIZEOF<Ts...>: the head's size plus the tail's, as the template recursion computes it. */
  function PackSizeOf(sizes: seq<nat>): nat
    requires |sizes| >= 1
  {
    if |sizes| == 1 then sizes[0] else sizes[0] + PackSizeOf(sizes[1..])
  }

  /** PACKSIZEOF is the sum of the sizes. */
  lemma {:induction false} PackSizeOfIsSum(sizes: seq<nat>)
    requires |sizes| >= 1
    ensures PackSizeOf(sizes) == Sum(sizes)
    decreases |sizes|
  {
    var head := [sizes[0]];
    assert sizes == head + sizes[1..];
    SumAppend(head, sizes[1..]);
    assert head[..0] == [];
    if |sizes| > 1 {
      PackSizeOfIsSum(sizes[1..]);
    } else {
      assert sizes[1..] == [];
    }
  }

  /** s with the bytes from offset on replaced by from; the rest of s unchanged. */
  function Splice(s: seq<byte>, offset: nat, from: seq<byte>): (r: seq<byte>)
    requires offset + |from| <= |s|
    ensures |r| == |s|
    ensures forall i :: 0 <= i < |s| && !(offset <= i < offset + |from|) ==> r[i] == s[i]
    ensures r[offset..offset + |from|] == from
  {
    s[..offset] + from + s[offset + |from|..]
  }

  /** Two adjacent splices are one splice of the concatenation. */
  lemma SpliceSplice(s: seq<byte>, offset: nat, x: seq<byte>, mid: nat, y: seq<byte>)
    requires mid == offset + |x|
    requires mid + |y| <= |s|
    ensures Splice(Splice(s, offset, x), mid, y) == Splice(s, offset, x + y)
  {
    var l := Splice(Splice(s, offset, x), mid, y);
    var r := Splice(s, offset, x + y);
    assert forall i :: 0 <= i < |s| ==> l[i] == r[i] by {
      forall i | 0 <= i < |s|
        ensures l[i] == r[i]
      {
        if offset <= i < mid {
          assert r[offset..offset + |x + y|][i - offset] == (x + y)[i - offset];
          assert Splice(s, offset, x)[offset..mid][i - offset] == x[i - offset];
        } else if mid <= i < mid + |y| {
          assert r[offset..offset + |x + y|][i - offset] == (x + y)[i - offset];
          assert l[mid..mid + |y|][i - mid] == y[i - mid];
        }
      }
    }
  }

  lemma {:induction false} FlattenCons(x: seq<byte>, rest: seq<seq<byte>>)
    ensures Flatten([x] + rest) == x + Flatten(rest)
    ensures Lengths([x] + rest) == [|x|] + Lengths(rest)
    decreases |rest|
  {
    var all := [x] + rest;
    if |rest| == 0 {
      assert all[..0] == [];
      assert all == [x];
    } else {
      var n := |rest|;
      assert all[..|all| - 1] == [x] + rest[..n - 1];
      assert all[|all| - 1] == rest[n - 1];
      FlattenCons(x, rest[..n - 1]);
    }
  }

  /**
   * Objects of known sizes are determined by their concatenation: this is
   * what makes loadMultiple over the same types read back what
   * saveMultiple wrote.
   */
  lemma {:induction false} FlattenInjective(a: seq<seq<byte>>, b: seq<seq<byte>>)
    requires Lengths(a) == Lengths(b)
    requires Flatten(a) == Flatten(b)
    ensures a == b
    decreases |a|
  {
    if |a| > 0 {
      var n := |a|;
      var fa := Flatten(a[..n - 1]);
      var fb := Flatten(b[..n - 1]);
      assert Lengths(a[..n - 1]) == Lengths(a)[..n - 1];
      assert Lengths(b[..n - 1]) == Lengths(b)[..n - 1];
      FlattenLength(a[..n - 1]);
      FlattenLength(b[..n - 1]);
      assert |fa| == |fb|;
      assert fa == Flatten(a)[..|fa|];
      assert fb == Flatten(b)[..|fb|];
      FlattenInjective(a[..n - 1], b[..n - 1]);
      assert a[n - 1] == Flatten(a)[|fa|..];
      assert b[n - 1] == Flatten(b)[|fb|..];
      assert a == a[..n - 1] + [a[n - 1]];
      assert b == b[..n - 1] + [b[n - 1]];
    }
  }

  /**
   * The compile-time check the loadMultiple/saveMultiple recursion performs
   * as written: every object fits by itself (loadObjectAt, saveObjectAt),
   * and at the last object the accumulated size of the objects BEFORE it
   * fits.
   */
  predicate StaticCheckAsWritten(sizes: seq<nat>, bufferSize: nat)
    requires |sizes| >= 1
  {
    && (forall i :: 0 <= i < |sizes| ==> sizes[i] <= bufferSize)
    && (|sizes| == 1 || PackSizeOf(sizes[..|sizes| - 1]) <= bufferSize)
  }

  /** The check as written lets through two 4-byte objects for a 4-byte buffer. */
  lemma StaticCheckMissesLastObject()
    ensures StaticCheckAsWritten([4, 4], 4)
    ensures PackSizeOf([4, 4]) > 4
  {
    assert [4, 4][..1] == [4];
  }

  /** The check including the last object's size. */
  predicate StaticCheck(sizes: seq<nat>, bufferSize: nat)
    requires |sizes| >= 1
  {
    PackSizeOf(sizes) <= bufferSize
  }

  /** The corrected check implies the one as written, and that every copy of saveMultiple from offset 0 stays in the buffer. */
  lemma StaticCheckCoversEveryCopy(sizes: seq<nat>, bufferSize: nat, k: nat)
    requires |sizes| >= 1
    requires StaticCheck(sizes, bufferSize)
    requires k < |sizes|
    ensures StaticCheckAsWritten(sizes, bufferSize)
    ensures Sum(sizes[..k + 1]) <= bufferSize
  {
    PackSizeOfIsSum(sizes);
    assert sizes == sizes[..k + 1] + sizes[k + 1..];
    SumAppend(sizes[..k + 1], sizes[k + 1..]);
    forall i | 0 <= i < |sizes|
      ensures sizes[i] <= bufferSize
    {
      assert sizes == sizes[..i] + [sizes[i]] + sizes[i + 1..];
      SumAppend(sizes[..i] + [sizes[i]], sizes[i + 1..]);
      SumAppend(sizes[..i], [sizes[i]]);
      assert [sizes[i]][..0] == [];
    }
    if |sizes| > 1 {
      var n := |sizes|;
      PackSizeOfIsSum(sizes[..n - 1]);
      assert sizes == sizes[..n - 1] + [sizes[n - 1]];
    }
  }

  /** The part of a buffer an asio buffer sequence designates. */
  datatype View = View(offset: nat, length: nat)

  /** ArrayBuffer<BufferSize>: a zero-initialised std::array of BufferSize bytes. */
  class ArrayBuffer {
    const size: nat
    const buffer: array<byte>

    predicate Valid()
    {
      buffer.Length == size
    }

    constructor (bufferSize: nat)
      ensures Valid()
      ensures size == bufferSize
      ensures forall i :: 0 <= i < size ==> buffer[i] == 0
      ensures fresh(buffer)
    {
      size := bufferSize;
      buffer := new byte[bufferSize](_ => 0);
    }

    /** loadBytes: the first length bytes. */
    method LoadBytes(length: nat) returns (to: seq<byte>)
      requires Valid()
      requires length <= size
      ensures |to| == length
      ensures to == buffer[..length]
    {
      to := buffer[..length];
    }

    /** loadBytesAt: the length bytes from offset, and the offset just past them. */
    method LoadBytesAt(offset: nat, length: nat) returns (to: seq<byte>, end: nat)
      requires Valid()
      requires length + offset <= size
      ensures end == offset + length
      ensures to == buffer[offset..end]
    {
      to := buffer[offset..offset + length];
      end := offset + length;
    }

    /** saveBytes: from over the first |from| bytes. */
    method SaveBytes(from: seq<byte>)
      requires Valid()
      requires |from| <= size
      modifies buffer
      ensures buffer[..] == Splice(old(buffer[..]), 0, from)
    {
      forall i | 0 <= i < |from| {
        buffer[i] := from[i];
      }
      assert buffer[..] == Splice(old(buffer[..]), 0, from);
    }

    /** saveBytesAt: from over the bytes at offset, returning the offset just past them. */
    method SaveBytesAt(offset: nat, from: seq<byte>) returns (end: nat)
      requires Valid()
      requires |from| + offset <= size
      modifies buffer
      ensures end == offset + |from|
      ensures buffer[..] == Splice(old(buffer[..]), offset, from)
    {
      forall i | 0 <= i < |from| {
        buffer[offset + i] := from[i];
      }
      end := offset + |from|;
      assert buffer[..] == Splice(old(buffer[..]), offset, from);
    }

    /** loadMultipleAt (and loadMultiple, from offset 0): one object of each size, back to back. */
    method LoadMultipleAt(offset: nat, sizes: seq<nat>) returns (objects: seq<seq<byte>>, end: nat)
      requires Valid()
      requires |sizes| >= 1
      requires offset + PackSizeOf(sizes) <= size
      ensures Lengths(objects) == sizes
      ensures end == offset + PackSizeOf(sizes)
      ensures Flatten(objects) == buffer[offset..end]
      decreases |sizes|
    {
      var first: seq<byte>;
      first, end := LoadBytesAt(offset, sizes[0]);
      if |sizes| == 1 {
        objects := [first];
        assert [first][..0] == [];
      } else {
        var rest: seq<seq<byte>>;
        rest, end := LoadMultipleAt(end, sizes[1..]);
        objects := [first] + rest;
        FlattenCons(first, rest);
        assert sizes == [sizes[0]] + sizes[1..];
        assert buffer[offset..end] == buffer[offset..offset + sizes[0]] + buffer[offset + sizes[0]..end];
      }
    }

    /** saveMultipleAt (and saveMultiple, from offset 0): the objects back to back from offset. */
    method SaveMultipleAt(offset: nat, objects: seq<seq<byte>>) returns (end: nat)
      requires Valid()
      requires |objects| >= 1
      requires offset + PackSizeOf(Lengths(objects)) <= size
      modifies buffer
      ensures end == offset + PackSizeOf(Lengths(objects))
      ensures |Flatten(objects)| == end - offset
      ensures buffer[..] == Splice(old(buffer[..]), offset, Flatten(objects))
      decreases |objects|
    {
      FlattenLength(objects);
      PackSizeOfIsSum(Lengths(objects));
      FlattenCons(objects[0], objects[1..]);
      assert objects == [objects[0]] + objects[1..];
      end := SaveBytesAt(offset, objects[0]);
      if |objects| > 1 {
        end := SaveMultipleAt(end, objects[1..]);
        SpliceSplice(old(buffer[..]), offset, objects[0], offset + |objects[0]|, Flatten(objects[1..]));
      } else {
        assert objects[1..] == [];
      }
    }

    /** get(length): asio::buffer over the array, which never reaches past its end. */
    function Get(length: nat): (v: View)
      ensures v.offset == 0
      ensures v.length == Min(length, size)
    {
      View(0, Min(length, size))
    }

    /** getAt(offset, length): the raw range, unchecked. */
    function GetAt(offset: nat, length: nat): (v: View)
      ensures v.offset == offset && v.length == length
    {
      View(offset, length)
    }

    /** The bytes a view designates, when it lies inside the buffer. */
    function Designated(v: View): (r: seq<byte>)
      requires Valid()
      requires v.offset + v.length <= size
      reads buffer
      ensures |r| == v.length
    {
      buffer[v.offset..v.offset + v.length]
    }
  }
}

=== FILE: callbacks.dfy ===
// The results that an asynchronous request hands back to whoever started
// it, and the stack of pending callbacks a session keeps
// (WozekServer/asio_lib/callbackStack.hpp). A callback on the stack is
// modelled by a handle of the owner's choosing; invoking it is an event the
// owning session records.

module Callbacks {
  import opened Base

  /** The three outcomes a request reports. */
  datatype Status = Good | Error | CriticalError

  /** The value a ValueCallbackResult carries: the echoed text, or an id or code. */
  datatype Payload = Text(text: string) | Number(n: int)

  /**
   * A CallbackResult, or a ValueCallbackResult<T> when a payload is
   * present. Only the status is common to both.
   */
  datatype CallbackResult = CallbackResult(status: Status, payload: Option<Payload>)

  /** CallbackResult(status_ = Status::Good). */
  function MakeResult(status: Status := Good): (r: CallbackResult)
    ensures r.status == status
    ensures r.payload.None?
  {
    CallbackResult(status, None)
  }

  /** ValueCallbackResult<T>(status_ = Status::Good) once its value is assigned. */
  function MakeValueResult(value: Payload, status: Status := Good): (r: CallbackResult)
    ensures r.status == status
    ensures r.payload == Some(value)
  {
    CallbackResult(status, Some(value))
  }

  /** isCritical(). */
  predicate IsCritical(r: CallbackResult)
  {
    r.status == CriticalError
  }

  /** A default-constructed result, with or without a value, is Good and so not critical. */
  lemma DefaultsAreGood(v: Payload)
    ensures MakeResult().status == Good && !IsCritical(MakeResult())
    ensures MakeValueResult(v).status == Good && !IsCritical(MakeValueResult(v))
  {
  }

  /** Exactly one of the three statuses is critical. */
  lemma CriticalIffCriticalError(r: CallbackResult)
    ensures IsCritical(r) <==> !(r.status == Good || r.status == Error)
  {
  }

  // ---------------------------------------------------------------------
  // CallbackStack: a std::stack, modelled as a sequence whose last element
  // is the top.
  // ---------------------------------------------------------------------

  function Top<C>(s: seq<C>): C
    requires |s| > 0
  {
    s[|s| - 1]
  }

  function Pop<C>(s: seq<C>): (r: seq<C>)
    requires |s| > 0
    ensures |r| == |s| - 1
  {
    s[..|s| - 1]
  }

  /** push: the new element is on top, and popping it gives the old stack back. */
  function Push<C>(s: seq<C>, c: C): (r: seq<C>)
    ensures |r| == |s| + 1
    ensures Top(r) == c
    ensures Pop(r) == s
  {
    s + [c]
  }

  /** Pushes the elements of xs in order. */
  function PushAll<C>(s: seq<C>, xs: seq<C>): (r: seq<C>)
    decreases |xs|
  {
    if |xs| == 0 then s else PushAll(Push(s, xs[0]), xs[1..])
  }

  /** Pops n elements, giving them in the order they come off and the remaining stack. */
  function PopN<C>(s: seq<C>, n: nat): (r: (seq<C>, seq<C>))
    requires n <= |s|
    decreases n
  {
    if n == 0 then ([], s)
    else
      var (popped, rest) := PopN(Pop(s), n - 1);
      ([Top(s)] + popped, rest)
  }

  function Reverse<C>(xs: seq<C>): (r: seq<C>)
    ensures |r| == |xs|
  {
    if |xs| == 0 then [] else Reverse(xs[1..]) + [xs[0]]
  }

  lemma {:induction false} PushAllLength<C>(s: seq<C>, xs: seq<C>)
    ensures PushAll(s, xs) == s + xs
    decreases |xs|
  {
    if |xs| > 0 {
      PushAllLength(Push(s, xs[0]), xs[1..]);
      assert s + [xs[0]] + xs[1..] == s + xs;
    }
  }

  /**
   * The stack is last-in first-out: after pushing xs, popping |xs| elements
   * yields xs in reverse order and leaves the stack as it was.
   */
  lemma {:induction false} LastInFirstOut<C>(s: seq<C>, xs: seq<C>)
    ensures |PushAll(s, xs)| == |s| + |xs|
    ensures PopN(PushAll(s, xs), |xs|) == (Reverse(xs), s)
    decreases |xs|
  {
    PushAllLength(s, xs);
    if |xs| > 0 {
      var n := |xs|;
      var last := xs[n - 1];
      var init := xs[..n - 1];
      assert xs == init + [last];
      var t := s + xs;
      assert Top(t) == last;
      assert Pop(t) == s + init;
      PushAllLength(s, init);
      LastInFirstOut(s, init);
      ReverseSnoc(init, last);
    }
  }

  lemma {:induction false} ReverseSnoc<C>(xs: seq<C>, x: C)
    ensures Reverse(xs + [x]) == [x] + Reverse(xs)
    decreases |xs|
  {
    if |xs| == 0 {
      assert xs + [x] == [x];
    } else {
      assert (xs + [x])[1..] == xs[1..] + [x];
      ReverseSnoc(xs[1..], x);
    }
  }
}

=== FILE: client_echo.dfy ===
// The host client's heartbeat and TCP echo (WozekHostClient/ClientTCP.cpp).
// The echo request is the request id byte, the message, and a NUL; the
// response is read one byte at a time into the session's echo buffer until
// a NUL arrives, and the buffer is then handed to the callback stack as the
// result's value. The socket is outside the model: whether a write fails
// comes in as a parameter, the bytes written are appended to a log, and
// each result returned to the callback stack is appended to another.

module ClientEcho {
  import opened Base
  import opened Callbacks
  import Datagrams

  /** The session's state variant, as far as the echo uses it. */
  datatype SessionState = Empty | EchoMessageBuffer(buffer: seq<byte>)

  /** The request id byte: EchoRequest::request_id narrowed to a char. */
  const EchoRequestByte: byte := Datagrams.EchoRequestId as int % 256

  /** A std::string's bytes as the characters of the text it holds. */
  function AsText(b: seq<byte>): (s: string)
    ensures |s| == |b|
    ensures forall i :: 0 <= i < |b| ==> s[i] as int == b[i]
  {
    seq(|b|, i requires 0 <= i < |b| => b[i] as char)
  }

  /** The three writes of performEchoRequest: the id byte, the message, the NUL. */
  function EchoWrites(message: seq<byte>): (w: seq<seq<byte>>)
    ensures |w| == 3
  {
    [[EchoRequestByte], message, [0]]
  }

  /** Everything performEchoRequest sends when no write fails. */
  function EchoRequest(message: seq<byte>): (r: seq<byte>)
    ensures |r| == |message| + 2
    ensures r[0] == EchoRequestByte && r[|r| - 1] == 0 && r[1..|r| - 1] == message
  {
    [EchoRequestByte] + message + [0]
  }

  /** The writes done before each one: nothing, the id byte, the id byte and the message, and then the whole request. */
  lemma EchoWritesSendRequest(message: seq<byte>)
    ensures Flatten(EchoWrites(message)[..0]) == []
    ensures Flatten(EchoWrites(message)[..1]) == [EchoRequestByte]
    ensures Flatten(EchoWrites(message)[..2]) == [EchoRequestByte] + message
    ensures Flatten(EchoWrites(message)[..3]) == Flatten(EchoWrites(message)) == EchoRequest(message)
  {
    var w := EchoWrites(message);
    var none: seq<seq<byte>> := [];
    assert w[..1][..0] == none && Flatten(none) == [];
    assert Flatten(w[..1]) == [EchoRequestByte];
    assert w[..2][..1] == w[..1];
    assert Flatten(w[..2]) == [EchoRequestByte] + message;
    assert w[..3] == w;
  }

  // ---------------------------------------------------------------------
  // NUL framing
  // ---------------------------------------------------------------------

  /**
   * What the response handler delivers after the bytes of input, starting
   * from the buffer collected so far: the buffer once a NUL arrives, or
   * None while no NUL has arrived.
   */
  function Collect(buffer: seq<byte>, input: seq<byte>): (r: Option<seq<byte>>)
    decreases |input|
  {
    if |input| == 0 then None
    else if input[0] == 0 then Some(buffer)
    else Collect(buffer + [input[0]], input[1..])
  }

  /** Bytes without a NUL keep the handler waiting, their bytes appended to the buffer. */
  lemma {:induction false} CollectWaits(buffer: seq<byte>, input: seq<byte>)
    requires 0 !in input
    ensures Collect(buffer, input).None?
    decreases |input|
  {
    if |input| > 0 {
      assert 0 !in input[1..] by { assert forall k :: 0 <= k < |input| - 1 ==> input[1..][k] == input[k + 1]; }
      CollectWaits(buffer + [input[0]], input[1..]);
    }
  }

  /** The bytes before the first NUL are delivered, appended to the buffer; the NUL and what follows it are not. */
  lemma {:induction false} CollectDelivers(buffer: seq<byte>, text: seq<byte>, rest: seq<byte>)
    requires 0 !in text
    ensures Collect(buffer, text + [0] + rest) == Some(buffer + text)
    decreases |text|
  {
    var input := text + [0] + rest;
    if |text| == 0 {
      assert input[0] == 0;
      assert buffer + text == buffer;
    } else {
      assert input[1..] == text[1..] + [0] + rest;
      assert 0 !in text[1..] by { assert forall k :: 0 <= k < |text| - 1 ==> text[1..][k] == text[k + 1]; }
      CollectDelivers(buffer + [text[0]], text[1..], rest);
      assert buffer + [text[0]] + text[1..] == buffer + text;
    }
  }

  /**
   * The framing round trip: a peer that sends back the part of the request
   * after the id byte makes the client deliver the message, provided the
   * message holds no NUL. A NUL inside the message cuts it short there.
   */
  lemma EchoRoundTrip(message: seq<byte>)
    requires 0 !in message
    ensures Collect([], EchoRequest(message)[1..]) == Some(message)
  {
    var r := EchoRequest(message);
    assert r[1..] == message + [0] + [];
    CollectDelivers([], message, []);
    assert [] + message == message;
  }

  /** A message holding a NUL at index k comes back cut to its first k bytes. */
  lemma EchoCutAtNul(message: seq<byte>, k: nat)
    requires k < |message| && message[k] == 0 && 0 !in message[..k]
    ensures Collect([], EchoRequest(message)[1..]) == Some(message[..k])
  {
    var r := EchoRequest(message);
    assert r[1..] == message[..k] + [0] + (message[k + 1..] + [0]);
    CollectDelivers([], message[..k], message[k + 1..] + [0]);
    assert [] + message[..k] == message[..k];
  }

  // ---------------------------------------------------------------------
  // The session
  // ---------------------------------------------------------------------

  class EchoSession {
    /** The bytes written to the socket, in order. */
    var sent: seq<byte>
    /** The state variant. */
    var state: SessionState
    /** The results returned to the callback stack, in order. */
    var results: seq<CallbackResult>
    /** Whether a one-byte read of the echo response is pending. */
    var reading: bool

    /** A connected session with nothing sent and no state. */
    constructor ()
      ensures sent == [] && state == Empty && results == [] && !reading
    {
      sent := [];
      state := Empty;
      results := [];
      reading := false;
    }

    /** errorCritical: a CriticalError result goes to the callback stack. */
    method ErrorCritical()
      modifies this
      ensures results == old(results) + [MakeResult(CriticalError)]
      ensures sent == old(sent) && state == old(state) && reading == old(reading)
    {
      results := results + [MakeResult(CriticalError)];
    }

    /** The error branch of receiveEchoResponsePart's read: the read is over, and errorCritical reports it. */
    method EchoReadFailed()
      modifies this
      ensures results == old(results) + [MakeResult(CriticalError)]
      ensures sent == old(sent) && state == old(state) && !reading
    {
      reading := false;
      ErrorCritical();
    }

    /** sendHeartbeat: one 0x00 byte, then a Good result; a failed write is a CriticalError instead. */
    method SendHeartbeat(writeFails: bool)
      modifies this
      ensures sent == old(sent) + if writeFails then [] else [Datagrams.HeartbeatCode]
      ensures results == old(results) + [MakeResult(if writeFails then CriticalError else Good)]
      ensures state == old(state) && reading == old(reading)
    {
      if writeFails {
        ErrorCritical();
        return;
      }
      sent := sent + [Datagrams.HeartbeatCode];
      results := results + [MakeResult(Good)];
    }

    /**
     * performEchoRequest: the three writes, in order, until one fails,
     * which ends the request with a CriticalError; write i fails exactly
     * when i == failingWrite. After the last write the state becomes an
     * empty echo buffer and the first response byte is awaited.
     */
    method PerformEchoRequest(message: seq<byte>, failingWrite: nat)
      modifies this
      ensures var done := Min(failingWrite, 3);
        sent == old(sent) + Flatten(EchoWrites(message)[..done])
      ensures failingWrite < 3 ==>
        results == old(results) + [MakeResult(CriticalError)] && state == old(state) && reading == old(reading)
      ensures failingWrite >= 3 ==>
        results == old(results) && state == EchoMessageBuffer([]) && reading
    {
      EchoWritesSendRequest(message);
      if failingWrite == 0 {
        ErrorCritical();
        return;
      }
      sent := sent + [EchoRequestByte];
      if failingWrite == 1 {
        ErrorCritical();
        return;
      }
      sent := sent + message;
      if failingWrite == 2 {
        ErrorCritical();
        return;
      }
      sent := sent + [0];
      state := EchoMessageBuffer([]);
      reading := true;
    }

    /**
     * handleEchoResponsePart: a NUL finishes the echo (finilizeEcho hands
     * the buffer over as the result's value and resets the state); any
     * other byte is appended and the next one awaited.
     */
    method HandleEchoResponsePart(c: byte)
      requires state.EchoMessageBuffer?
      modifies this
      ensures sent == old(sent)
      ensures c == 0 ==> results == old(results) + [MakeValueResult(Text(AsText(old(state).buffer)))]
                         && state == Empty && !reading
      ensures c != 0 ==> results == old(results) && state == EchoMessageBuffer(old(state).buffer + [c]) && reading
    {
      if c == 0 {
        var received := state.buffer;
        state := Empty;
        results := results + [MakeValueResult(Text(AsText(received)))];
        reading := false;
        return;
      }
      state := EchoMessageBuffer(state.buffer + [c]);
      reading := true;
    }
  }
}

=== FILE: client_tcp.dfy ===
// The host client's requests over TCP (WozekHostClient/TCP.cpp): host
// registration, the map upload and download handshakes, and the two file
// transfers that follow an accepted handshake. Each request ends by
// handing requestCallback a verdict. The socket is outside the model: the
// reply a request gets, or the transport error instead of it, comes in as
// a parameter, and so does whether a file could be opened, read or
// written.

module ClientTcp {
  import opened Base
  import Datagrams
  import ConnectionHandler
  import Database
  import ServerRequests
  import opened SegmentedTransfer
  import TransferStates
  import ServerTransfer

  /** The verdict handed to requestCallback. */
  datatype CallbackCode = Success | Error | CriticalError

  /** How a map handshake ends: with a verdict, or with a transfer of totalSize bytes. */
  datatype Handshake = Finish(code: CallbackCode) | Transfer(totalSize: u64)

  /** The segment length the client uploads with. */
  const UploadSegmentLength: nat := 1300

  // ---------------------------------------------------------------------
  // Requests
  // ---------------------------------------------------------------------

  /** registerAsNewHost's request: the 1-byte code, then the host header. */
  function RegisterNewHostRequest(h: Datagrams.HostHeader): (b: seq<byte>)
    requires Datagrams.HostHeaderValid(h)
    ensures |b| == 1 + Datagrams.IdSize + Datagrams.HostNameSize
  {
    [Datagrams.RegisterNewHostCode] + Datagrams.EncodeHostHeader(h)
  }

  /** uploadMap's request: the code, then the client's id and the file's size. */
  function UploadMapRequest(hostId: u32, totalMapSize: u64): (b: seq<byte>)
    ensures |b| == 17
  {
    [Datagrams.UploadMapCode] + Datagrams.EncodeUploadMapRequest(Datagrams.UploadMapRequest(hostId, totalMapSize))
  }

  /** downloadMap's request: the code, then the id of the host whose map is wanted. */
  function DownloadMapRequest(hostId: u32): (b: seq<byte>)
    ensures |b| == 1 + Datagrams.IdSize
  {
    [Datagrams.DownloadMapCode] + Datagrams.EncodeDownloadMapRequest(hostId)
  }

  /** The server dispatches a registration request to its handler and decodes the header the client filled in. */
  lemma RegisterRequestReachesServer(h: Datagrams.HostHeader)
    requires Datagrams.HostHeaderValid(h)
    ensures ServerRequests.Dispatch(RegisterNewHostRequest(h)[0]) == ServerRequests.RegisterNewHost
    ensures Datagrams.DecodeHostHeader(RegisterNewHostRequest(h)[1..]) == h
  {
    assert RegisterNewHostRequest(h)[1..] == Datagrams.EncodeHostHeader(h);
    Datagrams.HostHeaderRoundTrip(h);
  }

  /** The server dispatches an upload request to its handler and decodes the client's id and the file's size. */
  lemma UploadRequestReachesServer(hostId: u32, totalMapSize: u64)
    ensures ServerRequests.Dispatch(UploadMapRequest(hostId, totalMapSize)[0]) == ServerRequests.UploadMap
    ensures Datagrams.DecodeUploadMapRequest(UploadMapRequest(hostId, totalMapSize)[1..])
              == Datagrams.UploadMapRequest(hostId, totalMapSize)
  {
    var u := Datagrams.UploadMapRequest(hostId, totalMapSize);
    assert UploadMapRequest(hostId, totalMapSize)[1..] == Datagrams.EncodeUploadMapRequest(u);
    Datagrams.UploadMapRequestRoundTrip(u);
  }

  /** The server dispatches a download request to its handler and decodes the host id. */
  lemma DownloadRequestReachesServer(hostId: u32)
    ensures ServerRequests.Dispatch(DownloadMapRequest(hostId)[0]) == ServerRequests.DownloadMap
    ensures Datagrams.DecodeDownloadMapRequest(DownloadMapRequest(hostId)[1..]) == hostId
  {
    assert DownloadMapRequest(hostId)[1..] == Datagrams.EncodeDownloadMapRequest(hostId);
    Datagrams.DownloadMapRequestRoundTrip(hostId);
  }

  // ---------------------------------------------------------------------
  // Replies
  // ---------------------------------------------------------------------

  /** The registration reply's verdict: Failure is an Error, any other code a Success. */
  function RegisterVerdict(code: byte): (v: CallbackCode)
    ensures v == Error <==> code == Datagrams.FailureCode
    ensures v != CriticalError
  {
    if code == Datagrams.FailureCode then Error else Success
  }

  /**
   * The upload reply: DenyAccess and InvalidSize are Errors, an unknown
   * code is a CriticalError, and Accept starts the upload of the file.
   */
  function UploadVerdict(code: byte, totalMapSize: u64): (h: Handshake)
    ensures h == Finish(Error) <==> code == Datagrams.DenyAccessCode || code == Datagrams.InvalidSizeCode
    ensures h.Transfer? <==> code == Datagrams.AcceptCode
    ensures h.Transfer? ==> h.totalSize == totalMapSize
    ensures h.Finish? ==> h.code != Success
  {
    if code == Datagrams.DenyAccessCode then Finish(Error)
    else if code == Datagrams.InvalidSizeCode then Finish(Error)
    else if code != Datagrams.AcceptCode then Finish(CriticalError)
    else Transfer(totalMapSize)
  }

  /**
   * The download reply: DenyAccess is an Error, any other code but Accept,
   * InvalidSize included, a CriticalError; Accept starts the download of
   * the announced size.
   */
  function DownloadVerdict(r: Datagrams.DownloadMapResponse): (h: Handshake)
    ensures h == Finish(Error) <==> r.code == Datagrams.DenyAccessCode
    ensures h == Finish(CriticalError) <==> r.code != Datagrams.DenyAccessCode && r.code != Datagrams.AcceptCode
    ensures h.Transfer? <==> r.code == Datagrams.AcceptCode
    ensures h.Transfer? ==> h.totalSize == r.totalMapSize
  {
    if r.code == Datagrams.DenyAccessCode then Finish(Error)
    else if r.code != Datagrams.AcceptCode then Finish(CriticalError)
    else Transfer(r.totalMapSize)
  }

  /**
   * Against the server's registration, which decodes the header the
   * client sent and forces its name's last byte to NUL: the client's
   * verdict is a Success
   * exactly when the server registered the connection, and then the id the
   * client adopts is the one the server gave the connection; never a
   * CriticalError.
   */
  lemma RegisterVerdictMatchesServer(connType: ConnectionHandler.ConnectionType, connId: u32,
                                     hosts: map<Database.Id, Database.Host>, header: Datagrams.HostHeader,
                                     freshId: Database.Id, self: Database.ConnectionRef)
    requires Datagrams.HostHeaderValid(header)
    requires connType == ConnectionHandler.NoType && header.id == 0 ==> freshId !in hosts
    ensures Datagrams.DecodeHostHeader(RegisterNewHostRequest(header)[1..]) == header
    ensures var r := ServerRequests.Register(connType, connId, hosts, ServerRequests.SanitiseName(header), freshId, self);
      var reply := Datagrams.DecodeCodeAndId(Datagrams.EncodeCodeAndId(r.response));
      && RegisterVerdict(reply.code) != CriticalError
      && (RegisterVerdict(reply.code) == Success <==> r.response.code == Datagrams.SuccessCode)
      && (RegisterVerdict(reply.code) == Success ==> reply.id == r.connId && r.connType == ConnectionHandler.Host)
  {
    RegisterRequestReachesServer(header);
    var received := ServerRequests.SanitiseName(header);
    ServerRequests.RegisterOutcome(connType, connId, hosts, received, freshId, self);
    var r := ServerRequests.Register(connType, connId, hosts, received, freshId, self);
    Datagrams.CodeAndIdRoundTrip(r.response);
  }

  /**
   * Against the server's upload handler: the client uploads exactly when
   * the server accepts, with the size it announced; an empty file is
   * always refused with an Error; never a CriticalError.
   */
  lemma UploadVerdictMatchesServer(connType: ConnectionHandler.ConnectionType, connId: u32, clientId: u32, totalMapSize: u64)
    ensures var req := Datagrams.DecodeUploadMapRequest(UploadMapRequest(clientId, totalMapSize)[1..]);
      var next := UploadVerdict(ServerRequests.UploadMapResponse(connType, connId, req), totalMapSize);
      && next != Finish(CriticalError)
      && (next.Transfer? <==> totalMapSize > 0 && connType == ConnectionHandler.Host && connId == clientId)
      && (totalMapSize == 0 ==> next == Finish(Error))
  {
    UploadRequestReachesServer(clientId, totalMapSize);
  }

  /**
   * Against the server's download handler, which replies DenyAccess with
   * size 0 or Accept with the file's size: the client downloads exactly
   * on Accept, that many bytes, and otherwise reports an Error, never a
   * CriticalError.
   */
  lemma DownloadVerdictMatchesServer(response: Datagrams.DownloadMapResponse)
    requires response == Datagrams.DownloadMapResponse(Datagrams.DenyAccessCode, 0) || response.code == Datagrams.AcceptCode
    ensures var next := DownloadVerdict(Datagrams.DecodeDownloadMapResponse(Datagrams.EncodeDownloadMapResponse(response)));
      && next != Finish(CriticalError)
      && (next.Transfer? <==> response.code == Datagrams.AcceptCode)
      && (next.Transfer? ==> next.totalSize == response.totalMapSize)
  {
    Datagrams.DownloadMapResponseRoundTrip(response);
  }

  // ---------------------------------------------------------------------
  // The connection
  // ---------------------------------------------------------------------

  /** The client's connection to the server, with the id the server gave it (0 until registered). */
  class HostConnection {
    var id: u32

    constructor ()
      ensures id == 0
    {
      id := 0;
    }

    /**
     * registerAsNewHost: send the request; a transport error on the write
     * or the read is a CriticalError; otherwise the reply's verdict, and a
     * Success adopts the reply's id.
     */
    method RegisterAsNewHost(header: Datagrams.HostHeader, reply: Option<seq<byte>>)
      returns (request: seq<byte>, verdict: CallbackCode)
      requires Datagrams.HostHeaderValid(header)
      requires reply.Some? ==> |reply.value| == 8
      modifies this
      ensures request == RegisterNewHostRequest(header)
      ensures reply.None? ==> verdict == CriticalError && id == old(id)
      ensures reply.Some? ==>
        var response := Datagrams.DecodeCodeAndId(reply.value);
        && verdict == RegisterVerdict(response.code)
        && id == (if verdict == Success then response.id else old(id))
    {
      request := RegisterNewHostRequest(header);
      if reply.None? {
        return request, CriticalError;
      }
      var response := Datagrams.DecodeCodeAndId(reply.value);
      verdict := RegisterVerdict(response.code);
      if verdict == Success {
        id := response.id;
      }
    }

    /**
     * uploadMap: a path that is not a regular file is an Error and nothing
     * is sent; otherwise the request carries this connection's id and the
     * file's size, and the reply decides.
     */
    method UploadMap(isRegularFile: bool, file: seq<byte>, reply: Option<byte>)
      returns (request: Option<seq<byte>>, next: Handshake)
      requires |file| < U64_LIMIT
      ensures !isRegularFile ==> request.None? && next == Finish(Error)
      ensures isRegularFile ==> request == Some(UploadMapRequest(id, |file|))
      ensures isRegularFile && reply.None? ==> next == Finish(CriticalError)
      ensures isRegularFile && reply.Some? ==> next == UploadVerdict(reply.value, |file|)
    {
      if !isRegularFile {
        return None, Finish(Error);
      }
      request := Some(UploadMapRequest(id, |file|));
      if reply.None? {
        return request, Finish(CriticalError);
      }
      next := UploadVerdict(reply.value, |file|);
    }

    /**
     * downloadMap: a target file that cannot be opened is an Error and
     * nothing is sent; otherwise the request names the host, and the reply
     * decides.
     */
    method DownloadMap(hostId: u32, canOpen: bool, reply: Option<seq<byte>>)
      returns (request: Option<seq<byte>>, next: Handshake)
      requires reply.Some? ==> |reply.value| == 16
      ensures !canOpen ==> request.None? && next == Finish(Error)
      ensures canOpen ==> request == Some(DownloadMapRequest(hostId))
      ensures canOpen && reply.None? ==> next == Finish(CriticalError)
      ensures canOpen && reply.Some? ==> next == DownloadVerdict(Datagrams.DecodeDownloadMapResponse(reply.value))
    {
      if !canOpen {
        return None, Finish(Error);
      }
      request := Some(DownloadMapRequest(hostId));
      if reply.None? {
        return request, Finish(CriticalError);
      }
      next := DownloadVerdict(Datagrams.DecodeDownloadMapResponse(reply.value));
    }
  }

  // ---------------------------------------------------------------------
  // Transfers
  // ---------------------------------------------------------------------

  /** Where a transfer stands: still going, requestCallback called with a verdict, or stopped by a failed assertion. */
  datatype Status = Running | Done(code: CallbackCode) | Crashed

  /**
   * The download's header check as written wraps like the server's: after
   * one byte of a 100-byte map, the header bytes of a segment announcing
   * 2^64 - 1 bytes pass it, and so does the data receiver's size_t
   * assertion, where the corrected test refuses the segment.
   */
  lemma DownloadHeaderAsWrittenWraps()
    ensures var header := Datagrams.EncodeSegmentHeader(U64_LIMIT - 1);
      && |header| == Datagrams.SizeTSize
      && !ServerTransfer.ExceedsTotalAsWritten(Datagrams.DecodeSegmentHeader(header), 1, 100)
      && (Datagrams.DecodeSegmentHeader(header) + 1) % U64_LIMIT <= 100
      && ServerTransfer.ExceedsTotal(Datagrams.DecodeSegmentHeader(header), 1, 100)
  {
    Datagrams.SegmentHeaderRoundTrip(U64_LIMIT - 1);
    ServerTransfer.ExceedsTotalAsWrittenLetsHugeSegmentThrough();
  }

  /**
   * initiateFileDownload's state. Every data byte read from the socket is
   * in the file or in the used part of the staging buffer, in order, until
   * a CriticalError; an ack is Finished exactly when the bytes read reach
   * the announced size.
   */
  class Download {
    const totalSize: u64
    /** Whether the target file could be opened. */
    const fileOpen: bool
    const state: TransferStates.BigBufferCursor
    /** The file being written: what the flushes have written. */
    var file: seq<byte>
    /** Every data byte read from the socket, in order. */
    ghost var stream: seq<byte>
    var step: ReadStep
    /** The ack codes written, in order. */
    var acks: seq<byte>
    /** totalBytesReceived when each ack was decided. */
    ghost var ackedAt: seq<nat>
    var status: Status

    /** What holds between any two steps. */
    ghost predicate Core()
      reads this, state, state.bigBuffer
    {
      && state.Valid()
      && state.bigBuffer.Length == (if fileOpen then ServerTransfer.BufferSize(totalSize) else 0)
      && (status != Done(CriticalError) ==>
            && state.total == |stream| <= totalSize
            && |file| + state.bigBufferTop == |stream|
            && file + state.bigBuffer[..state.bigBufferTop] == stream)
      && |acks| == |ackedAt|
      && (forall i :: 0 <= i < |acks| ==>
            acks[i] == if ackedAt[i] == totalSize then Datagrams.AckFinishedCode else Datagrams.AckContinueCode)
      && (status == Done(Success) ==> file == stream && |stream| == totalSize)
      && (!fileOpen ==> status == Done(CriticalError))
    }

    /** While running, the download waits for a header, for the data of a segment that fits, or to send its ack. */
    ghost predicate Valid()
      reads this, state, state.bigBuffer
    {
      && Core()
      && status != Crashed
      && (status == Running ==>
            || (step.call == ReceiveHeader && step.phase.HeaderAwaited?)
            || (&& step.phase.DataAwaited? && step.call == ReceiveData(step.phase.remainingSegment)
                && 0 < step.phase.remainingSegment && state.total + step.phase.remainingSegment <= totalSize)
            || (step.phase.AckAwaited? && step.call == SendAck))
    }

    /**
     * Opens the target file, which failing is a CriticalError; then sizes
     * the buffer to min(totalSize, 4 MiB) with its top at 0 and starts
     * readFile.
     */
    constructor (totalSize: u64, openOk: bool)
      ensures Valid() && fresh(state)
      ensures this.totalSize == totalSize && step == ReadFile(totalSize)
      ensures status == if openOk then Running else Done(CriticalError)
      ensures file == [] && acks == [] && stream == []
    {
      this.totalSize := totalSize;
      fileOpen := openOk;
      state := new TransferStates.BigBufferCursor();
      file := [];
      stream := [];
      step := ReadFile(totalSize);
      acks := [];
      ackedAt := [];
      status := if openOk then Running else Done(CriticalError);
      new;
      if openOk {
        state.Resize(ServerTransfer.BufferSize(totalSize));
      }
    }

    /**
     * flushBufferToFile: nothing to do when the buffer is empty; otherwise
     * write it out and empty it. It reports a failed write (here !writeOk),
     * after which the bytes are lost.
     */
    method Flush(writeOk: bool) returns (failed: bool)
      requires state.Valid()
      modifies this, state
      ensures failed <==> old(state.bigBufferTop) != 0 && !writeOk
      ensures !failed ==> file == old(file) + old(state.bigBuffer[..state.bigBufferTop])
      ensures failed ==> file == old(file)
      ensures state.bigBufferTop == 0 && state.Valid()
      ensures state.bigBuffer == old(state.bigBuffer) && state.total == old(state.total)
      ensures stream == old(stream) && step == old(step) && status == old(status)
      ensures acks == old(acks) && ackedAt == old(ackedAt)
    {
      if state.bigBufferTop == 0 {
        return false;
      }
      if writeOk {
        file := file + state.bigBuffer[..state.bigBufferTop];
      }
      state.bigBufferTop := 0;
      failed := !writeOk;
    }

    /**
     * The header receiver's completion with the 8 bytes read: a segment
     * that would pass the announced size is a CriticalError; otherwise its
     * data is read, or for an empty segment the ack is next.
     */
    method OnHeader(receivedBytes: seq<byte>)
      requires Valid() && status == Running && step.call == ReceiveHeader
      requires |receivedBytes| == Datagrams.SizeTSize
      modifies this
      ensures Valid() && stream == old(stream) && file == old(file) && acks == old(acks)
      ensures var size := Datagrams.DecodeSegmentHeader(receivedBytes);
        && (ServerTransfer.ExceedsTotal(size, state.total, totalSize) ==> status == Done(CriticalError))
        && (!ServerTransfer.ExceedsTotal(size, state.total, totalSize) ==>
              status == Running && step == ReadSegmentData(old(step).phase.remainingFile, size, size))
    {
      var s := HeaderReceived(step.phase, receivedBytes);
      if ServerTransfer.ExceedsTotal(s.call.size, state.total, totalSize) {
        status := Done(CriticalError);
        return;
      }
      step := Verified(s.phase);
    }

    /**
     * The header verifier as written: header.size + totalBytesReceived is
     * a size_t sum, which wraps, so a huge segment can pass and its data
     * is then asked for although it runs past the announced size. The
     * receiver's invariant is lost then, which OnHeader, the corrected
     * test, never allows.
     */
    method OnHeaderAsWritten(receivedBytes: seq<byte>)
      requires Valid() && status == Running && step.call == ReceiveHeader
      requires |receivedBytes| == Datagrams.SizeTSize
      modifies this
      ensures Core() && stream == old(stream) && file == old(file) && acks == old(acks)
      ensures var size := Datagrams.DecodeSegmentHeader(receivedBytes);
        && (ServerTransfer.ExceedsTotalAsWritten(size, state.total, totalSize) ==> status == Done(CriticalError))
        && (!ServerTransfer.ExceedsTotalAsWritten(size, state.total, totalSize) ==>
              status == Running && step == ReadSegmentData(old(step).phase.remainingFile, size, size))
    {
      var s := HeaderReceived(step.phase, receivedBytes);
      if ServerTransfer.ExceedsTotalAsWritten(s.call.size, state.total, totalSize) {
        status := Done(CriticalError);
        return;
      }
      step := Verified(s.phase);
    }

    /** How many bytes the data receiver asks for once the buffer is flushed: the rest of the segment, at most a full buffer. */
    function ReadLength(): (n: nat)
      requires Valid() && status == Running && step.call.ReceiveData?
      reads this, state, state.bigBuffer
      ensures 0 < n <= step.phase.remainingSegment && n <= state.bigBuffer.Length
      ensures n == step.phase.remainingSegment || n == state.bigBuffer.Length
    {
      Min(step.phase.remainingSegment, state.bigBuffer.Length)
    }

    /**
     * The data receiver: it flushes what the buffer holds (a failed write
     * is a CriticalError), then reads min(rest of segment, free buffer)
     * bytes to the buffer's top, and the skeleton asks for the rest of the
     * segment or moves on to the ack.
     */
    method OnData(writeOk: bool, chunk: seq<byte>)
      requires Valid() && status == Running && step.call.ReceiveData?
      requires |chunk| == ReadLength()
      modifies this, state, state.bigBuffer
      ensures Valid()
      ensures status == Done(CriticalError) <==> old(state.bigBufferTop) != 0 && !writeOk
      ensures status == Running ==>
        && stream == old(stream) + chunk
        && file + chunk == stream
        && step == ReadSegmentData(old(step).phase.remainingFile, old(step).phase.header, old(step).phase.remainingSegment - |chunk|)
    {
      var failed := Flush(writeOk);
      if failed {
        status := Done(CriticalError);
        return;
      }
      state.WriteAtEnd(chunk);
      state.Advance(|chunk|);
      stream := stream + chunk;
      step := DataReceived(step.phase, |chunk|);
    }

    /**
     * The ack sender: once every announced byte is in, a last flush (a
     * failed write is a CriticalError), then Finished, whose write
     * completing is the Success; before that, Continue and on to the next
     * header. A failed ack write is a CriticalError.
     */
    method AckSender(flushOk: bool, writeOk: bool)
      requires Valid() && status == Running && step.call == SendAck
      modifies this, state
      ensures Valid()
      ensures stream == old(stream) && state.total == old(state.total)
      ensures old(state.total) == totalSize ==>
        || (status == Done(CriticalError) && acks == old(acks) && old(state.bigBufferTop) != 0 && !flushOk)
        || (acks == old(acks) + [Datagrams.AckFinishedCode] && status == Done(if writeOk then Success else CriticalError))
      ensures old(state.total) < totalSize ==>
        && acks == old(acks) + [Datagrams.AckContinueCode]
        && status == (if writeOk then Running else Done(CriticalError))
        && (writeOk ==> step == AckSent(old(step).phase))
    {
      if state.total == totalSize {
        var failed := Flush(flushOk);
        if failed {
          status := Done(CriticalError);
          return;
        }
        acks := acks + [Datagrams.AckFinishedCode];
        ackedAt := ackedAt + [state.total];
        status := Done(if writeOk then Success else CriticalError);
        return;
      }
      acks := acks + [Datagrams.AckContinueCode];
      ackedAt := ackedAt + [state.total];
      if !writeOk {
        status := Done(CriticalError);
        return;
      }
      step := AckSent(step.phase);
    }

    /** A read or write completing with an error: the errorHandler's CriticalError. */
    method OnTransportError()
      requires Valid() && status == Running
      modifies this
      ensures Valid() && status == Done(CriticalError)
      ensures file == old(file) && stream == old(stream) && acks == old(acks)
    {
      status := Done(CriticalError);
    }
  }

  /**
   * initiateFileUpload's state. The data written so far is exactly the
   * file's first totalBytesSent bytes, and the staging buffer holds the
   * file from the offset of its last read; after a CriticalError nothing
   * more is promised about the buffer.
   */
  class Upload {
    /** The file's contents; its size is the announced total. */
    const source: seq<byte>
    const totalSize: u64
    const state: TransferStates.BigBufferCursor
    /** The header last saved to the main buffer. */
    var header: u64
    var step: SendStep
    var writes: seq<ServerTransfer.SegmentWrite>
    var status: Status
    /** The file offset of the buffer's first byte since the last read. */
    ghost var base: nat

    /** What holds between any two steps. */
    ghost predicate Core()
      reads this, state, state.bigBuffer
    {
      && (status != Done(CriticalError) ==>
            ServerTransfer.SenderData(source, totalSize, state.bigBuffer[..], state.bigBufferTop, state.total, base, writes))
      && (status == Done(Success) ==> state.total == totalSize)
    }

    /**
     * While running, the upload waits to send the rest of a segment, or
     * for the ack; the segment is min(remaining, 1300) bytes, and the bytes
     * not yet sent are what the skeleton still has to cover.
     */
    ghost predicate Valid()
      reads this, state, state.bigBuffer
    {
      && Core()
      && (status == Running ==>
            && step.phase.maxSegment == UploadSegmentLength
            && step.phase.segment == Min(step.phase.remainingFile, UploadSegmentLength)
            && header == step.phase.segment
            && ((&& step.phase.DataPending? && step.call.Send?
                 && step.call.length == step.phase.remainingSegment <= step.phase.segment
                 && step.phase.remainingFile == totalSize - state.total + (step.phase.segment - step.phase.remainingSegment)
                 && (step.call.length > 0 || totalSize == 0))
                || (&& step.phase.AckPending? && step.call == HandleAck
                    && step.phase.remainingFile == totalSize - state.total + step.phase.segment)))
    }

    /**
     * Opens the file and reads min(size, 4 MiB) bytes of it into the
     * buffer with its top at 0, either failing being a CriticalError; then
     * starts sendFile, whose header consumer saves the header and asks the
     * sender for the whole first segment.
     */
    constructor (source: seq<byte>, openOk: bool, readOk: bool)
      requires |source| < U64_LIMIT
      ensures Valid() && fresh(state)
      ensures this.source == source && writes == []
      ensures status == if openOk && readOk then Running else Done(CriticalError)
      ensures status == Running ==> step == HeaderConsumed(SendFile(|source|, UploadSegmentLength).phase)
    {
      this.source := source;
      totalSize := |source|;
      state := new TransferStates.BigBufferCursor();
      var first := SendFile(|source|, UploadSegmentLength);
      header := first.call.size;
      step := HeaderConsumed(first.phase);
      writes := [];
      status := if openOk && readOk then Running else Done(CriticalError);
      base := 0;
      new;
      if openOk {
        var length := ServerTransfer.BufferSize(totalSize);
        state.Resize(length);
        if readOk {
          state.WriteAtEnd(source[..length]);
          assert source[..0] == [] && source[..length] == source[0..0 + length];
          ServerTransfer.ReloadKeepsSenderData(source, totalSize, state.bigBuffer[..], 0, writes, length);
        }
      }
    }

    /**
     * The sender's refill: only once the buffer is used up, read
     * min(total - sent, size) bytes of the file from offset sent into its
     * start, a failed read being a CriticalError. The bytes available are
     * what is left in the buffer, or what was just read.
     */
    method TryReload(readOk: bool) returns (available: nat)
      requires Core() && status == Running
      modifies this, state, state.bigBuffer
      ensures Core()
      ensures status == Done(CriticalError) <==> old(state.Remaining()) == 0 && !readOk
      ensures status != Done(CriticalError) ==> status == Running
      ensures old(state.Remaining()) != 0 ==> available == old(state.Remaining())
      ensures old(state.Remaining()) == 0 ==> available == Min(totalSize - state.total, state.bigBuffer.Length)
      ensures status == Running ==> available <= state.Remaining() && (available > 0 ==> state.bigBufferTop < state.bigBuffer.Length)
      ensures state.total == old(state.total) && state.bigBuffer == old(state.bigBuffer)
      ensures step == old(step) && writes == old(writes) && header == old(header)
    {
      available := state.Remaining();
      if available != 0 {
        return;
      }
      var length := Min(totalSize - state.total, state.bigBuffer.Length);
      state.bigBufferTop := 0;
      available := length;
      if !readOk {
        status := Done(CriticalError);
        return;
      }
      var total := state.total;
      state.WriteAtEnd(source[total..total + length]);
      base := total;
      ServerTransfer.ReloadKeepsSenderData(source, totalSize, state.bigBuffer[..], total, writes, length);
    }

    /** The write of n bytes from the buffer's top, which are the file's next n bytes, and advance. */
    method Emit(n: nat, withHeader: bool)
      requires Core() && status == Running
      requires n > 0 ==> state.bigBufferTop < state.bigBuffer.Length
      requires n <= state.Remaining() && state.total + n <= totalSize
      modifies this, state
      ensures Core()
      ensures state.total == old(state.total) + n && state.bigBuffer == old(state.bigBuffer)
      ensures writes == old(writes) + [ServerTransfer.SegmentWrite(if withHeader then Some(header) else None, source[old(state.total)..old(state.total) + n])]
      ensures step == old(step) && status == old(status) && header == old(header)
    {
      var data := state.ReadAtEnd(n);
      Record(n, if withHeader then Some(header) else None, data);
    }

    /** Emit's second half: the write of data, which ReadAtEnd took from the buffer's top, then the advance. */
    method Record(n: nat, h: Option<u64>, data: seq<byte>)
      requires Core() && status == Running
      requires n > 0 ==> state.bigBufferTop < state.bigBuffer.Length
      requires n <= state.Remaining() && state.total + n <= totalSize
      requires data == state.bigBuffer[state.bigBufferTop..state.bigBufferTop + n]
      modifies this, state
      ensures Core()
      ensures state.total == old(state.total) + n && state.bigBuffer == old(state.bigBuffer)
      ensures writes == old(writes) + [ServerTransfer.SegmentWrite(h, source[old(state.total)..old(state.total) + n])]
      ensures step == old(step) && status == old(status) && header == old(header)
    {
      ghost var buf := state.bigBuffer[..];
      ghost var top := state.bigBufferTop;
      ghost var before := state.total;
      ServerTransfer.EmitKeepsSenderData(source, totalSize, buf, top, before, base, writes, n, h);
      assert data == source[before..before + n];
      state.Advance(n);
      writes := writes + [ServerTransfer.SegmentWrite(h, data)];
      assert state.bigBuffer[..] == buf;
      assert ServerTransfer.SenderData(source, totalSize, buf, top + n, before + n, base, writes);
    }

    /**
     * The sender: after the refill, it sends min(length, available bytes)
     * from the buffer's top, with the header first when withHeader, and
     * reports that count to the skeleton. A send of a non-empty rest always
     * makes progress.
     */
    method OnSend(readOk: bool)
      requires Valid() && status == Running && step.call.Send?
      modifies this, state, state.bigBuffer
      ensures Valid()
      ensures status == Done(CriticalError) <==> old(state.Remaining()) == 0 && !readOk
      ensures status != Done(CriticalError) ==>
        && status == Running
        && state.total - old(state.total) <= old(step).call.length
        && (old(step).call.length > 0 ==> state.total > old(state.total))
        && step == Sent(old(step).phase, state.total - old(state.total))
        && writes == old(writes) + [ServerTransfer.SegmentWrite(if old(step).call.withHeader then Some(header) else None,
                                                                source[old(state.total)..state.total])]
    {
      var length := step.call.length;
      assert state.total + length <= totalSize;
      var available := TryReload(readOk);
      if status != Running {
        return;
      }
      var n := Min(length, available);
      Emit(n, step.call.withHeader);
      step := Sent(step.phase, n);
    }

    /**
     * The ack handler: Error is an Error; Finished once everything was
     * sent is the Success, and then the writes carried the whole file;
     * Continue goes on to the next segment, whose header is saved, but
     * fails the skeleton's assertion when nothing is left to send; any
     * other code is a CriticalError.
     */
    method OnAck(code: byte)
      requires Valid() && status == Running && step.call == HandleAck
      modifies this
      ensures Valid()
      ensures state.total == old(state.total) && writes == old(writes)
      ensures code == Datagrams.AckErrorCode ==> status == Done(Error)
      ensures code == Datagrams.AckFinishedCode ==> status == Done(if state.total == totalSize then Success else CriticalError)
      ensures code == Datagrams.AckContinueCode ==> (status == Crashed <==> state.total == totalSize)
      ensures code == Datagrams.AckContinueCode && state.total < totalSize ==>
        && status == Running
        && step == HeaderConsumed(Acked(old(step).phase).phase)
        && step.phase.remainingFile == totalSize - state.total
        && header == step.call.length
      ensures code !in {Datagrams.AckErrorCode, Datagrams.AckContinueCode, Datagrams.AckFinishedCode} ==>
        status == Done(CriticalError)
      ensures status == Done(Success) ==> ServerTransfer.WrittenData(writes) == source
    {
      if code == Datagrams.AckErrorCode {
        status := Done(Error);
      } else if state.total == totalSize && code == Datagrams.AckFinishedCode {
        status := Done(Success);
        assert source[..state.total] == source;
      } else if code == Datagrams.AckContinueCode {
        if step.phase.remainingFile <= step.phase.segment {
          status := Crashed;
          return;
        }
        var next := Acked(step.phase);
        header := next.call.size;
        step := HeaderConsumed(next.phase);
      } else {
        status := Done(CriticalError);
      }
    }

    /** A write or read completing with an error: the errorHandler's CriticalError. */
    method OnTransportError()
      requires Valid() && status == Running
      modifies this
      ensures Valid() && status == Done(CriticalError)
      ensures writes == old(writes) && state.total == old(state.total)
    {
      status := Done(CriticalError);
    }
  }
}

=== FILE: connection_handler.dfy ===
// The server's TCP connection (WozekConnectionHandler,
// WozekServer/TCPWozekServer.hpp): its shut-down flag and timeout timer,
// the asyncBranch completion guard, the 4096-byte main buffer objects are
// copied through, and the transfer-state variant. The socket and timer are
// asio objects outside the model; what they report comes in as a
// parameter, and the handlers a completion runs are recorded as events.

module ConnectionHandler {
  import opened Base
  import opened AsyncUtils
  import BufferUtils
  import TransferStates

  /** ShutdownOnDestruction. */
  const ShutdownOnDestruction: bool := true

  /** bufferSize of the main buffer. */
  const MainBufferSize: nat := 4096

  /** The connection's role once it has registered. */
  datatype ConnectionType = NoType | Host | Controller

  /** What the connection runs, in order. */
  datatype Event =
    | ShutdownHandlerRan
    | TimeoutHandlerRan
    | ErrorHandlerRan(handler: nat, err: ErrorCode)
    | SuccessHandlerRan(handler: nat)
    /** socket.shutdown threw (a peer that reset the connection, say); the exception leaves the completion handler. */
    | ShutdownThrew

  /** How many times shutdownHandler has run. */
  function ShutdownRuns(events: seq<Event>): nat
  {
    if |events| == 0 then 0
    else ShutdownRuns(events[..|events| - 1]) + (if events[|events| - 1] == ShutdownHandlerRan then 1 else 0)
  }

  lemma ShutdownRunsSnoc(events: seq<Event>, e: Event)
    ensures ShutdownRuns(events + [e]) == ShutdownRuns(events) + (if e == ShutdownHandlerRan then 1 else 0)
  {
    assert (events + [e])[..|events|] == events;
  }

  /** What a completion wrapped by asyncBranch does. */
  datatype BranchOutcome =
    | Ignored
    | Aborted
    | Proceeded(errorHandlerRan: bool)

  /**
   * asyncBranch's closure: nothing once the connection is shut; on an
   * error, the error handler's verdict decides between shutting the
   * connection and falling through to the success handler.
   */
  function Branch(isShutDown: bool, err: ErrorCode, errorHandlerAborts: bool): (o: BranchOutcome)
    ensures isShutDown <==> o == Ignored
    ensures o == Aborted <==> !isShutDown && IsSet(err) && errorHandlerAborts
    ensures o.Proceeded? ==> o.errorHandlerRan == IsSet(err)
  {
    if isShutDown then Ignored
    else if IsSet(err) && errorHandlerAborts then Aborted
    else Proceeded(IsSet(err))
  }

  /** The error handlers the connection defines. */
  datatype BuiltInHandler = AbortErrorHandler | LogAndAbortErrorHandlerOrDisconnect | LogAndAbortErrorHandler

  /** A built-in handler's verdict; an end-of-file error only changes what is logged. */
  function BuiltInVerdict(h: BuiltInHandler, err: ErrorCode, isEof: bool): bool
  {
    match h
    case AbortErrorHandler => true
    // End of file only picks which message is logged (or that the peer disconnected).
    case LogAndAbortErrorHandlerOrDisconnect => true
    case LogAndAbortErrorHandler => true
  }

  /** With any built-in error handler an error always shuts the connection: the success handler never runs after an error. */
  lemma BuiltInHandlersAbort(h: BuiltInHandler, err: ErrorCode, isEof: bool)
    requires IsSet(err)
    ensures Branch(false, err, BuiltInVerdict(h, err, isEof)) == Aborted
  {
  }

  /** The main buffer with object bytes copied in at offset 0 (saveObjectToMainBuffer). */
  function StoreObject(buffer: seq<byte>, obj: seq<byte>): (r: seq<byte>)
    requires |obj| <= |buffer|
    ensures |r| == |buffer|
  {
    BufferUtils.Splice(buffer, 0, obj)
  }

  /** An object of the given size copied out from offset 0 (loadObjectFromMainBuffer). */
  function LoadObject(buffer: seq<byte>, size: nat): (obj: seq<byte>)
    requires size <= |buffer|
    ensures |obj| == size
  {
    buffer[..size]
  }

  /** Loading an object of the type just saved returns it, and the rest of the buffer is untouched. */
  lemma LoadAfterStore(buffer: seq<byte>, obj: seq<byte>)
    requires |obj| <= |buffer|
    ensures LoadObject(StoreObject(buffer, obj), |obj|) == obj
    ensures StoreObject(buffer, obj)[|obj|..] == buffer[|obj|..]
  {
  }

  class WozekConnection {
    var isShutDown: bool
    var timerArmed: bool
    var socketOpen: bool
    /** False once the destructor has run. */
    var alive: bool
    const buffer: array<byte>
    var globalState: TransferStates.State
    var connType: ConnectionType
    var id: u32
    var events: seq<Event>

    /**
     * The buffer has its fixed size, and shutdownHandler has run once if
     * the connection was destroyed without being shut, and otherwise never.
     */
    predicate Valid()
      reads this
    {
      && buffer.Length == MainBufferSize
      && ShutdownRuns(events) == (if !alive && !isShutDown then 1 else 0)
    }

    constructor ()
      ensures Valid() && alive
      ensures !isShutDown && !timerArmed && socketOpen
      ensures connType == NoType && id == 0
      ensures globalState == TransferStates.Empty
      ensures events == []
      ensures forall i :: 0 <= i < MainBufferSize ==> buffer[i] == 0
    {
      isShutDown := false;
      timerArmed := false;
      socketOpen := true;
      alive := true;
      buffer := new byte[MainBufferSize](_ => 0);
      globalState := TransferStates.Empty;
      connType := NoType;
      id := 0;
      events := [];
    }

    /** The destructor: shutdownHandler runs here, and only if the connection was never shut. */
    method Destroy()
      requires Valid() && alive
      modifies this
      ensures Valid() && !alive
      ensures events == old(events) + (if old(isShutDown) then [] else [ShutdownHandlerRan])
      ensures ShutdownRuns(events) <= 1
      ensures isShutDown ==> ShutdownRuns(events) == 0
      ensures isShutDown == old(isShutDown)
    {
      alive := false;
      if ShutdownOnDestruction && !isShutDown {
        ShutdownRunsSnoc(events, ShutdownHandlerRan);
        events := events + [ShutdownHandlerRan];
      }
    }

    /**
     * shutConnection: set the flag, cancel the timer, shut the socket down
     * and close it. The shutdown is the throwing overload: when it fails
     * (shutdownFails) the exception leaves before the close, so the socket
     * stays open. Either way the flag is set, so shutdownHandler never runs
     * afterwards, not even in the destructor.
     */
    method ShutConnection(shutdownFails: bool)
      requires Valid() && alive
      modifies this
      ensures Valid()
      ensures isShutDown && !timerArmed
      ensures socketOpen == (old(socketOpen) && shutdownFails)
      ensures events == old(events) + if shutdownFails then [ShutdownThrew] else []
      ensures ShutdownRuns(events) == ShutdownRuns(old(events))
      ensures alive && connType == old(connType) && id == old(id) && globalState == old(globalState)
    {
      isShutDown := true;
      timerArmed := false;
      if shutdownFails {
        ShutdownRunsSnoc(events, ShutdownThrew);
        events := events + [ShutdownThrew];
        return;
      }
      socketOpen := false;
    }

    /** handleTimeout: an error (a cancelled wait) or an earlier shutdown is ignored; otherwise timeoutHandler, then shutConnection. */
    method HandleTimeout(err: ErrorCode, shutdownFails: bool)
      requires Valid() && alive
      modifies this
      ensures Valid() && alive
      ensures IsSet(err) || old(isShutDown) ==>
        && events == old(events) && isShutDown == old(isShutDown) && timerArmed == old(timerArmed)
        && socketOpen == old(socketOpen)
      ensures connType == old(connType) && id == old(id) && globalState == old(globalState)
      ensures !IsSet(err) && !old(isShutDown) ==>
        && events == old(events) + [TimeoutHandlerRan] + (if shutdownFails then [ShutdownThrew] else [])
        && isShutDown && !timerArmed && socketOpen == (old(socketOpen) && shutdownFails)
    {
      if IsSet(err) || isShutDown {
        return;
      }
      ShutdownRunsSnoc(events, TimeoutHandlerRan);
      events := events + [TimeoutHandlerRan];
      ShutConnection(shutdownFails);
    }

    method StartTimeoutTimer()
      modifies this
      ensures timerArmed
      ensures isShutDown == old(isShutDown) && events == old(events) && alive == old(alive)
      ensures socketOpen == old(socketOpen)
      ensures connType == old(connType) && id == old(id) && globalState == old(globalState)
    {
      timerArmed := true;
    }

    method CancelTimeoutTimer()
      modifies this
      ensures !timerArmed
      ensures isShutDown == old(isShutDown) && events == old(events) && alive == old(alive)
      ensures socketOpen == old(socketOpen)
      ensures connType == old(connType) && id == old(id) && globalState == old(globalState)
    {
      timerArmed := false;
    }

    /**
     * refreshTimeoutTimer: on a running connection the deadline moves, and
     * the wait is re-armed exactly when one was pending (expires_after
     * cancelled it).
     */
    method RefreshTimeoutTimer() returns (rearmed: bool)
      ensures rearmed <==> !isShutDown && timerArmed
    {
      rearmed := !isShutDown && timerArmed;
    }

    /**
     * The closure asyncBranch(success, error) builds, called with the
     * operation's error code and the error handler's verdict.
     */
    method CompleteBranch(err: ErrorCode, success: nat, error: nat, errorHandlerAborts: bool, shutdownFails: bool)
      requires Valid() && alive
      modifies this
      ensures Valid() && alive
      ensures var o := Branch(old(isShutDown), err, errorHandlerAborts);
        && (o == Ignored ==> events == old(events) && isShutDown == old(isShutDown))
        && (o == Aborted ==>
              && events == old(events) + [ErrorHandlerRan(error, err)] + (if shutdownFails then [ShutdownThrew] else [])
              && isShutDown && !timerArmed && socketOpen == (old(socketOpen) && shutdownFails))
        && (o == Proceeded(false) ==> events == old(events) + [SuccessHandlerRan(success)] && !isShutDown)
        && (o == Proceeded(true) ==>
              events == old(events) + [ErrorHandlerRan(error, err), SuccessHandlerRan(success)] && !isShutDown)
        && (o != Aborted ==> timerArmed == old(timerArmed) && socketOpen == old(socketOpen))
      ensures connType == old(connType) && id == old(id) && globalState == old(globalState)
    {
      if isShutDown {
        return;
      }
      if IsSet(err) {
        ShutdownRunsSnoc(events, ErrorHandlerRan(error, err));
        events := events + [ErrorHandlerRan(error, err)];
        if errorHandlerAborts {
          ShutConnection(shutdownFails);
          return;
        }
      }
      ShutdownRunsSnoc(events, SuccessHandlerRan(success));
      events := events + [SuccessHandlerRan(success)];
    }

    /** asyncReadToMemory / asyncReadToMainBuffer / asyncReadObject: arm the timeout, then issue the read. */
    method AsyncRead()
      modifies this
      ensures timerArmed
      ensures isShutDown == old(isShutDown) && events == old(events) && alive == old(alive)
      ensures socketOpen == old(socketOpen)
      ensures connType == old(connType) && id == old(id) && globalState == old(globalState)
    {
      StartTimeoutTimer();
    }

    /** A read's completion: cancel the timeout first, then the asyncBranch closure. */
    method CompleteRead(err: ErrorCode, success: nat, error: nat, errorHandlerAborts: bool, shutdownFails: bool)
      requires Valid() && alive
      modifies this
      ensures Valid() && alive
      ensures !timerArmed
      ensures var o := Branch(old(isShutDown), err, errorHandlerAborts);
        && (o == Ignored ==> events == old(events))
        && (o == Aborted ==>
              events == old(events) + [ErrorHandlerRan(error, err)] + (if shutdownFails then [ShutdownThrew] else []) && isShutDown)
        && (o == Proceeded(false) ==> events == old(events) + [SuccessHandlerRan(success)])
        && (o == Proceeded(true) ==> events == old(events) + [ErrorHandlerRan(error, err), SuccessHandlerRan(success)])
        && (o == Aborted ==> socketOpen == (old(socketOpen) && shutdownFails))
        && (o != Aborted ==> isShutDown == old(isShutDown) && socketOpen == old(socketOpen))
      ensures connType == old(connType) && id == old(id) && globalState == old(globalState)
    {
      CancelTimeoutTimer();
      CompleteBranch(err, success, error, errorHandlerAborts, shutdownFails);
    }

    /** saveObjectToMainBuffer: sizeof(T) is at most the buffer's size. */
    method SaveObjectToMainBuffer(obj: seq<byte>)
      requires Valid()
      requires |obj| <= MainBufferSize
      modifies buffer
      ensures buffer[..] == StoreObject(old(buffer[..]), obj)
    {
      forall i | 0 <= i < |obj| {
        buffer[i] := obj[i];
      }
      assert buffer[..] == StoreObject(old(buffer[..]), obj);
    }

    /** loadObjectFromMainBuffer. */
    method LoadObjectFromMainBuffer(size: nat) returns (obj: seq<byte>)
      requires Valid()
      requires size <= MainBufferSize
      ensures obj == LoadObject(buffer[..], size)
    {
      obj := buffer[..size];
    }

    /** asyncWriteObject (and sendTerminatingMessageObject): save the object, then write its sizeof bytes from the buffer. */
    method AsyncWriteObject(obj: seq<byte>) returns (written: seq<byte>)
      requires Valid()
      requires |obj| <= MainBufferSize
      modifies buffer
      ensures buffer[..] == StoreObject(old(buffer[..]), obj)
      ensures written == obj
    {
      SaveObjectToMainBuffer(obj);
      written := buffer[..|obj|];
      LoadAfterStore(old(buffer[..]), obj);
    }

    /** setState<T>: a fresh T replaces whatever the variant held. */
    method SetReceiveState() returns (state: TransferStates.BigBufferCursor)
      modifies this
      ensures fresh(state) && fresh(state.bigBuffer)
      ensures state.Valid() && state.bigBufferTop == 0 && state.total == 0 && state.progress == 0
      ensures state.bigBuffer.Length == 0
      ensures globalState == TransferStates.FileTransferReceive(state)
      ensures isShutDown == old(isShutDown) && events == old(events) && alive == old(alive)
      ensures timerArmed == old(timerArmed) && socketOpen == old(socketOpen) && connType == old(connType) && id == old(id)
    {
      state := new TransferStates.BigBufferCursor();
      globalState := TransferStates.FileTransferReceive(state);
    }

    method SetSendState() returns (state: TransferStates.BigBufferCursor)
      modifies this
      ensures fresh(state) && fresh(state.bigBuffer)
      ensures state.Valid() && state.bigBufferTop == 0 && state.total == 0 && state.progress == 0
      ensures state.bigBuffer.Length == 0
      ensures globalState == TransferStates.FileTransferSend(state)
      ensures isShutDown == old(isShutDown) && events == old(events) && alive == old(alive)
      ensures timerArmed == old(timerArmed) && socketOpen == old(socketOpen) && connType == old(connType) && id == old(id)
    {
      state := new TransferStates.BigBufferCursor();
      globalState := TransferStates.FileTransferSend(state);
    }

    /** resetState. */
    method ResetState()
      modifies this
      ensures globalState == TransferStates.Empty
      ensures isShutDown == old(isShutDown) && events == old(events) && alive == old(alive)
      ensures timerArmed == old(timerArmed) && socketOpen == old(socketOpen) && connType == old(connType) && id == old(id)
    {
      globalState := TransferStates.Empty;
    }
  }
}

=== FILE: controller_session.dfy ===
// The controller's sessions with the server
// (ControllerController/ControllerSessionClient.cpp and
// ControllerSessionUDP.cpp). Over TCP the controller registers under a
// name, cut to fit a fixed-size NUL-terminated field, and maps the
// server's response code to a result. Over UDP it sends echo and
// fetch-state datagrams from a 1024-byte buffer, and a receiver with a
// 512-byte buffer dispatches the responses on their first byte: an echo
// response yields the message after the code, a fetch-state response is
// copied into the shared rotation state. Sockets are outside the model:
// whether a write fails comes in as a parameter, and the datagrams sent and
// the results returned to the callback stack are appended to logs. The
// layout of RegisterAsController's request header, the size of its name
// field and the values of its codes, and the UDP response codes, are not
// part of this model; they are parameters.

module ControllerSession {
  import opened Base
  import opened Callbacks
  import BufferUtils
  import Datagrams
  import UdpEngine
  import UdpServer
  import ControllerState

  // ---------------------------------------------------------------------
  // registerAsControllerRequest's name field
  // ---------------------------------------------------------------------

  /** How many bytes of a name the field keeps: all of them when they fit before the final NUL, else size - 1. */
  function KeptLength(nameLength: nat, fieldSize: nat): (k: nat)
    requires fieldSize >= 1
    ensures k < fieldSize && k <= nameLength
    ensures k == nameLength || k == fieldSize - 1
  {
    if nameLength >= fieldSize then fieldSize - 1 else nameLength
  }

  /**
   * The name field after the copy: the kept bytes of the name, a NUL after
   * them, and the field's earlier bytes beyond that NUL.
   */
  function NameField(name: seq<byte>, prior: seq<byte>): (r: seq<byte>)
    requires |prior| >= 1
    ensures |r| == |prior|
    ensures var k := KeptLength(|name|, |prior|);
      r[..k] == name[..k] && r[k] == 0 && r[k + 1..] == prior[k + 1..]
  {
    var k := KeptLength(|name|, |prior|);
    name[..k] + [0] + prior[k + 1..]
  }

  /** The C string a NUL-terminated field holds: its bytes before the first NUL, or all of them. */
  function CString(field: seq<byte>): (s: seq<byte>)
    decreases |field|
  {
    if |field| == 0 || field[0] == 0 then [] else [field[0]] + CString(field[1..])
  }

  /** The bytes before a NUL, which holds no NUL itself, are the C string, whatever follows. */
  lemma {:induction false} CStringOfTerminated(text: seq<byte>, rest: seq<byte>)
    requires 0 !in text
    ensures CString(text + [0] + rest) == text
    decreases |text|
  {
    if |text| > 0 {
      assert (text + [0] + rest)[1..] == text[1..] + [0] + rest;
      assert 0 !in text[1..] by { assert forall i :: 0 <= i < |text| - 1 ==> text[1..][i] == text[i + 1]; }
      CStringOfTerminated(text[1..], rest);
      assert [text[0]] + text[1..] == text;
    } else {
      assert (text + [0] + rest)[0] == 0;
    }
  }

  /**
   * Whatever the field held before, the server reads back the name when it
   * is shorter than the field, and its first size - 1 bytes otherwise,
   * provided the name holds no NUL.
   */
  lemma NameFieldReadsBack(name: seq<byte>, prior: seq<byte>)
    requires |prior| >= 1 && 0 !in name
    ensures CString(NameField(name, prior)) == name[..KeptLength(|name|, |prior|)]
    ensures |name| < |prior| ==> CString(NameField(name, prior)) == name
  {
    var k := KeptLength(|name|, |prior|);
    assert 0 !in name[..k] by { assert forall i :: 0 <= i < k ==> name[..k][i] == name[i]; }
    assert NameField(name, prior) == name[..k] + [0] + prior[k + 1..];
    CStringOfTerminated(name[..k], prior[k + 1..]);
    assert |name| < |prior| ==> name[..k] == name;
  }

  /** The memcpy calls and the NUL store of registerAsControllerRequest, on the field in place. */
  method CopyName(field: array<byte>, name: seq<byte>)
    requires field.Length >= 1
    modifies field
    ensures field[..] == NameField(name, old(field[..]))
  {
    var k := if |name| >= field.Length then field.Length - 1 else |name|;
    forall i | 0 <= i < k {
      field[i] := name[i];
    }
    field[k] := 0;
    assert field[..] == NameField(name, old(field[..]));
  }

  // ---------------------------------------------------------------------
  // handleRegisterAsControllerResponse
  // ---------------------------------------------------------------------

  /** ResponseHeader::ResultCode's three named codes. */
  datatype RegisterCodes = RegisterCodes(accepted: byte, invalid: byte, inUse: byte)

  predicate DistinctRegisterCodes(codes: RegisterCodes)
  {
    codes.accepted != codes.invalid && codes.accepted != codes.inUse && codes.invalid != codes.inUse
  }

  /**
   * The result popped for a response, if any: the code is compared with
   * Accepted, Invalid and InUse in that order. Accepted carries the id with
   * a Good status, Invalid the value 1 and InUse the value 2 with an Error
   * status; any other code pops nothing.
   */
  function RegisterControllerVerdict(codes: RegisterCodes, code: byte, id: u32): (r: Option<CallbackResult>)
    ensures r.Some? <==> code == codes.accepted || code == codes.invalid || code == codes.inUse
    ensures r.Some? ==> r.value.payload.Some? && r.value.payload.value.Number?
    ensures r.Some? && r.value.status == Good <==> code == codes.accepted
    ensures r.Some? && r.value.status == Good ==> r.value.payload.value.n == id
    ensures r.Some? && r.value.status != Good ==> r.value.status == Error && r.value.payload.value.n in {1, 2}
  {
    if code == codes.accepted then Some(MakeValueResult(Number(id)))
    else if code == codes.invalid then Some(MakeValueResult(Number(1), Error))
    else if code == codes.inUse then Some(MakeValueResult(Number(2), Error))
    else None
  }

  /** With distinct codes each is told apart: Invalid gives 1 and InUse gives 2. */
  lemma RegisterVerdictDistinct(codes: RegisterCodes, id: u32)
    requires DistinctRegisterCodes(codes)
    ensures RegisterControllerVerdict(codes, codes.invalid, id) == Some(MakeValueResult(Number(1), Error))
    ensures RegisterControllerVerdict(codes, codes.inUse, id) == Some(MakeValueResult(Number(2), Error))
  {
  }

  /** Were the three codes one value, every matching response would read as Accepted and no Error would ever be popped. */
  lemma CollidingCodesAllAccept(codes: RegisterCodes, code: byte, id: u32)
    requires codes.accepted == codes.invalid == codes.inUse
    ensures RegisterControllerVerdict(codes, code, id).Some? ==> RegisterControllerVerdict(codes, code, id).value.status == Good
  {
  }

  /** What the TCP session writes for a registration: the request id and the request header's name field. */
  datatype RegisterWrite = RegisterWrite(requestId: u32, nameField: seq<byte>)

  /** ControllerSessionClient, as far as registration goes. */
  class ControllerClient {
    /** RegisterAsController::request_id. */
    const requestId: u32
    const codes: RegisterCodes
    /** sizeof(request.name). */
    const nameFieldSize: nat
    /** The requests written, in order. */
    var sent: seq<RegisterWrite>
    /** The results returned to the callback stack, in order. */
    var results: seq<CallbackResult>
    /** Whether the response read is pending. */
    var awaitingResponse: bool

    predicate Valid()
      reads this
    {
      nameFieldSize >= 1
    }

    constructor (requestId: u32, codes: RegisterCodes, nameFieldSize: nat)
      requires nameFieldSize >= 1
      ensures Valid()
      ensures this.requestId == requestId && this.codes == codes && this.nameFieldSize == nameFieldSize
      ensures sent == [] && results == [] && !awaitingResponse
    {
      this.requestId := requestId;
      this.codes := codes;
      this.nameFieldSize := nameFieldSize;
      sent := [];
      results := [];
      awaitingResponse := false;
    }

    /**
     * registerAsControllerRequest: the name is copied into the field, which
     * otherwise holds whatever bytes prior gives it, and the request id and
     * header are written. A failed write is reported by errorCritical;
     * after a good one the response is read.
     */
    method RegisterAsControllerRequest(name: seq<byte>, prior: seq<byte>, writeFails: bool)
      requires Valid() && |prior| == nameFieldSize
      modifies this
      ensures Valid()
      ensures sent == old(sent) + if writeFails then [] else [RegisterWrite(requestId, NameField(name, prior))]
      ensures writeFails ==> results == old(results) + [MakeResult(CriticalError)] && awaitingResponse == old(awaitingResponse)
      ensures !writeFails ==> results == old(results) && awaitingResponse
    {
      var field := new byte[nameFieldSize](i requires 0 <= i < nameFieldSize => prior[i]);
      assert field[..] == prior;
      CopyName(field, name);
      if writeFails {
        results := results + [MakeResult(CriticalError)];
        return;
      }
      sent := sent + [RegisterWrite(requestId, field[..])];
      awaitingResponse := true;
    }

    /** The response read failed: errorCritical. */
    method ResponseReadFailed()
      modifies this
      ensures results == old(results) + [MakeResult(CriticalError)]
      ensures sent == old(sent) && !awaitingResponse
    {
      awaitingResponse := false;
      results := results + [MakeResult(CriticalError)];
    }

    /** handleRegisterAsControllerResponse: the verdict, if any, is returned to the callback stack. */
    method HandleRegisterAsControllerResponse(code: byte, id: u32)
      modifies this
      ensures var v := RegisterControllerVerdict(codes, code, id);
        results == old(results) + if v.Some? then [v.value] else []
      ensures sent == old(sent) && !awaitingResponse
    {
      awaitingResponse := false;
      var v := RegisterControllerVerdict(codes, code, id);
      if v.Some? {
        results := results + [v.value];
      }
    }
  }

  // ---------------------------------------------------------------------
  // The UDP datagrams
  // ---------------------------------------------------------------------

  /** ControllerUDPSender's BufferSize, 1 << 10. */
  const SenderBufferSize: nat := 1024
  /** ControllerUDPReceiver's BufferSize. */
  const ReceiverBufferSize: nat := 512

  /** sendEchoMessage's length as written: the message size, capped at the whole buffer. */
  function EchoLengthAsWritten(size: nat): (r: nat)
    ensures r <= size && r <= SenderBufferSize
  {
    if size < SenderBufferSize then size else SenderBufferSize
  }

  /**
   * The message bytes go at offset 1, so saveBytesAt needs 1 + length to
   * fit the buffer; the written cap lets a message of 1024 bytes or more
   * break that bound by one byte.
   */
  lemma EchoLengthAsWrittenOverflows(size: nat)
    requires size >= SenderBufferSize
    ensures 1 + EchoLengthAsWritten(size) > SenderBufferSize
  {
  }

  /** The corrected length: capped at the room left after the code byte. */
  function EchoLength(size: nat): (r: nat)
    ensures r <= size && 1 + r <= SenderBufferSize
    ensures size < SenderBufferSize ==> r == size
    ensures size >= SenderBufferSize - 1 ==> r == SenderBufferSize - 1
  {
    Min(size, SenderBufferSize - 1)
  }

  /** The two lengths differ only where the written one overflows. */
  lemma EchoLengthCorrection(size: nat)
    ensures size < SenderBufferSize ==> EchoLength(size) == EchoLengthAsWritten(size)
    ensures size >= SenderBufferSize ==> EchoLength(size) + 1 == EchoLengthAsWritten(size)
  {
  }

  /** An echo datagram: the echo request code, then the first EchoLength bytes of the message. */
  function EchoDatagram(message: seq<byte>): (d: seq<byte>)
    ensures 1 <= |d| <= SenderBufferSize
    ensures d[0] == UdpServer.EchoRequestCode
    ensures d[1..] == message[..EchoLength(|message|)]
    ensures |message| < SenderBufferSize ==> d[1..] == message
  {
    [UdpServer.EchoRequestCode] + message[..EchoLength(|message|)]
  }

  /** A fetch-state datagram: the request code, then the id's 4 bytes. */
  function FetchDatagram(codes: UdpServer.UdpCodes, id: u32): (d: seq<byte>)
    ensures |d| == 1 + Datagrams.IdSize
    ensures d[0] == codes.fetchRequest && d[1..] == EncodeLE(id, Datagrams.IdSize)
  {
    [codes.fetchRequest] + EncodeLE(id, Datagrams.IdSize)
  }

  /** A datagram sent, and where to. */
  datatype Sent = Sent(to: UdpEngine.Endpoint, data: seq<byte>)

  /** ControllerUDPSender. */
  class ControllerUdpSender {
    const codes: UdpServer.UdpCodes
    const buffer: BufferUtils.ArrayBuffer
    const remoteEndpoint: UdpEngine.Endpoint
    /** The datagrams sent, in order. */
    var sent: seq<Sent>
    /** The results returned to the callback stack, in order. */
    var results: seq<CallbackResult>

    ghost predicate Valid()
      reads this, buffer
    {
      buffer.Valid() && buffer.size == SenderBufferSize
    }

    constructor (codes: UdpServer.UdpCodes, remoteEndpoint: UdpEngine.Endpoint)
      ensures Valid() && fresh(buffer) && fresh(buffer.buffer)
      ensures this.codes == codes && this.remoteEndpoint == remoteEndpoint
      ensures sent == [] && results == []
    {
      this.codes := codes;
      this.remoteEndpoint := remoteEndpoint;
      buffer := new BufferUtils.ArrayBuffer(SenderBufferSize);
      sent := [];
      results := [];
    }

    /** The write's completion: Good after a send, errorCritical's CriticalError after a failed one. */
    method Complete(datagram: seq<byte>, sendFails: bool)
      modifies this
      ensures sent == old(sent) + if sendFails then [] else [Sent(remoteEndpoint, datagram)]
      ensures results == old(results) + [MakeResult(if sendFails then CriticalError else Good)]
    {
      if sendFails {
        results := results + [MakeResult(CriticalError)];
      } else {
        sent := sent + [Sent(remoteEndpoint, datagram)];
        results := results + [MakeResult(Good)];
      }
    }

    /**
     * sendEchoMessage, with the corrected length: the code at byte 0, the
     * message bytes from byte 1, and the first length + 1 bytes sent.
     */
    method SendEchoMessage(message: seq<byte>, sendFails: bool)
      requires Valid()
      modifies this, buffer.buffer
      ensures Valid()
      ensures buffer.buffer[..] == BufferUtils.Splice(old(buffer.buffer[..]), 0, EchoDatagram(message))
      ensures sent == old(sent) + if sendFails then [] else [Sent(remoteEndpoint, EchoDatagram(message))]
      ensures results == old(results) + [MakeResult(if sendFails then CriticalError else Good)]
    {
      var length := Min(|message|, SenderBufferSize - 1);
      ghost var before := buffer.buffer[..];
      buffer.SaveBytes([UdpServer.EchoRequestCode]);
      var _ := buffer.SaveBytesAt(1, message[..length]);
      BufferUtils.SpliceSplice(before, 0, [UdpServer.EchoRequestCode], 1, message[..length]);
      var view := buffer.Get(length + 1);
      var datagram := buffer.Designated(view);
      assert datagram == EchoDatagram(message);
      Complete(datagram, sendFails);
    }

    /** sendFetchStateRequest: the request code and the id packed from byte 0, and those 5 bytes sent. */
    method SendFetchStateRequest(id: u32, sendFails: bool)
      requires Valid()
      modifies this, buffer.buffer
      ensures Valid()
      ensures buffer.buffer[..] == BufferUtils.Splice(old(buffer.buffer[..]), 0, FetchDatagram(codes, id))
      ensures sent == old(sent) + if sendFails then [] else [Sent(remoteEndpoint, FetchDatagram(codes, id))]
      ensures results == old(results) + [MakeResult(if sendFails then CriticalError else Good)]
    {
      var objects := [[codes.fetchRequest], EncodeLE(id, Datagrams.IdSize)];
      assert Flatten(objects) == FetchDatagram(codes, id) by {
        assert objects[..1] == [[codes.fetchRequest]];
        var none: seq<seq<byte>> := [];
        assert objects[..1][..0] == none && Flatten(none) == [];
      }
      assert BufferUtils.PackSizeOf(Lengths(objects)) == 1 + Datagrams.IdSize by {
        assert Lengths(objects) == [1, Datagrams.IdSize];
        BufferUtils.PackSizeOfIsSum(Lengths(objects));
        FlattenLength(objects);
      }
      var _ := buffer.SaveMultipleAt(0, objects);
      var view := buffer.Get(1 + Datagrams.IdSize);
      var datagram := buffer.Designated(view);
      Complete(datagram, sendFails);
    }
  }

  // ---------------------------------------------------------------------
  // The receiver
  // ---------------------------------------------------------------------

  /** The two response codes are the switch's case labels, so they differ. */
  predicate DistinctResponses(codes: UdpServer.UdpCodes)
  {
    codes.echoResponse != codes.fetchResponse
  }

  datatype UdpResponse = EchoResponse | FetchStateResponse | UnknownResponse

  /** handleDatagram's switch on byte 0; any other code is only logged. */
  function ResponseKind(codes: UdpServer.UdpCodes, code: byte): (r: UdpResponse)
    requires DistinctResponses(codes)
    ensures r == EchoResponse <==> code == codes.echoResponse
    ensures r == FetchStateResponse <==> code == codes.fetchResponse
  {
    if code == codes.echoResponse then EchoResponse
    else if code == codes.fetchResponse then FetchStateResponse
    else UnknownResponse
  }

  /** What handling one datagram gives: the echoed message, a state update, nothing, or the throw of a 0-byte echo response. */
  datatype Handled = Echoed(message: seq<byte>) | StateUpdated | Ignored | LengthError

  /** ControllerUDPReceiver: one datagram of bytesTransfered bytes in a zeroed 512-byte buffer, and the shared state. */
  class ControllerUdpReceiver {
    const codes: UdpServer.UdpCodes
    const buffer: BufferUtils.ArrayBuffer
    const bytesTransfered: nat
    /** associatedStatePtr. */
    const state: ControllerState.State

    ghost predicate Valid()
      reads this, buffer, state, state.rotationState
    {
      && buffer.Valid() && buffer.size == ReceiverBufferSize
      && bytesTransfered <= ReceiverBufferSize
      && DistinctResponses(codes)
      && state.rotationState.Valid() && state.rotationState.size == ControllerState.RotationSize
    }

    /** A receive of the datagram: its bytes at the front of the buffer, zeros after. */
    constructor (codes: UdpServer.UdpCodes, datagram: seq<byte>, state: ControllerState.State)
      requires |datagram| <= ReceiverBufferSize && DistinctResponses(codes)
      requires state.rotationState.Valid() && state.rotationState.size == ControllerState.RotationSize
      ensures Valid() && fresh(buffer) && fresh(buffer.buffer)
      ensures buffer.buffer[..] == BufferUtils.Splice(Datagrams.Zeros(ReceiverBufferSize), 0, datagram)
      ensures bytesTransfered == |datagram| && this.codes == codes && this.state == state
    {
      this.codes := codes;
      this.state := state;
      bytesTransfered := |datagram|;
      buffer := new BufferUtils.ArrayBuffer(ReceiverBufferSize);
      new;
      assert buffer.buffer[..] == Datagrams.Zeros(ReceiverBufferSize);
      buffer.SaveBytes(datagram);
    }

    /**
     * handleEchoResponse: the bytes after the code. With no byte at all,
     * bytesTransfered - 1 wraps to the largest size_t and the string's
     * resize throws.
     */
    method HandleEchoResponse() returns (h: Handled)
      requires Valid()
      ensures bytesTransfered == 0 ==> h == LengthError
      ensures bytesTransfered >= 1 ==> h == Echoed(buffer.buffer[1..bytesTransfered])
    {
      if bytesTransfered == 0 {
        return LengthError;
      }
      var message, _ := buffer.LoadBytesAt(1, bytesTransfered - 1);
      h := Echoed(message);
    }

    /** handleFetchStateResponse: the three rotation bytes at offset 1 become the state's value, marked updated. */
    method HandleFetchStateResponse()
      requires Valid()
      modifies state.rotationState
      ensures Valid()
      ensures state.rotationState.value == buffer.buffer[1..1 + ControllerState.RotationSize]
      ensures state.rotationState.updatedFlag
    {
      var values, _ := buffer.LoadBytesAt(1, ControllerState.RotationSize);
      state.rotationState.UpdateValue(values);
    }

    /** handleDatagram: byte 0 picks the handler; an unknown code changes nothing. */
    method HandleDatagram() returns (h: Handled)
      requires Valid()
      modifies state.rotationState
      ensures Valid()
      ensures var kind := ResponseKind(codes, buffer.buffer[0]);
        && (kind == EchoResponse ==> h == (if bytesTransfered == 0 then LengthError else Echoed(buffer.buffer[1..bytesTransfered])))
        && (kind == FetchStateResponse ==>
              h == StateUpdated
              && state.rotationState.value == buffer.buffer[1..1 + ControllerState.RotationSize]
              && state.rotationState.updatedFlag)
        && (kind != FetchStateResponse ==>
              state.rotationState.value == old(state.rotationState.value)
              && state.rotationState.updatedFlag == old(state.rotationState.updatedFlag))
        && (kind == UnknownResponse ==> h == Ignored)
    {
      var code := buffer.LoadBytes(1);
      match ResponseKind(codes, code[0]) {
        case EchoResponse =>
          h := HandleEchoResponse();
        case FetchStateResponse =>
          HandleFetchStateResponse();
          h := StateUpdated;
        case UnknownResponse =>
          h := Ignored;
      }
    }
  }

  // ---------------------------------------------------------------------
  // Both ends together
  // ---------------------------------------------------------------------

  /** The first bytes of a freshly received buffer are the datagram. */
  lemma ReceivedPrefix(datagram: seq<byte>)
    requires |datagram| <= ReceiverBufferSize
    ensures BufferUtils.Splice(Datagrams.Zeros(ReceiverBufferSize), 0, datagram)[..|datagram|] == datagram
  {
  }

  /**
   * An echo whose datagram fits the server's 512-byte buffer comes back
   * whole: the server takes it for an echo request and answers with the
   * echo response code and the same bytes after it, which the controller's
   * receiver takes for an echo response whose message is the one sent.
   */
  lemma EchoComesBack(codes: UdpServer.UdpCodes, message: seq<byte>)
    requires UdpServer.DistinctRequests(codes) && DistinctResponses(codes)
    requires |message| < ReceiverBufferSize
    ensures var d := EchoDatagram(message);
      var serverBuffer := BufferUtils.Splice(Datagrams.Zeros(UdpServer.ReceiverBufferSize), 0, d);
      var reply := [codes.echoResponse] + serverBuffer[1..|d|];
      var controllerBuffer := BufferUtils.Splice(Datagrams.Zeros(ReceiverBufferSize), 0, reply);
      && UdpServer.Dispatch(codes, serverBuffer[0]) == UdpServer.Echo
      && |reply| == |d| <= ReceiverBufferSize
      && ResponseKind(codes, controllerBuffer[0]) == EchoResponse
      && controllerBuffer[1..|reply|] == message
  {
    var d := EchoDatagram(message);
    var serverBuffer := BufferUtils.Splice(Datagrams.Zeros(UdpServer.ReceiverBufferSize), 0, d);
    ReceivedPrefix(d);
    assert serverBuffer[1..|d|] == d[1..] == message by {
      assert serverBuffer[..|d|][1..] == serverBuffer[1..|d|];
    }
    var reply := [codes.echoResponse] + serverBuffer[1..|d|];
    var controllerBuffer := BufferUtils.Splice(Datagrams.Zeros(ReceiverBufferSize), 0, reply);
    ReceivedPrefix(reply);
    assert controllerBuffer[..|reply|][1..] == controllerBuffer[1..|reply|];
    assert controllerBuffer[0] == controllerBuffer[..|reply|][0];
  }

  /**
   * A fetch-state request reaches the server with its id, and when the
   * server allows the fetch, the controller's receiver takes the answer
   * for a fetch-state response whose bytes 1 to 3 are the record's rotation.
   */
  lemma FetchComesBack(codes: UdpServer.UdpCodes, id: u32, records: map<u32, UdpServer.ControllerEntry>,
                       sender: UdpEngine.Endpoint)
    requires UdpServer.DistinctRequests(codes) && DistinctResponses(codes)
    requires UdpServer.TableValid(records) && UdpServer.FetchAllowed(records, id, sender)
    ensures var serverBuffer := BufferUtils.Splice(Datagrams.Zeros(UdpServer.ReceiverBufferSize), 0, FetchDatagram(codes, id));
      && UdpServer.Dispatch(codes, serverBuffer[0]) == UdpServer.FetchState
      && UdpServer.RequestedId(serverBuffer) == id
      && var reply := UdpServer.FetchReplyData(codes, serverBuffer, records, sender);
         var controllerBuffer := BufferUtils.Splice(Datagrams.Zeros(ReceiverBufferSize), 0, reply);
         && ResponseKind(codes, controllerBuffer[0]) == FetchStateResponse
         && controllerBuffer[1..1 + ControllerState.RotationSize] == records[id].rotation
  {
    var d := FetchDatagram(codes, id);
    var serverBuffer := BufferUtils.Splice(Datagrams.Zeros(UdpServer.ReceiverBufferSize), 0, d);
    ReceivedPrefix(d);
    assert serverBuffer[1..1 + Datagrams.IdSize] == EncodeLE(id, Datagrams.IdSize) by {
      assert serverBuffer[..|d|][1..] == serverBuffer[1..1 + Datagrams.IdSize];
    }
    Datagrams.Pow256Id();
    DecodeEncodeLE(id, Datagrams.IdSize);
    assert UdpServer.RequestedId(serverBuffer) == id;
    var reply := UdpServer.FetchReplyData(codes, serverBuffer, records, sender);
    var controllerBuffer := BufferUtils.Splice(Datagrams.Zeros(ReceiverBufferSize), 0, reply);
    ReceivedPrefix(reply);
    assert controllerBuffer[..|reply|][1..] == controllerBuffer[1..1 + ControllerState.RotationSize];
    assert controllerBuffer[0] == controllerBuffer[..|reply|][0];
  }
}

=== FILE: controller_state.dfy ===
// The controller's shared state (ControllerController/State.hpp): a value
// of sizeof(T) bytes with a dirty flag. Updates copy new bytes in and set
// the flag; the poster sends the value to the serial device, framed with
// the component's opcode, only when the flag is set, and clears it. The
// mutex and the atomic flag only make these steps safe to call from two
// threads; each step here runs alone.

module ControllerState {
  import opened Base
  import opened SerialCodec
  import SerialDevice

  /** checkIfUpdatedAndPostRequest's results. */
  const PostFailed: int := 0
  const Posted: int := 1
  const UpToDate: int := 2

  /** UpdateableStateComponent<T, Opcode>. */
  class UpdateableStateComponent {
    const opcode: byte
    /** sizeof(T). */
    const size: nat
    /** The bytes of value. */
    var value: seq<byte>
    var updatedFlag: bool

    /** The value has the type's size, and its frame fits the device's write buffer. */
    predicate Valid()
      reads this
    {
      && |value| == size >= 1
      && EncodedLength(size, SerialDevice.OpcodeSize) <= SerialDevice.WriteBufferSize
    }

    /** A component holding initial, not marked updated. */
    constructor (op: byte, initial: seq<byte>)
      requires |initial| >= 1 && EncodedLength(|initial|, SerialDevice.OpcodeSize) <= SerialDevice.WriteBufferSize
      ensures Valid()
      ensures opcode == op && size == |initial| && value == initial && !updatedFlag
    {
      opcode := op;
      size := |initial|;
      value := initial;
      updatedFlag := false;
    }

    /** updateValue: the first sizeof(T) bytes of newValueData become the value, and the flag is set. */
    method UpdateValue(newValueData: seq<byte>)
      requires Valid()
      requires |newValueData| >= size
      modifies this
      ensures Valid()
      ensures value == newValueData[..size] && updatedFlag
    {
      value := newValueData[..size];
      updatedFlag := true;
    }

    /** postRequest: the value goes to the device whatever the flag says; the write's outcome is dropped. */
    method PostRequest(device: SerialDevice.Device, written: int) returns (frame: seq<byte>)
      requires Valid() && device.Valid()
      modifies device.writeBuffer
      ensures device.Valid()
      ensures IsFrame(frame, opcode, value, SerialDevice.OpcodeSize)
      ensures DecodeFrame(frame, size, SerialDevice.OpcodeSize) == value
    {
      var ok;
      ok, frame := device.PostEncodedRequest(opcode, size, value, written);
      assert value[..size] == value;
      FrameDecodes(frame, opcode, value, SerialDevice.OpcodeSize);
    }

    /**
     * checkIfUpdatedAndPostRequest: with the flag clear, UpToDate and no
     * frame. With the flag set, one frame of the current value goes to the
     * device, the flag is cleared whether or not the write succeeded, and
     * the write's outcome is the result.
     */
    method CheckIfUpdatedAndPostRequest(device: SerialDevice.Device, written: int) returns (res: int, frame: Option<seq<byte>>)
      requires Valid() && device.Valid()
      modifies this, device.writeBuffer
      ensures Valid() && device.Valid()
      ensures value == old(value) && !updatedFlag
      ensures !old(updatedFlag) ==> res == UpToDate && frame == None && device.writeBuffer[..] == old(device.writeBuffer[..])
      ensures old(updatedFlag) ==> res == (if written > 0 then Posted else PostFailed) && frame.Some?
      ensures frame.Some? ==> IsFrame(frame.value, opcode, value, SerialDevice.OpcodeSize)
                              && DecodeFrame(frame.value, size, SerialDevice.OpcodeSize) == value
    {
      res := UpToDate;
      frame := None;
      if updatedFlag {
        var ok, sent := device.PostEncodedRequest(opcode, size, value, written);
        assert value[..size] == value;
        FrameDecodes(sent, opcode, value, SerialDevice.OpcodeSize);
        res := if ok then Posted else PostFailed;
        frame := Some(sent);
        updatedFlag := false;
      }
    }
  }

  /** RotationState's opcode and size: three one-byte rotations, X, Y and Z. */
  const RotationOpcode: byte := 5
  const RotationSize: nat := 3

  /** State: the rotation component, its three rotations 0 and not marked updated. */
  class State {
    const rotationState: UpdateableStateComponent

    constructor ()
      ensures fresh(rotationState) && rotationState.Valid()
      ensures rotationState.opcode == RotationOpcode && rotationState.size == RotationSize
      ensures rotationState.value == [0, 0, 0] && !rotationState.updatedFlag
    {
      rotationState := new UpdateableStateComponent(RotationOpcode, [0, 0, 0]);
    }
  }
}

=== FILE: database.dfy ===
// The record store (WozekServer/DatabaseManager.hpp, DatabaseManager.cpp,
// record types in WozekServer/DatabaseData.hpp): two id-keyed tables of
// hosts and controllers, id allocation that scans upward from the last id
// handed out, and the host/controller link. A host's weak pointer to its
// TCP connection is a handle; a controller's desired and measured states,
// which the manager never touches, are left out.

module Database {
  import opened Base
  import Datagrams

  /** data::IdType, a uint32_t. */
  type Id = u32

  /**
   * A connection handle: the weak reference a host record keeps to its TCP
   * connection, which the record never owns.
   */
  type ConnectionRef = nat

  /** A host record: its header, its TCP connection (None when unset), and the ids of the controllers connected to it. */
  datatype Host = Host(header: Datagrams.HostHeader, tcpConnection: Option<ConnectionRef>, connectedControllers: set<Id>)

  /** A controller record: its header's id, and its host's id (0 for none). */
  datatype Controller = Controller(id: Id, host: Id)

  /** Database::Table. */
  datatype Table = HostTable | ControllerTable

  /** The two maps of a Database. */
  datatype Tables = Tables(hosts: map<Id, Host>, controllers: map<Id, Controller>)

  /** The id k places after lastId, as ++lastId on a uint32_t produces it. */
  function Cyclic(lastId: Id, k: nat): Id
  {
    (lastId + k) % U32_LIMIT
  }

  /** How far id lies after lastId, counting upward with wrap-around. */
  function Dist(lastId: Id, id: Id): (d: nat)
    ensures d < U32_LIMIT
  {
    (id - lastId) % U32_LIMIT
  }

  /** The id steps places on from lastId lies exactly steps places on, and so is none of the ids met before it. */
  lemma CyclicFresh(lastId: Id, steps: nat, visited: set<Id>)
    requires 1 <= steps <= U32_LIMIT
    requires forall v :: v in visited ==> 1 <= Dist(lastId, v) < steps
    ensures steps < U32_LIMIT ==> Dist(lastId, Cyclic(lastId, steps)) == steps
    ensures Cyclic(lastId, steps) !in visited
  {
  }

  lemma {:induction false} SubsetCardinality(a: set<Id>, b: set<Id>)
    requires a <= b
    ensures |a| <= |b|
    decreases |a|
  {
    if a != {} {
      var x :| x in a;
      SubsetCardinality(a - {x}, b - {x});
    }
  }

  /**
   * getNextFreeId's scan: from lastId upward (wrapping past 2^32 - 1), the
   * first id the table does not use. It ends only because some id is free.
   */
  method NextFreeId(keys: set<Id>, lastId: Id) returns (id: Id)
    requires |keys| < U32_LIMIT
    ensures id !in keys
    ensures exists k :: (1 <= k <= U32_LIMIT && id == Cyclic(lastId, k)
      && (forall j :: 1 <= j < k ==> Cyclic(lastId, j) in keys))
    ensures lastId + |keys| + 1 < U32_LIMIT ==> lastId < id
  {
    id := Cyclic(lastId, 1);
    var steps: nat := 1;
    ghost var visited: set<Id> := {};
    while id in keys
      invariant 1 <= steps && |visited| == steps - 1
      invariant visited <= keys
      invariant id == Cyclic(lastId, steps)
      invariant forall j :: 1 <= j < steps ==> Cyclic(lastId, j) in keys
      invariant forall v :: v in visited ==> 1 <= Dist(lastId, v) < steps
      decreases |keys| - |visited|
    {
      SubsetCardinality(visited, keys);
      CyclicFresh(lastId, steps, visited);
      visited := visited + {id};
      SubsetCardinality(visited, keys);
      steps := steps + 1;
      id := Cyclic(lastId, steps);
    }
    SubsetCardinality(visited, keys);
  }

  /** Removing host hostId orphans each listed controller that still points at it. */
  function Orphan(controllers: map<Id, Controller>, listed: set<Id>, hostId: Id): (r: map<Id, Controller>)
    ensures r.Keys == controllers.Keys
    ensures forall c :: c in controllers ==>
      r[c] == if c in listed && controllers[c].host == hostId then controllers[c].(host := 0) else controllers[c]
  {
    map c | c in controllers :: if c in listed && controllers[c].host == hostId then controllers[c].(host := 0) else controllers[c]
  }

  lemma OrphanNone(controllers: map<Id, Controller>, hostId: Id)
    ensures Orphan(controllers, {}, hostId) == controllers
  {
  }

  /** Orphaning one more listed controller changes at most its own record. */
  lemma OrphanStep(controllers: map<Id, Controller>, listed: set<Id>, c: Id, hostId: Id)
    requires c !in listed
    ensures var before := Orphan(controllers, listed, hostId);
      Orphan(controllers, listed + {c}, hostId)
        == if c in before && before[c].host == hostId then before[c := before[c].(host := 0)] else before
  {
  }

  /** removeRecord<Host>'s loop over the host's listed controllers. */
  method OrphanListed(controllers: map<Id, Controller>, listed: set<Id>, hostId: Id) returns (orphaned: map<Id, Controller>)
    ensures orphaned == Orphan(controllers, listed, hostId)
  {
    var pending := listed;
    orphaned := controllers;
    ghost var done: set<Id> := {};
    OrphanNone(controllers, hostId);
    while pending != {}
      invariant done + pending == listed && done !! pending
      invariant orphaned == Orphan(controllers, done, hostId)
      decreases |pending|
    {
      var controllerId :| controllerId in pending;
      OrphanStep(controllers, done, controllerId, hostId);
      if controllerId in orphaned && orphaned[controllerId].host == hostId {
        orphaned := orphaned[controllerId := orphaned[controllerId].(host := 0)];
      }
      pending := pending - {controllerId};
      done := done + {controllerId};
    }
  }

  /** removeRecord<Host>: orphan the host's listed controllers, then erase the host. */
  function RemoveHost(t: Tables, id: Id): (r: Tables)
    requires id in t.hosts
    ensures r.hosts == t.hosts - {id}
    ensures r.controllers.Keys == t.controllers.Keys
  {
    var host := t.hosts[id];
    Tables(t.hosts - {id}, Orphan(t.controllers, host.connectedControllers, host.header.id))
  }

  /** The outcome of connectControllerToHost, which can reach undefined behaviour. */
  datatype ConnectResult = Connected(ok: bool, tables: Tables) | Undefined

  /**
   * connectControllerToHost as written: fails when either record is
   * missing; succeeds without change when already connected there;
   * otherwise erases the controller from its old host's set (through
   * find, so erasing end() when it is not listed) and points the
   * controller at the new host, whose set it never adds the controller to.
   */
  function ConnectAsWritten(t: Tables, controllerId: Id, hostId: Id): (r: ConnectResult)
    ensures r.Connected? && r.ok ==> r.tables.hosts.Keys == t.hosts.Keys
  {
    if controllerId !in t.controllers || hostId !in t.hosts then Connected(false, t)
    else
      var controller := t.controllers[controllerId];
      var controllers := t.controllers[controllerId := controller.(host := hostId)];
      if controller.host != 0 && controller.host == hostId then Connected(true, t)
      else if controller.host != 0 && controller.host in t.hosts then
        var old_ := t.hosts[controller.host];
        if controllerId !in old_.connectedControllers then Undefined
        else
          var hosts := t.hosts[controller.host := old_.(connectedControllers := old_.connectedControllers - {controllerId})];
          Connected(true, Tables(hosts, controllers))
      else Connected(true, Tables(t.hosts, controllers))
  }

  /**
   * No host has id 0, which means "no host"; every controller pointing at
   * an existing host is listed by it, every listed controller points at
   * its host, and each host is keyed by its header's id.
   */
  predicate Linked(t: Tables)
  {
    && 0 !in t.hosts
    && (forall h :: h in t.hosts ==> t.hosts[h].header.id == h)
    && (forall c :: c in t.controllers && t.controllers[c].host in t.hosts ==>
          c in t.hosts[t.controllers[c].host].connectedControllers)
    && (forall h, c :: h in t.hosts && c in t.hosts[h].connectedControllers ==>
          c in t.controllers && t.controllers[c].host == h)
  }

  /** connectControllerToHost as intended: also list the controller with its new host, and erase it from the old one only if there. */
  function Connect(t: Tables, controllerId: Id, hostId: Id): (r: ConnectResult)
    ensures r.Connected?
    ensures r.ok <==> controllerId in t.controllers && hostId in t.hosts
    ensures r.ok ==> r.tables.controllers == t.controllers[controllerId := t.controllers[controllerId].(host := hostId)]
    ensures r.ok ==> r.tables.hosts.Keys == t.hosts.Keys
    ensures !r.ok ==> r.tables == t
  {
    if controllerId !in t.controllers || hostId !in t.hosts then Connected(false, t)
    else
      var controller := t.controllers[controllerId];
      var controllers := t.controllers[controllerId := controller.(host := hostId)];
      var detached :=
        if controller.host != 0 && controller.host != hostId && controller.host in t.hosts then
          var old_ := t.hosts[controller.host];
          t.hosts[controller.host := old_.(connectedControllers := old_.connectedControllers - {controllerId})]
        else t.hosts;
      var new_ := detached[hostId];
      Connected(true, Tables(detached[hostId := new_.(connectedControllers := new_.connectedControllers + {controllerId})], controllers))
  }

  /** The corrected connect keeps hosts and controllers linked. */
  lemma ConnectKeepsLinked(t: Tables, controllerId: Id, hostId: Id)
    requires Linked(t)
    ensures Linked(Connect(t, controllerId, hostId).tables)
  {
    var r := Connect(t, controllerId, hostId).tables;
    if controllerId in t.controllers && hostId in t.hosts {
      var oldHost := t.controllers[controllerId].host;
      assert r.hosts[hostId].connectedControllers == t.hosts[hostId].connectedControllers + {controllerId};
      assert forall h :: h in t.hosts && h != hostId ==>
        r.hosts[h].header == t.hosts[h].header
        && r.hosts[h].connectedControllers == t.hosts[h].connectedControllers - (if h == oldHost then {controllerId} else {});
      forall h, c | h in r.hosts && c in r.hosts[h].connectedControllers
        ensures c in r.controllers && r.controllers[c].host == h
      {
        if c != controllerId {
          assert c in t.hosts[h].connectedControllers;
        }
      }
      forall c | c in r.controllers && r.controllers[c].host in r.hosts
        ensures c in r.hosts[r.controllers[c].host].connectedControllers
      {
        if c != controllerId {
          assert c in t.hosts[t.controllers[c].host].connectedControllers;
        }
      }
    }
  }

  /** With the tables linked, removing a host leaves no controller pointing at it. */
  lemma RemoveHostOrphansAll(t: Tables, id: Id)
    requires Linked(t)
    requires id in t.hosts
    ensures forall c :: c in RemoveHost(t, id).controllers ==> RemoveHost(t, id).controllers[c].host != id
  {
    var r := RemoveHost(t, id);
    forall c | c in r.controllers
      ensures r.controllers[c].host != id
    {
      if t.controllers[c].host == id {
        assert c in t.hosts[id].connectedControllers;
      }
    }
  }

  /**
   * As written, a controller moved from one existing host to another is
   * never found in the old host's set, because no code adds to that set:
   * the erase of find's end() is undefined behaviour.
   */
  lemma ConnectAsWrittenMoveIsUndefined()
    ensures var name := Datagrams.Zeros(Datagrams.HostNameSize);
      var t := Tables(map[1 := Host(Datagrams.HostHeader(1, name), None, {}), 2 := Host(Datagrams.HostHeader(2, name), None, {})],
                      map[5 := Controller(5, 1)]);
      ConnectAsWritten(t, 5, 2) == Undefined
  {
  }

  /**
   * As written, a controller connected to a host keeps pointing at it after
   * the host is removed, because the host never listed it.
   */
  lemma ConnectAsWrittenLeavesDanglingHost()
    ensures var name := Datagrams.Zeros(Datagrams.HostNameSize);
      var t := Tables(map[1 := Host(Datagrams.HostHeader(1, name), None, {})], map[5 := Controller(5, 0)]);
      var r := ConnectAsWritten(t, 5, 1);
      && r == Connected(true, Tables(t.hosts, map[5 := Controller(5, 1)]))
      && RemoveHost(r.tables, 1).controllers[5].host == 1
  {
    var name := Datagrams.Zeros(Datagrams.HostNameSize);
    var t := Tables(map[1 := Host(Datagrams.HostHeader(1, name), None, {})], map[5 := Controller(5, 0)]);
    var r := ConnectAsWritten(t, 5, 1);
    assert t.controllers[5 := Controller(5, 1)] == map[5 := Controller(5, 1)];
    var removed := RemoveHost(r.tables, 1);
    assert 5 in removed.controllers;
  }

  class DatabaseManager {
    var hosts: map<Id, Host>
    var controllers: map<Id, Controller>
    /** getNextFreeId's function-static lastId, one per table. */
    var lastHostId: Id
    var lastControllerId: Id

    function Contents(): Tables
      reads this
    {
      Tables(hosts, controllers)
    }

    constructor ()
      ensures hosts == map[] && controllers == map[]
      ensures lastHostId == 0 && lastControllerId == 0
    {
      hosts := map[];
      controllers := map[];
      lastHostId := 0;
      lastControllerId := 0;
    }

    /** get<Host>: the record, or nullptr when the id is not in the table. */
    function GetHost(id: Id): (r: Option<Host>)
      reads this
      ensures r.Some? <==> id in hosts
      ensures r.Some? ==> r.value == hosts[id]
    {
      if id in hosts then Some(hosts[id]) else None
    }

    function GetController(id: Id): (r: Option<Controller>)
      reads this
      ensures r.Some? <==> id in controllers
      ensures r.Some? ==> r.value == controllers[id]
    {
      if id in controllers then Some(controllers[id]) else None
    }

    /** getNextFreeId<table>: scans from the table's last id and remembers where it stopped. */
    method GetNextFreeId(table: Table) returns (id: Id)
      requires table == HostTable ==> |hosts| < U32_LIMIT
      requires table == ControllerTable ==> |controllers| < U32_LIMIT
      modifies this
      ensures hosts == old(hosts) && controllers == old(controllers)
      ensures table == HostTable ==> id !in hosts && lastHostId == id && lastControllerId == old(lastControllerId)
      ensures table == ControllerTable ==> id !in controllers && lastControllerId == id && lastHostId == old(lastHostId)
    {
      if table == HostTable {
        id := NextFreeId(hosts.Keys, lastHostId);
        lastHostId := id;
      } else {
        id := NextFreeId(controllers.Keys, lastControllerId);
        lastControllerId := id;
      }
    }

    /** addRecord<Host>: fails when the header's id is taken; otherwise a fresh record with that header, linked to no controller. */
    method AddHostRecord(header: Datagrams.HostHeader) returns (ok: bool)
      modifies this
      ensures ok <==> header.id !in old(hosts)
      ensures hosts == if ok then old(hosts)[header.id := Host(header, None, {})] else old(hosts)
      ensures controllers == old(controllers)
      ensures lastHostId == old(lastHostId) && lastControllerId == old(lastControllerId)
    {
      if header.id in hosts {
        return false;
      }
      hosts := hosts[header.id := Host(header, None, {})];
      ok := true;
    }

    /** addRecord<Controller>. */
    method AddControllerRecord(id: Id) returns (ok: bool)
      modifies this
      ensures ok <==> id !in old(controllers)
      ensures controllers == if ok then old(controllers)[id := Controller(id, 0)] else old(controllers)
      ensures hosts == old(hosts)
      ensures lastHostId == old(lastHostId) && lastControllerId == old(lastControllerId)
    {
      if id in controllers {
        return false;
      }
      controllers := controllers[id := Controller(id, 0)];
      ok := true;
    }

    /**
     * createAndAddRecord<Host>: the header gets the next free id and is
     * added, which cannot fail since the id is free. It returns the bool
     * from addRecord; the id reaches the caller only through the header.
     */
    method CreateAndAddHostRecord(header: Datagrams.HostHeader) returns (ok: bool, newHeader: Datagrams.HostHeader)
      requires |hosts| < U32_LIMIT
      modifies this
      ensures ok && newHeader == header.(id := lastHostId)
      ensures newHeader.id !in old(hosts)
      ensures hosts == old(hosts)[newHeader.id := Host(newHeader, None, {})]
      ensures controllers == old(controllers) && lastControllerId == old(lastControllerId)
    {
      var id := GetNextFreeId(HostTable);
      newHeader := header.(id := id);
      ok := AddHostRecord(newHeader);
    }

    /** createAndAddRecord<Controller>. */
    method CreateAndAddControllerRecord() returns (ok: bool, id: Id)
      requires |controllers| < U32_LIMIT
      modifies this
      ensures ok && id == lastControllerId && id !in old(controllers)
      ensures controllers == old(controllers)[id := Controller(id, 0)]
      ensures hosts == old(hosts) && lastHostId == old(lastHostId)
    {
      id := GetNextFreeId(ControllerTable);
      ok := AddControllerRecord(id);
    }

    /** get<Host>(id)->network.tcpConnection = connection, on a record that exists. */
    method SetHostConnection(id: Id, connection: ConnectionRef)
      requires id in hosts
      modifies this
      ensures hosts == old(hosts)[id := old(hosts)[id].(tcpConnection := Some(connection))]
      ensures controllers == old(controllers)
      ensures lastHostId == old(lastHostId) && lastControllerId == old(lastControllerId)
    {
      hosts := hosts[id := hosts[id].(tcpConnection := Some(connection))];
    }

    /** removeRecord<Host>: false when absent; otherwise orphan the listed controllers still pointing here, then erase. */
    method RemoveHostRecord(id: Id) returns (ok: bool)
      modifies this
      ensures ok <==> id in old(hosts)
      ensures ok ==> Contents() == RemoveHost(old(Contents()), id)
      ensures !ok ==> hosts == old(hosts) && controllers == old(controllers)
      ensures lastHostId == old(lastHostId) && lastControllerId == old(lastControllerId)
    {
      if id !in hosts {
        return false;
      }
      var host := hosts[id];
      controllers := OrphanListed(controllers, host.connectedControllers, host.header.id);
      hosts := hosts - {id};
      ok := true;
    }

    /** removeRecord<Controller>: false when absent; otherwise erase. */
    method RemoveControllerRecord(id: Id) returns (ok: bool)
      modifies this
      ensures ok <==> id in old(controllers)
      ensures controllers == old(controllers) - {id}
      ensures hosts == old(hosts)
      ensures lastHostId == old(lastHostId) && lastControllerId == old(lastControllerId)
    {
      ok := id in controllers;
      controllers := controllers - {id};
    }

    /** connectControllerToHost, as written; undefined reports the erase of end(). */
    method ConnectControllerToHost(controllerId: Id, hostId: Id) returns (ok: bool, undefined: bool)
      modifies this
      ensures undefined <==> ConnectAsWritten(old(Contents()), controllerId, hostId) == Undefined
      ensures !undefined ==> ConnectAsWritten(old(Contents()), controllerId, hostId) == Connected(ok, Contents())
      ensures lastHostId == old(lastHostId) && lastControllerId == old(lastControllerId)
    {
      undefined := false;
      if controllerId !in controllers || hostId !in hosts {
        return false, false;
      }
      var controller := controllers[controllerId];
      if controller.host != 0 {
        if controller.host == hostId {
          return true, false;
        }
        if controller.host in hosts {
          var oldHost := hosts[controller.host];
          if controllerId !in oldHost.connectedControllers {
            return false, true;
          }
          hosts := hosts[controller.host := oldHost.(connectedControllers := oldHost.connectedControllers - {controllerId})];
        }
      }
      controllers := controllers[controllerId := controller.(host := hostId)];
      ok := true;
    }

    /** connectControllerToHost as intended (see Connect). */
    method ConnectControllerToHostLinked(controllerId: Id, hostId: Id) returns (ok: bool)
      modifies this
      ensures Connected(ok, Contents()) == Connect(old(Contents()), controllerId, hostId)
      ensures Linked(old(Contents())) ==> Linked(Contents())
      ensures lastHostId == old(lastHostId) && lastControllerId == old(lastControllerId)
    {
      if Linked(Contents()) {
        ConnectKeepsLinked(Contents(), controllerId, hostId);
      }
      var r := Connect(Contents(), controllerId, hostId);
      ok := r.ok;
      hosts := r.tables.hosts;
      controllers := r.tables.controllers;
    }
  }
}

=== FILE: database_base.dfy ===
// The slot table and the value index (WozekServer/DatabaseBase.hpp). The
// table hands out ids 1, 2, 3, ... from a counter, each id naming one slot
// of a fixed array; the index maps values to ids and answers lookups
// through a callback. Strands and the atomic counter are sequential here.

module DatabaseBase {
  import opened Base

  /** TableBase: IdSlots + 1 slots, slot 0 unused, ids handed out in order from 1. */
  class TableBase<R> {
    const idSlots: nat
    var lastFreeIndex: nat
    const records: array<Option<R>>

    /** Every slot from the counter on is empty, and so is slot 0. */
    predicate Valid()
      reads this, records
    {
      && records.Length == idSlots + 1
      && 1 <= lastFreeIndex
      && records[0].None?
      && (forall i :: lastFreeIndex <= i < records.Length ==> records[i].None?)
    }

    constructor (idSlots: nat)
      ensures Valid() && fresh(records)
      ensures this.idSlots == idSlots && lastFreeIndex == 1
      ensures forall i :: 0 <= i < records.Length ==> records[i].None?
    {
      this.idSlots := idSlots;
      lastFreeIndex := 1;
      records := new Option<R>[idSlots + 1](_ => None);
    }

    /** getNextIndex: the counter's value, then the counter moves on by one; the id must fit a slot. */
    method GetNextIndex() returns (id: nat)
      requires Valid()
      requires lastFreeIndex <= idSlots
      modifies this
      ensures Valid()
      ensures id == old(lastFreeIndex) && lastFreeIndex == id + 1
      ensures 0 < id < records.Length && records[id].None?
    {
      id := lastFreeIndex;
      lastFreeIndex := lastFreeIndex + 1;
    }

    /** getRecordById: the slot's record, or nothing when empty; id must name a slot other than 0. */
    function GetRecordById(id: nat): (r: Option<R>)
      requires Valid()
      requires 0 < id < records.Length
      reads this, records
      ensures r.Some? ==> id < lastFreeIndex
    {
      records[id]
    }

    /** createNewRecord: a fresh id, and the new record installed in its previously empty slot. */
    method CreateNewRecord(record: R) returns (id: nat)
      requires Valid()
      requires lastFreeIndex <= idSlots
      modifies this, records
      ensures Valid()
      ensures id == old(lastFreeIndex) && lastFreeIndex == id + 1
      ensures 0 < id < records.Length && old(records[id]).None?
      ensures records[id] == Some(record)
      ensures forall i :: 0 <= i < records.Length && i != id ==> records[i] == old(records[i])
    {
      id := GetNextIndex();
      records[id] := Some(record);
    }
  }

  /** IndexBase: a map from indexed values to ids, consulted on a strand. */
  class IndexBase<V(==)> {
    var hasContext: bool
    var indexMap: map<V, nat>

    constructor ()
      ensures !hasContext && indexMap == map[]
    {
      hasContext := false;
      indexMap := map[];
    }

    /** setContext: from now on there is a strand to post on. */
    method SetContext()
      modifies this
      ensures hasContext && indexMap == old(indexMap)
    {
      hasContext := true;
    }

    /**
     * getSafeCallback as written: the ids the callback is called with, in
     * order. A known value gives its id and then 0, because nothing returns
     * after the first call.
     */
    function GetSafeCallbackAsWritten(value: V): (calls: seq<nat>)
      requires hasContext
      reads this
      ensures |calls| == if value in indexMap then 2 else 1
      ensures calls[|calls| - 1] == 0
      ensures value in indexMap ==> calls[0] == indexMap[value]
    {
      (if value in indexMap then [indexMap[value]] else []) + [0]
    }

    /** getSafeCallback as intended: exactly one call, with the id or with 0 for an unknown value. */
    function GetSafeCallback(value: V): (calls: seq<nat>)
      requires hasContext
      reads this
      ensures |calls| == 1
      ensures calls[0] == if value in indexMap then indexMap[value] else 0
    {
      if value in indexMap then [indexMap[value]] else [0]
    }
  }

  /** For an unknown value, the code as written and the intended one agree. */
  lemma SafeCallbackAgreesWhenUnknown<V>(index: IndexBase<V>, value: V)
    requires index.hasContext && value !in index.indexMap
    ensures index.GetSafeCallbackAsWritten(value) == index.GetSafeCallback(value) == [0]
  {
  }

  /** As written, a known value with id 7 makes the callback run twice: with 7, then with 0. */
  lemma SafeCallbackAsWrittenCallsTwice(index: IndexBase<int>)
    requires index.hasContext && index.indexMap == map[42 := 7]
    ensures index.GetSafeCallbackAsWritten(42) == [7, 0]
    ensures index.GetSafeCallback(42) == [7]
  {
  }
}

=== FILE: datagrams.dfy ===
// The messages exchanged between the server, the hosts and the controllers
// (WozekServer/Datagrams.hpp): request and response codes, and each
// structure's bytes as the x86-64 compilers lay it out (little-endian
// integers, natural alignment, a size_t of 8 bytes). A structure travels
// as the bytes memcpy copies out of it; padding bytes are written as 0.

module Datagrams {
  import opened Base

  // ---------------------------------------------------------------------
  // Codes
  // ---------------------------------------------------------------------

  const HeartbeatCode: byte := 0x00
  /** EchoRequest::request_id, an IdType. */
  const EchoRequestId: u32 := 1
  const RegisterNewHostCode: byte := 0x01
  const UploadMapCode: byte := 0x02
  const DownloadMapCode: byte := 0x03
  const StartTheWorldCode: byte := 0x04
  const FileUploadCode: byte := 0x05
  const FileDownloadCode: byte := 0x06
  /** UpdateHostState::Code, a UDP request. */
  const UpdateHostStateCode: byte := 0x01

  /** RegisterNewHost::Response and StartTheWorld::ResponseHeader codes. */
  const FailureCode: byte := 0x00
  const SuccessCode: byte := 0x01

  /** SegmentedTransfer ack codes. */
  const AckErrorCode: byte := 0x00
  const AckContinueCode: byte := 0x01
  const AckFinishedCode: byte := 0x02

  /** UploadMap and DownloadMap response codes. */
  const DenyAccessCode: byte := 0x00
  const InvalidSizeCode: byte := 0x01
  const AcceptCode: byte := 0x02

  /** The request codes a TCP connection dispatches on, in declaration order. */
  function TcpCodes(): (codes: seq<byte>)
    ensures |codes| == 7
  {
    [HeartbeatCode, RegisterNewHostCode, UploadMapCode, DownloadMapCode, StartTheWorldCode, FileUploadCode, FileDownloadCode]
  }

  /** The TCP request codes are pairwise distinct, but the echo request id coincides with the registration code. */
  lemma CodesDistinct()
    ensures forall i, j :: 0 <= i < j < |TcpCodes()| ==> TcpCodes()[i] != TcpCodes()[j]
    ensures EchoRequestId as int == RegisterNewHostCode as int
    ensures AckErrorCode < AckContinueCode < AckFinishedCode
    ensures DenyAccessCode < InvalidSizeCode < AcceptCode
    ensures FailureCode != SuccessCode
  {
  }

  // ---------------------------------------------------------------------
  // Sizes
  // ---------------------------------------------------------------------

  const IdSize: nat := 4
  const SizeTSize: nat := 8
  const HostNameSize: nat := 32
  const FileNameSize: nat := 128
  /** Controller::DesiredState: seven floats. */
  const DesiredStateSize: nat := 28

  function Zeros(n: nat): (r: seq<byte>)
    ensures |r| == n
    ensures forall i :: 0 <= i < n ==> r[i] == 0
  {
    seq(n, _ => 0)
  }

  // ---------------------------------------------------------------------
  // Host::Header, the RegisterNewHost request
  // ---------------------------------------------------------------------

  datatype HostHeader = HostHeader(id: u32, name: seq<byte>)

  predicate HostHeaderValid(h: HostHeader)
  {
    |h.name| == HostNameSize
  }

  /** A 4-byte id followed by the 32-byte name, with no padding. */
  function EncodeHostHeader(h: HostHeader): (b: seq<byte>)
    requires HostHeaderValid(h)
    ensures |b| == IdSize + HostNameSize
    ensures b[IdSize..] == h.name
  {
    EncodeLE(h.id, IdSize) + h.name
  }

  function DecodeHostHeader(b: seq<byte>): (h: HostHeader)
    requires |b| == IdSize + HostNameSize
    ensures HostHeaderValid(h)
  {
    Pow256Id();
    HostHeader(DecodeLE(b[..IdSize]), b[IdSize..])
  }

  lemma HostHeaderRoundTrip(h: HostHeader)
    requires HostHeaderValid(h)
    ensures DecodeHostHeader(EncodeHostHeader(h)) == h
  {
    var b := EncodeHostHeader(h);
    assert b[..IdSize] == EncodeLE(h.id, IdSize);
    Pow256Id();
    DecodeEncodeLE(h.id, IdSize);
  }

  lemma Pow256Id()
    ensures Pow256(IdSize) == U32_LIMIT
  {
    assert Pow256(4) == 0x1_0000_0000;
  }

  lemma Pow256SizeT()
    ensures Pow256(SizeTSize) == U64_LIMIT
  {
    Pow256Id();
    assert Pow256(8) == 256 * 256 * 256 * 256 * Pow256(4);
  }

  lemma Pow256Short()
    ensures Pow256(2) == U16_LIMIT
  {
  }

  // ---------------------------------------------------------------------
  // Responses made of a code and an id: RegisterNewHost::Response and
  // StartTheWorld::ResponseHeader. The code is followed by 3 padding bytes.
  // ---------------------------------------------------------------------

  datatype CodeAndId = CodeAndId(code: byte, id: u32)

  function EncodeCodeAndId(r: CodeAndId): (b: seq<byte>)
    ensures |b| == 8
    ensures b[0] == r.code
  {
    [r.code] + Zeros(3) + EncodeLE(r.id, IdSize)
  }

  function DecodeCodeAndId(b: seq<byte>): CodeAndId
    requires |b| == 8
  {
    Pow256Id();
    CodeAndId(b[0], DecodeLE(b[4..8]))
  }

  lemma CodeAndIdRoundTrip(r: CodeAndId)
    ensures DecodeCodeAndId(EncodeCodeAndId(r)) == r
  {
    var b := EncodeCodeAndId(r);
    assert b[4..8] == EncodeLE(r.id, IdSize);
    Pow256Id();
    DecodeEncodeLE(r.id, IdSize);
  }

  // ---------------------------------------------------------------------
  // SegmentedTransfer: the 1-byte ack and the 8-byte segment header
  // ---------------------------------------------------------------------

  /** A default-constructed SegmentAck carries the error code. */
  const DefaultAck: byte := AckErrorCode

  function EncodeSegmentHeader(size: u64): (b: seq<byte>)
    ensures |b| == SizeTSize
  {
    EncodeLE(size, SizeTSize)
  }

  function DecodeSegmentHeader(b: seq<byte>): u64
    requires |b| == SizeTSize
  {
    Pow256SizeT();
    DecodeLE(b)
  }

  lemma SegmentHeaderRoundTrip(size: u64)
    ensures DecodeSegmentHeader(EncodeSegmentHeader(size)) == size
  {
    Pow256SizeT();
    DecodeEncodeLE(size, SizeTSize);
  }

  /** Every 8 bytes are the header of some size: decoding them and encoding the size gives them back. */
  lemma SegmentHeaderBytesRoundTrip(b: seq<byte>)
    requires |b| == SizeTSize
    ensures EncodeSegmentHeader(DecodeSegmentHeader(b)) == b
  {
    EncodeDecodeLE(b);
  }

  // ---------------------------------------------------------------------
  // UploadMap::RequestHeader: a 4-byte host id, 4 padding bytes, an 8-byte size
  // ---------------------------------------------------------------------

  datatype UploadMapRequest = UploadMapRequest(hostId: u32, totalMapSize: u64)

  function EncodeUploadMapRequest(r: UploadMapRequest): (b: seq<byte>)
    ensures |b| == 16
  {
    EncodeLE(r.hostId, IdSize) + Zeros(4) + EncodeLE(r.totalMapSize, SizeTSize)
  }

  function DecodeUploadMapRequest(b: seq<byte>): UploadMapRequest
    requires |b| == 16
  {
    Pow256Id();
    Pow256SizeT();
    UploadMapRequest(DecodeLE(b[..4]), DecodeLE(b[8..]))
  }

  lemma UploadMapRequestRoundTrip(r: UploadMapRequest)
    ensures DecodeUploadMapRequest(EncodeUploadMapRequest(r)) == r
  {
    var b := EncodeUploadMapRequest(r);
    assert b[..4] == EncodeLE(r.hostId, IdSize);
    assert b[8..] == EncodeLE(r.totalMapSize, SizeTSize);
    Pow256Id();
    Pow256SizeT();
    DecodeEncodeLE(r.hostId, IdSize);
    DecodeEncodeLE(r.totalMapSize, SizeTSize);
  }

  // ---------------------------------------------------------------------
  // DownloadMap: the 4-byte request, and the response of a code, 7 padding
  // bytes and an 8-byte size
  // ---------------------------------------------------------------------

  function EncodeDownloadMapRequest(hostId: u32): (b: seq<byte>)
    ensures |b| == IdSize
  {
    EncodeLE(hostId, IdSize)
  }

  function DecodeDownloadMapRequest(b: seq<byte>): u32
    requires |b| == IdSize
  {
    Pow256Id();
    DecodeLE(b)
  }

  lemma DownloadMapRequestRoundTrip(hostId: u32)
    ensures DecodeDownloadMapRequest(EncodeDownloadMapRequest(hostId)) == hostId
  {
    Pow256Id();
    DecodeEncodeLE(hostId, IdSize);
  }

  datatype DownloadMapResponse = DownloadMapResponse(code: byte, totalMapSize: u64)

  function EncodeDownloadMapResponse(r: DownloadMapResponse): (b: seq<byte>)
    ensures |b| == 16
    ensures b[0] == r.code
  {
    [r.code] + Zeros(7) + EncodeLE(r.totalMapSize, SizeTSize)
  }

  function DecodeDownloadMapResponse(b: seq<byte>): DownloadMapResponse
    requires |b| == 16
  {
    Pow256SizeT();
    DownloadMapResponse(b[0], DecodeLE(b[8..]))
  }

  lemma DownloadMapResponseRoundTrip(r: DownloadMapResponse)
    ensures DecodeDownloadMapResponse(EncodeDownloadMapResponse(r)) == r
  {
    var b := EncodeDownloadMapResponse(r);
    assert b[8..] == EncodeLE(r.totalMapSize, SizeTSize);
    Pow256SizeT();
    DecodeEncodeLE(r.totalMapSize, SizeTSize);
  }

  // ---------------------------------------------------------------------
  // StartTheWorld::RequestHeader: an unsigned short port
  // ---------------------------------------------------------------------

  function EncodeStartWorldRequest(port: u16): (b: seq<byte>)
    ensures |b| == 2
  {
    EncodeLE(port, 2)
  }

  function DecodeStartWorldRequest(b: seq<byte>): u16
    requires |b| == 2
  {
    Pow256Short();
    DecodeLE(b)
  }

  lemma StartWorldRequestRoundTrip(port: u16)
    ensures DecodeStartWorldRequest(EncodeStartWorldRequest(port)) == port
  {
    Pow256Short();
    DecodeEncodeLE(port, 2);
  }

  // ---------------------------------------------------------------------
  // FileTransfer::Upload and ::Download
  // ---------------------------------------------------------------------

  /** Upload::Request: the 128-byte name and then the size, needing no padding. */
  function EncodeFileUploadRequest(fileName: seq<byte>, fileSize: u64): (b: seq<byte>)
    requires |fileName| == FileNameSize
    ensures |b| == FileNameSize + SizeTSize
    ensures b[..FileNameSize] == fileName
  {
    fileName + EncodeLE(fileSize, SizeTSize)
  }

  /** Download::Response: the size, the code and 7 padding bytes. */
  function EncodeFileDownloadResponse(fileSize: u64, code: byte): (b: seq<byte>)
    ensures |b| == 16
    ensures b[SizeTSize] == code
  {
    EncodeLE(fileSize, SizeTSize) + [code] + Zeros(7)
  }

  lemma FileTransferSizes(fileName: seq<byte>, fileSize: u64, code: byte)
    requires |fileName| == FileNameSize
    ensures |EncodeFileUploadRequest(fileName, fileSize)| == 136
    ensures |EncodeFileDownloadResponse(fileSize, code)| == 16
  {
  }

  // ---------------------------------------------------------------------
  // UpdateHostState: a 24-byte header followed by controllersCount
  // 32-byte ControllerData records
  // ---------------------------------------------------------------------

  datatype UpdateHostStateHeader = UpdateHostStateHeader(worldId: u32, timepoint: u64, controllersCount: u64)

  /** A controller's id and its desired state (seven floats, as 28 bytes). */
  datatype ControllerData = ControllerData(id: u32, desiredState: seq<byte>)

  function EncodeUpdateHostStateHeader(h: UpdateHostStateHeader): (b: seq<byte>)
    ensures |b| == 24
  {
    EncodeLE(h.worldId, IdSize) + Zeros(4) + EncodeLE(h.timepoint, SizeTSize) + EncodeLE(h.controllersCount, SizeTSize)
  }

  function EncodeControllerData(c: ControllerData): (b: seq<byte>)
    requires |c.desiredState| == DesiredStateSize
    ensures |b| == 32
  {
    EncodeLE(c.id, IdSize) + c.desiredState
  }

  function EncodeControllers(cs: seq<ControllerData>): (b: seq<byte>)
    requires forall i :: 0 <= i < |cs| ==> |cs[i].desiredState| == DesiredStateSize
    ensures |b| == 32 * |cs|
  {
    if |cs| == 0 then [] else EncodeControllers(cs[..|cs| - 1]) + EncodeControllerData(cs[|cs| - 1])
  }

  /** getSizeof: the header's size plus the records', in size_t arithmetic. */
  function GetSizeof(h: UpdateHostStateHeader): (r: u64)
  {
    (24 + 32 * h.controllersCount) % U64_LIMIT
  }

  /** A datagram whose header counts its records has exactly getSizeof() bytes, unless that size overflows size_t. */
  lemma GetSizeofIsDatagramLength(h: UpdateHostStateHeader, cs: seq<ControllerData>)
    requires forall i :: 0 <= i < |cs| ==> |cs[i].desiredState| == DesiredStateSize
    requires h.controllersCount == |cs|
    requires 24 + 32 * |cs| < U64_LIMIT
    ensures |EncodeUpdateHostStateHeader(h) + EncodeControllers(cs)| == GetSizeof(h)
  {
  }

  /** The header's size is not the datagram's: with 2^59 records getSizeof() wraps around to 24. */
  lemma GetSizeofWraps()
    ensures GetSizeof(UpdateHostStateHeader(0, 0, 0x800_0000_0000_0000)) == 24
  {
  }
}

=== FILE: device.dfy ===
// The serial device of the controller (ControllerController/Device.hpp:107-187):
// the selected COM port, its name, and posting an encoded request through
// the 512-byte write buffer. The serial port itself is outside the model;
// the result of a write is a parameter.

module SerialDevice {
  import opened Base
  import opened SerialCodec

  /** Ports 1 .. 32 exist; port 0 stands for "no port". */
  const MaxPort: int := 32
  const DefaultBaudRate: int := 9600
  const WriteBufferSize: nat := 512
  /** The opcode width the controller's requests use (the default argument of encode). */
  const OpcodeSize: nat := 3

  /** comports[p]: the empty name for port 0, the Windows device path \\.\COMp otherwise. */
  function PortName(p: int): (name: string)
    requires 0 <= p <= MaxPort
    ensures p == 0 <==> name == ""
  {
    if p == 0 then "" else "\\\\.\\COM" + Decimal(p)
  }

  /** setPort's acceptance rule. */
  predicate PortInRange(p: int)
  {
    !(p < 0 || p > MaxPort)
  }

  class Device {
    var port: int
    var bdrate: int
    var portName: string
    const writeBuffer: array<byte>

    /** The stored name is always the name of the stored port. */
    predicate Valid()
      reads this
    {
      && 0 <= port <= MaxPort
      && portName == PortName(port)
      && writeBuffer.Length == WriteBufferSize
    }

    /** Device(port, bdrate_): the baud rate as given, the port through setPort. */
    constructor (p: int, bdrate_: int)
      ensures Valid()
      ensures bdrate == bdrate_
      ensures port == (if PortInRange(p) then p else 0)
      ensures fresh(writeBuffer)
    {
      bdrate := bdrate_;
      writeBuffer := new byte[WriteBufferSize];
      if p < 0 || p > MaxPort {
        port := 0;
        portName := PortName(0);
      } else {
        port := p;
        portName := PortName(p);
      }
    }

    method GetPort() returns (p: int)
      ensures p == port
    {
      p := port;
    }

    /** setPort: an out-of-range port selects port 0 and reports false. */
    method SetPort(p: int) returns (ok: bool)
      requires Valid()
      modifies this
      ensures Valid()
      ensures ok == PortInRange(p)
      ensures port == (if ok then p else 0)
      ensures bdrate == old(bdrate)
    {
      if p < 0 || p > MaxPort {
        port := 0;
        portName := PortName(0);
        return false;
      }
      port := p;
      portName := PortName(p);
      return true;
    }

    /**
     * postEncodedRequest<opcode, length>: frames the first length bytes of
     * data into the write buffer with the compile-time encoder and writes
     * exactly the frame's bytes. written is what the serial port reports.
     */
    method PostEncodedRequest(opcode: byte, length: nat, data: seq<byte>, written: int) returns (ok: bool, sent: seq<byte>)
      requires Valid()
      requires 1 <= length <= |data|
      requires EncodedLength(length, OpcodeSize) <= WriteBufferSize
      modifies writeBuffer
      ensures Valid()
      ensures writeBuffer[..] == TemplateEncode(opcode, length, data, OpcodeSize, old(writeBuffer[..]))
      ensures sent == writeBuffer[..EncodedLength(length, OpcodeSize)]
      ensures IsFrame(sent, opcode, data[..length], OpcodeSize)
      ensures ok == (written > 0)
    {
      Encode(opcode, length, data, writeBuffer, OpcodeSize);
      sent := writeBuffer[..EncodedLength(length, OpcodeSize)];
      ok := written > 0;
    }
  }

  /** Different ports have different device names. */
  lemma PortNamesDistinct(p: int, q: int)
    requires 0 <= p <= MaxPort && 0 <= q <= MaxPort
    requires p != q
    ensures PortName(p) != PortName(q)
  {
    if p != 0 && q != 0 {
      var prefix := "\\\\.\\COM";
      if PortName(p) == PortName(q) {
        assert PortName(p)[|prefix|..] == Decimal(p);
        assert PortName(q)[|prefix|..] == Decimal(q);
        DecimalInjective(p, q);
      }
    }
  }
}

=== FILE: enum_names.dfy ===
// The SMARTENUM name table (WozekServer/enum.hpp): the stringified list of
// enumerators is a NUL-terminated character array; its length, the number
// of commas in it, and the loop that cuts it into one string_view per
// enumerator. A string_view is a start index and a length into the text.

module EnumNames {

  /** A std::string_view into the enumerator list: where it starts and how many characters it covers. */
  datatype View = View(start: nat, length: nat)

  /** The characters the splitter skips: ' ', '\n', '\t'. */
  predicate IsBlank(c: char)
  {
    c == ' ' || c == '\n' || c == '\t'
  }

  /** The characters a view covers. */
  function TextOf(t: string, v: View): (s: string)
    requires v.start + v.length <= |t|
    ensures |s| == v.length
  {
    t[v.start..v.start + v.length]
  }

  // ---------------------------------------------------------------------
  // strlen and countCommas
  // ---------------------------------------------------------------------

  /** The C string held by a NUL-terminated array: the characters before the first NUL. */
  function Content(str: string): (t: string)
    requires '\0' in str
    ensures '\0' !in t && |t| < |str| && str[..|t|] == t && str[|t|] == '\0'
  {
    if str[0] == '\0' then []
    else
      assert '\0' in str[1..] by { var i :| 0 <= i < |str| && str[i] == '\0'; assert str[1..][i - 1] == '\0'; }
      [str[0]] + Content(str[1..])
  }

  /** strlen: walk to the first NUL. */
  method StrLen(str: string) returns (pos: nat)
    requires '\0' in str
    ensures pos == |Content(str)|
  {
    pos := 0;
    while str[pos] != '\0'
      invariant pos <= |Content(str)|
      invariant str[..pos] == Content(str)[..pos]
      decreases |Content(str)| - pos
    {
      pos := pos + 1;
    }
  }

  /** The number of ',' characters in t. */
  function Commas(t: string): (n: nat)
    ensures n <= |t|
  {
    if |t| == 0 then 0
    else Commas(t[..|t| - 1]) + (if t[|t| - 1] == ',' then 1 else 0)
  }

  /** countCommas: the commas before the NUL. */
  method CountCommas(str: string) returns (res: nat)
    requires '\0' in str
    ensures res == Commas(Content(str))
  {
    var size := StrLen(str);
    ghost var t := Content(str);
    res := 0;
    for i := 0 to size
      invariant res == Commas(t[..i])
    {
      assert t[..i + 1][..i] == t[..i];
      res := res + if str[i] == ',' then 1 else 0;
    }
    assert t[..size] == t;
  }

  /** SMARTENUM's Size: one enumerator more than there are commas. */
  function EnumSize(str: string): (size: nat)
    requires '\0' in str
    ensures size >= 1
  {
    Commas(Content(str)) + 1
  }

  // ---------------------------------------------------------------------
  // The fields and their views
  // ---------------------------------------------------------------------

  /** The number of blanks before the first non-blank character of u. */
  function Leading(u: string): (n: nat)
    ensures n <= |u|
  {
    if |u| == 0 || !IsBlank(u[0]) then 0 else 1 + Leading(u[1..])
  }

  /** Leading counts exactly the blanks before the first non-blank character. */
  lemma {:induction false} LeadingBlanks(u: string)
    ensures forall k :: 0 <= k < Leading(u) ==> IsBlank(u[k])
    ensures Leading(u) < |u| ==> !IsBlank(u[Leading(u)])
  {
    if |u| > 0 && IsBlank(u[0]) {
      LeadingBlanks(u[1..]);
    }
  }

  /** The number of non-blank characters of u. */
  function NonBlank(u: string): (n: nat)
    ensures n <= |u|
  {
    if |u| == 0 then 0
    else NonBlank(u[..|u| - 1]) + (if IsBlank(u[|u| - 1]) then 0 else 1)
  }

  /** The view the splitter makes of a field u starting at offset f: past the leading blanks, as many characters as u has non-blank ones. */
  function FieldView(u: string, f: nat): (v: View)
  {
    View(f + Leading(u), NonBlank(u))
  }

  /** The position of the last comma of t. */
  function LastComma(t: string): (p: nat)
    requires ',' in t
    ensures p < |t| && t[p] == ','
  {
    if t[|t| - 1] == ',' then |t| - 1
    else
      assert ',' in t[..|t| - 1] by { var i :| 0 <= i < |t| && t[i] == ','; assert t[..|t| - 1][i] == ','; }
      LastComma(t[..|t| - 1])
  }

  /** No comma follows the last one. */
  lemma {:induction false} LastCommaIsLast(t: string)
    requires ',' in t
    ensures forall k :: LastComma(t) < k < |t| ==> t[k] != ','
  {
    if t[|t| - 1] != ',' {
      var w := t[..|t| - 1];
      assert ',' in w by { var i :| 0 <= i < |t| && t[i] == ','; assert w[i] == ','; }
      LastCommaIsLast(w);
    }
  }

  /** The names the table should hold: the comma-separated fields of t, each as FieldView makes it. */
  function Views(t: string): (vs: seq<View>)
    decreases |t|
  {
    if ',' !in t then [FieldView(t, 0)]
    else
      var p := LastComma(t);
      Views(t[..p]) + [FieldView(t[p + 1..], p + 1)]
  }

  // ---------------------------------------------------------------------
  // The Names loop, one character at a time
  // ---------------------------------------------------------------------

  /** The Names constructor's loop variables: the views written so far, beg and end. */
  datatype Scanner = Scanner(views: seq<View>, beg: nat, end: nat)

  /** One pass of the loop on character c at index i. */
  function Step(st: Scanner, c: char, i: nat): (r: Scanner)
    requires st.beg <= st.end
    ensures r.beg <= r.end
  {
    if IsBlank(c) then
      if st.beg == st.end then Scanner(st.views, st.beg + 1, st.end + 1) else st
    else if c == ',' || c == '\0' then Scanner(st.views + [View(st.beg, st.end - st.beg)], i + 1, i + 1)
    else Scanner(st.views, st.beg, st.end + 1)
  }

  /** The loop variables after the characters of t. */
  function Scan(t: string): (r: Scanner)
    ensures r.beg <= r.end
  {
    if |t| == 0 then Scanner([], 0, 0)
    else Step(Scan(t[..|t| - 1]), t[|t| - 1], |t| - 1)
  }

  /** The table after the loop's last pass, on the NUL. */
  function Names(t: string): (vs: seq<View>)
  {
    Step(Scan(t), '\0', |t|).views
  }

  /** Where the current field starts: after the last comma, or at 0. */
  function FieldStart(t: string): (f: nat)
    ensures f <= |t|
  {
    if ',' in t then LastComma(t) + 1 else 0
  }

  /** The views of the fields closed by a comma. */
  function Closed(t: string): (vs: seq<View>)
  {
    if ',' in t then Views(t[..LastComma(t)]) else []
  }

  lemma LeadingAppend(u: string, c: char)
    ensures Leading(u + [c]) == if Leading(u) == |u| && IsBlank(c) then |u| + 1 else Leading(u)
  {
    if |u| > 0 && IsBlank(u[0]) {
      assert (u + [c])[1..] == u[1..] + [c];
      LeadingAppend(u[1..], c);
    }
  }

  lemma NonBlankAppend(u: string, c: char)
    ensures NonBlank(u + [c]) == NonBlank(u) + if IsBlank(c) then 0 else 1
  {
    assert (u + [c])[..|u|] == u;
  }

  /** A field has no non-blank character exactly when it is all blanks. */
  lemma {:induction false} NoNonBlank(u: string)
    ensures NonBlank(u) == 0 <==> Leading(u) == |u|
  {
    if |u| > 0 {
      var w := u[..|u| - 1];
      NoNonBlank(w);
      assert w + [u[|u| - 1]] == u;
      LeadingAppend(w, u[|u| - 1]);
    }
  }

  lemma LastCommaAppend(t: string, c: char)
    requires ',' in t + [c]
    ensures c == ',' ==> LastComma(t + [c]) == |t|
    ensures c != ',' ==> ',' in t && LastComma(t + [c]) == LastComma(t)
  {
    var t' := t + [c];
    assert t'[..|t|] == t;
    if c != ',' {
      var i :| 0 <= i < |t'| && t'[i] == ',';
      assert t[i] == ',';
    }
  }

  /** The views are those of the closed fields, then the current one. */
  lemma ViewsSplit(t: string)
    ensures Views(t) == Closed(t) + [FieldView(t[FieldStart(t)..], FieldStart(t))]
  {
    if ',' !in t {
      assert t[0..] == t;
    }
  }

  /** The loop's invariant after the characters of t, for loop variables st: the views written are those of the closed fields, and beg and end delimit the current field's view so far. */
  predicate Matches(t: string, st: Scanner)
  {
    var f := FieldStart(t);
    && st.views == Closed(t)
    && st.beg == f + Leading(t[f..])
    && st.end == st.beg + NonBlank(t[f..])
  }

  /** A comma closes the current field with its view and starts an empty one. */
  lemma ScanComma(w: string, st: Scanner)
    requires st.beg <= st.end && Matches(w, st)
    ensures Matches(w + [','], Step(st, ',', |w|))
  {
    var t := w + [','];
    LastCommaAppend(w, ',');
    assert t[..|w|] == w;
    assert Closed(t) == Views(w);
    ViewsSplit(w);
    assert FieldStart(t) == |t| && t[|t|..] == [];
  }

  /** Any other character leaves the closed fields alone and extends the current one. */
  lemma ScanOther(w: string, st: Scanner, c: char)
    requires c != ',' && c != '\0' && st.beg <= st.end && Matches(w, st)
    ensures Matches(w + [c], Step(st, c, |w|))
  {
    var f := FieldStart(w);
    var u := w[f..];
    FieldExtended(w, c);
    LeadingAppend(u, c);
    NonBlankAppend(u, c);
    NoNonBlank(u);
  }

  /** Appending a character other than a comma keeps the closed fields and extends the current field by it. */
  lemma FieldExtended(w: string, c: char)
    requires c != ','
    ensures FieldStart(w + [c]) == FieldStart(w) && Closed(w + [c]) == Closed(w)
    ensures (w + [c])[FieldStart(w)..] == w[FieldStart(w)..] + [c]
  {
    var t := w + [c];
    var f := FieldStart(w);
    if ',' in t {
      LastCommaAppend(w, c);
      var p := LastComma(w);
      assert t[..p] == w[..p];
    }
    var u := w[f..];
    assert |t[f..]| == |u| + 1;
    forall k | 0 <= k < |u| + 1
      ensures t[f..][k] == (u + [c])[k]
    {
    }
  }

  lemma {:induction false} ScanInvariant(t: string)
    requires '\0' !in t
    ensures Matches(t, Scan(t))
  {
    if |t| == 0 {
      assert t[0..] == t;
    } else {
      var w, c := t[..|t| - 1], t[|t| - 1];
      assert t == w + [c];
      assert '\0' !in w by { assert forall k :: 0 <= k < |w| ==> w[k] == t[k]; }
      ScanInvariant(w);
      if c == ',' {
        ScanComma(w, Scan(w));
      } else {
        ScanOther(w, Scan(w), c);
      }
    }
  }

  /** Names fills exactly the views of the fields: one per field, Size of them. */
  lemma NamesAreViews(t: string)
    requires '\0' !in t
    ensures Names(t) == Views(t)
    ensures |Names(t)| == Commas(t) + 1
  {
    ScanInvariant(t);
    ScanCloses(t);
    ViewCount(t);
  }

  /** Once the loop's invariant holds after t, the pass on the NUL leaves all the views in the table. */
  lemma ScanCloses(t: string)
    requires Matches(t, Scan(t))
    ensures Names(t) == Views(t)
  {
    NulCloses(Scan(t), |t|);
    FinalClose(t, Scan(t));
  }

  /** The pass on the NUL writes the current view and moves past it. */
  lemma NulCloses(st: Scanner, i: nat)
    requires st.beg <= st.end
    ensures Step(st, '\0', i) == Scanner(st.views + [View(st.beg, st.end - st.beg)], i + 1, i + 1)
  {
  }

  /** Closing the last field: the views written and the current one are all the views. */
  lemma FinalClose(t: string, st: Scanner)
    requires st.beg <= st.end && Matches(t, st)
    ensures st.views + [View(st.beg, st.end - st.beg)] == Views(t)
  {
    CurrentView(t, st);
    ViewsSplit(t);
  }

  /** beg and end delimit the view of the current field. */
  lemma CurrentView(t: string, st: Scanner)
    requires Matches(t, st)
    ensures View(st.beg, st.end - st.beg) == FieldView(t[FieldStart(t)..], FieldStart(t))
  {
  }

  /** There is one view per comma, and one more. */
  lemma {:induction false} ViewCount(t: string)
    ensures |Views(t)| == Commas(t) + 1
    decreases |t|
  {
    if ',' in t {
      var p := LastComma(t);
      ViewCount(t[..p]);
      LastCommaIsLast(t);
      CommasSplit(t, p);
    } else {
      NoCommas(t);
    }
  }

  lemma {:induction false} NoCommas(t: string)
    requires ',' !in t
    ensures Commas(t) == 0
  {
    if |t| > 0 {
      assert ',' !in t[..|t| - 1];
      NoCommas(t[..|t| - 1]);
    }
  }

  /** Cutting at the last comma: the commas before it, plus it. */
  lemma {:induction false} CommasSplit(t: string, p: nat)
    requires p < |t| && t[p] == ',' && forall k :: p < k < |t| ==> t[k] != ','
    ensures Commas(t) == Commas(t[..p]) + 1
    decreases |t|
  {
    var w := t[..|t| - 1];
    if p < |t| - 1 {
      assert w[..p] == t[..p];
      CommasSplit(w, p);
    } else {
      assert w == t[..p];
    }
  }

  // ---------------------------------------------------------------------
  // The Names constructor
  // ---------------------------------------------------------------------

  /**
   * Names<Enum, Size>(str): walk the text and its NUL, writing one view
   * each time a comma or the NUL closes a field. Size must cover the
   * fields; SMARTENUM passes EnumSize. The loop's last pass, on the NUL,
   * is the round after the for loop.
   */
  method SplitNames(str: string, size: nat) returns (names: array<View>)
    requires '\0' in str && EnumSize(str) <= size
    ensures names.Length == size
    ensures names[..EnumSize(str)] == Views(Content(str))
    ensures forall k :: EnumSize(str) <= k < size ==> names[k] == View(0, 0)
  {
    names := new View[size](_ => View(0, 0));
    ghost var t := Content(str);
    var namesIndex: nat := 0;
    var beg: nat := 0;
    var end: nat := 0;
    var len := StrLen(str);
    for i := 0 to len
      invariant namesIndex == Commas(t[..i]) <= Commas(t)
      invariant Scan(t[..i]) == Scanner(names[..namesIndex], beg, end)
      invariant forall k :: namesIndex <= k < size ==> names[k] == View(0, 0)
    {
      ScanStep(t, i);
      CommasPrefix(t, i + 1);
      namesIndex, beg, end := NamesRound(names, str[i], i, namesIndex, beg, end);
    }
    assert t[..len] == t;
    NamesAreViews(t);
    namesIndex, beg, end := NamesRound(names, str[len], len, namesIndex, beg, end);
  }

  /** One pass of the Names loop on character c at index i: what it writes into the table and the new namesIndex, beg and end. */
  method NamesRound(names: array<View>, c: char, i: nat, namesIndex: nat, beg: nat, end: nat) returns (next: nat, beg': nat, end': nat)
    requires beg <= end && namesIndex <= names.Length
    requires c == ',' || c == '\0' ==> namesIndex < names.Length
    modifies names
    ensures next == namesIndex + if c == ',' || c == '\0' then 1 else 0
    ensures Scanner(names[..next], beg', end') == Step(Scanner(old(names[..namesIndex]), beg, end), c, i)
    ensures forall k :: next <= k < names.Length ==> names[k] == old(names[k])
  {
    next, beg', end' := namesIndex, beg, end;
    if c == ' ' || c == '\n' || c == '\t' {
      if beg == end {
        beg', end' := beg + 1, end + 1;
      }
    } else if c == ',' || c == '\0' {
      names[namesIndex] := View(beg, end - beg);
      assert names[..namesIndex + 1] == old(names[..namesIndex]) + [View(beg, end - beg)];
      beg', end' := i + 1, i + 1;
      next := namesIndex + 1;
    }  else {
      end' := end + 1;
    }
  }

  /** The loop's variables and comma count one character further on. */
  lemma ScanStep(t: string, i: nat)
    requires i < |t|
    ensures Scan(t[..i + 1]) == Step(Scan(t[..i]), t[i], i)
    ensures Commas(t[..i + 1]) == Commas(t[..i]) + if t[i] == ',' then 1 else 0
  {
    assert t[..i + 1][..i] == t[..i];
  }

  /** A prefix has no more commas than the whole. */
  lemma {:induction false} CommasPrefix(t: string, i: nat)
    requires i <= |t|
    ensures Commas(t[..i]) <= Commas(t)
    decreases |t|
  {
    if i < |t| {
      var w := t[..|t| - 1];
      assert w[..i] == t[..i];
      CommasPrefix(w, i);
    } else {
      assert t[..i] == t;
    }
  }

  /** SMARTENUM's GetName: the n-th view, which lies inside the text. */
  function GetName(t: string, n: nat): (v: View)
    requires n < Commas(t) + 1
    ensures v.start + v.length <= |t|
  {
    ViewCount(t);
    ViewsInside(t);
    Views(t)[n]
  }

  /** Every view lies inside the text. */
  lemma {:induction false} ViewsInside(t: string)
    ensures forall v :: v in Views(t) ==> v.start + v.length <= |t|
    decreases |t|
  {
    LeadingNonBlank(t);
    if ',' in t {
      var p := LastComma(t);
      ViewsInside(t[..p]);
      LeadingNonBlank(t[p + 1..]);
    }
  }

  /** Leading blanks and non-blank characters are disjoint, so together they fit in the field. */
  lemma {:induction false} LeadingNonBlank(u: string)
    ensures Leading(u) + NonBlank(u) <= |u|
  {
    if |u| > 0 {
      var w := u[..|u| - 1];
      LeadingNonBlank(w);
      assert w + [u[|u| - 1]] == u;
      LeadingAppend(w, u[|u| - 1]);
      NonBlankAppend(w, u[|u| - 1]);
      NoNonBlank(w);
    }
  }

  // ---------------------------------------------------------------------
  // What the views hold
  // ---------------------------------------------------------------------

  /**
   * A field made of blanks, a word without blanks, and blanks again is cut
   * to the word: surrounding white space is trimmed.
   */
  lemma FieldTrimmed(before: string, word: string, after: string)
    requires forall k :: 0 <= k < |before| ==> IsBlank(before[k])
    requires forall k :: 0 <= k < |after| ==> IsBlank(after[k])
    requires |word| > 0 && forall k :: 0 <= k < |word| ==> !IsBlank(word[k])
    ensures FieldView(before + word + after, 0) == View(|before|, |word|)
    ensures TextOf(before + word + after, FieldView(before + word + after, 0)) == word
  {
    var u := before + word + after;
    LeadingPast(before, word + after);
    assert u == before + (word + after);
    NonBlankConcat(before, word, after);
    assert u[|before|..|before| + |word|] == word;
  }

  lemma {:induction false} LeadingPast(before: string, rest: string)
    requires forall k :: 0 <= k < |before| ==> IsBlank(before[k])
    requires |rest| > 0 && !IsBlank(rest[0])
    ensures Leading(before + rest) == |before|
  {
    if |before| > 0 {
      assert (before + rest)[1..] == before[1..] + rest;
      LeadingPast(before[1..], rest);
    } else {
      assert before + rest == rest;
    }
  }

  lemma {:induction false} NonBlankAll(u: string, blank: bool)
    requires forall k :: 0 <= k < |u| ==> IsBlank(u[k]) == blank
    ensures NonBlank(u) == if blank then 0 else |u|
  {
    if |u| > 0 {
      NonBlankAll(u[..|u| - 1], blank);
    }
  }

  lemma {:induction false} NonBlankJoin(a: string, b: string)
    ensures NonBlank(a + b) == NonBlank(a) + NonBlank(b)
    decreases |b|
  {
    if |b| == 0 {
      assert a + b == a;
    } else {
      var b' := b[..|b| - 1];
      assert (a + b)[..|a + b| - 1] == a + b';
      NonBlankJoin(a, b');
    }
  }

  lemma NonBlankConcat(before: string, word: string, after: string)
    requires forall k :: 0 <= k < |before| ==> IsBlank(before[k])
    requires forall k :: 0 <= k < |after| ==> IsBlank(after[k])
    requires forall k :: 0 <= k < |word| ==> !IsBlank(word[k])
    ensures NonBlank(before + word + after) == |word|
  {
    NonBlankAll(before, true);
    NonBlankAll(word, false);
    NonBlankAll(after, true);
    NonBlankJoin(before, word);
    NonBlankJoin(before + word, after);
  }

  /** Two one-letter enumerators written "x, y" are named x and y: the blank after the comma is skipped. */
  lemma TwoNames(x: char, y: char)
    requires !IsBlank(x) && !IsBlank(y) && x != ',' && y != ','
    ensures Views([x, ',', ' ', y]) == [View(0, 1), View(3, 1)]
    ensures TextOf([x, ',', ' ', y], View(0, 1)) == [x] && TextOf([x, ',', ' ', y], View(3, 1)) == [y]
  {
    var t := [x, ',', ' ', y];
    assert LastComma(t) == 1;
    assert t[..1] == [x] && t[2..] == [' ', y];
    assert ',' !in [x];
    FieldTrimmed([], [x], []);
    assert [] + [x] + [] == [x];
    FieldTrimmed([' '], [y], []);
    assert [' '] + [y] + [] == [' ', y];
  }

  /**
   * A blank inside a field is not kept in place: the view of "a b" starts
   * at 'a' and is two characters long, so it reads "a ".
   */
  lemma InnerBlankMisplaced()
    ensures Views("a b") == [View(0, 2)]
    ensures TextOf("a b", Views("a b")[0]) == "a "
  {
    var t := "a b";
    assert ',' !in t;
    assert Leading(t) == 0;
    assert t[..2] == "a " && t[..1] == "a";
    assert NonBlank(t) == 2;
  }
}

=== FILE: file_manager.dfy ===
// The server's file manager (WozekServer/fileManager.hpp): a working
// directory, and under it a "maps" folder holding one map file per host,
// named "map_" followed by the host id in decimal. The file system is a
// map from paths to contents plus a set of directories; reading and
// writing file contents, and the strand, are not part of this model.

module FileManager {
  import opened Base

  /** A file-system path as its sequence of components; [] is the empty path. */
  type Path = seq<string>

  const MapFilesFolder: string := "maps"

  /** The name of a host's map file: "map_" and the id in decimal. */
  function MapFileName(id: u32): (name: string)
    ensures |name| > 4 && name[..4] == "map_" && name[4..] == Decimal(id)
  {
    "map_" + Decimal(id)
  }

  /** Two map file names agree only for the same id. */
  lemma MapFileNameInjective(a: u32, b: u32)
    requires MapFileName(a) == MapFileName(b)
    ensures a == b
  {
    assert MapFileName(a)[4..] == MapFileName(b)[4..];
    DecimalInjective(a, b);
  }

  class FileManager {
    var workingDirectory: Path
    /** The regular files that exist, with their contents. */
    var files: map<Path, seq<byte>>
    var directories: set<Path>

    constructor (files: map<Path, seq<byte>>, directories: set<Path>)
      ensures workingDirectory == [] && this.files == files && this.directories == directories
    {
      workingDirectory := [];
      this.files := files;
      this.directories := directories;
    }

    /** hasWorkingDirectory: true exactly when NO working directory is set; the name says the opposite. */
    function HasWorkingDirectory(): (r: bool)
      reads this
      ensures r <==> |workingDirectory| == 0
    {
      workingDirectory == []
    }

    /** setWorkingDirectory: refused unless the path is a directory; otherwise adopt it and create its "maps" folder. */
    method SetWorkingDirectory(path: Path) returns (ok: bool)
      modifies this
      ensures ok <==> path in old(directories)
      ensures !ok ==> workingDirectory == old(workingDirectory) && directories == old(directories)
      ensures ok ==> workingDirectory == path && directories == old(directories) + {path + [MapFilesFolder]}
      ensures files == old(files)
    {
      if path !in directories {
        return false;
      }
      workingDirectory := path;
      directories := directories + {workingDirectory + [MapFilesFolder]};
      ok := true;
    }

    /** getPathToMapFile: working directory, then "maps", then the map file's name. */
    function GetPathToMapFile(id: u32): (p: Path)
      reads this
      ensures |p| == |workingDirectory| + 2
      ensures p[..|workingDirectory|] == workingDirectory
      ensures p[|workingDirectory|] == MapFilesFolder && p[|workingDirectory| + 1] == MapFileName(id)
    {
      workingDirectory + [MapFilesFolder, MapFileName(id)]
    }

    /** deleteMapFile: remove exactly the id's map file, if it exists. */
    method DeleteMapFile(id: u32)
      modifies this
      ensures files == old(files) - {GetPathToMapFile(id)}
      ensures workingDirectory == old(workingDirectory) && directories == old(directories)
    {
      var path := GetPathToMapFile(id);
      files := files - {path};
    }
  }

  /** Different hosts have different map paths, so deleting one host's map keeps every other host's. */
  lemma MapPathsDistinct(fm: FileManager, a: u32, b: u32)
    requires a != b
    ensures fm.GetPathToMapFile(a) != fm.GetPathToMapFile(b)
  {
    var n := |fm.workingDirectory|;
    if fm.GetPathToMapFile(a) == fm.GetPathToMapFile(b) {
      assert fm.GetPathToMapFile(a)[n + 1] == fm.GetPathToMapFile(b)[n + 1];
      MapFileNameInjective(a, b);
    }
  }
}

=== FILE: host_udp.dfy ===
// The host client's UDP connection (WozekHostClient/UDP.hpp): a 65550-byte
// buffer that outgoing datagrams are packed into with memcpy at advancing
// offsets, the remote endpoint datagrams go to, and the state variant. The
// socket and the resolver are outside the model: the resolver's answer and
// whether a send fails come in as parameters, and each datagram sent is
// appended to a log. An object is represented by its bytes, so a parameter
// pack of objects is a sequence of byte strings.

module HostUdp {
  import opened Base
  import BufferUtils
  import UdpEngine

  /** maxDatagramDataSize: the largest payload of one IPv4 UDP datagram. */
  const MaxDatagramDataSize: nat := 65507
  /** bufferSize. */
  const BufferSize: nat := 65550

  /** A default-constructed endpoint, which send refuses. */
  const DefaultEndpoint: UdpEngine.Endpoint := UdpEngine.Endpoint(0, 0)

  /** The state variant: Empty, or a freshly emplaced state of some kind. */
  datatype State = Empty | Fresh(kind: nat)

  class Connection {
    const buffer: array<byte>
    var remoteEndpoint: UdpEngine.Endpoint
    var globalState: State
    /** The datagrams sent, in order. */
    var sent: seq<seq<byte>>

    predicate Valid()
      reads this
    {
      buffer.Length == BufferSize
    }

    /** A connection whose buffer holds whatever bytes the std::array held. */
    constructor (initial: seq<byte>)
      requires |initial| == BufferSize
      ensures Valid() && fresh(buffer)
      ensures buffer[..] == initial
      ensures remoteEndpoint == DefaultEndpoint && globalState == Empty && sent == []
    {
      buffer := new byte[BufferSize](i requires 0 <= i < BufferSize => initial[i]);
      remoteEndpoint := DefaultEndpoint;
      globalState := Empty;
      sent := [];
    }

    /** std::memcpy(buffer.data() + off, &first, sizeof(first)): no bounds check, so off + |from| must fit. */
    method Memcpy(off: nat, from: seq<byte>)
      requires Valid()
      requires off + |from| <= buffer.Length
      modifies buffer
      ensures buffer[..] == BufferUtils.Splice(old(buffer[..]), off, from)
    {
      forall i | 0 <= i < |from| {
        buffer[off + i] := from[i];
      }
      assert buffer[..] == BufferUtils.Splice(old(buffer[..]), off, from);
    }

    /**
     * writeObjectsToBufferFromOffset: the objects back to back from off,
     * returning the offset just past the last. Nothing outside
     * [off, end) changes, and the written range holds the objects in order.
     */
    method WriteObjectsToBufferFromOffset(off: nat, objects: seq<seq<byte>>) returns (end: nat)
      requires Valid()
      requires |objects| >= 1
      requires off + Sum(Lengths(objects)) <= buffer.Length
      modifies buffer
      ensures end == off + Sum(Lengths(objects)) == off + |Flatten(objects)|
      ensures buffer[..] == BufferUtils.Splice(old(buffer[..]), off, Flatten(objects))
      ensures buffer[off..end] == Flatten(objects)
      ensures forall i :: 0 <= i < buffer.Length && !(off <= i < end) ==> buffer[i] == old(buffer[i])
      decreases |objects|
    {
      FlattenLength(objects);
      BufferUtils.FlattenCons(objects[0], objects[1..]);
      assert objects == [objects[0]] + objects[1..];
      SumAppend([|objects[0]|], Lengths(objects[1..]));
      assert [|objects[0]|][..0] == [];
      Memcpy(off, objects[0]);
      if |objects| > 1 {
        end := WriteObjectsToBufferFromOffset(off + |objects[0]|, objects[1..]);
        BufferUtils.SpliceSplice(old(buffer[..]), off, objects[0], off + |objects[0]|, Flatten(objects[1..]));
      } else {
        assert objects[1..] == [];
        end := off + |objects[0]|;
      }
    }

    /** send(length, err): the first length bytes of the buffer go to the remote endpoint; asio::buffer never reaches past the array. */
    method Send(length: nat, sendFails: bool)
      requires Valid()
      requires remoteEndpoint != DefaultEndpoint
      modifies this
      ensures sent == old(sent) + if sendFails then [] else [buffer[..Min(length, BufferSize)]]
      ensures remoteEndpoint == old(remoteEndpoint) && globalState == old(globalState)
    {
      if !sendFails {
        sent := sent + [buffer[..Min(length, BufferSize)]];
      }
    }

    /** setRemoteEndpoint: the first endpoint the resolver yields; resolve throws rather than yield none. */
    method SetRemoteEndpoint(resolved: seq<UdpEngine.Endpoint>)
      requires |resolved| >= 1
      modifies this
      ensures remoteEndpoint == resolved[0]
      ensures globalState == old(globalState) && sent == old(sent)
    {
      remoteEndpoint := resolved[0];
    }

    /** setState<T>: the variant is replaced by a default-constructed T. */
    method SetState(kind: nat)
      modifies this
      ensures globalState == Fresh(kind)
      ensures remoteEndpoint == old(remoteEndpoint) && sent == old(sent)
    {
      globalState := Fresh(kind);
    }

    /** resetState: the variant goes back to Empty. */
    method ResetState()
      modifies this
      ensures globalState == Empty
      ensures remoteEndpoint == old(remoteEndpoint) && sent == old(sent)
    {
      globalState := Empty;
    }
  }
}

=== FILE: ip_allow_list.dfy ===
// The server's IPv4 allow list (WozekServer/config.hpp and
// WozekServer/ipAuthorization.hpp, which carry the same parser, reload and
// check): a text file with one "a.b.c.d/p" entry per line, read into a
// list of (address, netmask) pairs that incoming addresses are checked
// against, and reloaded by a timer when the file's modification time
// changes. The file is given as its lines (None when it cannot be opened)
// and its modification time as an integer; the strand, the mutex and the
// timer's clock are not part of this model.

module IpAllowList {
  import opened Base
  import opened Bitwise

  // ---------------------------------------------------------------------
  // What std::stringstream extraction reads
  // ---------------------------------------------------------------------

  /** isspace in the C locale: space, and tab through carriage return. */
  predicate IsSpace(c: char)
  {
    c == ' ' || '\t' <= c <= '\r'
  }

  predicate IsDigit(c: char)
  {
    '0' <= c <= '9'
  }

  /** The limits of a 32-bit int, which an extraction into `int temp` must respect. */
  const IntMax: int := 0x7FFF_FFFF
  const IntMin: int := -0x8000_0000

  /** The first position at or after i that is not white space. */
  function SkipSpace(s: string, i: nat): (j: nat)
    requires i <= |s|
    ensures i <= j <= |s|
    decreases |s| - i
  {
    if i < |s| && IsSpace(s[i]) then SkipSpace(s, i + 1) else i
  }

  /** SkipSpace passes only white space and stops at the end or at a character that is not. */
  lemma {:induction false} SkipSpaceStops(s: string, i: nat)
    requires i <= |s|
    ensures forall k :: i <= k < SkipSpace(s, i) ==> IsSpace(s[k])
    ensures SkipSpace(s, i) == |s| || !IsSpace(s[SkipSpace(s, i)])
    decreases |s| - i
  {
    if i < |s| && IsSpace(s[i]) {
      SkipSpaceStops(s, i + 1);
    }
  }

  /** The end of the run of digits that starts at i. */
  function DigitRun(s: string, i: nat): (j: nat)
    requires i <= |s|
    ensures i <= j <= |s|
    decreases |s| - i
  {
    if i < |s| && IsDigit(s[i]) then DigitRun(s, i + 1) else i
  }

  /** DigitRun passes only digits and stops at the end or at a non-digit. */
  lemma {:induction false} DigitRunStops(s: string, i: nat)
    requires i <= |s|
    ensures forall k :: i <= k < DigitRun(s, i) ==> IsDigit(s[k])
    ensures DigitRun(s, i) == |s| || !IsDigit(s[DigitRun(s, i)])
    decreases |s| - i
  {
    if i < |s| && IsDigit(s[i]) {
      DigitRunStops(s, i + 1);
    }
  }

  function DigitValue(c: char): (d: nat)
    requires IsDigit(c)
    ensures d < 10
  {
    (c as int) - ('0' as int)
  }

  /** The value of the digits from i up to j, most significant first. */
  function RunValue(s: string, i: nat, j: nat): (n: nat)
    requires i <= j <= |s| && forall k :: i <= k < j ==> IsDigit(s[k])
    decreases j - i
  {
    if j == i then 0 else 10 * RunValue(s, i, j - 1) + DigitValue(s[j - 1])
  }

  lemma DigitCharValue(d: nat)
    requires d < 10
    ensures DigitValue(DigitChar(d)) == d
  {
    assert d == 0 || d == 1 || d == 2 || d == 3 || d == 4 || d == 5 || d == 6 || d == 7 || d == 8 || d == 9;
  }

  /** The text d stands in s at position i. */
  predicate TextAt(s: string, i: nat, d: string)
  {
    i + |d| <= |s| && forall k :: 0 <= k < |d| ==> s[i + k] == d[k]
  }

  lemma TextAtConcat(x: string, d: string, y: string)
    ensures TextAt(x + d + y, |x|, d)
  {
    var s := x + d + y;
    forall k | 0 <= k < |d|
      ensures s[|x| + k] == d[k]
    {
    }
  }

  /** d is a non-empty run of decimal digits whose value is n. */
  predicate Numeral(d: string, n: nat)
  {
    |d| >= 1 && (forall k :: 0 <= k < |d| ==> IsDigit(d[k])) && RunValue(d, 0, |d|) == n
  }

  /** The first j digits of d, standing at i in s, have the same value there. */
  lemma {:induction false} RunValueAt(s: string, i: nat, d: string, j: nat)
    requires TextAt(s, i, d) && j <= |d| && forall k :: 0 <= k < |d| ==> IsDigit(d[k])
    ensures forall k :: i <= k < i + j ==> IsDigit(s[k])
    ensures RunValue(s, i, i + j) == RunValue(d, 0, j)
    decreases j
  {
    forall k | i <= k < i + j
      ensures IsDigit(s[k])
    {
      assert s[i + (k - i)] == d[k - i];
    }
    if j > 0 {
      RunValueAt(s, i, d, j - 1);
      assert s[i + (j - 1)] == d[j - 1];
    }
  }

  /** Reading back the decimal text of a number gives the number. */
  lemma {:induction false} DecimalNumeral(n: nat)
    ensures Numeral(Decimal(n), n)
    decreases n
  {
    var d := Decimal(n);
    if n < 10 {
      DigitCharValue(n);
    } else {
      var h := Decimal(n / 10);
      assert d == h + [DigitChar(n % 10)];
      DecimalNumeral(n / 10);
      assert TextAt(d, 0, h) by {
        forall k | 0 <= k < |h|
          ensures d[0 + k] == h[k]
        {
        }
      }
      RunValueAt(d, 0, h, |h|);
      DigitCharValue(n % 10);
    }
  }

  datatype Extracted<T> = Failed | Extracted(value: T, next: nat)

  /** The run of digits at i: its value and its end, or Failed when there is none. */
  function ExtractDigits(s: string, i: nat): (r: Extracted<nat>)
    requires i <= |s|
    ensures r.Extracted? ==> i < r.next <= |s| && IsDigit(s[r.next - 1])
  {
    var end := DigitRun(s, i);
    DigitRunStops(s, i);
    if end == i then Failed else Extracted(RunValue(s, i, end), end)
  }

  /**
   * `ss >> temp` for an int: white space is skipped, then an optional sign
   * and at least one decimal digit are read; a value outside the int's
   * range fails the extraction.
   */
  function ExtractInt(s: string, i: nat): (r: Extracted<int>)
    requires i <= |s|
    ensures r.Extracted? ==> i < r.next <= |s| && IntMin <= r.value <= IntMax && IsDigit(s[r.next - 1])
    ensures r.Extracted? && r.value < 0 ==> '-' in s
  {
    var start := SkipSpace(s, i);
    var negative := start < |s| && s[start] == '-';
    var digits := if start < |s| && (negative || s[start] == '+') then start + 1 else start;
    match ExtractDigits(s, digits)
    case Failed => Failed
    case Extracted(magnitude, end) =>
      var value := if negative then -(magnitude as int) else magnitude;
      if value < IntMin || IntMax < value then Failed
      else assert negative ==> s[start] in s; Extracted(value, end)
  }

  /** `ss >> tempc`: white space is skipped and the next character is read. */
  function ExtractChar(s: string, i: nat): (r: Extracted<char>)
    requires i <= |s|
    ensures r.Extracted? ==> i < r.next <= |s| && r.value == s[r.next - 1] && !IsSpace(r.value)
  {
    var start := SkipSpace(s, i);
    SkipSpaceStops(s, i);
    if start == |s| then Failed else Extracted(s[start], start + 1)
  }

  /** A run of digits from i that ends at e ends the digit run. */
  lemma {:induction false} DigitRunTo(s: string, i: nat, e: nat)
    requires i <= e <= |s|
    requires forall k :: i <= k < e ==> IsDigit(s[k])
    requires e == |s| || !IsDigit(s[e])
    ensures DigitRun(s, i) == e
    decreases e - i
  {
    if i < e {
      DigitRunTo(s, i + 1, e);
    }
  }

  /** A numeral at i, followed by a non-digit or nothing, is a run of digits of its value. */
  lemma DigitsAt(s: string, i: nat, d: string, n: nat)
    requires TextAt(s, i, d) && Numeral(d, n)
    requires i + |d| == |s| || !IsDigit(s[i + |d|])
    ensures ExtractDigits(s, i) == Extracted(n, i + |d|)
  {
    RunValueAt(s, i, d, |d|);
    DigitRunTo(s, i, i + |d|);
  }

  /** A numeral at i, followed by a non-digit or nothing, extracts as its value. */
  lemma ExtractNumeralAt(s: string, i: nat, d: string, n: nat)
    requires TextAt(s, i, d) && Numeral(d, n)
    requires i + |d| == |s| || !IsDigit(s[i + |d|])
    requires n <= IntMax
    ensures ExtractInt(s, i) == Extracted(n, i + |d|)
  {
    assert s[i + 0] == d[0];
    assert SkipSpace(s, i) == i;
    DigitsAt(s, i, d, n);
  }

  // ---------------------------------------------------------------------
  // parseAddressString
  // ---------------------------------------------------------------------

  /** An allow-list entry: the masked network address and its netmask. */
  datatype Ipv4Entry = Ipv4Entry(address: u32, netmask: u32)

  /** The character expected after the i-th number: '.', '.', '.', then '/'. */
  function Separator(i: nat): (c: char)
    ensures !IsDigit(c) && !IsSpace(c)
  {
    if i == 3 then '/' else '.'
  }

  /**
   * Assignment to a uint32_t: 2^32 is added or subtracted until the value
   * is in range, which is the value modulo 2^32 (Wrap32IsRemainder).
   */
  function Wrap32(x: int): (r: u32)
    decreases if x < 0 then 2 * -x + U32_LIMIT else x
  {
    if x < 0 then Wrap32(x + U32_LIMIT)
    else if x < U32_LIMIT then x
    else Wrap32(x - U32_LIMIT)
  }

  lemma {:induction false} Wrap32IsRemainder(x: int)
    ensures Wrap32(x) == x % U32_LIMIT
    decreases if x < 0 then 2 * -x + U32_LIMIT else x
  {
    if x < 0 {
      Wrap32IsRemainder(x + U32_LIMIT);
    } else if x >= U32_LIMIT {
      Wrap32IsRemainder(x - U32_LIMIT);
    }
  }

  lemma Wrap32Small(x: int)
    requires 0 <= x < U32_LIMIT
    ensures Wrap32(x) == x
  {
  }

  /** The range check on a number: only `temp > 255` as written; the lower bound 0 as well when lowerBounds holds. */
  predicate InRange(v: int, upper: int, lowerBounds: bool)
  {
    v <= upper && (!lowerBounds || 0 <= v)
  }

  /** The address accumulated so far and the stream position. */
  datatype Partial = Partial(address: u32, pos: nat)

  /**
   * Round k of the parser's loop: read a number and a character, refuse a
   * wrong separator or a number out of range, and shift the number into
   * the address as the low byte.
   */
  function Round(s: string, k: nat, lowerBounds: bool, part: Partial): (r: Option<Partial>)
    requires 1 <= k <= OctetCount && part.pos <= |s|
    ensures r.Some? ==> r.value.pos <= |s|
  {
    match ExtractInt(s, part.pos)
    case Failed => None
    case Extracted(v, afterNumber) =>
      match ExtractChar(s, afterNumber)
      case Failed => None
      case Extracted(c, afterSeparator) =>
        if c != Separator(k - 1) || !InRange(v, 255, lowerBounds) then None
        else Some(Partial(Wrap32(part.address * 256 + v), afterSeparator))
  }

  /** The number of rounds of the parser's loop, named so that proofs do not unfold all four at once. */
  const OctetCount: nat := 4

  /** The first k rounds of the parser's loop. */
  function ReadOctets(s: string, k: nat, lowerBounds: bool): (r: Option<Partial>)
    requires k <= OctetCount
    ensures r.Some? ==> r.value.pos <= |s|
  {
    if k == 0 then Some(Partial(0, 0))
    else match ReadOctets(s, k - 1, lowerBounds)
      case None => None
      case Some(part) => Round(s, k, lowerBounds, part)
  }

  /** ~uint32_t(0) */
  const AllOnes: nat := U32_LIMIT - 1

  /** The width of an address, named so that proofs treat it as a value rather than unfolding on it. */
  const AddressBits: nat := 32
  const HalfBits: nat := 16

  /** The number of bits below a prefix of length p. */
  function HostBits(p: nat): nat
    requires p <= AddressBits
  {
    AddressBits - p
  }

  lemma Pow2Width()
    ensures Pow2(AddressBits) == U32_LIMIT
  {
    Pow2Byte();
    assert Pow2(HalfBits) == 256 * 256 by { Pow2Add(ByteBits, ByteBits); }
    Pow2Add(HalfBits, HalfBits);
  }

  lemma {:induction false} Pow2Add(a: nat, b: nat)
    ensures Pow2(a + b) == Pow2(a) * Pow2(b)
    decreases a
  {
    if a > 0 {
      Pow2Add(a - 1, b);
    }
  }

  /** The netmask for a prefix length, as the source computes it: all ones for 32, `~(~0 >> p)` otherwise. */
  function Netmask(p: nat): (m: u32)
    requires p <= 32
  {
    Pow2Width();
    if p == AddressBits then AllOnes else Not(Shr(AllOnes, p), AddressBits)
  }

  /** The result of parsing one line; UndefinedShift is a negative prefix reaching `~0 >> p`. */
  datatype ParseOutcome = Rejected | Accepted(entry: Ipv4Entry) | UndefinedShift

  /**
   * parseAddressString: a line must start with a digit, then four rounds of
   * ReadOctets, then the prefix number, at most 32; what follows the
   * prefix is ignored. The address is masked with the netmask.
   */
  function ParseWith(s: string, lowerBounds: bool): (r: ParseOutcome)
    ensures r.Accepted? ==> |s| > 0 && IsDigit(s[0])
    ensures r.Accepted? ==> IsNetmask(r.entry.netmask) && And(r.entry.address, r.entry.netmask) == r.entry.address
    ensures lowerBounds ==> !r.UndefinedShift?
  {
    if |s| == 0 || !IsDigit(s[0]) then Rejected
    else match ReadOctets(s, OctetCount, lowerBounds)
      case None => Rejected
      case Some(part) =>
        match ExtractInt(s, part.pos)
        case Failed => Rejected
        case Extracted(prefix, _) =>
          if !InRange(prefix, 32, lowerBounds) then Rejected
          else if prefix < 0 then UndefinedShift
          else
            MaskIdempotent(part.address, prefix);
            Accepted(Ipv4Entry(And(part.address, Netmask(prefix)), Netmask(prefix)))
  }

  /** The parser the rest of the model uses: negative numbers are refused like numbers that are too large. */
  function ParseAddress(s: string): (r: Option<Ipv4Entry>)
    ensures r.Some? ==> |s| > 0 && IsDigit(s[0])
    ensures r.Some? ==> IsNetmask(r.value.netmask) && And(r.value.address, r.value.netmask) == r.value.address
  {
    match ParseWith(s, true)
    case Accepted(e) => Some(e)
    case _ => None
  }

  /** A netmask is the mask of some prefix length from 0 to 32. */
  ghost predicate IsNetmask(m: nat)
  {
    exists p :: 0 <= p <= 32 && m == Netmask(p)
  }

  // ---------------------------------------------------------------------
  // Netmasks: the top p bits
  // ---------------------------------------------------------------------

  lemma {:induction false} ShrOnes(w: nat, p: nat)
    requires p <= w
    ensures Shr(Pow2(w) - 1, p) == Pow2(w - p) - 1
    decreases p
  {
    if p > 0 {
      assert (Pow2(w) - 1) / 2 == Pow2(w - 1) - 1;
      ShrOnes(w - 1, p - 1);
    }
  }

  lemma {:induction false} ShlIsProduct(x: nat, s: nat)
    ensures Shl(x, s) == x * Pow2(s)
    decreases s
  {
    if s > 0 {
      ShlIsProduct(x, s - 1);
    }
  }

  /** The netmask of p is p one-bits above HostBits(p) zero-bits. */
  lemma NetmaskTopBits(p: nat)
    requires p <= 32
    ensures Netmask(p) == Shl(Pow2(p) - 1, HostBits(p))
    ensures Netmask(p) == U32_LIMIT - Pow2(HostBits(p))
  {
    var h := HostBits(p);
    Pow2Width();
    assert Netmask(p) == U32_LIMIT - Pow2(h) by {
      if p < AddressBits {
        ShrOnes(AddressBits, p);
      }
    }
    ShlIsProduct(Pow2(p) - 1, h);
    Pow2Add(p, h);
    assert p + h == AddressBits;
    assert (Pow2(p) - 1) * Pow2(h) == Pow2(p) * Pow2(h) - Pow2(h);
  }

  lemma {:induction false} ShrSmall(x: nat, s: nat)
    requires x < Pow2(s)
    ensures Shr(x, s) == 0
    decreases s
  {
    if s > 0 {
      ShrSmall(x / 2, s - 1);
    }
  }

  /** AND with the mask of the bits from s up to w keeps x's bits from s up and clears the rest. */
  lemma {:induction false} AndHigh(x: nat, m: nat, s: nat, w: nat)
    requires s <= w && x < Pow2(w)
    requires m + Pow2(s) == Pow2(w)
    ensures And(x, m) == Shl(Shr(x, s), s)
    decreases s
  {
    if s == w {
      ShrSmall(x, w);
      ShlZero(w);
    } else if x == 0 {
      ShlZero(s);
    } else if s == 0 {
      AndLow(x, w);
      LowSmall(x, w);
    } else {
      assert Pow2(w) == 2 * Pow2(w - 1) && Pow2(s) == 2 * Pow2(s - 1);
      var half := m / 2;
      assert m == 2 * half && half + Pow2(s - 1) == Pow2(w - 1);
      AndHigh(x / 2, half, s - 1, w - 1);
      assert And(x, m) == 2 * And(x / 2, half);
      var y := Shr(x / 2, s - 1);
      assert Shr(x, s) == y;
      assert Shl(y, s) == 2 * Shl(y, s - 1);
    }
  }

  /** address & netmask keeps the top p bits of the address. */
  lemma MaskKeepsTopBits(x: u32, p: nat)
    requires p <= 32
    ensures And(x, Netmask(p)) == Shl(Shr(x, HostBits(p)), HostBits(p))
  {
    NetmaskTopBits(p);
    Pow2Width();
    AndHigh(x, Netmask(p), HostBits(p), AddressBits);
  }

  /** Masking twice is masking once, so a stored address satisfies address & netmask == address. */
  lemma MaskIdempotent(x: u32, p: nat)
    requires p <= 32
    ensures IsNetmask(Netmask(p))
    ensures And(And(x, Netmask(p)), Netmask(p)) == And(x, Netmask(p))
  {
    var y := And(x, Netmask(p));
    assert y <= Netmask(p) < U32_LIMIT;
    MaskKeepsTopBits(x, p);
    MaskKeepsTopBits(y, p);
    SplitUnique(y, HostBits(p), Shr(x, HostBits(p)), 0);
  }

  // ---------------------------------------------------------------------
  // What a well-formed line parses to
  // ---------------------------------------------------------------------

  /** The four numbers and a prefix, with the given separators. */
  function Line(o: seq<nat>, seps: string, p: nat): (s: string)
    requires |o| == 4 && |seps| == 4
  {
    Joined(Numerals(o), seps, Decimal(p), 0)
  }

  /** The decimal text of each number. */
  function Numerals(o: seq<nat>): (texts: seq<string>)
    ensures |texts| == |o| && forall i :: 0 <= i < |o| ==> texts[i] == Decimal(o[i])
  {
    seq(|o|, i requires 0 <= i < |o| => Decimal(o[i]))
  }

  /** The texts from the i-th on, each followed by its separator, and then the last text. */
  function Joined(texts: seq<string>, seps: string, last: string, i: nat): (s: string)
    requires |seps| == |texts| && i <= |texts|
    decreases |texts| - i
  {
    if i == |texts| then last else texts[i] + [seps[i]] + Joined(texts, seps, last, i + 1)
  }

  /** The address a.b.c.d as a big-endian 32-bit value. */
  function BigEndian(o: seq<nat>): (a: nat)
    requires |o| == 4 && forall i :: 0 <= i < 4 ==> o[i] <= 255
    ensures a < U32_LIMIT
  {
    ((o[0] * 256 + o[1]) * 256 + o[2]) * 256 + o[3]
  }

  /** A character that is not white space is what `>> tempc` reads. */
  lemma CharAt(s: string, e: nat)
    requires e < |s| && !IsSpace(s[e])
    ensures ExtractChar(s, e) == Extracted(s[e], e + 1)
  {
    assert SkipSpace(s, e) == e;
  }

  /** After one white-space character, `>> tempc` reads the next one when it is not white space. */
  lemma CharAfterSpace(s: string, e: nat)
    requires e + 1 < |s| && IsSpace(s[e]) && !IsSpace(s[e + 1])
    ensures ExtractChar(s, e) == Extracted(s[e + 1], e + 2)
  {
    assert SkipSpace(s, e + 1) == e + 1;
  }

  /**
   * The numeral d of a number up to 255 stands at pos, followed by a
   * character that is not a digit and, when it is white space, by a digit.
   */
  predicate OctetAt(s: string, pos: nat, d: string, n: nat)
  {
    && pos + |d| < |s| && TextAt(s, pos, d) && Numeral(d, n) && n <= 255
    && !IsDigit(s[pos + |d|])
    && (IsSpace(s[pos + |d|]) ==> pos + |d| + 1 < |s| && IsDigit(s[pos + |d| + 1]))
  }

  /** One round on a numeral of a number up to 255 followed by a non-digit character. */
  lemma RoundStep(s: string, k: nat, lowerBounds: bool, part: Partial, d: string, n: nat)
    requires 1 <= k <= OctetCount && OctetAt(s, part.pos, d, n)
    ensures s[part.pos + |d|] == Separator(k - 1) ==>
      Round(s, k, lowerBounds, part) == Some(Partial(Wrap32(part.address * 256 + n), part.pos + |d| + 1))
    ensures s[part.pos + |d|] != Separator(k - 1) ==> Round(s, k, lowerBounds, part) == None
  {
    var e := part.pos + |d|;
    ExtractNumeralAt(s, part.pos, d, n);
    if IsSpace(s[e]) {
      CharAfterSpace(s, e);
    } else {
      CharAt(s, e);
    }
  }

  /** One round of ReadOctets on a numeral of a number up to 255 followed by a non-digit character. */
  lemma ReadOctetStep(s: string, k: nat, lowerBounds: bool, acc: u32, pos: nat, d: string, n: nat, address: u32, next: nat)
    requires 1 <= k <= OctetCount
    requires ReadOctets(s, k - 1, lowerBounds) == Some(Partial(acc, pos))
    requires OctetAt(s, pos, d, n) && address == acc * 256 + n && next == pos + |d| + 1
    ensures s[pos + |d|] == Separator(k - 1) ==> ReadOctets(s, k, lowerBounds) == Some(Partial(address, next))
    ensures s[pos + |d|] != Separator(k - 1) ==> ReadOctets(s, k, lowerBounds) == None
  {
    ReadOctetsUnfold(s, k, lowerBounds);
    RoundStep(s, k, lowerBounds, Partial(acc, pos), d, n);
    assert Wrap32(address) == address;
  }

  /** Round k, given what the two extractions read. */
  lemma RoundNext(s: string, k: nat, lowerBounds: bool, part: Partial, n: int, afterNumber: nat, c: char, afterSeparator: nat)
    requires 1 <= k <= OctetCount && part.pos <= |s|
    requires ExtractInt(s, part.pos) == Extracted(n, afterNumber) && ExtractChar(s, afterNumber) == Extracted(c, afterSeparator)
    ensures Round(s, k, lowerBounds, part) ==
      if c != Separator(k - 1) || !InRange(n, 255, lowerBounds) then None else Some(Partial(Wrap32(part.address * 256 + n), afterSeparator))
  {
  }

  /** Round k of ReadOctets, given what the two extractions read. */
  lemma ReadOctetsNext(s: string, k: nat, lowerBounds: bool, acc: u32, pos: nat, n: int, afterNumber: nat, c: char, afterSeparator: nat)
    requires 1 <= k <= OctetCount
    requires ReadOctets(s, k - 1, lowerBounds) == Some(Partial(acc, pos))
    requires ExtractInt(s, pos) == Extracted(n, afterNumber) && ExtractChar(s, afterNumber) == Extracted(c, afterSeparator)
    ensures c != Separator(k - 1) || !InRange(n, 255, lowerBounds) ==> ReadOctets(s, k, lowerBounds) == None
    ensures c == Separator(k - 1) && InRange(n, 255, lowerBounds) ==>
      ReadOctets(s, k, lowerBounds) == Some(Partial(Wrap32(acc * 256 + n), afterSeparator))
  {
    ReadOctetsUnfold(s, k, lowerBounds);
    RoundNext(s, k, lowerBounds, Partial(acc, pos), n, afterNumber, c, afterSeparator);
  }

  lemma ReadOctetsUnfold(s: string, k: nat, lowerBounds: bool)
    requires 1 <= k <= OctetCount && ReadOctets(s, k - 1, lowerBounds).Some?
    ensures ReadOctets(s, k, lowerBounds) == Round(s, k, lowerBounds, ReadOctets(s, k - 1, lowerBounds).value)
  {
  }

  /** Once a round fails, every later count fails too. */
  lemma {:induction false} ReadOctetsStuck(s: string, i: nat, k: nat, lowerBounds: bool)
    requires i <= k <= OctetCount
    requires ReadOctets(s, i, lowerBounds) == None
    ensures ReadOctets(s, k, lowerBounds) == None
    decreases k
  {
    if k > i {
      ReadOctetsStuck(s, i, k - 1, lowerBounds);
    }
  }

  /** Where the i-th text of a joined line starts: after the earlier texts and their separators. */
  function Start(texts: seq<string>, i: nat): (pos: nat)
    requires i <= |texts|
  {
    if i == 0 then 0 else Start(texts, i - 1) + |texts[i - 1]| + 1
  }

  /** The first k numbers as a big-endian value, one byte each. */
  function Octets(o: seq<nat>, k: nat): (a: nat)
    requires |o| == 4 && k <= 4 && forall i :: 0 <= i < 4 ==> o[i] <= 255
    ensures k <= 1 ==> a < 0x100
    ensures k <= 2 ==> a < 0x1_0000
    ensures k <= 3 ==> a < 0x100_0000
    ensures a < U32_LIMIT
  {
    if k == 0 then 0 else Octets(o, k - 1) * 256 + o[k - 1]
  }

  /** The first k separators are '.', '.', '.', '/' in turn. */
  predicate SeparatorsUpTo(seps: string, k: nat)
    requires k <= |seps|
  {
    forall i :: 0 <= i < k ==> seps[i] == Separator(i)
  }

  /** The i-th text of a joined line and its separator stand in s where Start puts them. */
  predicate TextAndSeparatorAt(s: string, texts: seq<string>, seps: string, i: nat)
    requires |seps| == |texts| && i < |texts|
  {
    Start(texts, i + 1) <= |s| && TextAt(s, Start(texts, i), texts[i]) && s[Start(texts, i) + |texts[i]|] == seps[i]
  }

  /** The texts, each followed by its separator, then the last text, stand in s from its start. */
  predicate LaidOut(s: string, texts: seq<string>, seps: string, last: string)
    requires |seps| == |texts|
  {
    (forall i :: 0 <= i < |texts| ==> TextAndSeparatorAt(s, texts, seps, i)) && TextAt(s, Start(texts, |texts|), last)
  }

  lemma TextAtSplit(s: string, pos: nat, a: string, b: string)
    requires TextAt(s, pos, a + b)
    ensures TextAt(s, pos, a) && TextAt(s, pos + |a|, b)
  {
    forall k | 0 <= k < |a|
      ensures s[pos + k] == a[k]
    {
      assert (a + b)[k] == a[k];
    }
    forall k | 0 <= k < |b|
      ensures s[pos + |a| + k] == b[k]
    {
      assert s[pos + (|a| + k)] == (a + b)[|a| + k];
    }
  }

  /** Where a joined line from its i-th text stands, each later text stands in its place. */
  lemma {:induction false} LayoutFrom(s: string, texts: seq<string>, seps: string, last: string, i: nat)
    requires |seps| == |texts| && i <= |texts|
    requires TextAt(s, Start(texts, i), Joined(texts, seps, last, i))
    ensures forall j :: i <= j < |texts| ==> TextAndSeparatorAt(s, texts, seps, j)
    ensures TextAt(s, Start(texts, |texts|), last)
    ensures Start(texts, i) + |Joined(texts, seps, last, i)| == Start(texts, |texts|) + |last|
    decreases |texts| - i
  {
    if i < |texts| {
      var d := texts[i];
      var pos := Start(texts, i);
      var rest := Joined(texts, seps, last, i + 1);
      assert Joined(texts, seps, last, i) == d + ([seps[i]] + rest);
      TextAtSplit(s, pos, d, [seps[i]] + rest);
      TextAtSplit(s, pos + |d|, [seps[i]], rest);
      assert [seps[i]][0] == seps[i];
      assert Start(texts, i + 1) == pos + |d| + 1;
      LayoutFrom(s, texts, seps, last, i + 1);
    }
  }

  /** A joined line followed by a tail that does not start with a digit, position by position. */
  lemma LineLayout(texts: seq<string>, seps: string, last: string, tail: string)
    requires |seps| == |texts|
    requires tail == [] || !IsDigit(tail[0])
    ensures LaidOut(Joined(texts, seps, last, 0) + tail, texts, seps, last)
    ensures Start(texts, |texts|) + |last| == |Joined(texts, seps, last, 0) + tail| ||
      !IsDigit((Joined(texts, seps, last, 0) + tail)[Start(texts, |texts|) + |last|])
  {
    var line := Joined(texts, seps, last, 0);
    var s := line + tail;
    TextAtConcat([], line, tail);
    assert [] + line + tail == s;
    LayoutFrom(s, texts, seps, last, 0);
    assert |line| < |s| ==> s[|line|] == tail[0];
  }

  /** On a laid-out line the rounds read the numbers one by one while the separators are right, and fail at the first wrong one. */
  lemma {:induction false} OctetsRead(s: string, o: seq<nat>, texts: seq<string>, seps: string, last: string, lowerBounds: bool, k: nat)
    requires |o| == 4 && |texts| == 4 && forall i :: 0 <= i < 4 ==> o[i] <= 255 && Numeral(texts[i], o[i])
    requires |seps| == 4 && (forall i :: 0 <= i < 4 ==> !IsDigit(seps[i]))
    requires LaidOut(s, texts, seps, last) && |last| >= 1 && (IsSpace(seps[3]) ==> IsDigit(last[0])) && k <= OctetCount
    ensures SeparatorsUpTo(seps, k) ==> ReadOctets(s, k, lowerBounds) == Some(Partial(Octets(o, k), Start(texts, k)))
    ensures !SeparatorsUpTo(seps, k) ==> ReadOctets(s, k, lowerBounds) == None
    decreases k
  {
    if k > 0 {
      OctetsRead(s, o, texts, seps, last, lowerBounds, k - 1);
      if SeparatorsUpTo(seps, k - 1) {
        var pos := Start(texts, k - 1);
        assert TextAndSeparatorAt(s, texts, seps, k - 1);
        var next := Start(texts, k);
        if k < 4 {
          assert TextAndSeparatorAt(s, texts, seps, k);
          assert s[next + 0] == texts[k][0];
        } else {
          assert s[next + 0] == last[0];
        }
        assert SeparatorsUpTo(seps, k) <==> seps[k - 1] == Separator(k - 1);
        ReadOctetStep(s, k, lowerBounds, Octets(o, k - 1), pos, texts[k - 1], o[k - 1], Octets(o, k), next);
      } else {
        assert !SeparatorsUpTo(seps, k);
      }
    }
  }

  /** When the four rounds succeed, the prefix number decides: out of range rejects, a negative one reaches the undefined shift. */
  lemma ParseWithPrefix(s: string, lowerBounds: bool, part: Partial, p: int, afterPrefix: nat)
    requires |s| > 0 && IsDigit(s[0])
    requires ReadOctets(s, OctetCount, lowerBounds) == Some(part)
    requires ExtractInt(s, part.pos) == Extracted(p, afterPrefix)
    ensures !InRange(p, 32, lowerBounds) ==> ParseWith(s, lowerBounds) == Rejected
    ensures InRange(p, 32, lowerBounds) && p < 0 ==> ParseWith(s, lowerBounds) == UndefinedShift
    ensures 0 <= p <= 32 ==> ParseWith(s, lowerBounds) == Accepted(Ipv4Entry(And(part.address, Netmask(p)), Netmask(p)))
  {
  }

  /** When a round fails, the line is rejected. */
  lemma ParseWithRejects(s: string, lowerBounds: bool)
    requires ReadOctets(s, OctetCount, lowerBounds) == None
    ensures ParseWith(s, lowerBounds) == Rejected
  {
  }

  lemma OctetsBigEndian(o: seq<nat>)
    requires |o| == 4 && forall i :: 0 <= i < 4 ==> o[i] <= 255
    ensures Octets(o, 4) == BigEndian(o)
  {
    assert Octets(o, 1) == o[0];
    assert Octets(o, 2) == o[0] * 256 + o[1];
    assert Octets(o, 3) == (o[0] * 256 + o[1]) * 256 + o[2];
  }

  lemma SeparatorsOfLine(seps: string)
    requires |seps| == 4
    ensures SeparatorsUpTo(seps, 4) <==> seps == ".../"
  {
    assert Separator(0) == '.' && Separator(1) == '.' && Separator(2) == '.' && Separator(3) == '/';
  }

  /** What the rounds and the prefix extraction read on a laid-out line whose texts are numerals. */
  lemma LaidOutRead(s: string, o: seq<nat>, texts: seq<string>, seps: string, last: string, p: nat)
    requires |o| == 4 && |texts| == 4 && forall i :: 0 <= i < 4 ==> o[i] <= 255 && Numeral(texts[i], o[i])
    requires |seps| == 4 && (forall i :: 0 <= i < 4 ==> !IsDigit(seps[i]))
    requires LaidOut(s, texts, seps, last) && Numeral(last, p) && p <= 32
    requires Start(texts, 4) + |last| == |s| || !IsDigit(s[Start(texts, 4) + |last|])
    ensures |s| > 0 && IsDigit(s[0])
    ensures seps == ".../" ==> ReadOctets(s, OctetCount, true) == Some(Partial(BigEndian(o), Start(texts, 4)))
    ensures seps == ".../" ==> ExtractInt(s, Start(texts, 4)) == Extracted(p, Start(texts, 4) + |last|)
    ensures seps != ".../" ==> ReadOctets(s, OctetCount, true) == None
  {
    assert TextAndSeparatorAt(s, texts, seps, 0);
    assert s[0 + 0] == texts[0][0];
    OctetsRead(s, o, texts, seps, last, true, OctetCount);
    SeparatorsOfLine(seps);
    OctetsBigEndian(o);
    ExtractNumeralAt(s, Start(texts, 4), last, p);
  }

  /**
   * A line of four numbers up to 255 and a prefix up to 32, separated by
   * non-digits and followed by nothing or by a non-digit, is accepted
   * exactly when the separators are '.', '.', '.', '/', and then its entry
   * is the big-endian address masked with the prefix's netmask.
   */
  lemma LineParsed(o: seq<nat>, seps: string, p: nat, tail: string)
    requires |o| == 4 && forall i :: 0 <= i < 4 ==> o[i] <= 255
    requires |seps| == 4 && forall i :: 0 <= i < 4 ==> !IsDigit(seps[i])
    requires p <= 32
    requires tail == [] || !IsDigit(tail[0])
    ensures ParseAddress(Line(o, seps, p) + tail).Some? <==> seps == ".../"
    ensures seps == ".../" ==> ParseAddress(Line(o, seps, p) + tail) == Some(Ipv4Entry(And(BigEndian(o), Netmask(p)), Netmask(p)))
  {
    var s := Line(o, seps, p) + tail;
    var texts, last := Numerals(o), Decimal(p);
    forall i | 0 <= i < 4
      ensures Numeral(texts[i], o[i])
    {
      DecimalNumeral(o[i]);
    }
    DecimalNumeral(p);
    LineLayout(texts, seps, last, tail);
    LaidOutRead(s, o, texts, seps, last, p);
    if seps == ".../" {
      ParseWithPrefix(s, true, Partial(BigEndian(o), Start(texts, 4)), p, Start(texts, 4) + |last|);
    } else {
      ParseWithRejects(s, true);
    }
  }

  // ---------------------------------------------------------------------
  // Negative numbers (the lower bound the source leaves out)
  // ---------------------------------------------------------------------

  /** With the lower bounds, a round succeeds only where it succeeds without them, with the same result. */
  lemma RoundCorrectionOnlyRemoves(s: string, k: nat, part: Partial)
    requires 1 <= k <= OctetCount && part.pos <= |s|
    requires Round(s, k, true, part).Some?
    ensures Round(s, k, false, part) == Round(s, k, true, part)
  {
  }

  /** Without a '-' in the line, the lower bounds do not change a round. */
  lemma RoundWithoutMinus(s: string, k: nat, part: Partial)
    requires 1 <= k <= OctetCount && part.pos <= |s| && '-' !in s
    ensures Round(s, k, false, part) == Round(s, k, true, part)
  {
  }

  lemma {:induction false} ReadOctetsCorrectionOnlyRemoves(s: string, k: nat)
    requires k <= OctetCount
    requires ReadOctets(s, k, true).Some?
    ensures ReadOctets(s, k, false) == ReadOctets(s, k, true)
  {
    if k > 0 {
      assert ReadOctets(s, k - 1, true).Some?;
      ReadOctetsCorrectionOnlyRemoves(s, k - 1);
      ReadOctetsUnfold(s, k, true);
      ReadOctetsUnfold(s, k, false);
      RoundCorrectionOnlyRemoves(s, k, ReadOctets(s, k - 1, true).value);
    }
  }

  lemma {:induction false} ReadOctetsWithoutMinus(s: string, k: nat)
    requires k <= OctetCount && '-' !in s
    ensures ReadOctets(s, k, false) == ReadOctets(s, k, true)
  {
    if k > 0 {
      ReadOctetsWithoutMinus(s, k - 1);
      if ReadOctets(s, k - 1, true).Some? {
        RoundWithoutMinus(s, k, ReadOctets(s, k - 1, true).value);
      }
    }
  }

  /** The corrected parser accepts only lines the source accepts, with the same entry. */
  lemma CorrectionOnlyRemoves(s: string)
    requires ParseWith(s, true).Accepted?
    ensures ParseWith(s, false) == ParseWith(s, true)
  {
    ReadOctetsCorrectionOnlyRemoves(s, OctetCount);
  }

  /** On a line without a '-', the corrected parser and the source agree, and the source's shift is defined. */
  lemma CorrectionOnlyAffectsMinus(s: string)
    requires '-' !in s
    ensures ParseWith(s, false) == ParseWith(s, true)
    ensures !ParseWith(s, false).UndefinedShift?
  {
    ReadOctetsWithoutMinus(s, OctetCount);
  }

  /** "-" and a numeral at i, followed by a non-digit or nothing, extract as the negated value. */
  lemma ExtractNegativeAt(s: string, i: nat, d: string, n: nat)
    requires i < |s| && s[i] == '-' && TextAt(s, i + 1, d) && Numeral(d, n)
    requires i + 1 + |d| == |s| || !IsDigit(s[i + 1 + |d|])
    requires n <= -IntMin
    ensures ExtractInt(s, i) == Extracted(-(n as int), i + 1 + |d|)
  {
    assert SkipSpace(s, i) == i;
    DigitsAt(s, i + 1, d, n);
  }

  /** s is d followed by ".0.-1.0/32", character by character. */
  predicate NegativeOctetLayout(s: string, d: string)
  {
    && |s| == |d| + 10 && TextAt(s, 0, d)
    && s[|d|] == '.' && s[|d| + 1] == '0' && s[|d| + 2] == '.' && s[|d| + 3] == '-' && s[|d| + 4] == '1'
    && s[|d| + 5] == '.' && s[|d| + 6] == '0' && s[|d| + 7] == '/' && s[|d| + 8] == '3' && s[|d| + 9] == '2'
  }

  lemma NegativeOctetLaidOut(d: string)
    ensures NegativeOctetLayout(d + ".0.-1.0/32", d)
  {
    var s := d + ".0.-1.0/32";
    TextAtConcat([], d, ".0.-1.0/32");
    assert [] + d + ".0.-1.0/32" == s;
  }

  /** What the extractions read on a line d + ".0.-1.0/32", position by position. */
  lemma NegativeOctetFields(s: string, d: string, a: nat)
    requires NegativeOctetLayout(s, d) && Numeral(d, a) && 1 <= a <= 255
    ensures NegativeOctetFieldsRead(s, d, a)
  {
    assert s[0] == d[0];
    assert TextAt(s, |d| + 4, "1") && Numeral("1", 1);
    ExtractNegativeAt(s, |d| + 3, "1", 1);
    CharAt(s, |d| + 5);
    assert TextAt(s, |d| + 8, "32") && Numeral("32", 32);
    ExtractNumeralAt(s, |d| + 8, "32", 32);
  }

  /** The first two rounds on a line d + ".0.-1.0/32". */
  lemma NegativeOctetFirstRounds(s: string, d: string, a: nat, lowerBounds: bool)
    requires a <= 255 && OctetAt(s, 0, d, a) && OctetAt(s, |d| + 1, "0", 0) && s[|d|] == '.' && s[|d| + 2] == '.'
    ensures ReadOctets(s, 2, lowerBounds) == Some(Partial(a * 256, |d| + 3))
  {
    ReadOctetStep(s, 1, lowerBounds, 0, 0, d, a, a, |d| + 1);
    ReadOctetStep(s, 2, lowerBounds, a, |d| + 1, "0", 0, a * 256, |d| + 3);
  }

  /** The third round reads -1: the source accepts it, the lower bound refuses it. */
  lemma NegativeOctetThirdRound(s: string, pos: nat, acc: u32, lowerBounds: bool)
    requires 0 < acc < 0x1_0000 && ReadOctets(s, 2, lowerBounds) == Some(Partial(acc, pos))
    requires ExtractInt(s, pos) == Extracted(-1, pos + 2) && ExtractChar(s, pos + 2) == Extracted('.', pos + 3)
    ensures !lowerBounds ==> ReadOctets(s, 3, lowerBounds) == Some(Partial(acc * 256 - 1, pos + 3))
    ensures lowerBounds ==> ReadOctets(s, 3, lowerBounds) == None
  {
    ReadOctetsNext(s, 3, lowerBounds, acc, pos, -1, pos + 2, '.', pos + 3);
    Wrap32Small(acc * 256 + -1);
  }

  /** Without the lower bounds, the fourth round on such a line succeeds too. */
  lemma NegativeOctetLastRound(s: string, d: string, acc: u32)
    requires acc < 0x100_0000 && ReadOctets(s, 3, false) == Some(Partial(acc, |d| + 6))
    requires OctetAt(s, |d| + 6, "0", 0) && s[|d| + 7] == '/'
    ensures ReadOctets(s, OctetCount, false) == Some(Partial(acc * 256, |d| + 8))
  {
    ReadOctetStep(s, OctetCount, false, acc, |d| + 6, "0", 0, acc * 256, |d| + 8);
  }

  /**
   * A line whose third number is -1, such as "1.0.-1.0/32", passes the
   * source's range check `temp > 255`, though -1 is no octet; the
   * corrected parser rejects it.
   */
  lemma NegativeOctetAccepted(a: nat)
    requires 1 <= a <= 255
    ensures ParseWith(Decimal(a) + ".0.-1.0/32", false).Accepted?
    ensures ParseWith(Decimal(a) + ".0.-1.0/32", true) == Rejected
  {
    var d := Decimal(a);
    var s := d + ".0.-1.0/32";
    assert NegativeOctetLayout(s, d) && Numeral(d, a) by {
      DecimalNumeral(a);
      NegativeOctetLaidOut(d);
    }
    NegativeOctetFields(s, d, a);
    NegativeOctetOutcome(s, d, a);
  }

  /** What the extractions read on such a line, up to the prefix. */
  predicate NegativeOctetFieldsRead(s: string, d: string, a: nat)
  {
    && 1 <= a <= 255 && |s| > 0 && IsDigit(s[0])
    && OctetAt(s, 0, d, a) && OctetAt(s, |d| + 1, "0", 0) && s[|d|] == '.' && s[|d| + 2] == '.'
    && ExtractInt(s, |d| + 3) == Extracted(-1, |d| + 5) && ExtractChar(s, |d| + 5) == Extracted('.', |d| + 6)
    && OctetAt(s, |d| + 6, "0", 0) && s[|d| + 7] == '/' && ExtractInt(s, |d| + 8) == Extracted(32, |d| + 10)
  }

  /** Without the lower bounds, the four rounds on such a line succeed. */
  lemma NegativeOctetReadAll(s: string, d: string, a: nat)
    requires NegativeOctetFieldsRead(s, d, a)
    ensures ReadOctets(s, OctetCount, false) == Some(Partial((a * 256 * 256 - 1) * 256, |d| + 8))
  {
    var acc := a * 256 * 256 - 1;
    NegativeOctetFirstRounds(s, d, a, false);
    NegativeOctetThirdRound(s, |d| + 3, a * 256, false);
    NegativeOctetLastRound(s, d, acc);
  }

  /** With the lower bounds, the third round on such a line fails. */
  lemma NegativeOctetRefused(s: string, d: string, a: nat)
    requires NegativeOctetFieldsRead(s, d, a)
    ensures ReadOctets(s, OctetCount, true) == None
  {
    NegativeOctetFirstRounds(s, d, a, true);
    NegativeOctetThirdRound(s, |d| + 3, a * 256, true);
    ReadOctetsStuck(s, 3, OctetCount, true);
  }

  /** Such a line is accepted as written and rejected with the lower bounds. */
  lemma NegativeOctetOutcome(s: string, d: string, a: nat)
    requires NegativeOctetFieldsRead(s, d, a)
    ensures ParseWith(s, false).Accepted?
    ensures ParseWith(s, true) == Rejected
  {
    NegativeOctetReadAll(s, d, a);
    NegativeOctetRefused(s, d, a);
    NegativeOctetParsed(s, Partial((a * 256 * 256 - 1) * 256, |d| + 8));
  }

  /** The outcome of a line whose rounds succeed only without the lower bounds and whose prefix is 32. */
  lemma NegativeOctetParsed(s: string, part: Partial)
    requires |s| > 0 && IsDigit(s[0])
    requires ReadOctets(s, OctetCount, false) == Some(part) && ReadOctets(s, OctetCount, true) == None
    requires ExtractInt(s, part.pos) == Extracted(32, part.pos + 2)
    ensures ParseWith(s, false).Accepted?
    ensures ParseWith(s, true) == Rejected
  {
    ParseWithPrefix(s, false, part, 32, part.pos + 2);
    ParseWithRejects(s, true);
  }

  /** The four rounds and the prefix of a line of four octets and a negative prefix. */
  lemma NegativePrefixRead(s: string, o: seq<nat>, texts: seq<string>, last: string, d: string, n: nat, lowerBounds: bool)
    requires |o| == 4 && |texts| == 4 && forall i :: 0 <= i < 4 ==> o[i] <= 255 && Numeral(texts[i], o[i])
    requires last == "-" + d && LaidOut(s, texts, ".../", last) && Numeral(d, n) && n <= -IntMin
    requires Start(texts, 4) + |last| == |s| || !IsDigit(s[Start(texts, 4) + |last|])
    ensures |s| > 0 && IsDigit(s[0])
    ensures ReadOctets(s, OctetCount, lowerBounds) == Some(Partial(BigEndian(o), Start(texts, 4)))
    ensures ExtractInt(s, Start(texts, 4)) == Extracted(-(n as int), Start(texts, 4) + |last|)
  {
    assert TextAndSeparatorAt(s, texts, ".../", 0);
    assert s[0 + 0] == texts[0][0];
    OctetsRead(s, o, texts, ".../", last, lowerBounds, OctetCount);
    SeparatorsOfLine(".../");
    OctetsBigEndian(o);
    TextAtSplit(s, Start(texts, 4), "-", d);
    assert s[Start(texts, 4) + 0] == "-"[0];
    ExtractNegativeAt(s, Start(texts, 4), d, n);
  }

  /** When no number follows the four rounds, the line is rejected. */
  lemma ParseWithoutPrefix(s: string, lowerBounds: bool, part: Partial)
    requires |s| > 0 && IsDigit(s[0])
    requires ReadOctets(s, OctetCount, lowerBounds) == Some(part) && ExtractInt(s, part.pos).Failed?
    ensures ParseWith(s, lowerBounds) == Rejected
  {
  }

  /** Four rounds read the same with and without the lower bounds, and then a negative prefix decides. */
  lemma ParseWithNegativePrefix(s: string, part: Partial, p: int, afterPrefix: nat)
    requires |s| > 0 && IsDigit(s[0])
    requires ReadOctets(s, OctetCount, false) == Some(part) && ReadOctets(s, OctetCount, true) == Some(part)
    requires ExtractInt(s, part.pos) == Extracted(p, afterPrefix) && p < 0
    ensures ParseWith(s, false) == UndefinedShift
    ensures ParseWith(s, true) == Rejected
  {
    ParseWithPrefix(s, false, part, p, afterPrefix);
    ParseWithPrefix(s, true, part, p, afterPrefix);
  }

  /**
   * Any line of four octets with a prefix from -1 down to -2^31 passes
   * the source's `temp > 32` check and reaches `~0 >> temp`, a shift by a
   * negative count; the corrected parser rejects it.
   */
  lemma NegativePrefixUndefined(o: seq<nat>, n: nat, tail: string)
    requires |o| == 4 && forall i :: 0 <= i < 4 ==> o[i] <= 255
    requires 1 <= n <= -IntMin
    requires tail == [] || !IsDigit(tail[0])
    ensures ParseWith(Joined(Numerals(o), ".../", "-" + Decimal(n), 0) + tail, false) == UndefinedShift
    ensures ParseWith(Joined(Numerals(o), ".../", "-" + Decimal(n), 0) + tail, true) == Rejected
  {
    var texts := Numerals(o);
    forall i | 0 <= i < 4
      ensures Numeral(texts[i], o[i])
    {
      DecimalNumeral(o[i]);
    }
    DecimalNumeral(n);
    NegativePrefixJoined(o, texts, "-" + Decimal(n), Decimal(n), n, tail);
  }

  /** NegativePrefixUndefined for any numerals of the octets and of the prefix. */
  lemma NegativePrefixJoined(o: seq<nat>, texts: seq<string>, last: string, d: string, n: nat, tail: string)
    requires |o| == 4 && |texts| == 4 && forall i :: 0 <= i < 4 ==> o[i] <= 255 && Numeral(texts[i], o[i])
    requires last == "-" + d && Numeral(d, n) && 1 <= n <= -IntMin
    requires tail == [] || !IsDigit(tail[0])
    ensures ParseWith(Joined(texts, ".../", last, 0) + tail, false) == UndefinedShift
    ensures ParseWith(Joined(texts, ".../", last, 0) + tail, true) == Rejected
  {
    var s := Joined(texts, ".../", last, 0) + tail;
    var part := Partial(BigEndian(o), Start(texts, 4));
    assert && |s| > 0 && IsDigit(s[0])
           && ReadOctets(s, OctetCount, false) == Some(part) && ReadOctets(s, OctetCount, true) == Some(part)
           && ExtractInt(s, part.pos) == Extracted(-(n as int), Start(texts, 4) + |last|) by {
      LineLayout(texts, ".../", last, tail);
      NegativePrefixRead(s, o, texts, last, d, n, false);
      NegativePrefixRead(s, o, texts, last, d, n, true);
    }
    ParseWithNegativePrefix(s, part, -(n as int), Start(texts, 4) + |last|);
  }

  /**
   * One pass of parseAddressString's loop, with the lower bounds: read a
   * number and a separator, refuse either, and shift the number into the
   * address as the low byte, in uint32_t arithmetic.
   */
  method ReadRound(str: string, k: nat, address: u32, pos: nat) returns (next: Option<Partial>)
    requires 1 <= k <= OctetCount && ReadOctets(str, k - 1, true) == Some(Partial(address, pos))
    ensures next == ReadOctets(str, k, true)
  {
    ReadOctetsUnfold(str, k, true);
    var number := ExtractInt(str, pos);
    if number.Failed? {
      return None;
    }
    var separator := ExtractChar(str, number.next);
    if separator.Failed? || separator.value != Separator(k - 1) || !InRange(number.value, 255, true) {
      return None;
    }
    next := Some(Partial(Wrap32(address * 256 + number.value), separator.next));
  }

  /** The loop of parseAddressString: four rounds, leaving at the first that fails. */
  method ReadAddressLoop(str: string) returns (part: Option<Partial>)
    ensures part == ReadOctets(str, OctetCount, true)
  {
    var address: u32 := 0;
    var pos: nat := 0;
    for i := 0 to OctetCount
      invariant ReadOctets(str, i, true) == Some(Partial(address, pos))
    {
      var next := ReadRound(str, i + 1, address, pos);
      if next.None? {
        ReadOctetsStuck(str, i + 1, OctetCount, true);
        return None;
      }
      address, pos := next.value.address, next.value.pos;
    }
    return Some(Partial(address, pos));
  }

  /** parseAddressString with the lower bounds: the first character, the loop, the prefix and the netmask. */
  method ParseAddressString(str: string) returns (r: Option<Ipv4Entry>)
    ensures r == ParseAddress(str)
  {
    if |str| == 0 || !IsDigit(str[0]) {
      return None;
    }
    var octets := ReadAddressLoop(str);
    if octets.None? {
      ParseWithRejects(str, true);
      return None;
    }
    var prefix := ExtractInt(str, octets.value.pos);
    if prefix.Failed? {
      ParseWithoutPrefix(str, true, octets.value);
      return None;
    }
    ParseWithPrefix(str, true, octets.value, prefix.value, prefix.next);
    if !InRange(prefix.value, 32, true) {
      return None;
    }
    var netmask := Netmask(prefix.value);
    r := Some(Ipv4Entry(And(octets.value.address, netmask), netmask));
  }

  // ---------------------------------------------------------------------
  // updateIpv4 and checkIfIpv4IsAllowed
  // ---------------------------------------------------------------------

  /** The entries of the lines that a parser accepts, in order. */
  function Kept(lines: seq<string>, parse: string -> Option<Ipv4Entry>): (entries: seq<Ipv4Entry>)
    ensures |entries| <= |lines|
  {
    if |lines| == 0 then []
    else
      var last := lines[|lines| - 1];
      Kept(lines[..|lines| - 1], parse) + (if parse(last).Some? then [parse(last).value] else [])
  }

  /** The entries of the lines that parse, in file order. */
  function Parseable(lines: seq<string>): (entries: seq<Ipv4Entry>)
  {
    Kept(lines, ParseAddress)
  }

  /** Lines are kept or dropped one by one: the entries of a concatenation are the concatenated entries. */
  lemma {:induction false} KeptAppend(a: seq<string>, b: seq<string>, parse: string -> Option<Ipv4Entry>)
    ensures Kept(a + b, parse) == Kept(a, parse) + Kept(b, parse)
    decreases |b|
  {
    if |b| > 0 {
      var b' := b[..|b| - 1];
      assert (a + b)[..|a + b| - 1] == a + b';
      KeptAppend(a, b', parse);
    } else {
      assert a + b == a;
    }
  }

  lemma ParseableAppend(a: seq<string>, b: seq<string>)
    ensures Parseable(a + b) == Parseable(a) + Parseable(b)
  {
    KeptAppend(a, b, ParseAddress);
  }

  /** `(address & e.netmask) == e.address` */
  predicate Matches(address: u32, e: Ipv4Entry)
  {
    And(address, e.netmask) == e.address
  }

  predicate Allowed(entries: seq<Ipv4Entry>, address: u32)
  {
    exists i :: 0 <= i < |entries| && Matches(address, entries[i])
  }

  /** An entry from a line allows exactly the addresses that agree with the line's address in the top p bits. */
  lemma MatchesIffSameTopBits(address: u32, x: u32, p: nat)
    requires p <= 32
    ensures Matches(address, Ipv4Entry(And(x, Netmask(p)), Netmask(p))) <==> Shr(address, HostBits(p)) == Shr(x, HostBits(p))
  {
    var h := HostBits(p);
    MaskKeepsTopBits(address, p);
    MaskKeepsTopBits(x, p);
    ShlInjective(Shr(address, h), Shr(x, h), h);
  }

  lemma ShlInjective(a: nat, b: nat, s: nat)
    ensures Shl(a, s) == Shl(b, s) <==> a == b
  {
    ShlIsProduct(a, s);
    ShlIsProduct(b, s);
    var c := Pow2(s);
    if a < b {
      assert a * c < b * c;
    } else if b < a {
      assert b * c < a * c;
    }
  }

  /** An address is allowed by the kept entries exactly when some line parses to an entry it matches. */
  lemma {:induction false} AllowedByKept(lines: seq<string>, parse: string -> Option<Ipv4Entry>, address: u32)
    ensures Allowed(Kept(lines, parse), address) <==>
      exists i :: 0 <= i < |lines| && parse(lines[i]).Some? && Matches(address, parse(lines[i]).value)
    decreases |lines|
  {
    if |lines| > 0 {
      var init := lines[..|lines| - 1];
      AllowedByKept(init, parse, address);
      var entries := Kept(lines, parse);
      var head := Kept(init, parse);
      assert entries[..|head|] == head;
      if Allowed(entries, address) {
        var i :| 0 <= i < |entries| && Matches(address, entries[i]);
        if i < |head| {
          assert entries[i] == head[i];
        } else {
          assert lines[|lines| - 1] == lines[|init|];
        }
      }
      if exists i :: 0 <= i < |lines| && parse(lines[i]).Some? && Matches(address, parse(lines[i]).value) {
        var i :| 0 <= i < |lines| && parse(lines[i]).Some? && Matches(address, parse(lines[i]).value);
        if i < |init| {
          assert lines[i] == init[i];
          var j :| 0 <= j < |head| && Matches(address, head[j]);
          assert entries[j] == head[j];
        } else {
          assert entries[|head|] == parse(lines[i]).value;
        }
      }
    }
  }

  /** After a reload, an address is allowed exactly when some line of the file parses to an entry it matches. */
  lemma AllowedByLines(lines: seq<string>, address: u32)
    ensures Allowed(Parseable(lines), address) <==>
      exists i :: 0 <= i < |lines| && ParseAddress(lines[i]).Some? && Matches(address, ParseAddress(lines[i]).value)
  {
    AllowedByKept(lines, ParseAddress, address);
  }

  /** The getline loop of updateIpv4: the parseable lines' entries, in order. */
  method ParseLines(lines: seq<string>) returns (entries: seq<Ipv4Entry>)
    ensures entries == Parseable(lines)
  {
    entries := [];
    for i := 0 to |lines|
      invariant entries == Parseable(lines[..i])
    {
      var entry := ParseAddressString(lines[i]);
      assert lines[..i + 1][..i] == lines[..i];
      if entry.Some? {
        entries := entries + [entry.value];
      }
    }
    assert lines[..|lines|] == lines;
  }

  /** The loop of checkIfIpv4IsAllowed: true at the first matching entry, false when none matches. */
  method CheckIfIpv4IsAllowed(entries: seq<Ipv4Entry>, address: u32) returns (allowed: bool)
    ensures allowed <==> Allowed(entries, address)
  {
    for i := 0 to |entries|
      invariant forall j :: 0 <= j < i ==> !Matches(address, entries[j])
    {
      if And(address, entries[i].netmask) == entries[i].address {
        return true;
      }
    }
    return false;
  }

  // ---------------------------------------------------------------------
  // The reload timer
  // ---------------------------------------------------------------------

  /**
   * The modification times a chain of timer expiries reloads at, from the
   * last time seen, over expiries that see the given times. The timer
   * always re-arms when rearmAlways holds (config.hpp); otherwise it
   * re-arms only after an expiry that saw a change (ipAuthorization.hpp),
   * and the chain ends at the first unchanged expiry.
   */
  function Reloads(last: int, mtimes: seq<int>, rearmAlways: bool): (r: seq<int>)
    ensures |r| <= |mtimes|
    decreases |mtimes|
  {
    if |mtimes| == 0 then []
    else if mtimes[0] != last then [mtimes[0]] + Reloads(mtimes[0], mtimes[1..], rearmAlways)
    else if rearmAlways then Reloads(last, mtimes[1..], rearmAlways)
    else []
  }

  /** The time an expiry compares with: the one seen before it. */
  function SeenBefore(last: int, mtimes: seq<int>, k: nat): int
    requires k < |mtimes|
  {
    if k == 0 then last else mtimes[k - 1]
  }

  /** A timer that always re-arms reloads at every change of the modification time. */
  lemma {:induction false} PollingSeesEveryChange(last: int, mtimes: seq<int>, k: nat)
    requires k < |mtimes| && mtimes[k] != SeenBefore(last, mtimes, k)
    ensures mtimes[k] in Reloads(last, mtimes, true)
    decreases k
  {
    if k > 0 {
      PollingSeesEveryChange(mtimes[0], mtimes[1..], k - 1);
    }
  }

  /** ipAuthorization.hpp's timer, after one expiry that sees no change, misses every later change. */
  lemma AuthorizerStopsPolling()
    ensures Reloads(5, [5, 6], false) == []
    ensures Reloads(5, [5, 6], true) == [6]
  {
  }

  /** Config: the allow list that config.hpp keeps. */
  class Config {
    var allowedIpv4: seq<Ipv4Entry>
    var lastUpdatedIpv4: int
    var timerArmed: bool
    var hasStrand: bool

    constructor ()
      ensures allowedIpv4 == [] && !timerArmed && !hasStrand
    {
      allowedIpv4 := [];
      lastUpdatedIpv4 := 0;
      timerArmed := false;
      hasStrand := false;
    }

    /** setStrand */
    method SetStrand()
      modifies this
      ensures hasStrand
      ensures allowedIpv4 == old(allowedIpv4) && lastUpdatedIpv4 == old(lastUpdatedIpv4) && timerArmed == old(timerArmed)
    {
      hasStrand := true;
    }

    /** updateIpv4: false and no change when the file cannot be opened; otherwise the parseable lines replace the list. */
    method UpdateIpv4(file: Option<seq<string>>, mtime: int) returns (ok: bool)
      modifies this
      ensures ok <==> file.Some?
      ensures ok ==> allowedIpv4 == Parseable(file.value) && lastUpdatedIpv4 == mtime
      ensures !ok ==> allowedIpv4 == old(allowedIpv4) && lastUpdatedIpv4 == old(lastUpdatedIpv4)
      ensures timerArmed == old(timerArmed) && hasStrand == old(hasStrand)
    {
      if file.None? {
        return false;
      }
      allowedIpv4 := ParseLines(file.value);
      lastUpdatedIpv4 := mtime;
      ok := true;
    }

    /** init: refused without a strand; otherwise one load of the file and the timer started. */
    method Init(file: Option<seq<string>>, mtime: int) returns (ok: bool)
      modifies this
      ensures ok <==> old(hasStrand)
      ensures !ok ==> allowedIpv4 == old(allowedIpv4) && lastUpdatedIpv4 == old(lastUpdatedIpv4) && timerArmed == old(timerArmed)
      ensures ok ==> timerArmed
      ensures ok && file.Some? ==> allowedIpv4 == Parseable(file.value) && lastUpdatedIpv4 == mtime
      ensures ok && file.None? ==> allowedIpv4 == old(allowedIpv4)
    {
      if !hasStrand {
        return false;
      }
      var _ := UpdateIpv4(file, mtime);
      timerArmed := true;
      ok := true;
    }

    /** One expiry of the reload timer: an error ends the chain; otherwise a changed time reloads, and the timer always re-arms. */
    method OnTimer(error: bool, mtime: int, file: Option<seq<string>>)
      requires timerArmed
      modifies this
      ensures timerArmed <==> !error
      ensures error || mtime == old(lastUpdatedIpv4) || file.None? ==>
        allowedIpv4 == old(allowedIpv4) && lastUpdatedIpv4 == old(lastUpdatedIpv4)
      ensures !error && mtime != old(lastUpdatedIpv4) && file.Some? ==>
        allowedIpv4 == Parseable(file.value) && lastUpdatedIpv4 == mtime
      ensures hasStrand == old(hasStrand)
    {
      if error {
        timerArmed := false;
        return;
      }
      if lastUpdatedIpv4 != mtime {
        var _ := UpdateIpv4(file, mtime);
      }
      timerArmed := true;
    }

    /** checkIfIpv4IsAllowed */
    method IsAllowed(address: u32) returns (allowed: bool)
      ensures allowed <==> Allowed(allowedIpv4, address)
    {
      allowed := CheckIfIpv4IsAllowed(allowedIpv4, address);
    }
  }

  /** IpAuthorizer: the allow list that ipAuthorization.hpp keeps. */
  class IpAuthorizer {
    var allowedIpv4: seq<Ipv4Entry>
    var lastUpdatedIpv4: int
    var timerArmed: bool

    constructor ()
      ensures allowedIpv4 == [] && !timerArmed
    {
      allowedIpv4 := [];
      lastUpdatedIpv4 := 0;
      timerArmed := false;
    }

    /** updateIpv4: false and no change when the file cannot be opened; otherwise the parseable lines replace the list. */
    method UpdateIpv4(file: Option<seq<string>>) returns (ok: bool)
      modifies this
      ensures ok <==> file.Some?
      ensures ok ==> allowedIpv4 == Parseable(file.value)
      ensures !ok ==> allowedIpv4 == old(allowedIpv4)
      ensures lastUpdatedIpv4 == old(lastUpdatedIpv4) && timerArmed == old(timerArmed)
    {
      if file.None? {
        return false;
      }
      allowedIpv4 := ParseLines(file.value);
      ok := true;
    }

    /**
     * init: the file is created if missing (so it is read as the lines
     * given), loaded, the timer started, and its modification time noted.
     */
    method Init(file: Option<seq<string>>, mtime: int)
      modifies this
      ensures timerArmed && lastUpdatedIpv4 == mtime
      ensures file.Some? ==> allowedIpv4 == Parseable(file.value)
      ensures file.None? ==> allowedIpv4 == old(allowedIpv4)
    {
      var _ := UpdateIpv4(file);
      timerArmed := true;
      lastUpdatedIpv4 := mtime;
    }

    /**
     * One expiry of the reload timer: an error ends the chain; a changed
     * time is noted and reloads. The timer re-arms after every expiry
     * without error, as config.hpp's does.
     */
    method OnTimer(error: bool, mtime: int, file: Option<seq<string>>)
      requires timerArmed
      modifies this
      ensures timerArmed <==> !error
      ensures !error && mtime != old(lastUpdatedIpv4) ==> lastUpdatedIpv4 == mtime
      ensures !error && mtime != old(lastUpdatedIpv4) && file.Some? ==> allowedIpv4 == Parseable(file.value)
      ensures error || mtime == old(lastUpdatedIpv4) || file.None? ==> allowedIpv4 == old(allowedIpv4)
      ensures error || mtime == old(lastUpdatedIpv4) ==> lastUpdatedIpv4 == old(lastUpdatedIpv4)
    {
      if error {
        timerArmed := false;
        return;
      }
      if lastUpdatedIpv4 != mtime {
        lastUpdatedIpv4 := mtime;
        var _ := UpdateIpv4(file);
      }
      timerArmed := true;
    }

    /** checkIfIpv4IsAllowed */
    method IsAllowed(address: u32) returns (allowed: bool)
      ensures allowed <==> Allowed(allowedIpv4, address)
    {
      allowed := CheckIfIpv4IsAllowed(allowedIpv4, address);
    }
  }
}

=== FILE: queue.dfy ===
// The controller's thread-shared FIFO queue (ControllerController/ThreadedQueues.hpp):
// a singly linked list whose last node is a valueless sentinel. push
// stores the value in the sentinel and links a fresh sentinel behind it;
// pop and topAndPop move head one node on. The mutex only makes each call
// atomic; each call here runs alone. The nodes from head to tail, and the
// values they hold, are ghost state.

module ThreadedQueues {
  import opened Base

  /** Node: an optional value and the link to the next node. */
  class Node<T> {
    var value: Option<T>
    var next: Node?<T>

    /** make_shared<Node>(): no value, no successor. */
    constructor ()
      ensures value == None && next == null
    {
      value := None;
      next := null;
    }
  }

  /** MutexCopyQueue<T>. */
  class MutexCopyQueue<T> {
    var empty: bool
    var head: Node<T>
    var tail: Node<T>
    /** The nodes from head to tail, in order. */
    ghost var nodes: seq<Node<T>>
    /** The values queued, oldest first. */
    ghost var contents: seq<T>
    ghost var Repr: set<object>
    /** Every value pushed, and every value taken out, in order. */
    ghost var pushed: seq<T>
    ghost var popped: seq<T>

    /**
     * The nodes are distinct and linked in order from head to tail; each
     * but the sentinel at the tail holds the matching value; the empty
     * flag says whether any value is queued.
     */
    ghost predicate Valid()
      reads this, Repr
    {
      && this in Repr
      && |nodes| == |contents| + 1
      && (forall i :: 0 <= i < |nodes| ==> nodes[i] in Repr)
      && nodes[0] == head && nodes[|nodes| - 1] == tail
      && (forall i, j :: 0 <= i < j < |nodes| ==> nodes[i] != nodes[j])
      && (forall i :: 0 <= i < |contents| ==> nodes[i].next == nodes[i + 1] && nodes[i].value == Some(contents[i]))
      && tail.value == None && tail.next == null
      && empty == (|contents| == 0)
      && pushed == popped + contents
    }

    /** A new queue is empty: head and tail are the same sentinel. */
    constructor ()
      ensures Valid() && fresh(Repr)
      ensures contents == [] && head == tail && pushed == [] && popped == []
    {
      var sentinel := new Node<T>();
      tail := sentinel;
      head := sentinel;
      empty := true;
      nodes := [sentinel];
      contents := [];
      pushed, popped := [], [];
      Repr := {this, sentinel};
    }

    /** push: the value goes into the sentinel, behind which a fresh sentinel is linked. */
    method Push(v: T)
      requires Valid()
      modifies Repr
      ensures Valid() && fresh(Repr - old(Repr))
      ensures contents == old(contents) + [v]
      ensures pushed == old(pushed) + [v] && popped == old(popped)
      ensures !empty
    {
      var sentinel := new Node<T>();
      tail.value := Some(v);
      tail.next := sentinel;
      tail := sentinel;
      empty := false;
      nodes := nodes + [sentinel];
      contents := contents + [v];
      pushed := pushed + [v];
      Repr := Repr + {sentinel};
    }

    /** pop: the oldest value is dropped; an empty queue is left alone. */
    method Pop()
      requires Valid()
      modifies this
      ensures Valid() && Repr <= old(Repr)
      ensures contents == if old(contents) == [] then [] else old(contents)[1..]
      ensures pushed == old(pushed)
      ensures popped == old(popped) + if old(contents) == [] then [] else [old(contents)[0]]
    {
      if head.value == None {
        return;
      }
      assert |contents| > 0 && head.next == nodes[1];
      head := head.next;
      if head == tail {
        empty := true;
      }
      popped := popped + [contents[0]];
      nodes := nodes[1..];
      contents := contents[1..];
    }

    /** topAndPop: the oldest value, which is dropped; None on an empty queue, which is left alone. */
    method TopAndPop() returns (result: Option<T>)
      requires Valid()
      modifies this
      ensures Valid() && Repr <= old(Repr)
      ensures old(contents) == [] ==> result == None && contents == []
      ensures old(contents) != [] ==> result == Some(old(contents)[0]) && contents == old(contents)[1..]
      ensures pushed == old(pushed)
      ensures popped == old(popped) + if result.Some? then [result.value] else []
    {
      result := head.value;
      if result.Some? {
        assert |contents| > 0 && head.next == nodes[1];
        head := head.next;
        if head == tail {
          empty := true;
        }
        popped := popped + [contents[0]];
        nodes := nodes[1..];
        contents := contents[1..];
      }
    }

    /** isEmpty: the flag, true exactly when every value pushed has been taken out. */
    method IsEmpty() returns (b: bool)
      requires Valid()
      ensures b == (contents == []) == (popped == pushed)
    {
      b := empty;
    }

    /** top: the oldest value, left in place; None on an empty queue. */
    method Top() returns (result: Option<T>)
      requires Valid()
      ensures contents == [] ==> result == None
      ensures contents != [] ==> result == Some(contents[0])
    {
      result := head.value;
    }
  }
}

=== FILE: seg_transfer.dfy ===
// The segmented file transfer skeleton (WozekServer/segmentedFileTransfer.hpp).
// sendFile/sendSegmentData and readFile/readSegmentData are written in
// continuation-passing style: each step calls one of the caller's
// callbacks (headerConsumer, sender, ackHandler; headerReceiver,
// dataReceiver, headerVerifier, ackSender) and hands it the continuation.
// Here the continuations are defunctionalised: a phase records what the
// pending continuation will do, and each step function takes the phase and
// what the callback reported and yields the next phase together with the
// callback it calls next.

module SegmentedTransfer {
  import opened Base
  import Datagrams

  // ---------------------------------------------------------------------
  // Sending
  // ---------------------------------------------------------------------

  /** The sender's pending continuation: after the header, after a send, or after the ack. */
  datatype SendPhase =
    | HeaderPending(remainingFile: nat, maxSegment: nat, segment: nat)
    | DataPending(remainingFile: nat, maxSegment: nat, segment: nat, remainingSegment: nat)
    | AckPending(remainingFile: nat, maxSegment: nat, segment: nat)

  /** The callback a sending step calls. */
  datatype SendCall = ConsumeHeader(size: nat) | Send(withHeader: bool, length: nat) | HandleAck

  datatype SendStep = SendStep(phase: SendPhase, call: SendCall)

  /** sendFile: announce a segment of min(remainingFile, maxSegment) bytes to the header consumer. */
  function SendFile(remainingFile: nat, maxSegment: nat): (s: SendStep)
    ensures s.call.ConsumeHeader?
    ensures s.call.size <= remainingFile && s.call.size <= maxSegment
    ensures s.call.size == remainingFile || s.call.size == maxSegment
    ensures s.phase == HeaderPending(remainingFile, maxSegment, s.call.size)
  {
    var size := Min(remainingFile, maxSegment);
    SendStep(HeaderPending(remainingFile, maxSegment, size), ConsumeHeader(size))
  }

  /** sendSegmentData: the continuation once the segment is sent, or the sender asked for the rest. */
  function SendSegmentData(remainingFile: nat, maxSegment: nat, segment: nat, remainingSegment: nat): (s: SendStep)
    ensures remainingSegment == 0 <==> s.call == HandleAck
    ensures remainingSegment == 0 ==> s.phase == AckPending(remainingFile, maxSegment, segment)
    ensures remainingSegment > 0 ==> s.call == Send(false, remainingSegment)
    ensures remainingSegment > 0 ==> s.phase == DataPending(remainingFile, maxSegment, segment, remainingSegment)
  {
    if remainingSegment == 0 then SendStep(AckPending(remainingFile, maxSegment, segment), HandleAck)
    else SendStep(DataPending(remainingFile, maxSegment, segment, remainingSegment), Send(false, remainingSegment))
  }

  /** The header consumer's continuation: the first send of a segment carries the header and asks for all of it. */
  function HeaderConsumed(p: SendPhase): (s: SendStep)
    requires p.HeaderPending?
    ensures s.call == Send(true, p.segment)
    ensures s.phase == DataPending(p.remainingFile, p.maxSegment, p.segment, p.segment)
  {
    SendStep(DataPending(p.remainingFile, p.maxSegment, p.segment, p.segment), Send(true, p.segment))
  }

  /**
   * The sender's continuation with the bytes it sent, which may not exceed
   * what it was asked for: a later send never carries the header and asks
   * for exactly the unsent rest of the segment, and the ack handler is
   * called once that rest is 0.
   */
  function Sent(p: SendPhase, sentBytes: nat): (s: SendStep)
    requires p.DataPending?
    requires sentBytes <= p.remainingSegment
    ensures s.call.Send? ==> !s.call.withHeader && s.call.length == p.remainingSegment - sentBytes
    ensures s.call == HandleAck <==> sentBytes == p.remainingSegment
    ensures s.phase.segment == p.segment && s.phase.remainingFile == p.remainingFile
  {
    SendSegmentData(p.remainingFile, p.maxSegment, p.segment, p.remainingSegment - sentBytes)
  }

  /** The ack handler's continuation: the next sendFile covers what is left after this segment, which must be something. */
  function Acked(p: SendPhase): (s: SendStep)
    requires p.AckPending?
    requires p.remainingFile > p.segment
    ensures s == SendFile(p.remainingFile - p.segment, p.maxSegment)
    ensures s.call.ConsumeHeader?
  {
    SendFile(p.remainingFile - p.segment, p.maxSegment)
  }

  /**
   * The header sizes of a transfer whose ack handler continues whenever it
   * may: the first from sendFile, each further one from the continuation
   * of the previous segment's ack.
   */
  function HeaderChain(remainingFile: nat, maxSegment: nat): (sizes: seq<nat>)
    requires maxSegment > 0
    ensures |sizes| >= 1
    decreases remainingFile
  {
    var first := SendFile(remainingFile, maxSegment);
    if remainingFile > first.call.size then
      var next := Acked(AckPending(remainingFile, maxSegment, first.call.size));
      [first.call.size] + HeaderChain(next.phase.remainingFile, maxSegment)
    else [first.call.size]
  }

  /**
   * A run's segment sizes sum to the file's size; every segment but the
   * last is a full maxSegment; the last is at most that, and is not empty
   * unless the file is.
   */
  lemma {:induction false} HeaderChainCoversFile(remainingFile: nat, maxSegment: nat)
    requires maxSegment > 0
    ensures var sizes := HeaderChain(remainingFile, maxSegment);
      && Sum(sizes) == remainingFile
      && (forall i :: 0 <= i < |sizes| - 1 ==> sizes[i] == maxSegment)
      && (0 < sizes[|sizes| - 1] <= maxSegment || remainingFile == 0)
    ensures remainingFile == 0 ==> HeaderChain(remainingFile, maxSegment) == [0]
    decreases remainingFile
  {
    var sizes := HeaderChain(remainingFile, maxSegment);
    var size := SendFile(remainingFile, maxSegment).call.size;
    if remainingFile > size {
      var rest := HeaderChain(remainingFile - size, maxSegment);
      HeaderChainCoversFile(remainingFile - size, maxSegment);
      assert size == maxSegment;
      assert sizes == [size] + rest;
      SumAppend([size], rest);
      assert [size][..0] == [];
      forall i | 0 <= i < |sizes| - 1
        ensures sizes[i] == maxSegment
      {
        if i > 0 {
          assert sizes[i] == rest[i - 1];
        }
      }
    } else {
      assert sizes == [size];
      assert [size][..0] == [];
    }
  }

  // ---------------------------------------------------------------------
  // Receiving
  // ---------------------------------------------------------------------

  /** size_t subtraction, which wraps around below zero. */
  function SubSizeT(a: u64, b: u64): (r: u64)
    ensures b <= a ==> r == a - b
    ensures a < b ==> r == a - b + U64_LIMIT
  {
    (a - b) % U64_LIMIT
  }

  /** The receiver's pending continuation. */
  datatype ReadPhase =
    | HeaderAwaited(remainingFile: u64)
    | Verifying(remainingFile: u64, header: u64)
    | DataAwaited(remainingFile: u64, header: u64, remainingSegment: u64)
    | AckAwaited(remainingFile: u64, header: u64)

  /** The callback a receiving step calls. */
  datatype ReadCall = ReceiveHeader | VerifyHeader(size: u64) | ReceiveData(length: u64) | SendAck

  datatype ReadStep = ReadStep(phase: ReadPhase, call: ReadCall)

  /** readFile: ask the header receiver for the next segment's header. */
  function ReadFile(remainingFile: u64): (s: ReadStep)
    ensures s.call == ReceiveHeader && s.phase.remainingFile == remainingFile
  {
    ReadStep(HeaderAwaited(remainingFile), ReceiveHeader)
  }

  /** readSegmentData: with nothing left, the ack at once, without calling the data receiver; otherwise ask for all of the rest. */
  function ReadSegmentData(remainingFile: u64, header: u64, remainingSegment: u64): (s: ReadStep)
    ensures remainingSegment == 0 <==> s.call == SendAck
    ensures remainingSegment == 0 ==> s.phase == AckAwaited(remainingFile, header)
    ensures remainingSegment > 0 ==> s.call == ReceiveData(remainingSegment)
    ensures remainingSegment > 0 ==> s.phase == DataAwaited(remainingFile, header, remainingSegment)
  {
    if remainingSegment == 0 then ReadStep(AckAwaited(remainingFile, header), SendAck)
    else ReadStep(DataAwaited(remainingFile, header, remainingSegment), ReceiveData(remainingSegment))
  }

  /** The header receiver's continuation: decode the 8 bytes and hand the header to the verifier before any data is read. */
  function HeaderReceived(p: ReadPhase, receivedBytes: seq<byte>): (s: ReadStep)
    requires p.HeaderAwaited?
    requires |receivedBytes| == Datagrams.SizeTSize
    ensures s.call == VerifyHeader(Datagrams.DecodeSegmentHeader(receivedBytes))
    ensures s.phase == Verifying(p.remainingFile, Datagrams.DecodeSegmentHeader(receivedBytes))
  {
    var header := Datagrams.DecodeSegmentHeader(receivedBytes);
    ReadStep(Verifying(p.remainingFile, header), VerifyHeader(header))
  }

  /** The verifier's continuation: read exactly header.size bytes. */
  function Verified(p: ReadPhase): (s: ReadStep)
    requires p.Verifying?
    ensures s == ReadSegmentData(p.remainingFile, p.header, p.header)
  {
    ReadSegmentData(p.remainingFile, p.header, p.header)
  }

  /** The data receiver's continuation with the bytes it read: ask for the rest (as size_t arithmetic). */
  function DataReceived(p: ReadPhase, receivedLength: u64): (s: ReadStep)
    requires p.DataAwaited?
    ensures receivedLength <= p.remainingSegment ==>
      s == ReadSegmentData(p.remainingFile, p.header, p.remainingSegment - receivedLength)
  {
    ReadSegmentData(p.remainingFile, p.header, SubSizeT(p.remainingSegment, receivedLength))
  }

  /** The ack sender's continuation: the next readFile covers what is left after this segment (as size_t arithmetic). */
  function AckSent(p: ReadPhase): (s: ReadStep)
    requires p.AckAwaited?
    ensures s.call == ReceiveHeader
    ensures p.header <= p.remainingFile ==> s == ReadFile(p.remainingFile - p.header)
  {
    ReadFile(SubSizeT(p.remainingFile, p.header))
  }

  /**
   * The header the sender announces is the one the receiver verifies:
   * decoding the 8 bytes the header consumer is given yields the segment
   * size sendFile chose.
   */
  lemma HeaderReachesVerifier(remainingFile: u64, maxSegment: nat)
    ensures var size := SendFile(remainingFile, maxSegment).call.size;
      HeaderReceived(HeaderAwaited(remainingFile), Datagrams.EncodeSegmentHeader(size)).call == VerifyHeader(size)
  {
    var size := SendFile(remainingFile, maxSegment).call.size;
    Datagrams.SegmentHeaderRoundTrip(size);
  }

  /**
   * One segment received in pieces, each no larger than what was asked
   * for: the receiver keeps asking for the rest until the pieces add up to
   * the header's size, and then sends the ack.
   */
  function ReceivePieces(p: ReadPhase, pieces: seq<u64>): (s: Option<ReadStep>)
    requires p.DataAwaited?
    decreases |pieces|
  {
    if |pieces| == 0 then None
    else if pieces[0] > p.remainingSegment then None
    else
      var next := DataReceived(p, pieces[0]);
      if next.call == SendAck then (if |pieces| == 1 then Some(next) else None)
      else ReceivePieces(next.phase, pieces[1..])
  }

  lemma {:induction false} ReceivePiecesAcks(p: ReadPhase, pieces: seq<u64>)
    requires p.DataAwaited? && p.remainingSegment > 0
    requires forall i :: 0 <= i < |pieces| ==> pieces[i] > 0
    ensures ReceivePieces(p, pieces).Some? <==> Sum(pieces) == p.remainingSegment
    ensures ReceivePieces(p, pieces).Some? ==>
      ReceivePieces(p, pieces).value == ReadStep(AckAwaited(p.remainingFile, p.header), SendAck)
    decreases |pieces|
  {
    if |pieces| > 0 {
      var head := [pieces[0]];
      assert pieces == head + pieces[1..];
      SumAppend(head, pieces[1..]);
      assert head[..0] == [];
      if pieces[0] <= p.remainingSegment {
        var next := DataReceived(p, pieces[0]);
        if next.call != SendAck {
          ReceivePiecesAcks(next.phase, pieces[1..]);
        } else if |pieces| > 1 {
          assert pieces[1] > 0;
          assert Sum(pieces[1..]) > 0 by {
            SumPositive(pieces[1..]);
          }
        }
      } else {
        SumAtLeastHead(pieces);
      }
    }
  }

  lemma {:induction false} SumPositive(s: seq<u64>)
    requires |s| > 0
    requires forall i :: 0 <= i < |s| ==> s[i] > 0
    ensures Sum(s) > 0
  {
    assert Sum(s) == Sum(s[..|s| - 1]) + s[|s| - 1];
  }

  lemma SumAtLeastHead(s: seq<u64>)
    requires |s| > 0
    ensures Sum(s) >= s[0]
  {
    var head := [s[0]];
    assert s == head + s[1..];
    SumAppend(head, s[1..]);
    assert head[..0] == [];
  }

  /** Neither loop ends by itself: after an ack the sender announces another header and the receiver awaits one. */
  lemma LoopsContinueAfterAck(send: SendPhase, read: ReadPhase)
    requires send.AckPending? && send.remainingFile > send.segment
    requires read.AckAwaited?
    ensures Acked(send).call.ConsumeHeader? && Acked(send).phase.HeaderPending?
    ensures AckSent(read).call == ReceiveHeader && AckSent(read).phase.HeaderAwaited?
  {
  }
}

=== FILE: serial_codec.dfy ===
// The controller's 7-bit serial framing (ControllerController/Device.hpp).
//
// A request is framed as a byte string whose first byte has its top bit set
// and every later byte has it clear. The low seven bits of the bytes, read in
// order and most significant first, form one bit stream: k opcode bits,
// then the data bytes most significant bit first, then zero padding up to a
// whole number of 7-bit groups. The model reads that stream as a number
// (Stream) and the data as a big-endian number (Value), and proves the
// runtime encoder, the compile-time encoder and the decoder against it.
// Bytes are the integers 0..255 and the C operators come from Bitwise.
//
// Proof style: a lemma receives the values it talks about as parameters
// (a stream, an accumulated value, a width) rather than as arithmetic on
// other parameters, and shift widths are written with named constants and
// functions, so that each proof step matches the terms of the next one.

module SerialCodec {
  import opened Base
  import opened Bitwise

  // ---------------------------------------------------------------------
  // The frame format
  // ---------------------------------------------------------------------

  /** Payload bits per frame byte; the eighth bit marks the first byte of a frame. */
  const PayloadBits: nat := 7
  const FramingBit: nat := 0x80
  const PayloadMask: nat := 0x7F

  lemma Widths()
    ensures Pow2(PayloadBits) == 128 && Pow2(ByteBits) == 256
    ensures FramingBit == Shl(1, PayloadBits) && PayloadMask == Pow2(PayloadBits) - 1
  {
    assert Pow2(7) == 128;
    Pow2Byte();
    ShlOne(PayloadBits);
  }

  /** currentOffset at the start: the payload bits of the first byte left after a k-bit opcode. */
  function FirstOffset(k: nat): nat
    requires k <= 7
  {
    7 - k
  }

  /**
   * getEncodedLength: the number of bytes in the frame of n data bytes with
   * a k-bit opcode. C++ integer division truncates toward zero, which only
   * matters for the empty stream (n = 0, k = 0), where it gives one byte.
   */
  function EncodedLength(n: nat, k: nat): (r: nat)
    ensures r >= 1
    ensures 8 * n + k >= 1 ==> 7 * (r - 1) < 8 * n + k <= 7 * r
    ensures 8 * n + k == 0 ==> r == 1
  {
    (if 8 * n + k >= 1 then (8 * n + k - 1) / 7 else 0) + 1
  }

  /** The zero bits after k opcode bits and n data bytes in a frame of len bytes. */
  function Padding(len: nat, n: nat, k: nat): nat
    requires k + 8 * n <= 7 * len
  {
    7 * len - k - 8 * n
  }

  /** The payload stream of a frame as a number: the low seven bits of every byte, first byte most significant. */
  function Stream(e: seq<byte>): nat
  {
    if |e| == 0 then 0 else Shl(Stream(e[..|e| - 1]), PayloadBits) + Low(e[|e| - 1], PayloadBits)
  }

  /** Data bytes read as one big-endian number. */
  function Value(d: seq<byte>): (r: nat)
    ensures r < Pow2(8 * |d|)
  {
    if |d| == 0 then 0
    else
      var p := Value(d[..|d| - 1]);
      Pow2Byte();
      ShlBound(p, d[|d| - 1], ByteBits, 8 * (|d| - 1), 8 * |d|);
      Shl(p, ByteBits) + d[|d| - 1]
  }

  /** The bits head followed by the bytes d, as one number. */
  function Acc(head: nat, d: seq<byte>): nat
  {
    Shl(head, 8 * |d|) + Value(d)
  }

  /** The bits head followed by the first b data bytes. */
  function Packed(head: nat, d: seq<byte>, b: nat): nat
    requires b <= |d|
  {
    Acc(head, d[..b])
  }

  /** Every byte after the first has its framing bit clear. */
  predicate Clean(e: seq<byte>)
  {
    forall i :: 1 <= i < |e| ==> e[i] < 128
  }

  /**
   * The bytes e are the frame of opcode op and data d with a k-bit opcode:
   * the right length, the framing bits, and a stream holding the low k bits
   * of op, then d, then 7|e| - k - 8|d| zero bits.
   */
  predicate IsFrame(e: seq<byte>, op: byte, d: seq<byte>, k: nat)
    requires k <= 7
  {
    && |e| == EncodedLength(|d|, k)
    && e[0] >= 128
    && Clean(e)
    && Stream(e) == Shl(Acc(Low(op, k), d), Padding(|e|, |d|, k))
  }

  // ---------------------------------------------------------------------
  // The byte operations of the source, each stored back into a byte
  // ---------------------------------------------------------------------

  /** (opcode << (7 - k)) | 0x80: the first byte of a frame. */
  function Head(opcode: byte, k: nat): byte
    requires k <= 7
  {
    Trunc8(Or(Shl(opcode, FirstOffset(k)), FramingBit))
  }

  /** res |= d >> (8 - co): the top co bits of data byte dd go into the free low bits of a. */
  function Fill(a: byte, dd: byte, co: nat): byte
    requires 1 <= co <= 7
  {
    Trunc8(Or(a, Shr(dd, 8 - co)))
  }

  /** (d << s) & 0x7F: the low 7 - s bits of dd at the top of a fresh payload. */
  function Spill(dd: byte, s: nat): (y: byte)
    requires s <= 6
    ensures y < 128
  {
    And(Shl(dd, s), PayloadMask)
  }

  /** x << (8 - co), stored in a byte: the low co bits of x at the top. */
  function Upper(x: byte, co: nat): byte
    requires 1 <= co <= 7
  {
    Trunc8(Shl(x, 8 - co))
  }

  /** b |= y >> s. */
  function Merge(b: byte, y: byte, s: nat): byte
  {
    Trunc8(Or(b, Shr(y, s)))
  }

  /** One decoded byte: the low co bits of x followed by the top 8 - co payload bits of y. */
  function Join(x: byte, y: byte, co: nat): byte
    requires 1 <= co <= 7
  {
    Merge(Upper(x, co), y, co - 1)
  }

  function Zero(): (z: byte)
    ensures z == 0
  {
    0
  }

  // ---------------------------------------------------------------------
  // The runtime encoder (Device.hpp:72-88)
  // ---------------------------------------------------------------------

  /**
   * encode(opcode, dataLength, data, resBuffer, opcodeSize): writes the frame
   * of the first n data bytes into res, byte for byte what the compile-time
   * encoder writes. The do-while loop runs its body at least once, so the
   * source needs n >= 1. Opcode bits above the k-th are shifted out of the
   * first byte or hidden under its framing bit.
   */
  method Encode(opcode: byte, n: nat, data: seq<byte>, res: array<byte>, k: nat)
    requires k <= 7
    requires 1 <= n <= |data|
    requires EncodedLength(n, k) <= res.Length
    modifies res
    ensures res[..] == TemplateEncode(opcode, n, data, k, old(res[..]))
    ensures IsFrame(res[..EncodedLength(n, k)], opcode, data[..n], k)
    ensures res[EncodedLength(n, k)..] == old(res[EncodedLength(n, k)..])
  {
    ghost var final := TemplateEncode(opcode, n, data, k, res[..]);
    res[0] := Head(opcode, k);
    var currentOffset := FirstOffset(k);
    var resIndex := 0;
    var byteIndex := 0;
    while byteIndex < n
      invariant 0 <= byteIndex <= n
      invariant 0 <= currentOffset <= 7
      invariant 7 * (resIndex + 1) == k + 8 * byteIndex + currentOffset
      invariant resIndex < res.Length
      invariant EncodeSteps(data, n, byteIndex, currentOffset, res[..], resIndex) == final
    {
      ghost var before: seq<byte> := res[..];
      if currentOffset == 0 {
        resIndex := resIndex + 1;
        res[resIndex] := Shr(data[byteIndex], 1);
        currentOffset := PayloadBits;
        FreshByte(before, resIndex, data[byteIndex]);
      } else {
        res[resIndex] := Fill(res[resIndex], data[byteIndex], currentOffset);
      }
      currentOffset := currentOffset - 1;
      resIndex := resIndex + 1;
      res[resIndex] := Spill(data[byteIndex], currentOffset);
      byteIndex := byteIndex + 1;
    }
    TemplateFrame(opcode, n, data, k, old(res[..]));
  }

  /**
   * Writing d >> 1 into a byte is what the compile-time encoder does there:
   * zero the byte, then OR in the top seven bits of d.
   */
  lemma FreshByte(buf: seq<byte>, i: nat, dd: byte)
    requires i < |buf|
    ensures buf[i := Zero()][i := Fill(buf[i := Zero()][i], dd, PayloadBits)] == buf[i := Shr(dd, 1)]
  {
    Widths();
    ShrBound(dd, 1, PayloadBits, ByteBits);
    LowSmall(Shr(dd, 1), ByteBits);
  }

  // ---------------------------------------------------------------------
  // The compile-time encoder (Device.hpp:46-70)
  // ---------------------------------------------------------------------

  /**
   * encodeStep<dataLength, byteIndex, currentOffset>: the template
   * recursion, with the output pointer as the index r into buf. With no free
   * bit left in byte r it zeroes byte r + 1 and continues there with seven
   * free bits; otherwise it ORs the top co bits of data byte b into byte r
   * and writes the rest at the top of byte r + 1. The source stops after the
   * byte at index dataLength - 1; here the call for b = n returns the buffer
   * unchanged, which is the same.
   */
  function EncodeSteps(d: seq<byte>, n: nat, b: nat, co: nat, buf: seq<byte>, r: nat): (out: seq<byte>)
    requires b <= n <= |d|
    requires co <= 7
    requires r < |buf|
    requires 7 * |buf| >= 7 * (r + 1) - co + 8 * (n - b)
    ensures |out| == |buf|
    decreases n - b, if co == 0 then 1 else 0
  {
    if b == n then buf
    else if co == 0 then EncodeSteps(d, n, b, PayloadBits, buf[r + 1 := Zero()], r + 1)
    else EncodeSteps(d, n, b + 1, co - 1, buf[r := Fill(buf[r], d[b], co)][r + 1 := Spill(d[b], co - 1)], r + 1)
  }

  /** encode<opcode, dataLength, opcodeSize>: the opcode byte, then the steps from bit 7 - k. */
  function TemplateEncode(opcode: byte, n: nat, d: seq<byte>, k: nat, buf: seq<byte>): (out: seq<byte>)
    requires k <= 7
    requires 1 <= n <= |d|
    requires EncodedLength(n, k) <= |buf|
    ensures |out| == |buf|
  {
    EncodeSteps(d, n, 0, FirstOffset(k), buf[0 := Head(opcode, k)], 0)
  }

  /** Index one past the last byte the steps write, from byte r with co free bits and data bytes b .. n - 1 left. */
  function StepsEnd(r: nat, co: nat, n: nat, b: nat): (e: nat)
    requires b <= n
    ensures e >= r + 1
    ensures 7 * e + co >= 7 * (r + 1) + 8 * (n - b)
    ensures 8 * (n - b) > co ==> 7 * e + co < 7 * (r + 1) + 8 * (n - b) + 7
    ensures 8 * (n - b) <= co ==> e == r + 1
  {
    r + 1 + (if 8 * (n - b) > co then (8 * (n - b) - co + 6) / 7 else 0)
  }

  /** The zero bits the steps leave at the end of the stream. */
  function Slack(r: nat, co: nat, n: nat, b: nat): nat
    requires b <= n
  {
    7 * StepsEnd(r, co, n, b) - 7 * (r + 1) + co - 8 * (n - b)
  }

  /**
   * buf[..len] is the start of a frame whose payload stream so far is v:
   * framing bit set on the first byte and clear on the others.
   */
  predicate FramePrefix(buf: seq<byte>, len: nat, v: nat)
  {
    Framed(buf, len) && Stream(buf[..len]) == v
  }

  /** The framing bits of buf[..len]: set on the first byte and clear on the others. */
  predicate Framed(buf: seq<byte>, len: nat)
  {
    && 1 <= len <= |buf|
    && buf[0] >= 128
    && (forall i :: 1 <= i < len ==> buf[i] < 128)
  }

  /**
   * From byte r with co free bits, after the first b data bytes have gone
   * into the stream, the steps append the remaining data bytes and zero
   * padding to the stream, keep the framing bits, and leave every byte from
   * StepsEnd on as it was.
   */
  lemma {:induction false} StepsFrame(d: seq<byte>, n: nat, b: nat, co: nat, buf: seq<byte>, r: nat, head: nat)
    requires b <= n <= |d|
    requires co <= 7
    requires r < |buf|
    requires 7 * |buf| >= 7 * (r + 1) - co + 8 * (n - b)
    requires FramePrefix(buf, r + 1, Shl(Packed(head, d, b), co))
    requires Low(buf[r], co) == 0
    ensures StepsEnd(r, co, n, b) <= |buf|
    ensures FramePrefix(EncodeSteps(d, n, b, co, buf, r), StepsEnd(r, co, n, b), Shl(Packed(head, d, n), Slack(r, co, n, b)))
    ensures EncodeSteps(d, n, b, co, buf, r)[StepsEnd(r, co, n, b)..] == buf[StepsEnd(r, co, n, b)..]
    decreases n - b, if co == 0 then 1 else 0, 1
  {
    if b == n {
      assert StepsEnd(r, co, n, b) == r + 1 && Slack(r, co, n, b) == co;
      assert EncodeSteps(d, n, b, co, buf, r) == buf;
    } else if co == 0 {
      ZeroStepFrame(d, n, b, buf, r, head);
    } else {
      FillStepFrame(d, n, b, co, buf, r, head);
    }
  }

  /** StepsFrame when byte r is full: the steps move on to a zeroed byte r + 1 with seven free bits. */
  lemma {:induction false} ZeroStepFrame(d: seq<byte>, n: nat, b: nat, buf: seq<byte>, r: nat, head: nat)
    requires b < n <= |d|
    requires r < |buf|
    requires 7 * |buf| >= 7 * (r + 1) + 8 * (n - b)
    requires FramePrefix(buf, r + 1, Packed(head, d, b))
    ensures StepsEnd(r, 0, n, b) <= |buf|
    ensures FramePrefix(EncodeSteps(d, n, b, 0, buf, r), StepsEnd(r, 0, n, b), Shl(Packed(head, d, n), Slack(r, 0, n, b)))
    ensures EncodeSteps(d, n, b, 0, buf, r)[StepsEnd(r, 0, n, b)..] == buf[StepsEnd(r, 0, n, b)..]
    decreases n - b, 1, 0
  {
    ZeroByte(buf, r, Packed(head, d, b));
    StepsFrame(d, n, b, PayloadBits, buf[r + 1 := Zero()], r + 1, head);
    ZeroStepEnd(r, n, b);
    TailKept(buf, r + 1, Zero(), StepsEnd(r, 0, n, b));
  }

  /** StepsFrame when byte r has co >= 1 free bits: one data byte goes in, spilling into byte r + 1. */
  lemma {:induction false} FillStepFrame(d: seq<byte>, n: nat, b: nat, co: nat, buf: seq<byte>, r: nat, head: nat)
    requires b < n <= |d|
    requires 1 <= co <= 7
    requires r < |buf|
    requires 7 * |buf| >= 7 * (r + 1) - co + 8 * (n - b)
    requires FramePrefix(buf, r + 1, Shl(Packed(head, d, b), co))
    requires Low(buf[r], co) == 0
    ensures StepsEnd(r, co, n, b) <= |buf|
    ensures FramePrefix(EncodeSteps(d, n, b, co, buf, r), StepsEnd(r, co, n, b), Shl(Packed(head, d, n), Slack(r, co, n, b)))
    ensures EncodeSteps(d, n, b, co, buf, r)[StepsEnd(r, co, n, b)..] == buf[StepsEnd(r, co, n, b)..]
    decreases n - b, 0, 0
  {
    Accumulate(head, d, b);
    FillStep(buf, r, d[b], co, Packed(head, d, b), Packed(head, d, b + 1));
    StepsFrame(d, n, b + 1, co - 1, buf[r := Fill(buf[r], d[b], co)][r + 1 := Spill(d[b], co - 1)], r + 1, head);
    FillStepEnd(r, co, n, b);
    TailKept(buf, r, Fill(buf[r], d[b], co), StepsEnd(r, co, n, b));
    TailKept(buf[r := Fill(buf[r], d[b], co)], r + 1, Spill(d[b], co - 1), StepsEnd(r, co, n, b));
  }

  /** Moving to a fresh byte does not change where the steps end or how much padding they leave. */
  lemma ZeroStepEnd(r: nat, n: nat, b: nat)
    requires b < n
    ensures StepsEnd(r + 1, PayloadBits, n, b) == StepsEnd(r, 0, n, b)
    ensures Slack(r + 1, PayloadBits, n, b) == Slack(r, 0, n, b)
  {
  }

  /** Encoding one data byte does not change where the steps end or how much padding they leave. */
  lemma FillStepEnd(r: nat, co: nat, n: nat, b: nat)
    requires b < n
    requires 1 <= co <= 7
    ensures StepsEnd(r + 1, co - 1, n, b + 1) == StepsEnd(r, co, n, b)
    ensures Slack(r + 1, co - 1, n, b + 1) == Slack(r, co, n, b)
  {
  }

  /** Zeroing byte r + 1 shifts the stream by seven bits and keeps the framing bits. */
  lemma ZeroByte(buf: seq<byte>, r: nat, acc: nat)
    requires r + 1 < |buf|
    requires FramePrefix(buf, r + 1, acc)
    ensures FramePrefix(buf[r + 1 := Zero()], r + 2, Shl(acc, PayloadBits))
    ensures Low(buf[r + 1 := Zero()][r + 1], PayloadBits) == 0
  {
    assert buf[r + 1 := Zero()][..r + 2] == buf[..r + 1] + [0];
    StreamSnoc(buf[..r + 1], 0);
    LowZero(PayloadBits);
  }

  /**
   * One encoding step: filling byte r with the top co bits of dd and writing
   * the rest to byte r + 1 appends dd to the stream acc, giving next, and
   * leaves co - 1 free bits, with the framing bits as they were.
   */
  lemma FillStep(buf: seq<byte>, r: nat, dd: byte, co: nat, acc: nat, next: nat)
    requires 1 <= co <= 7
    requires r + 1 < |buf|
    requires FramePrefix(buf, r + 1, Shl(acc, co))
    requires Low(buf[r], co) == 0
    requires next == Shl(acc, ByteBits) + dd
    ensures FramePrefix(buf[r := Fill(buf[r], dd, co)][r + 1 := Spill(dd, co - 1)], r + 2, Shl(next, co - 1))
    ensures Low(Spill(dd, co - 1), co - 1) == 0
  {
    FillFraming(buf, r, dd, co);
    FillPayload(buf, r, dd, co, acc, next);
    SpillByte(dd, co);
  }

  /** The step keeps the framing bit of the first byte and leaves it clear on the later ones. */
  lemma FillFraming(buf: seq<byte>, r: nat, dd: byte, co: nat)
    requires 1 <= co <= 7
    requires r + 1 < |buf|
    requires Framed(buf, r + 1)
    requires Low(buf[r], co) == 0
    ensures Framed(buf[r := Fill(buf[r], dd, co)][r + 1 := Spill(dd, co - 1)], r + 2)
  {
    FillByte(buf[r], dd, co);
  }

  /** The payload bits of the step: the stream acc << co becomes next << (co - 1). */
  lemma FillPayload(buf: seq<byte>, r: nat, dd: byte, co: nat, acc: nat, next: nat)
    requires 1 <= co <= 7
    requires r + 1 < |buf|
    requires Stream(buf[..r + 1]) == Shl(acc, co)
    requires Low(buf[r], co) == 0
    requires next == Shl(acc, ByteBits) + dd
    ensures Stream(buf[r := Fill(buf[r], dd, co)][r + 1 := Spill(dd, co - 1)][..r + 2]) == Shl(next, co - 1)
  {
    var a := buf[r];
    var x := Fill(a, dd, co);
    var y := Spill(dd, co - 1);
    var buf1 := buf[r := x][r + 1 := y];
    assert buf[..r + 1] == buf[..r] + [a];
    assert buf1[..r + 1] == buf[..r] + [x];
    assert buf1[..r + 2] == buf1[..r + 1] + [y];
    StreamSnoc(buf[..r], a);
    StreamSnoc(buf[..r], x);
    StreamSnoc(buf1[..r + 1], y);
    FillByte(a, dd, co);
    SpillByte(dd, co);
    SplitByte(dd, co);
    FillShift(Stream(buf1[..r + 1]), acc, Shr(dd, 8 - co), Low(dd, 8 - co), dd, co, next);
  }

  /** The shifts of one encoding step, with dd given by its top co bits dh and the rest dl. */
  lemma FillShift(u: nat, acc: nat, dh: nat, dl: nat, dd: nat, co: nat, next: nat)
    requires 1 <= co <= 7
    requires u == Shl(acc, co) + dh
    requires dd == Shl(dh, 8 - co) + dl
    requires next == Shl(acc, ByteBits) + dd
    ensures Shl(u, PayloadBits) + Shl(dl, co - 1) == Shl(next, co - 1)
  {
    ShlAddShl(u, acc, co, dh, PayloadBits, co + PayloadBits);
    ShlAddShl(next, acc, ByteBits, dd, co - 1, co + PayloadBits);
    ShlAddShl(dd, dh, 8 - co, dl, co - 1, PayloadBits);
  }

  /** The compile-time encoder produces a frame and leaves the rest of the buffer alone. */
  lemma TemplateFrame(opcode: byte, n: nat, d: seq<byte>, k: nat, buf: seq<byte>)
    requires k <= 7
    requires 1 <= n <= |d|
    requires EncodedLength(n, k) <= |buf|
    ensures IsFrame(TemplateEncode(opcode, n, d, k, buf)[..EncodedLength(n, k)], opcode, d[..n], k)
    ensures TemplateEncode(opcode, n, d, k, buf)[EncodedLength(n, k)..] == buf[EncodedLength(n, k)..]
  {
    TemplatePrefix(opcode, n, d, k, buf);
    FrameEnd(TemplateEncode(opcode, n, d, k, buf), opcode, d, n, k);
  }

  /** The steps from the opcode byte fill exactly the frame's bytes with the opcode bits, the data and the padding. */
  lemma TemplatePrefix(opcode: byte, n: nat, d: seq<byte>, k: nat, buf: seq<byte>)
    requires k <= 7
    requires 1 <= n <= |d|
    requires EncodedLength(n, k) <= |buf|
    ensures FramePrefix(TemplateEncode(opcode, n, d, k, buf), EncodedLength(n, k),
                        Shl(Packed(Low(opcode, k), d, n), Padding(EncodedLength(n, k), n, k)))
    ensures TemplateEncode(opcode, n, d, k, buf)[EncodedLength(n, k)..] == buf[EncodedLength(n, k)..]
  {
    FirstFrame(opcode, k, d, buf);
    StepsFrame(d, n, 0, FirstOffset(k), buf[0 := Head(opcode, k)], 0, Low(opcode, k));
    FrameLength(n, k);
    TailKept(buf, 0, Head(opcode, k), EncodedLength(n, k));
  }

  /** Started after the opcode, the steps end at the frame length and leave the frame's padding. */
  lemma FrameLength(n: nat, k: nat)
    requires k <= 7
    requires n >= 1
    ensures StepsEnd(0, FirstOffset(k), n, 0) == EncodedLength(n, k)
    ensures Slack(0, FirstOffset(k), n, 0) == Padding(EncodedLength(n, k), n, k)
  {
  }

  /** The opcode byte alone is the start of a frame whose stream holds the k opcode bits. */
  lemma FirstFrame(opcode: byte, k: nat, d: seq<byte>, buf: seq<byte>)
    requires k <= 7
    requires 1 <= |buf|
    ensures FramePrefix(buf[0 := Head(opcode, k)], 1, Shl(Packed(Low(opcode, k), d, 0), FirstOffset(k)))
    ensures Low(buf[0 := Head(opcode, k)][0], FirstOffset(k)) == 0
  {
    var first := Head(opcode, k);
    FirstByte(opcode, k);
    assert buf[0 := first][..1] == [] + [first];
    StreamSnoc([], first);
    ShlZero(PayloadBits);
    assert d[..0] == [];
  }

  /** A frame prefix of the full length, holding the opcode bits and the data, is a frame. */
  lemma FrameEnd(out: seq<byte>, opcode: byte, d: seq<byte>, n: nat, k: nat)
    requires k <= 7
    requires n <= |d|
    requires FramePrefix(out, EncodedLength(n, k), Shl(Packed(Low(opcode, k), d, n), Padding(EncodedLength(n, k), n, k)))
    ensures IsFrame(out[..EncodedLength(n, k)], opcode, d[..n], k)
  {
  }

  // ---------------------------------------------------------------------
  // The decoder (Device.hpp:90-105)
  // ---------------------------------------------------------------------

  /**
   * The loop of decode<opcodeSize> from result byte ri on, reading data
   * byte di with co payload bits of it still unread. With none left it moves
   * to the next data byte; each result byte is the unread bits of one data
   * byte followed by the top bits of the next.
   */
  function DecodeSteps(data: seq<byte>, n: nat, ri: nat, di: nat, co: nat, out: seq<byte>): (res: seq<byte>)
    requires ri <= n && co <= 7 && di < |data|
    requires 7 * |data| + co >= 7 * (di + 1) + 8 * (n - ri)
    ensures |res| == |out| + (n - ri)
    decreases n - ri, if co == 0 then 1 else 0
  {
    if ri == n then out
    else if co == 0 then DecodeSteps(data, n, ri, di + 1, PayloadBits, out)
    else DecodeSteps(data, n, ri + 1, di + 1, co - 1, out + [Join(data[di], data[di + 1], co)])
  }

  /** decode<opcodeSize>(resLength, data, resBuffer) as a function of the frame. */
  function DecodeFrame(data: seq<byte>, n: nat, k: nat): (res: seq<byte>)
    requires k <= 7
    requires EncodedLength(n, k) <= |data|
    ensures |res| == n
  {
    DecodeSteps(data, n, 0, 0, FirstOffset(k), [])
  }

  /**
   * decode<opcodeSize>(resLength, data, resBuffer): reassembles n bytes from
   * a frame, reading data[0 .. EncodedLength(n, k)) and nothing beyond. When
   * the bytes after the first have their framing bit clear, the n bytes read
   * big-endian are the 8n stream bits that follow the k opcode bits.
   */
  method Decode(n: nat, data: seq<byte>, res: array<byte>, k: nat)
    requires k <= 7
    requires n >= 1
    requires EncodedLength(n, k) <= |data|
    requires n <= res.Length
    modifies res
    ensures res[..n] == DecodeFrame(data[..EncodedLength(n, k)], n, k)
    ensures Clean(data[..EncodedLength(n, k)]) ==>
              Value(res[..n]) == Low(Shr(Stream(data[..EncodedLength(n, k)]), Padding(EncodedLength(n, k), n, k)), 8 * n)
    ensures res[n..] == old(res[n..])
  {
    ghost var len := EncodedLength(n, k);
    ghost var frame := data[..len];
    ghost var final := DecodeFrame(frame, n, k);
    var currentOffset := FirstOffset(k);
    var dataIndex := 0;
    var resIndex := 0;
    while resIndex < n
      invariant 0 <= resIndex <= n
      invariant 0 <= currentOffset <= 7
      invariant dataIndex < len
      invariant 7 * len + currentOffset >= 7 * (dataIndex + 1) + 8 * (n - resIndex)
      invariant DecodeSteps(frame, n, resIndex, dataIndex, currentOffset, res[..resIndex]) == final
      invariant res[n..] == old(res[n..])
    {
      ghost var prefix := res[..resIndex];
      if currentOffset == 0 {
        dataIndex := dataIndex + 1;
        currentOffset := PayloadBits;
      }
      ghost var joined := Join(frame[dataIndex], frame[dataIndex + 1], currentOffset);
      res[resIndex] := Upper(data[dataIndex], currentOffset);
      dataIndex := dataIndex + 1;
      currentOffset := currentOffset - 1;
      res[resIndex] := Merge(res[resIndex], data[dataIndex], currentOffset);
      assert res[..resIndex + 1] == prefix + [joined];
      resIndex := resIndex + 1;
    }
    if Clean(frame) {
      DecodeFrameValue(frame, n, k);
    }
  }

  /**
   * On a frame whose later bytes have the framing bit clear, the decoded
   * bytes read big-endian are the stream without its padding, cut to its
   * low 8n bits: the stream bits after the opcode.
   */
  lemma DecodeFrameValue(e: seq<byte>, n: nat, k: nat)
    requires k <= 7
    requires n >= 1
    requires |e| == EncodedLength(n, k)
    requires Clean(e)
    ensures Value(DecodeFrame(e, n, k)) == Low(Shr(Stream(e), Padding(|e|, n, k)), 8 * n)
  {
    DecodeStart(e, k);
    DecodeStepsValue(e, n, 0, 0, FirstOffset(k), [], Shr(Low(e[0], PayloadBits), FirstOffset(k)), Padding(|e|, n, k));
    AccSplit(Shr(Low(e[0], PayloadBits), FirstOffset(k)), DecodeFrame(e, n, k));
  }

  /** The first byte of a frame: its payload is the opcode bits over FirstOffset(k) stream bits. */
  lemma DecodeStart(e: seq<byte>, k: nat)
    requires k <= 7
    requires |e| >= 1
    ensures Stream(e[..0 + 1])
            == Shl(Acc(Shr(Low(e[0], PayloadBits), FirstOffset(k)), []), FirstOffset(k)) + Low(e[0], FirstOffset(k))
  {
    var x := e[0];
    assert e[..1] == [] + [x];
    StreamSnoc([], x);
    ShlZero(PayloadBits);
    Split(Low(x, PayloadBits), FirstOffset(k));
    LowLow(x, FirstOffset(k), PayloadBits);
  }

  /**
   * From result byte ri, with the stream up to data byte di holding the
   * opcode bits head, the result bytes so far and co unread bits, the rest
   * of the loop leaves a result whose bytes, after head, are the stream
   * without its pad bits of padding.
   */
  lemma {:induction false} DecodeStepsValue(e: seq<byte>, n: nat, ri: nat, di: nat, co: nat, out: seq<byte>, head: nat, pad: nat)
    requires Clean(e)
    requires ri <= n && co <= 7 && di < |e| && |out| == ri
    requires 7 * |e| + co == 7 * (di + 1) + 8 * (n - ri) + pad
    requires pad < 7
    requires Stream(e[..di + 1]) == Shl(Acc(head, out), co) + Low(e[di], co)
    ensures Shr(Stream(e), pad) == Acc(head, DecodeSteps(e, n, ri, di, co, out))
    decreases n - ri, if co == 0 then 1 else 0, 1
  {
    if ri == n {
      DecodeEnd(e, n, di, co, out, head, pad);
    } else if co == 0 {
      SkipValue(e, n, ri, di, out, head, pad);
    } else {
      JoinValue(e, n, ri, di, co, out, head, pad);
    }
  }

  /** DecodeStepsValue when no bit of data byte di is left unread. */
  lemma {:induction false} SkipValue(e: seq<byte>, n: nat, ri: nat, di: nat, out: seq<byte>, head: nat, pad: nat)
    requires Clean(e)
    requires ri < n && di < |e| && |out| == ri
    requires 7 * |e| == 7 * (di + 1) + 8 * (n - ri) + pad
    requires pad < 7
    requires Stream(e[..di + 1]) == Shl(Acc(head, out), 0) + Low(e[di], 0)
    ensures Shr(Stream(e), pad) == Acc(head, DecodeSteps(e, n, ri, di, 0, out))
    decreases n - ri, 1, 0
  {
    SkipByte(e, di, Acc(head, out));
    DecodeStepsValue(e, n, ri, di + 1, PayloadBits, out, head, pad);
  }

  /** DecodeStepsValue when co >= 1 bits of data byte di are unread: one result byte is joined. */
  lemma {:induction false} JoinValue(e: seq<byte>, n: nat, ri: nat, di: nat, co: nat, out: seq<byte>, head: nat, pad: nat)
    requires Clean(e)
    requires ri < n && 1 <= co <= 7 && di < |e| && |out| == ri
    requires 7 * |e| + co == 7 * (di + 1) + 8 * (n - ri) + pad
    requires pad < 7
    requires Stream(e[..di + 1]) == Shl(Acc(head, out), co) + Low(e[di], co)
    ensures Shr(Stream(e), pad) == Acc(head, DecodeSteps(e, n, ri, di, co, out))
    decreases n - ri, 0, 0
  {
    Append(head, out, Join(e[di], e[di + 1], co));
    JoinStep(e, di, co, Acc(head, out), Acc(head, out + [Join(e[di], e[di + 1], co)]));
    DecodeStepsValue(e, n, ri + 1, di + 1, co - 1, out + [Join(e[di], e[di + 1], co)], head, pad);
  }

  /** When the last result byte is done, the unread bits of the last data byte are the padding. */
  lemma DecodeEnd(e: seq<byte>, n: nat, di: nat, co: nat, out: seq<byte>, head: nat, pad: nat)
    requires co <= 7 && di < |e| && |out| == n
    requires 7 * |e| + co == 7 * (di + 1) + pad
    requires pad < 7
    requires Stream(e[..di + 1]) == Shl(Acc(head, out), co) + Low(e[di], co)
    ensures Shr(Stream(e), pad) == Acc(head, DecodeSteps(e, n, n, di, co, out))
  {
    assert di + 1 == |e| && co == pad;
    assert e[..di + 1] == e;
    SplitUnique(Stream(e), pad, Acc(head, out), Low(e[di], co));
  }

  /** A data byte with no unread bits: the stream moves on to all seven bits of the next. */
  lemma SkipByte(e: seq<byte>, di: nat, acc: nat)
    requires di + 1 < |e|
    requires Stream(e[..di + 1]) == Shl(acc, 0) + Low(e[di], 0)
    ensures Stream(e[..di + 1 + 1]) == Shl(acc, PayloadBits) + Low(e[di + 1], PayloadBits)
  {
    assert e[..di + 1 + 1] == e[..di + 1] + [e[di + 1]];
    StreamSnoc(e[..di + 1], e[di + 1]);
  }

  /**
   * One decoded byte on the stream: with acc before it, the value next
   * after it, and co - 1 bits of the next data byte unread.
   */
  lemma JoinStep(e: seq<byte>, di: nat, co: nat, acc: nat, next: nat)
    requires 1 <= co <= 7
    requires di + 1 < |e|
    requires e[di + 1] < 128
    requires Stream(e[..di + 1]) == Shl(acc, co) + Low(e[di], co)
    requires next == Shl(acc, ByteBits) + Join(e[di], e[di + 1], co)
    ensures Stream(e[..di + 1 + 1]) == Shl(next, co - 1) + Low(e[di + 1], co - 1)
  {
    var y := e[di + 1];
    assert e[..di + 1 + 1] == e[..di + 1] + [y];
    StreamSnoc(e[..di + 1], y);
    JoinByte(e[di], y, co);
    ClearByte(y, co);
    JoinShift(Stream(e[..di + 1]), acc, Low(e[di], co), y, Shr(y, co - 1), Low(y, co - 1), co, next);
  }

  /** The shifts of one decoding step, with the clean byte y given by its two parts. */
  lemma JoinShift(s: nat, acc: nat, xl: nat, y: nat, yh: nat, yl: nat, co: nat, next: nat)
    requires 1 <= co <= 7
    requires s == Shl(acc, co) + xl
    requires y == Shl(yh, co - 1) + yl
    requires next == Shl(acc, ByteBits) + (Shl(xl, 8 - co) + yh)
    ensures Shl(s, PayloadBits) + y == Shl(next, co - 1) + yl
  {
    var m := Shl(xl, 8 - co) + yh;
    ShlAddShl(s, acc, co, xl, PayloadBits, co + PayloadBits);
    ShlAddShl(next, acc, ByteBits, m, co - 1, co + PayloadBits);
    ShlAddShl(m, xl, 8 - co, yh, co - 1, PayloadBits);
  }

  /** A byte with its framing bit clear is its own payload, and splits below bit co - 1. */
  lemma ClearByte(y: byte, co: nat)
    requires y < 128
    requires 1 <= co
    ensures Low(y, PayloadBits) == y
    ensures y == Shl(Shr(y, co - 1), co - 1) + Low(y, co - 1)
  {
    Widths();
    LowSmall(y, PayloadBits);
    Split(y, co - 1);
  }

  // ---------------------------------------------------------------------
  // Round trip (ControllerController/test.cpp:259-297)
  // ---------------------------------------------------------------------

  /**
   * What the decoder extracts from a frame is the data the frame carries:
   * the stream without its padding, cut to its low 8|d| bits.
   */
  lemma FrameData(e: seq<byte>, op: byte, d: seq<byte>, k: nat)
    requires k <= 7
    requires IsFrame(e, op, d, k)
    ensures Clean(e)
    ensures Low(Shr(Stream(e), Padding(|e|, |d|, k)), 8 * |d|) == Value(d)
  {
    SplitUnique(Stream(e), Padding(|e|, |d|, k), Acc(Low(op, k), d), 0);
    AccSplit(Low(op, k), d);
  }

  /** Decoding the frame of a non-empty d gives d back. */
  lemma FrameDecodes(e: seq<byte>, op: byte, d: seq<byte>, k: nat)
    requires k <= 7
    requires |d| >= 1
    requires IsFrame(e, op, d, k)
    ensures DecodeFrame(e, |d|, k) == d
  {
    FrameData(e, op, d, k);
    DecodeFrameValue(e, |d|, k);
    ValueInjective(DecodeFrame(e, |d|, k), d);
  }

  /** The compile-time encoder and the decoder are inverse. */
  lemma TemplateRoundTrip(opcode: byte, d: seq<byte>, k: nat, buf: seq<byte>)
    requires k <= 7
    requires |d| >= 1
    requires EncodedLength(|d|, k) <= |buf|
    ensures DecodeFrame(TemplateEncode(opcode, |d|, d, k, buf)[..EncodedLength(|d|, k)], |d|, k) == d
  {
    TemplateFrame(opcode, |d|, d, k, buf);
    assert d[..|d|] == d;
    FrameDecodes(TemplateEncode(opcode, |d|, d, k, buf)[..EncodedLength(|d|, k)], opcode, d, k);
  }

  /**
   * Encoding n >= 1 bytes with any opcode and opcode width up to 7 with the
   * runtime encoder, then decoding the frame, gives the bytes back.
   */
  method EncodeThenDecode(opcode: byte, data: seq<byte>, k: nat) returns (decoded: seq<byte>)
    requires k <= 7
    requires |data| >= 1
    ensures decoded == data
  {
    var n := |data|;
    var frame := new byte[EncodedLength(n, k)];
    Encode(opcode, n, data, frame, k);
    assert data[..n] == data;
    assert frame[..EncodedLength(n, k)] == frame[..];
    var out := new byte[n];
    Decode(n, frame[..], out, k);
    FrameDecodes(frame[..], opcode, data, k);
    decoded := out[..n];
  }

  /** Equal-length byte strings with the same value are equal. */
  lemma {:induction false} ValueInjective(a: seq<byte>, b: seq<byte>)
    requires |a| == |b|
    requires Value(a) == Value(b)
    ensures a == b
    decreases |a|
  {
    if |a| > 0 {
      var m := |a| - 1;
      Pow2Byte();
      SplitUnique(Value(a), ByteBits, Value(a[..m]), a[m]);
      SplitUnique(Value(b), ByteBits, Value(b[..m]), b[m]);
      ValueInjective(a[..m], b[..m]);
      assert a == a[..m] + [a[m]];
      assert b == b[..m] + [b[m]];
    }
  }

  // ---------------------------------------------------------------------
  // Stream and value bookkeeping
  // ---------------------------------------------------------------------

  /** Writing byte i leaves every byte from t > i on as it was. */
  lemma TailKept(buf: seq<byte>, i: nat, x: byte, t: nat)
    requires i < t <= |buf|
    ensures buf[i := x][t..] == buf[t..]
  {
  }

  /** Appending byte x to the bytes e shifts the stream by seven bits and adds the payload of x. */
  lemma StreamSnoc(e: seq<byte>, x: byte)
    ensures Stream(e + [x]) == Shl(Stream(e), PayloadBits) + Low(x, PayloadBits)
  {
    assert (e + [x])[..|e|] == e;
  }

  /** Appending a data byte to the accumulated head and data. */
  lemma Append(head: nat, p: seq<byte>, x: byte)
    ensures Acc(head, p + [x]) == Shl(Acc(head, p), ByteBits) + x
  {
    assert (p + [x])[..|p|] == p;
    ShlAddShl(Acc(head, p), head, 8 * |p|, Value(p), ByteBits, 8 * |p + [x]|);
  }

  lemma Accumulate(head: nat, d: seq<byte>, b: nat)
    requires b < |d|
    ensures Packed(head, d, b + 1) == Shl(Packed(head, d, b), ByteBits) + d[b]
  {
    assert d[..b + 1] == d[..b] + [d[b]];
    Append(head, d[..b], d[b]);
  }

  /** The bytes d are the low 8|d| bits of Acc(head, d), and head the rest. */
  lemma AccSplit(head: nat, d: seq<byte>)
    ensures Low(Acc(head, d), 8 * |d|) == Value(d)
    ensures Shr(Acc(head, d), 8 * |d|) == head
  {
    SplitUnique(Acc(head, d), 8 * |d|, head, Value(d));
  }

  // ---------------------------------------------------------------------
  // Single bytes
  // ---------------------------------------------------------------------

  /** The frame's first byte: framing bit set, then the low k opcode bits, then free bits. */
  lemma FirstByte(op: byte, k: nat)
    requires k <= 7
    ensures Head(op, k) >= 128
    ensures Low(Head(op, k), PayloadBits) == Shl(Low(op, k), FirstOffset(k))
    ensures Low(Head(op, k), FirstOffset(k)) == 0
  {
    var c := FirstOffset(k);
    var lo := Shl(Low(op, k), c);
    SetTopBit(Shl(op, c));
    LowShl(op, c, k, PayloadBits);
    ShlBound(Low(op, k), 0, c, k, PayloadBits);
    Widths();
    SplitUnique(Head(op, k), PayloadBits, 1, lo);
    HeadFree(op, k, Head(op, k));
  }

  /** Below the opcode bits, the first byte has FirstOffset(k) free bits. */
  lemma HeadFree(op: byte, k: nat, h: nat)
    requires k <= 7
    requires h == Shl(1, PayloadBits) + Shl(Low(op, k), FirstOffset(k))
    ensures Low(h, FirstOffset(k)) == 0
  {
    var c := FirstOffset(k);
    var m := Shl(1, k) + Low(op, k);
    ShlShl(1, k, c, PayloadBits);
    ShlAdd(m, Shl(1, k), Low(op, k), c);
    SplitUnique(h, c, m, 0);
  }

  /** v | 0x80 assigned to a byte sets the framing bit over the low seven bits of v. */
  lemma SetTopBit(v: nat)
    ensures Trunc8(Or(v, FramingBit)) == Shl(1, PayloadBits) + Low(v, PayloadBits)
  {
    var q := Shr(v, PayloadBits);
    var lo := Low(v, PayloadBits);
    var o := Or(q, 1);
    Widths();
    Split(v, PayloadBits);
    OrAbove(q, lo, 1, PayloadBits);
    LowShlAdd(o, lo, PayloadBits, 1, ByteBits);
    OrOne(q);
    assert Low(o, 1) == 1;
  }

  /** OR-ing the top co bits of data byte dd into a byte whose low co bits are free. */
  lemma FillByte(a: byte, dd: byte, co: nat)
    requires 1 <= co <= 7
    requires Low(a, co) == 0
    ensures Low(Fill(a, dd, co), PayloadBits) == Low(a, PayloadBits) + Shr(dd, 8 - co)
    ensures Fill(a, dd, co) >= 128 <==> a >= 128
  {
    Pow2Byte();
    Split(a, co);
    ShrBound(dd, 8 - co, co, ByteBits);
    FillOr(a, Shr(a, co), Shr(dd, 8 - co), co);
    FillLow(a, Shr(a, co), Shr(dd, 8 - co), co);
    FillSmall(a, Shr(a, co), Shr(dd, 8 - co), co);
  }

  /** With the low co bits of the byte a free, OR-ing in dh below 2^co adds it. */
  lemma FillOr(a: byte, ah: nat, dh: nat, co: nat)
    requires 1 <= co <= 7
    requires a == Shl(ah, co)
    requires dh < Pow2(co)
    ensures Trunc8(Or(a, dh)) == a + dh
  {
    Pow2Byte();
    SplitUnique(a, co, ah, 0);
    ShrBound(a, co, 8 - co, ByteBits);
    ShlBound(ah, dh, co, 8 - co, ByteBits);
    DisjointByte(ah, dh, co);
  }

  /** The payload of a + dh, where a has co free low bits and dh fits in them. */
  lemma FillLow(a: nat, ah: nat, dh: nat, co: nat)
    requires 1 <= co <= 7
    requires a == Shl(ah, co)
    requires dh < Pow2(co)
    ensures Low(a + dh, PayloadBits) == Low(a, PayloadBits) + dh
  {
    LowShlAdd(ah, dh, co, 7 - co, PayloadBits);
    LowShl(ah, co, 7 - co, PayloadBits);
  }

  /** Adding dh in the free bits leaves the framing bit as it was. */
  lemma FillSmall(a: nat, ah: nat, dh: nat, co: nat)
    requires 1 <= co <= 7
    requires a == Shl(ah, co)
    requires dh < Pow2(co)
    ensures a + dh >= 128 <==> a >= 128
  {
    if a < 128 {
      FillBelow(a, ah, dh, co);
    }
  }

  /** Below the framing bit, a + dh stays below it. */
  lemma FillBelow(a: nat, ah: nat, dh: nat, co: nat)
    requires 1 <= co <= 7
    requires a == Shl(ah, co)
    requires dh < Pow2(co)
    requires a < 128
    ensures a + dh < 128
  {
    Widths();
    SplitUnique(a, co, ah, 0);
    ShrBound(a, co, 7 - co, PayloadBits);
    ShlBound(ah, dh, co, 7 - co, PayloadBits);
  }

  /** OR of a value shifted up by c with one below 2^c, stored in a byte, is their sum when that fits. */
  lemma DisjointByte(q: nat, lo: nat, c: nat)
    requires lo < Pow2(c)
    requires Shl(q, c) + lo < Pow2(ByteBits)
    ensures Trunc8(Or(Shl(q, c), lo)) == Shl(q, c) + lo
  {
    OrDisjoint(q, lo, c);
    LowSmall(Shl(q, c) + lo, ByteBits);
  }

  /** A data byte is its top co bits above its low 8 - co bits. */
  lemma SplitByte(dd: byte, co: nat)
    requires co <= 8
    ensures dd == Shl(Shr(dd, 8 - co), 8 - co) + Low(dd, 8 - co)
  {
    Split(dd, 8 - co);
  }

  /** The remaining 8 - co bits of dd, at the top of a fresh byte with co - 1 free bits. */
  lemma SpillByte(dd: byte, co: nat)
    requires 1 <= co <= 7
    ensures Low(Spill(dd, co - 1), PayloadBits) == Shl(Low(dd, 8 - co), co - 1)
    ensures Low(Spill(dd, co - 1), co - 1) == 0
  {
    var dh := Shr(dd, 8 - co);
    var dl := Low(dd, 8 - co);
    var y := Spill(dd, co - 1);
    Widths();
    AndLow(Shl(dd, co - 1), PayloadBits);
    Split(dd, 8 - co);
    ShlAddShl(dd, dh, 8 - co, dl, co - 1, PayloadBits);
    ShlBound(dl, 0, co - 1, 8 - co, PayloadBits);
    SplitUnique(Shl(dd, co - 1), PayloadBits, dh, Shl(dl, co - 1));
    SplitUnique(y, co - 1, dl, 0);
    LowSmall(y, PayloadBits);
  }

  /** The decoder's byte: the low co bits of x, then the top 8 - co bits of the clean byte y. */
  lemma JoinByte(x: byte, y: byte, co: nat)
    requires 1 <= co <= 7
    requires y < 128
    ensures Join(x, y, co) == Shl(Low(x, co), 8 - co) + Shr(y, co - 1)
  {
    var xl := Low(x, co);
    var yh := Shr(y, co - 1);
    UpperByte(x, co);
    Widths();
    ShrBound(y, co - 1, 8 - co, PayloadBits);
    ShlBound(xl, yh, 8 - co, co, ByteBits);
    DisjointByte(xl, yh, 8 - co);
  }

  /** x << (8 - co) stored in a byte keeps the low co bits of x, at the top. */
  lemma UpperByte(x: byte, co: nat)
    requires 1 <= co <= 7
    ensures Upper(x, co) == Shl(Low(x, co), 8 - co)
  {
    var xh := Shr(x, co);
    var xl := Low(x, co);
    Pow2Byte();
    Split(x, co);
    ShlAddShl(x, xh, co, xl, 8 - co, ByteBits);
    ShlBound(xl, 0, 8 - co, co, ByteBits);
    SplitUnique(Shl(x, 8 - co), ByteBits, xh, Shl(xl, 8 - co));
  }
}

=== FILE: server_requests.dfy ===
// The server's request handlers (WozekServer/TCPWozekServer.cpp): the
// dispatch on the request code, host registration, the map upload and
// download handshakes, and starting a world. Each handler's decision is a
// function of the request, the connection's type and id, and the database
// or the map files; the methods apply it to the connection and the stores.
// Writing the responses to the socket, and the transfers that follow an
// accepted upload or download (see ServerTransfer), are not repeated here.

module ServerRequests {
  import opened Base
  import Datagrams
  import Database
  import FileManager
  import ConnectionHandler
  import UdpEngine
  import World

  // ---------------------------------------------------------------------
  // Dispatch
  // ---------------------------------------------------------------------

  /** The codes with a handler: the heartbeat and the four requests, not the file transfer codes. */
  const HandledCodes: set<byte> := {Datagrams.HeartbeatCode, Datagrams.RegisterNewHostCode, Datagrams.UploadMapCode,
                                    Datagrams.DownloadMapCode, Datagrams.StartTheWorldCode}

  /** What handleReceivedRequestId does with a request code. */
  datatype Request = Heartbeat | RegisterNewHost | UploadMap | DownloadMap | StartTheWorld | Unrecognised

  /**
   * A heartbeat silently awaits the next request; the four request codes
   * go to their handlers; any other code, the file transfer codes
   * included, is only logged and no further read is issued.
   */
  function Dispatch(code: byte): (r: Request)
    ensures r == Unrecognised <==> code !in HandledCodes
  {
    if code == Datagrams.HeartbeatCode then Heartbeat
    else if code == Datagrams.RegisterNewHostCode then RegisterNewHost
    else if code == Datagrams.UploadMapCode then UploadMap
    else if code == Datagrams.DownloadMapCode then DownloadMap
    else if code == Datagrams.StartTheWorldCode then StartTheWorld
    else Unrecognised
  }

  /** The code a client sends for a request. */
  function RequestCode(r: Request): (code: byte)
    requires r != Unrecognised
    ensures code in HandledCodes
  {
    match r
    case Heartbeat => Datagrams.HeartbeatCode
    case RegisterNewHost => Datagrams.RegisterNewHostCode
    case UploadMap => Datagrams.UploadMapCode
    case DownloadMap => Datagrams.DownloadMapCode
    case StartTheWorld => Datagrams.StartTheWorldCode
  }

  /** Every request's code dispatches back to it, and every recognised code is some request's code. */
  lemma DispatchRoundTrip(r: Request, code: byte)
    ensures r != Unrecognised ==> Dispatch(RequestCode(r)) == r
    ensures Dispatch(code) != Unrecognised ==> RequestCode(Dispatch(code)) == code
  {
  }

  // ---------------------------------------------------------------------
  // Registering a host
  // ---------------------------------------------------------------------

  /** handleRegisterHostRequest: the name's last byte is forced to NUL; everything else is kept. */
  function SanitiseName(h: Datagrams.HostHeader): (r: Datagrams.HostHeader)
    requires Datagrams.HostHeaderValid(h)
    ensures Datagrams.HostHeaderValid(r) && r.id == h.id
    ensures r.name[..Datagrams.HostNameSize - 1] == h.name[..Datagrams.HostNameSize - 1]
    ensures r.name[Datagrams.HostNameSize - 1] == 0
  {
    h.(name := h.name[..Datagrams.HostNameSize - 1] + [0])
  }

  /** The connection's type and id, the host table and the response after a registration attempt. */
  datatype Registration = Registration(
    response: Datagrams.CodeAndId,
    connType: ConnectionHandler.ConnectionType,
    connId: u32,
    hosts: map<Database.Id, Database.Host>)

  /** The Failure response; its id field is left uninitialised by the code and is 0 here. */
  const RegisterFailure: Datagrams.CodeAndId := Datagrams.CodeAndId(Datagrams.FailureCode, 0)

  /**
   * tryRegisteringNewHost as written, for a connection self; freshId is
   * what getNextFreeId hands out. For id 0 the code keeps the bool that
   * createAndAddRecord returns, which converts to 1: the connection and the
   * reply get id 1, and host 1's record, not the new one, is pointed at
   * this connection. None: host 1 does not exist, and the code
   * dereferences a null record.
   */
  function RegisterAsWritten(connType: ConnectionHandler.ConnectionType, connId: u32, hosts: map<Database.Id, Database.Host>,
                             header: Datagrams.HostHeader, freshId: Database.Id, self: Database.ConnectionRef): (r: Option<Registration>)
    requires connType == ConnectionHandler.NoType && header.id == 0 ==> freshId !in hosts
    ensures r.None? ==> header.id == 0 && freshId != 1 && 1 !in hosts
  {
    if connType != ConnectionHandler.NoType then
      Some(Registration(RegisterFailure, connType, connId, hosts))
    else if header.id == 0 then
      var added := hosts[freshId := Database.Host(header.(id := freshId), None, {})];
      var newId := 1;
      if newId !in added then None
      else Some(Registration(Datagrams.CodeAndId(Datagrams.SuccessCode, newId), ConnectionHandler.Host, newId,
                             added[newId := added[newId].(tcpConnection := Some(self))]))
    else if header.id in hosts then
      Some(Registration(RegisterFailure, connType, connId, hosts))
    else
      Some(Registration(Datagrams.CodeAndId(Datagrams.SuccessCode, header.id), ConnectionHandler.Host, header.id,
                        hosts[header.id := Database.Host(header, Some(self), {})]))
  }

  /**
   * tryRegisteringNewHost as intended: a connection that already has a
   * type is refused; id 0 asks for a fresh id, which is refused only when
   * it is 0 (the record is added all the same); a nonzero id is refused
   * when taken. On success the connection becomes a host with the
   * record's id, and that record points at this connection.
   */
  function Register(connType: ConnectionHandler.ConnectionType, connId: u32, hosts: map<Database.Id, Database.Host>,
                    header: Datagrams.HostHeader, freshId: Database.Id, self: Database.ConnectionRef): (r: Registration)
    requires connType == ConnectionHandler.NoType && header.id == 0 ==> freshId !in hosts
  {
    if connType != ConnectionHandler.NoType then
      Registration(RegisterFailure, connType, connId, hosts)
    else if header.id == 0 then
      var added := hosts[freshId := Database.Host(header.(id := freshId), None, {})];
      if freshId == 0 then Registration(RegisterFailure, connType, connId, added)
      else Registration(Datagrams.CodeAndId(Datagrams.SuccessCode, freshId), ConnectionHandler.Host, freshId,
                        hosts[freshId := Database.Host(header.(id := freshId), Some(self), {})])
    else if header.id in hosts then
      Registration(RegisterFailure, connType, connId, hosts)
    else
      Registration(Datagrams.CodeAndId(Datagrams.SuccessCode, header.id), ConnectionHandler.Host, header.id,
                   hosts[header.id := Database.Host(header, Some(self), {})])
  }

  /**
   * A registration succeeds exactly when the connection had no type and
   * the id was free (or a nonzero fresh id was found). A success makes the
   * connection a host whose id, also sent in the reply, keys a new record
   * with that id in its header and this connection as its network link,
   * and leaves every other host as it was; a failure leaves the connection
   * as it was.
   */
  lemma RegisterOutcome(connType: ConnectionHandler.ConnectionType, connId: u32, hosts: map<Database.Id, Database.Host>,
                        header: Datagrams.HostHeader, freshId: Database.Id, self: Database.ConnectionRef)
    requires connType == ConnectionHandler.NoType && header.id == 0 ==> freshId !in hosts
    ensures var r := Register(connType, connId, hosts, header, freshId, self);
      && (r.response.code == Datagrams.SuccessCode <==>
            connType == ConnectionHandler.NoType && (if header.id == 0 then freshId != 0 else header.id !in hosts))
      && (r.response.code == Datagrams.SuccessCode ==>
            && r.connType == ConnectionHandler.Host && r.connId == r.response.id != 0
            && r.connId !in hosts && r.hosts.Keys == hosts.Keys + {r.connId}
            && r.hosts[r.connId].header.id == r.connId
            && r.hosts[r.connId].header.name == header.name
            && r.hosts[r.connId].tcpConnection == Some(self)
            && r.hosts[r.connId].connectedControllers == {}
            && (forall k :: k in hosts ==> r.hosts[k] == hosts[k]))
      && (r.response.code != Datagrams.SuccessCode ==>
            r.response == RegisterFailure && r.connType == connType && r.connId == connId)
  {
  }

  /** As written and as intended agree for a nonzero id, and for id 0 when the fresh id happens to be 1. */
  lemma RegisterAgreesUnlessRenumbered(connType: ConnectionHandler.ConnectionType, connId: u32, hosts: map<Database.Id, Database.Host>,
                                       header: Datagrams.HostHeader, freshId: Database.Id, self: Database.ConnectionRef)
    requires connType == ConnectionHandler.NoType && header.id == 0 ==> freshId !in hosts
    requires header.id != 0 || freshId == 1
    ensures RegisterAsWritten(connType, connId, hosts, header, freshId, self) == Some(Register(connType, connId, hosts, header, freshId, self))
  {
    if connType == ConnectionHandler.NoType && header.id == 0 {
      var added := hosts[freshId := Database.Host(header.(id := freshId), None, {})];
      assert added[1 := added[1].(tcpConnection := Some(self))] == hosts[1 := Database.Host(header.(id := 1), Some(self), {})];
    }
  }

  /**
   * As written, a second host registering with id 0 after host 1 gets
   * record 2, yet it is told id 1, takes id 1 itself, and takes over host
   * 1's network link, while its own record has none.
   */
  lemma RegisterAsWrittenStealsHostOne()
    ensures var name := Datagrams.Zeros(Datagrams.HostNameSize);
      var hosts := map[1 := Database.Host(Datagrams.HostHeader(1, name), Some(7), {})];
      var r := RegisterAsWritten(ConnectionHandler.NoType, 0, hosts, Datagrams.HostHeader(0, name), 2, 8);
      && r.Some?
      && r.value.response == Datagrams.CodeAndId(Datagrams.SuccessCode, 1) && r.value.connId == 1
      && r.value.hosts[1].tcpConnection == Some(8)
      && r.value.hosts[2].tcpConnection == None
      && Register(ConnectionHandler.NoType, 0, hosts, Datagrams.HostHeader(0, name), 2, 8).connId == 2
  {
  }

  /** As written, registering with id 0 when there is no host 1 dereferences a null record. */
  lemma RegisterAsWrittenWithoutHostOne()
    ensures var name := Datagrams.Zeros(Datagrams.HostNameSize);
      && RegisterAsWritten(ConnectionHandler.NoType, 0, map[], Datagrams.HostHeader(0, name), 2, 8).None?
      && Register(ConnectionHandler.NoType, 0, map[], Datagrams.HostHeader(0, name), 2, 8).response
         == Datagrams.CodeAndId(Datagrams.SuccessCode, 2)
  {
  }

  /**
   * handleRegisterHostRequest and tryRegisteringNewHost, as intended: the
   * name is sanitised, then the registration is applied to the connection
   * and the database. The fresh id is the one getNextFreeId leaves as the
   * table's last id.
   */
  method HandleRegisterHostRequest(conn: ConnectionHandler.WozekConnection, db: Database.DatabaseManager,
                                   header: Datagrams.HostHeader, self: Database.ConnectionRef)
    returns (response: Datagrams.CodeAndId)
    requires Datagrams.HostHeaderValid(header)
    requires |db.hosts| < U32_LIMIT
    modifies conn, db
    ensures var h := SanitiseName(header);
      && (old(conn.connType) == ConnectionHandler.NoType && h.id == 0 ==> db.lastHostId !in old(db.hosts))
      && Registration(response, conn.connType, conn.id, db.hosts)
         == Register(old(conn.connType), old(conn.id), old(db.hosts), h, db.lastHostId, self)
    ensures db.controllers == old(db.controllers) && db.lastControllerId == old(db.lastControllerId)
    ensures old(conn.connType) != ConnectionHandler.NoType || SanitiseName(header).id != 0 ==> db.lastHostId == old(db.lastHostId)
    ensures conn.isShutDown == old(conn.isShutDown) && conn.events == old(conn.events) && conn.alive == old(conn.alive)
    ensures conn.timerArmed == old(conn.timerArmed) && conn.socketOpen == old(conn.socketOpen)
    ensures conn.globalState == old(conn.globalState)
  {
    var h := SanitiseName(header);
    if conn.connType != ConnectionHandler.NoType {
      return RegisterFailure;
    }
    var newId := h.id;
    if h.id == 0 {
      var ok, newHeader := db.CreateAndAddHostRecord(h);
      newId := newHeader.id;
      if newId == 0 {
        return RegisterFailure;
      }
    } else {
      var ok := db.AddHostRecord(h);
      if !ok {
        return RegisterFailure;
      }
    }
    conn.connType := ConnectionHandler.Host;
    conn.id := newId;
    db.SetHostConnection(newId, self);
    response := Datagrams.CodeAndId(Datagrams.SuccessCode, newId);
  }

  // ---------------------------------------------------------------------
  // Uploading a map
  // ---------------------------------------------------------------------

  /**
   * handleUploadMapRequest's reply: a zero size is InvalidSize, checked
   * first; a connection that is not the host named in the request is
   * denied; anything else is accepted.
   */
  function UploadMapResponse(connType: ConnectionHandler.ConnectionType, connId: u32, req: Datagrams.UploadMapRequest): (code: byte)
    ensures code == Datagrams.InvalidSizeCode <==> req.totalMapSize == 0
    ensures code == Datagrams.AcceptCode <==>
      req.totalMapSize > 0 && connType == ConnectionHandler.Host && connId == req.hostId
    ensures code in {Datagrams.InvalidSizeCode, Datagrams.DenyAccessCode, Datagrams.AcceptCode}
  {
    if req.totalMapSize == 0 then Datagrams.InvalidSizeCode
    else if connType != ConnectionHandler.Host || connId != req.hostId then Datagrams.DenyAccessCode
    else Datagrams.AcceptCode
  }

  /**
   * handleUploadMapRequest: on Accept, the host's old map file is deleted
   * and the transfer will write to that path; on a refusal nothing
   * changes.
   */
  method HandleUploadMapRequest(conn: ConnectionHandler.WozekConnection, fm: FileManager.FileManager, req: Datagrams.UploadMapRequest)
    returns (code: byte, target: Option<FileManager.Path>)
    modifies fm
    ensures code == UploadMapResponse(conn.connType, conn.id, req)
    ensures target.Some? <==> code == Datagrams.AcceptCode
    ensures target.Some? ==> target.value == fm.GetPathToMapFile(conn.id) && fm.files == old(fm.files) - {target.value}
    ensures target.None? ==> fm.files == old(fm.files)
    ensures fm.workingDirectory == old(fm.workingDirectory) && fm.directories == old(fm.directories)
  {
    code := UploadMapResponse(conn.connType, conn.id, req);
    if code != Datagrams.AcceptCode {
      return code, None;
    }
    var path := fm.GetPathToMapFile(req.hostId);
    fm.DeleteMapFile(req.hostId);
    target := Some(path);
  }

  /** An accepted upload only ever replaces the uploading host's own map: every other host's map file is kept. */
  lemma UploadKeepsOtherMaps(fm: FileManager.FileManager, files: map<FileManager.Path, seq<byte>>, owner: u32, other: u32)
    requires owner != other
    requires fm.files == files - {fm.GetPathToMapFile(owner)}
    ensures fm.GetPathToMapFile(other) in fm.files <==> fm.GetPathToMapFile(other) in files
    ensures fm.GetPathToMapFile(other) in files ==> fm.files[fm.GetPathToMapFile(other)] == files[fm.GetPathToMapFile(other)]
  {
    FileManager.MapPathsDistinct(fm, owner, other);
  }

  // ---------------------------------------------------------------------
  // Downloading a map
  // ---------------------------------------------------------------------

  /**
   * handleDownloadMapRequest: a host with no map file is denied (the size
   * field is left uninitialised by the code, 0 here); otherwise Accept with
   * the file's size, and the file is what the transfer sends. The
   * connection's type and id are not checked.
   */
  method HandleDownloadMapRequest(fm: FileManager.FileManager, hostId: u32)
    returns (response: Datagrams.DownloadMapResponse, source: Option<seq<byte>>)
    requires forall p :: p in fm.files ==> |fm.files[p]| < U64_LIMIT
    ensures response.code == Datagrams.AcceptCode <==> fm.GetPathToMapFile(hostId) in fm.files
    ensures response.code != Datagrams.AcceptCode ==>
      response == Datagrams.DownloadMapResponse(Datagrams.DenyAccessCode, 0) && source.None?
    ensures response.code == Datagrams.AcceptCode ==>
      && source == Some(fm.files[fm.GetPathToMapFile(hostId)])
      && response.totalMapSize == |source.value|
  {
    var path := fm.GetPathToMapFile(hostId);
    if path !in fm.files {
      return Datagrams.DownloadMapResponse(Datagrams.DenyAccessCode, 0), None;
    }
    var contents := fm.files[path];
    response := Datagrams.DownloadMapResponse(Datagrams.AcceptCode, |contents|);
    source := Some(contents);
  }

  // ---------------------------------------------------------------------
  // Starting a world
  // ---------------------------------------------------------------------

  /** A StartTheWorld reply and the connection it is written to. */
  datatype StartWorldReply = StartWorldReply(recipient: Database.ConnectionRef, response: Datagrams.CodeAndId)

  /** The request is refused for a connection with id 0 or not a host, or for port 0. */
  predicate StartWorldAllowed(connType: ConnectionHandler.ConnectionType, connId: u32, port: u16)
  {
    connId != 0 && connType == ConnectionHandler.Host && port != 0
  }

  /**
   * handleStartTheWorld as written: failRoutine is a function-static
   * lambda, so it captures the connection that first ran the handler, and
   * every later failure is written to that connection. worldId is the id
   * the world table hands out (0 on failure).
   */
  function StartTheWorldAsWritten(firstCaller: Database.ConnectionRef, self: Database.ConnectionRef,
                                  connType: ConnectionHandler.ConnectionType, connId: u32, port: u16, worldId: u32): (r: StartWorldReply)
    ensures r.response.code == Datagrams.SuccessCode <==> StartWorldAllowed(connType, connId, port) && worldId != 0
    ensures r.response.code != Datagrams.SuccessCode ==> r.recipient == firstCaller
  {
    if !StartWorldAllowed(connType, connId, port) || worldId == 0 then
      StartWorldReply(firstCaller, Datagrams.CodeAndId(Datagrams.FailureCode, 0))
    else
      StartWorldReply(self, Datagrams.CodeAndId(Datagrams.SuccessCode, worldId))
  }

  /** handleStartTheWorld as intended: every reply goes to the requesting connection. */
  function StartTheWorldReply(self: Database.ConnectionRef, connType: ConnectionHandler.ConnectionType, connId: u32,
                              port: u16, worldId: u32): (r: StartWorldReply)
    ensures r.recipient == self
    ensures r.response.code == Datagrams.SuccessCode <==> StartWorldAllowed(connType, connId, port) && worldId != 0
    ensures r.response.code == Datagrams.SuccessCode ==> r.response.id == worldId
  {
    if !StartWorldAllowed(connType, connId, port) || worldId == 0 then
      StartWorldReply(self, Datagrams.CodeAndId(Datagrams.FailureCode, 0))
    else
      StartWorldReply(self, Datagrams.CodeAndId(Datagrams.SuccessCode, worldId))
  }

  /** The two agree on the first connection to ask, and on every success. */
  lemma StartTheWorldAgreesForFirstCaller(firstCaller: Database.ConnectionRef, self: Database.ConnectionRef,
                                          connType: ConnectionHandler.ConnectionType, connId: u32, port: u16, worldId: u32)
    requires firstCaller == self || (StartWorldAllowed(connType, connId, port) && worldId != 0)
    ensures StartTheWorldAsWritten(firstCaller, self, connType, connId, port, worldId)
         == StartTheWorldReply(self, connType, connId, port, worldId)
  {
  }

  /** As written, connection 2's refused request (port 0) is answered on connection 1, the first to ask. */
  lemma StartTheWorldAsWrittenAnswersFirstCaller()
    ensures StartTheWorldAsWritten(1, 2, ConnectionHandler.Host, 5, 0, 3).recipient == 1
    ensures StartTheWorldReply(2, ConnectionHandler.Host, 5, 0, 3).recipient == 2
  {
  }

  /**
   * handleStartTheWorld as intended: on success a new world whose main
   * host is this connection's host, at its address and the requested
   * port.
   */
  method HandleStartTheWorld(conn: ConnectionHandler.WozekConnection, self: Database.ConnectionRef, port: u16,
                             worldId: u32, remoteAddress: u32)
    returns (reply: StartWorldReply, world: World.World?)
    ensures reply == StartTheWorldReply(self, conn.connType, conn.id, port, worldId)
    ensures world != null <==> reply.response.code == Datagrams.SuccessCode
    ensures world != null ==>
      && fresh(world)
      && world.mainHostId == conn.id
      && world.mainHostEndpoint == UdpEngine.Endpoint(remoteAddress, port)
  {
    if !StartWorldAllowed(conn.connType, conn.id, port) || worldId == 0 {
      return StartWorldReply(self, Datagrams.CodeAndId(Datagrams.FailureCode, 0)), null;
    }
    world := new World.World();
    world.SetMainHost(conn.id, UdpEngine.Endpoint(remoteAddress, port));
    reply := StartWorldReply(self, Datagrams.CodeAndId(Datagrams.SuccessCode, worldId));
  }
}

=== FILE: server_transfer.dfy ===
// The server's file transfers (initiateFileTransferReceive and
// initiateFileTransferSend, WozekServer/TCPWozekServer.cpp): the segmented
// transfer skeleton instantiated over the connection's staging buffer.
// Each completion the socket or the file manager reports is one method;
// what it reports (the bytes read, whether a file append or read
// succeeded) comes in as a parameter. Writes to the socket complete at
// once: their errors are the connection's asyncBranch (ConnectionHandler).

module ServerTransfer {
  import opened Base
  import Datagrams
  import opened SegmentedTransfer
  import TransferStates

  /** maxBigBufferSize: 4 MiB. */
  const MaxBigBufferSize: nat := 4 * 1024 * 1024

  /** The segment length the server sends with. */
  const MaxSegmentLength: nat := 1300

  /** Where a transfer stands: still going, mainCallback called with a verdict, or stopped by a failed assertion. */
  datatype Status = Running | Done(success: bool) | Crashed

  /** The staging buffer's size: the whole file when it fits in 4 MiB. */
  function BufferSize(totalSize: u64): (n: nat)
    ensures n <= MaxBigBufferSize && n <= totalSize
    ensures n == 0 <==> totalSize == 0
    ensures n == totalSize || n == MaxBigBufferSize
  {
    Min(totalSize, MaxBigBufferSize)
  }

  // ---------------------------------------------------------------------
  // The header verifier
  // ---------------------------------------------------------------------

  /** The verifier's test as written: header.size + totalBytesRead in size_t, which wraps. */
  predicate ExceedsTotalAsWritten(size: u64, totalRead: u64, totalSize: u64)
  {
    (size + totalRead) % U64_LIMIT > totalSize
  }

  /** The verifier's test as intended: the segment does not fit in what is left of the declared size. */
  predicate ExceedsTotal(size: u64, totalRead: nat, totalSize: u64)
    requires totalRead <= totalSize
    ensures ExceedsTotal(size, totalRead, totalSize) <==> size + totalRead > totalSize
  {
    size > totalSize - totalRead
  }

  /** Short of a wrap-around the two tests agree. */
  lemma ExceedsTotalAgreesWithoutWrap(size: u64, totalRead: u64, totalSize: u64)
    requires totalRead <= totalSize
    requires size + totalRead < U64_LIMIT
    ensures ExceedsTotalAsWritten(size, totalRead, totalSize) == ExceedsTotal(size, totalRead, totalSize)
  {
  }

  /**
   * After one byte has been read, a header announcing 2^64 - 1 bytes wraps
   * the sum to 0 and passes the test as written, so the receiver goes on
   * reading far past the declared size.
   */
  lemma ExceedsTotalAsWrittenLetsHugeSegmentThrough()
    ensures !ExceedsTotalAsWritten(U64_LIMIT - 1, 1, 100)
    ensures ExceedsTotal(U64_LIMIT - 1, 1, 100)
  {
  }

  // ---------------------------------------------------------------------
  // Receiving (upload to the server)
  // ---------------------------------------------------------------------

  /**
   * initiateFileTransferReceive's state. Every data byte read from the
   * socket is in the file or in the used part of the staging buffer, in
   * order; an ack is Finished exactly when the bytes read reach the
   * declared size.
   */
  class FileReceive {
    const totalSize: u64
    const state: TransferStates.BigBufferCursor
    /** The file being written: what the flushes have appended. */
    var file: seq<byte>
    /** Every data byte read from the socket, in order. */
    ghost var stream: seq<byte>
    var step: ReadStep
    /** The ack codes written, in order. */
    var acks: seq<byte>
    /** totalBytesRead when each ack was decided. */
    ghost var ackedAt: seq<nat>
    var status: Status

    /** What holds between any two steps. */
    ghost predicate Core()
      reads this, state, state.bigBuffer
    {
      && state.Valid()
      && state.bigBuffer.Length == BufferSize(totalSize)
      && state.total == |stream| <= totalSize
      && |file| + state.bigBufferTop == |stream|
      && file + state.bigBuffer[..state.bigBufferTop] == stream
      && |acks| == |ackedAt|
      && (forall i :: 0 <= i < |acks| ==> acks[i] == if ackedAt[i] == totalSize then Datagrams.AckFinishedCode else Datagrams.AckContinueCode)
      && (status == Done(true) ==> file == stream && |stream| == totalSize)
    }

    /** While running, the receiver waits for a header or for the data of a segment that fits. */
    ghost predicate Valid()
      reads this, state, state.bigBuffer
    {
      && Core()
      && status != Crashed
      && (status == Running ==>
            && (state.bigBufferTop < state.bigBuffer.Length || state.bigBuffer.Length == 0)
            && ((step.call == ReceiveHeader && step.phase.HeaderAwaited?)
                || (step.phase.DataAwaited? && step.call == ReceiveData(step.phase.remainingSegment)
                    && 0 < step.phase.remainingSegment && state.total + step.phase.remainingSegment <= totalSize)))
    }

    constructor (totalSize: u64)
      ensures Valid() && fresh(state) && fresh(state.bigBuffer)
      ensures this.totalSize == totalSize && step == ReadFile(totalSize)
      ensures status == Running && file == [] && acks == [] && stream == []
    {
      this.totalSize := totalSize;
      state := new TransferStates.BigBufferCursor();
      file := [];
      stream := [];
      step := ReadFile(totalSize);
      acks := [];
      ackedAt := [];
      status := Running;
      new;
      state.Resize(BufferSize(totalSize));
    }

    /** How many bytes the data receiver asks the socket for: the rest of the segment when it fits, otherwise exactly the free buffer. */
    function ReadLength(): (n: nat)
      requires Valid() && status == Running && step.call.ReceiveData?
      reads this, state, state.bigBuffer
      ensures 0 < n <= step.phase.remainingSegment
      ensures n <= state.Remaining()
      ensures n == step.phase.remainingSegment || n == state.Remaining()
    {
      if step.phase.remainingSegment < state.Remaining() then step.phase.remainingSegment else state.Remaining()
    }

    /** flushBufferToFile: nothing to do when the buffer is empty; otherwise append it, which may fail, and empty it. */
    method Flush(appendOk: bool) returns (ok: bool)
      requires state.Valid()
      modifies this, state
      ensures ok <==> old(state.bigBufferTop) == 0 || appendOk
      ensures ok ==> file == old(file) + old(state.bigBuffer[..state.bigBufferTop]) && state.bigBufferTop == 0
      ensures !ok ==> file == old(file) && state.bigBufferTop == old(state.bigBufferTop)
      ensures state.bigBuffer == old(state.bigBuffer) && state.total == old(state.total)
      ensures state.Valid()
      ensures stream == old(stream) && step == old(step) && status == old(status)
      ensures acks == old(acks) && ackedAt == old(ackedAt)
    {
      if state.bigBufferTop == 0 {
        return true;
      }
      if !appendOk {
        return false;
      }
      file := file + state.bigBuffer[..state.bigBufferTop];
      state.bigBufferTop := 0;
      ok := true;
    }

    /**
     * The ack sender: once every declared byte is in, a last flush and then
     * Finished, after which mainCallback(true); before that, Continue and on
     * to the next header. A failed flush calls mainCallback(false) with no
     * ack.
     */
    method AckSender(appendOk: bool)
      requires Core() && status == Running
      requires step.phase.AckAwaited? && step.call == SendAck
      requires state.bigBufferTop < state.bigBuffer.Length || state.bigBuffer.Length == 0
      modifies this, state
      ensures Valid()
      ensures stream == old(stream) && state.total == old(state.total)
      ensures old(state.total) == totalSize ==>
        (status == Done(true) && acks == old(acks) + [Datagrams.AckFinishedCode])
        || (status == Done(false) && acks == old(acks) && !appendOk)
      ensures old(state.total) < totalSize ==>
        status == Running && step == AckSent(old(step).phase) && acks == old(acks) + [Datagrams.AckContinueCode]
    {
      if state.total == totalSize {
        var ok := Flush(appendOk);
        if !ok {
          status := Done(false);
          return;
        }
        acks := acks + [Datagrams.AckFinishedCode];
        ackedAt := ackedAt + [state.total];
        status := Done(true);
        return;
      }
      acks := acks + [Datagrams.AckContinueCode];
      ackedAt := ackedAt + [state.total];
      step := AckSent(step.phase);
    }

    /**
     * The header receiver's completion with the 8 bytes read: the verifier
     * rejects a segment that would pass the declared size, calling
     * mainCallback(false) without an ack; otherwise the segment's data is
     * read, or for an empty segment the ack sender runs at once.
     */
    method OnHeader(receivedBytes: seq<byte>, appendOk: bool)
      requires Valid() && status == Running && step.call == ReceiveHeader
      requires |receivedBytes| == Datagrams.SizeTSize
      modifies this, state
      ensures Valid() && stream == old(stream)
      ensures var size := Datagrams.DecodeSegmentHeader(receivedBytes);
        && (ExceedsTotal(size, old(state.total), totalSize) ==> status == Done(false) && acks == old(acks) && file == old(file))
        && (!ExceedsTotal(size, old(state.total), totalSize) && size > 0 ==>
              status == Running && step == ReadSegmentData(old(step).phase.remainingFile, size, size))
        && (!ExceedsTotal(size, old(state.total), totalSize) && size == 0 ==>
              |acks| == |old(acks)| + 1 || (status == Done(false) && !appendOk))
    {
      var s := HeaderReceived(step.phase, receivedBytes);
      if ExceedsTotal(s.call.size, state.total, totalSize) {
        status := Done(false);
        return;
      }
      step := Verified(s.phase);
      if step.call == SendAck {
        AckSender(appendOk);
      }
    }

    /** A read into getBigBufferEnd() and advance: the bytes join the stream at the buffer's top. */
    method Take(chunk: seq<byte>)
      requires Core()
      requires |chunk| <= state.Remaining() && state.total + |chunk| <= totalSize
      modifies this, state, state.bigBuffer
      ensures Core()
      ensures stream == old(stream) + chunk
      ensures state.bigBufferTop == old(state.bigBufferTop) + |chunk| && state.bigBuffer == old(state.bigBuffer)
      ensures file == old(file) && step == old(step) && status == old(status) && acks == old(acks)
    {
      state.WriteAtEnd(chunk);
      state.Advance(|chunk|);
      stream := stream + chunk;
    }

    /**
     * The data receiver's completion with the bytes read: they land at the
     * buffer's top; a read that filled the buffer is flushed before the
     * skeleton asks for the rest of the segment, and the ack sender runs
     * once the segment is complete.
     */
    method OnData(chunk: seq<byte>, appendOk: bool)
      requires Valid() && status == Running && step.call.ReceiveData?
      requires |chunk| == ReadLength()
      modifies this, state, state.bigBuffer
      ensures Valid()
      ensures stream == old(stream) + chunk
      ensures status == Done(false) ==> !appendOk
      ensures |chunk| < old(step).phase.remainingSegment && status == Running ==>
        step == ReadSegmentData(old(step).phase.remainingFile, old(step).phase.header, old(step).phase.remainingSegment - |chunk|)
      ensures |chunk| == old(step).phase.remainingSegment && status == Running ==>
        step.call == ReceiveHeader && acks == old(acks) + [Datagrams.AckContinueCode]
    {
      var fits := step.phase.remainingSegment < state.Remaining();
      Take(chunk);
      if !fits {
        var ok := Flush(appendOk);
        if !ok {
          status := Done(false);
          return;
        }
      }
      step := DataReceived(step.phase, |chunk|);
      if step.call == SendAck {
        AckSender(appendOk);
      }
    }
  }

  // ---------------------------------------------------------------------
  // Sending (download from the server)
  // ---------------------------------------------------------------------

  /** One write to the socket: the segment header from the main buffer when withHeader, then the data. */
  datatype SegmentWrite = SegmentWrite(header: Option<u64>, data: seq<byte>)

  /** The data bytes of a run of writes, headers left out. */
  function WrittenData(writes: seq<SegmentWrite>): (r: seq<byte>)
  {
    if |writes| == 0 then [] else WrittenData(writes[..|writes| - 1]) + writes[|writes| - 1].data
  }

  lemma WrittenDataSnoc(writes: seq<SegmentWrite>, w: SegmentWrite)
    ensures WrittenData(writes + [w]) == WrittenData(writes) + w.data
  {
    assert (writes + [w])[..|writes|] == writes;
  }

  /**
   * The staging buffer as the sender keeps it: either used up (the top at
   * its end) or holding, from its start, the file's bytes from offset base
   * on, as many as the last reload read, with the top at the next unsent
   * byte; the bytes from the top on are the ones still to send.
   */
  ghost predicate Window(buf: seq<byte>, source: seq<byte>, top: nat, total: nat, base: nat)
  {
    top < |buf| ==>
      && base + top == total <= |source|
      && top <= Min(|buf|, |source| - base)
      && forall i :: top <= i < Min(|buf|, |source| - base) ==> buf[i] == source[base + i]
  }

  /**
   * The sender's data invariant: what was written is the file's first
   * total bytes, and the buffer is a window on the file.
   */
  ghost predicate Sending(source: seq<byte>, buf: seq<byte>, top: nat, total: nat, base: nat, written: seq<byte>)
  {
    && top <= |buf|
    && total <= |source|
    && written == source[..total]
    && Window(buf, source, top, total, base)
  }

  /** Sending the n bytes at the top of the window writes the file's next n bytes and keeps the invariant. */
  lemma EmitKeepsSending(source: seq<byte>, buf: seq<byte>, top: nat, total: nat, base: nat, written: seq<byte>, n: nat)
    requires Sending(source, buf, top, total, base, written)
    requires top < |buf| && top + n <= |buf| && total + n <= |source|
    ensures buf[top..top + n] == source[total..total + n]
    ensures Sending(source, buf, top + n, total + n, base, written + buf[top..top + n])
  {
    EmitWindow(buf, source, top, total, base, n);
    assert source[..total] + source[total..total + n] == source[..total + n];
  }

  /** The sender's data invariant on values, with the buffer sized for the file. */
  ghost predicate SenderData(source: seq<byte>, totalSize: u64, buf: seq<byte>, top: nat, total: nat, base: nat,
                             writes: seq<SegmentWrite>)
  {
    && |source| == totalSize
    && |buf| == BufferSize(totalSize)
    && Sending(source, buf, top, total, base, WrittenData(writes))
  }

  /**
   * One write of the n bytes at the window's top keeps the sender's
   * invariant, and they are the file's next n bytes; a write of no bytes
   * may also come from a used-up buffer.
   */
  lemma EmitKeepsSenderData(source: seq<byte>, totalSize: u64, buf: seq<byte>, top: nat, total: nat, base: nat,
                            writes: seq<SegmentWrite>, n: nat, header: Option<u64>)
    requires SenderData(source, totalSize, buf, top, total, base, writes)
    requires top + n <= |buf| && total + n <= totalSize
    requires n > 0 ==> top < |buf|
    ensures buf[top..top + n] == source[total..total + n]
    ensures SenderData(source, totalSize, buf, top + n, total + n, base, writes + [SegmentWrite(header, buf[top..top + n])])
  {
    var w := SegmentWrite(header, buf[top..top + n]);
    WrittenDataSnoc(writes, w);
    if n == 0 {
      assert buf[top..top] == [] == source[total..total];
      assert WrittenData(writes) + w.data == WrittenData(writes);
    } else {
      EmitKeepsSending(source, buf, top, total, base, WrittenData(writes), n);
    }
  }

  /** A reload of the buffer from offset total leaves a window there with the top at 0. */
  lemma ReloadWindow(buf: seq<byte>, source: seq<byte>, total: nat, length: nat)
    requires total <= |source|
    requires length == Min(|buf|, |source| - total)
    requires buf[..length] == source[total..total + length]
    ensures Window(buf, source, 0, total, total)
  {
    forall i | 0 <= i < length
      ensures buf[i] == source[total + i]
    {
      assert buf[..length][i] == source[total..total + length][i];
    }
  }

  /** After a reload from offset total, with the file's first total bytes written, the sender's invariant holds with the top at 0. */
  lemma ReloadKeepsSenderData(source: seq<byte>, totalSize: u64, buf: seq<byte>, total: nat, writes: seq<SegmentWrite>, length: nat)
    requires |source| == totalSize && |buf| == BufferSize(totalSize)
    requires total <= |source| && WrittenData(writes) == source[..total]
    requires length == Min(|buf|, |source| - total)
    requires buf[..length] == source[total..total + length]
    ensures SenderData(source, totalSize, buf, 0, total, total, writes)
  {
    ReloadWindow(buf, source, total, length);
  }

  /** The n bytes at the top of a window are the file's next n bytes, and the window goes on past them. */
  lemma EmitWindow(buf: seq<byte>, source: seq<byte>, top: nat, total: nat, base: nat, n: nat)
    requires Window(buf, source, top, total, base)
    requires top < |buf| && top + n <= |buf| && total + n <= |source|
    ensures buf[top..top + n] == source[total..total + n]
    ensures Window(buf, source, top + n, total + n, base)
  {
    forall i | top <= i < top + n
      ensures buf[i] == source[total + (i - top)]
    {
    }
    assert buf[top..top + n] == source[total..total + n];
  }

  /**
   * initiateFileTransferSend's state. The data written so far is exactly
   * the file's first totalBytesSent bytes; the staging buffer holds the
   * file from the offset of its last reload.
   */
  class FileSend {
    /** The file's contents; its size is the declared total. */
    const source: seq<byte>
    const totalSize: u64
    const state: TransferStates.BigBufferCursor
    /** The header last saved to the main buffer. */
    var header: u64
    var step: SendStep
    var writes: seq<SegmentWrite>
    var status: Status
    /** The file offset of the buffer's first byte since the last reload. */
    ghost var base: nat

    /** What holds between any two steps. */
    ghost predicate Core()
      reads this, state, state.bigBuffer
    {
      && SenderData(source, totalSize, state.bigBuffer[..], state.bigBufferTop, state.total, base, writes)
      && (status == Done(true) ==> state.total == totalSize)
    }

    /**
     * While running, the sender waits to send the rest of a segment, or for
     * the ack; the segment is min(remaining, 1300) bytes, and the bytes not
     * yet sent are what the skeleton still has to cover.
     */
    ghost predicate Valid()
      reads this, state, state.bigBuffer
    {
      && Core()
      && (status == Running ==>
            && step.phase.maxSegment == MaxSegmentLength
            && step.phase.segment == Min(step.phase.remainingFile, MaxSegmentLength)
            && header == step.phase.segment
            && ((&& step.phase.DataPending? && step.call.Send?
                 && step.call.length == step.phase.remainingSegment <= step.phase.segment
                 && step.phase.remainingFile == totalSize - state.total + (step.phase.segment - step.phase.remainingSegment)
                 && (step.call.length > 0 || totalSize == 0))
                || (&& step.phase.AckPending? && step.call == HandleAck
                    && step.phase.remainingFile == totalSize - state.total + step.phase.segment)))
    }

    /**
     * Sets up the buffer with its top at the end, so the first send
     * reloads, and starts sendFile, whose header consumer saves the header
     * and asks the sender for the whole first segment.
     */
    constructor (source: seq<byte>)
      requires |source| < U64_LIMIT
      ensures Valid() && fresh(state) && fresh(state.bigBuffer)
      ensures this.source == source && status == Running && writes == []
      ensures step == HeaderConsumed(SendFile(|source|, MaxSegmentLength).phase)
    {
      this.source := source;
      totalSize := |source|;
      state := new TransferStates.BigBufferCursor();
      var first := SendFile(|source|, MaxSegmentLength);
      header := first.call.size;
      step := HeaderConsumed(first.phase);
      writes := [];
      status := Running;
      base := 0;
      new;
      state.Resize(BufferSize(totalSize));
      state.bigBufferTop := state.bigBuffer.Length;
    }

    /** tryReloadBuffer: only once the buffer is used up, read min(size, total - sent) bytes of the file from offset sent into its start. */
    method TryReload(readOk: bool) returns (ok: bool)
      requires Core()
      modifies this, state, state.bigBuffer
      ensures Core()
      ensures ok <==> old(state.Remaining()) != 0 || readOk
      ensures ok ==> state.bigBufferTop < state.bigBuffer.Length || state.bigBuffer.Length == 0
      ensures state.total == old(state.total) && state.bigBuffer == old(state.bigBuffer)
      ensures step == old(step) && writes == old(writes) && status == old(status) && header == old(header)
    {
      if state.Remaining() != 0 {
        return true;
      }
      if !readOk {
        return false;
      }
      var length := Min(state.bigBuffer.Length, totalSize - state.total);
      state.bigBufferTop := 0;
      state.WriteAtEnd(source[state.total..state.total + length]);
      base := state.total;
      ReloadWindow(state.bigBuffer[..], source, base, length);
      ok := true;
    }

    /** The write of n bytes from the buffer's top, which are the file's next n bytes, and advance. */
    method Emit(n: nat, withHeader: bool)
      requires Core() && status == Running
      requires state.bigBufferTop < state.bigBuffer.Length
      requires n <= state.Remaining() && state.total + n <= totalSize
      modifies this, state
      ensures Core()
      ensures state.total == old(state.total) + n && state.bigBuffer == old(state.bigBuffer)
      ensures writes == old(writes) + [SegmentWrite(if withHeader then Some(header) else None, source[old(state.total)..state.total])]
      ensures step == old(step) && status == old(status) && header == old(header)
    {
      var data := state.ReadAtEnd(n);
      var h := if withHeader then Some(header) else None;
      ghost var buf := state.bigBuffer[..];
      ghost var top := state.bigBufferTop;
      ghost var before := state.total;
      EmitKeepsSenderData(source, totalSize, buf, top, before, base, writes, n, h);
      assert data == source[before..before + n];
      state.Advance(n);
      writes := writes + [SegmentWrite(h, data)];
      assert state.bigBuffer[..] == buf;
      assert SenderData(source, totalSize, buf, top + n, before + n, base, writes);
    }

    /**
     * The sender: after tryReloadBuffer, it sends min(length, free buffer)
     * bytes from the buffer's top, with the header first when withHeader,
     * and reports that count to the skeleton. Asking for 0 bytes fails its
     * first assertion; the second, that the send stays within the file,
     * always holds.
     */
    method OnSend(readOk: bool)
      requires Valid() && status == Running && step.call.Send?
      modifies this, state, state.bigBuffer
      ensures Valid()
      ensures status == Done(false) <==> old(state.Remaining()) == 0 && !readOk
      ensures status == Crashed <==> status != Done(false) && old(step).call.length == 0
      ensures status == Crashed ==> totalSize == 0
      ensures status == Running ==>
        && 0 < state.total - old(state.total) <= old(step).call.length
        && step == Sent(old(step).phase, state.total - old(state.total))
        && writes == old(writes) + [SegmentWrite(if old(step).call.withHeader then Some(header) else None, source[old(state.total)..state.total])]
    {
      var ok := TryReload(readOk);
      if !ok {
        status := Done(false);
        return;
      }
      var length := step.call.length;
      if length == 0 {
        status := Crashed;
        return;
      }
      assert state.total + length <= totalSize;
      var n := Min(length, state.Remaining());
      Emit(n, step.call.withHeader);
      step := Sent(step.phase, n);
    }

    /**
     * The ack handler: an error code fails the transfer; Finished once
     * everything was sent succeeds, and then the writes carried the whole
     * file; Continue goes on to the next segment, whose header is saved to
     * the main buffer, but fails the skeleton's assertion when nothing is
     * left to send; any other code fails the transfer.
     */
    method OnAck(code: byte)
      requires Valid() && status == Running && step.call == HandleAck
      modifies this
      ensures Valid()
      ensures state.total == old(state.total) && writes == old(writes)
      ensures code == Datagrams.AckErrorCode ==> status == Done(false)
      ensures code == Datagrams.AckFinishedCode ==> status == Done(state.total == totalSize)
      ensures code == Datagrams.AckContinueCode ==> (status == Crashed <==> state.total == totalSize)
      ensures code == Datagrams.AckContinueCode && state.total < totalSize ==>
        && status == Running
        && step == HeaderConsumed(Acked(old(step).phase).phase)
        && step.phase.remainingFile == totalSize - state.total
        && header == step.call.length
      ensures code !in {Datagrams.AckErrorCode, Datagrams.AckContinueCode, Datagrams.AckFinishedCode} ==> status == Done(false)
      ensures status == Done(true) ==> WrittenData(writes) == source
    {
      if code == Datagrams.AckErrorCode {
        status := Done(false);
      } else if state.total == totalSize && code == Datagrams.AckFinishedCode {
        status := Done(true);
        assert source[..state.total] == source;
      } else if code == Datagrams.AckContinueCode {
        if step.phase.remainingFile <= step.phase.segment {
          status := Crashed;
          return;
        }
        var next := Acked(step.phase);
        header := next.call.size;
        step := HeaderConsumed(next.phase);
      } else {
        status := Done(false);
      }
    }
  }
}

=== FILE: tcp_session.dfy ===
// The TCP session engine (WozekServer/asio_lib/TCP.hpp): a session's
// shut-down flag, its timeout timer, its stack of pending callbacks and its
// start, connect and shutdown rules, and the server's accept rule. The
// socket, the timer and the resolver are asio objects outside the model:
// what they report (an error code, the remote endpoint, the resolved
// endpoints) comes in as a parameter. The hooks a derived session provides
// (shutdown_impl, start_impl, startError_impl, timeoutHandler_impl) and the
// handlers it passes to asyncRead/asyncWrite are recorded as events, in the
// order the session calls them.

module TcpSession {
  import opened Base
  import opened Callbacks
  import opened AsyncUtils

  datatype Endpoint = Endpoint(address: u32, port: u16)

  /** A handler a completion can run: the session's own stopTimeoutTimer, or one of the derived session's handlers. */
  datatype Target = StopTimer | UserHandler(id: nat)

  /** A callback-stack entry: the constructor's bottom entry, which shuts the session down, or a client's callback. */
  datatype Callback = ShutdownOnReturn | ClientCallback(id: nat)

  /** The calls the engine makes into the derived session, in order. */
  datatype Event =
    | ShutdownImpl
    | StartImpl
    | StartErrorImpl(err: ErrorCode)
    | TimeoutImpl
    | HandlerRan(id: nat, error: Option<ErrorCode>)
      /** A client callback ran with this result while the stack was stackDuringCall. */
    | CallbackInvoked(callback: nat, result: CallbackResult, stackDuringCall: seq<Callback>)

  /** The first of three error codes that is set, if any. */
  function FirstError(a: ErrorCode, b: ErrorCode, c: ErrorCode): (r: Option<ErrorCode>)
    ensures r.None? <==> !IsSet(a) && !IsSet(b) && !IsSet(c)
    ensures r.Some? ==> IsSet(r.value)
  {
    if IsSet(a) then Some(a) else if IsSet(b) then Some(b) else if IsSet(c) then Some(c) else None
  }

  /** Whether the last lifecycle event (start_impl or shutdown_impl) is a start. */
  function Up(events: seq<Event>): bool
  {
    if |events| == 0 then false
    else match events[|events| - 1]
      case StartImpl => true
      case ShutdownImpl => false
      case _ => Up(events[..|events| - 1])
  }

  /** start_impl and shutdown_impl alternate, beginning with a start. */
  predicate Alternates(events: seq<Event>)
  {
    |events| == 0 ||
    (var init := events[..|events| - 1];
     var last := events[|events| - 1];
     && Alternates(init)
     && (last == StartImpl ==> !Up(init))
     && (last == ShutdownImpl ==> Up(init)))
  }

  /** The derived session's handler runs among a completion's invocations. */
  function HandlerEvents(calls: seq<Invocation<Target>>): seq<Event>
  {
    if |calls| == 0 then []
    else
      var last := calls[|calls| - 1];
      HandlerEvents(calls[..|calls| - 1])
      + (match last.target
         case StopTimer => []
         case UserHandler(id) => [HandlerRan(id, last.error)])
  }

  lemma HandlerEventsSnoc(calls: seq<Invocation<Target>>, call: Invocation<Target>)
    ensures HandlerEvents(calls + [call]) == HandlerEvents(calls) + HandlerEvents([call])
    ensures StopsTimer(calls + [call]) == (StopsTimer(calls) || call.target == StopTimer)
  {
    assert (calls + [call])[..|calls|] == calls;
    assert [call][..0] == [];
  }

  /** Whether a completion's invocations stop the timer. */
  predicate StopsTimer(calls: seq<Invocation<Target>>)
  {
    |calls| > 0 && (StopsTimer(calls[..|calls| - 1]) || calls[|calls| - 1].target == StopTimer)
  }

  /** The completion asyncRead installs: stop the timer, then branch. */
  function ReadCompletion(success: nat, error: nat, safe: bool): Completion<Target>
  {
    ErrorBranchContinue(Member(StopTimer), Callable(UserHandler(success)), Callable(UserHandler(error)), safe)
  }

  /** The completion asyncWrite installs: branch only. */
  function WriteCompletion(success: nat, error: nat, safe: bool): Completion<Target>
  {
    ErrorBranch(Callable(UserHandler(success)), Callable(UserHandler(error)), safe)
  }

  /**
   * A read's completion stops the timer and then runs exactly one of the two
   * handlers: the error handler with the code when it is set, the success
   * handler otherwise. A write's completion runs the same handler and leaves
   * the timer alone.
   */
  lemma ReadCompletionStopsTimerThenBranches(success: nat, error: nat, safe: bool, err: ErrorCode)
    ensures var calls := Run(ReadCompletion(success, error, safe), err);
      && calls[0].target == StopTimer
      && StopsTimer(calls)
      && HandlerEvents(calls) == [if IsSet(err) then HandlerRan(error, Some(err)) else HandlerRan(success, None)]
    ensures var calls := Run(WriteCompletion(success, error, safe), err);
      && !StopsTimer(calls)
      && HandlerEvents(calls) == [if IsSet(err) then HandlerRan(error, Some(err)) else HandlerRan(success, None)]
  {
    var calls := Run(ReadCompletion(success, error, safe), err);
    assert calls[..1][..0] == [];
    assert HandlerEvents(calls[..1]) == [];
    assert StopsTimer(calls[..1]);
    assert calls[..|calls| - 1] == calls[..1];
    var w := Run(WriteCompletion(success, error, safe), err);
    assert w[..|w| - 1] == [];
  }

  class BasicSession {
    var isShutdown: bool
    var timerArmed: bool
    var socketOpen: bool
    var remoteEndpoint: Endpoint
    var callbackStack: seq<Callback>
    var events: seq<Event>
    /** Whether completions capture a strong reference to the session (DisableSafe false). */
    const safe: bool

    /**
     * start_impl and shutdown_impl alternate, and the session is up exactly
     * when the last of them was a start: shutdown_impl runs once per start.
     */
    predicate Valid()
      reads this
    {
      Up(events) == !isShutdown && Alternates(events)
    }

    /** A new session is shut, with the shutting-down callback at the bottom of its stack. */
    constructor (disableSafe: bool)
      ensures Valid()
      ensures isShutdown && !timerArmed && !socketOpen
      ensures callbackStack == [ShutdownOnReturn]
      ensures events == []
      ensures safe == !disableSafe
    {
      isShutdown := true;
      timerArmed := false;
      socketOpen := false;
      remoteEndpoint := Endpoint(0, 0);
      callbackStack := [ShutdownOnReturn];
      events := [];
      safe := !disableSafe;
    }

    /** The acceptor has connected the session's socket. */
    method Accepted()
      modifies this
      ensures socketOpen
      ensures isShutdown == old(isShutdown) && timerArmed == old(timerArmed)
      ensures callbackStack == old(callbackStack) && events == old(events) && remoteEndpoint == old(remoteEndpoint)
    {
      socketOpen := true;
    }

    /**
     * shutdownSession: nothing when already shut; otherwise sets the flag,
     * stops the timer, closes the socket and calls shutdown_impl once. The
     * callback stack is left as it is.
     */
    method ShutdownSession()
      requires Valid()
      modifies this
      ensures Valid()
      ensures isShutdown
      ensures callbackStack == old(callbackStack) && remoteEndpoint == old(remoteEndpoint)
      ensures old(isShutdown) ==> timerArmed == old(timerArmed) && socketOpen == old(socketOpen) && events == old(events)
      ensures !old(isShutdown) ==> !timerArmed && !socketOpen && events == old(events) + [ShutdownImpl]
    {
      if isShutdown {
        return;
      }
      isShutdown := true;
      StopTimeoutTimer();
      socketOpen := false;
      events := events + [ShutdownImpl];
    }

    method StartTimeoutTimer()
      modifies this
      ensures timerArmed
      ensures isShutdown == old(isShutdown) && socketOpen == old(socketOpen)
      ensures callbackStack == old(callbackStack) && events == old(events) && remoteEndpoint == old(remoteEndpoint)
    {
      timerArmed := true;
    }

    method StopTimeoutTimer()
      modifies this
      ensures !timerArmed
      ensures isShutdown == old(isShutdown) && socketOpen == old(socketOpen)
      ensures callbackStack == old(callbackStack) && events == old(events) && remoteEndpoint == old(remoteEndpoint)
    {
      timerArmed := false;
    }

    /**
     * The timer's completion: ignored when it carries an error (a cancelled
     * wait) or the session is already shut; otherwise timeoutHandler_impl
     * runs and the session shuts down.
     */
    method OnTimerExpired(err: ErrorCode)
      requires Valid()
      modifies this
      ensures Valid()
      ensures callbackStack == old(callbackStack) && remoteEndpoint == old(remoteEndpoint)
      ensures IsSet(err) || old(isShutdown) ==>
        isShutdown == old(isShutdown) && timerArmed == old(timerArmed) && socketOpen == old(socketOpen) && events == old(events)
      ensures !(IsSet(err) || old(isShutdown)) ==>
        isShutdown && !timerArmed && !socketOpen && events == old(events) + [TimeoutImpl, ShutdownImpl]
    {
      if IsSet(err) || isShutdown {
        return;
      }
      events := events + [TimeoutImpl];
      ShutdownSession();
    }

    /** asyncRead: arms the timer and returns the completion that stops it and branches. */
    method AsyncRead(success: nat, error: nat) returns (c: Completion<Target>)
      modifies this
      ensures c == ReadCompletion(success, error, safe)
      ensures timerArmed
      ensures isShutdown == old(isShutdown) && socketOpen == old(socketOpen)
      ensures callbackStack == old(callbackStack) && events == old(events) && remoteEndpoint == old(remoteEndpoint)
    {
      StartTimeoutTimer();
      c := ReadCompletion(success, error, safe);
    }

    /** asyncWrite: no timer; the completion only branches. */
    method AsyncWrite(success: nat, error: nat) returns (c: Completion<Target>)
      ensures c == WriteCompletion(success, error, safe)
    {
      c := WriteCompletion(success, error, safe);
    }

    /** One invocation of a completion: stopTimeoutTimer on the session, or the derived session's handler. */
    method Invoke(call: Invocation<Target>)
      requires Valid()
      modifies this
      ensures Valid()
      ensures events == old(events) + HandlerEvents([call])
      ensures timerArmed == (old(timerArmed) && call.target != StopTimer)
      ensures isShutdown == old(isShutdown) && socketOpen == old(socketOpen)
      ensures callbackStack == old(callbackStack) && remoteEndpoint == old(remoteEndpoint)
    {
      assert [call][..0] == [];
      match call.target {
        case StopTimer =>
          StopTimeoutTimer();
        case UserHandler(id) =>
          events := events + [HandlerRan(id, call.error)];
      }
    }

    /** asio calls a completion with the operation's error code; its invocations run in order. */
    method Complete(c: Completion<Target>, err: ErrorCode)
      requires Valid()
      modifies this
      ensures Valid()
      ensures events == old(events) + HandlerEvents(Run(c, err))
      ensures timerArmed == (old(timerArmed) && !StopsTimer(Run(c, err)))
      ensures isShutdown == old(isShutdown) && socketOpen == old(socketOpen)
      ensures callbackStack == old(callbackStack) && remoteEndpoint == old(remoteEndpoint)
    {
      var calls := Run(c, err);
      if c.cont.Some? {
        Invoke(calls[0]);
        HandlerEventsSnoc(calls[..1], calls[1]);
        assert calls == calls[..1] + [calls[1]];
        assert calls[..1] == [calls[0]];
      }
      Invoke(calls[|calls| - 1]);
      if c.cont.None? {
        assert calls == [calls[0]];
      }
    }

    method PushCallbackStack(id: nat)
      modifies this
      ensures callbackStack == Push(old(callbackStack), ClientCallback(id))
      ensures isShutdown == old(isShutdown) && timerArmed == old(timerArmed) && socketOpen == old(socketOpen)
      ensures events == old(events) && remoteEndpoint == old(remoteEndpoint)
    {
      callbackStack := Push(callbackStack, ClientCallback(id));
    }

    /**
     * returnCallbackStack: nothing on an empty stack; otherwise pops the top
     * entry and then invokes it once, so the callback runs on the stack
     * without itself. The bottom entry shuts the session down.
     */
    method ReturnCallbackStack(result: CallbackResult)
      requires Valid()
      modifies this
      ensures Valid()
      ensures remoteEndpoint == old(remoteEndpoint)
      ensures |old(callbackStack)| == 0 ==>
        callbackStack == old(callbackStack) && events == old(events) && isShutdown == old(isShutdown)
        && timerArmed == old(timerArmed) && socketOpen == old(socketOpen)
      ensures |old(callbackStack)| > 0 ==> callbackStack == Pop(old(callbackStack))
      ensures |old(callbackStack)| > 0 && Top(old(callbackStack)).ClientCallback? ==>
        events == old(events) + [CallbackInvoked(Top(old(callbackStack)).id, result, Pop(old(callbackStack)))]
        && isShutdown == old(isShutdown) && timerArmed == old(timerArmed) && socketOpen == old(socketOpen)
      ensures |old(callbackStack)| > 0 && Top(old(callbackStack)) == ShutdownOnReturn ==>
        isShutdown && events == old(events) + (if old(isShutdown) then [] else [ShutdownImpl])
        && timerArmed == (old(timerArmed) && old(isShutdown)) && socketOpen == (old(socketOpen) && old(isShutdown))
    {
      if |callbackStack| <= 0 {
        return;
      }
      var callback := Top(callbackStack);
      callbackStack := Pop(callbackStack);
      match callback
      case ShutdownOnReturn =>
        ShutdownSession();
      case ClientCallback(id) =>
        events := events + [CallbackInvoked(id, result, callbackStack)];
    }

    /** returnCallbackDefault (returnConstructCallbackStack with a CallbackResult): a result with exactly this status and no value. */
    method ReturnCallbackDefault(status: Status)
      requires Valid()
      modifies this
      ensures Valid()
      ensures remoteEndpoint == old(remoteEndpoint)
      ensures |old(callbackStack)| == 0 ==>
        callbackStack == old(callbackStack) && events == old(events) && isShutdown == old(isShutdown)
        && timerArmed == old(timerArmed) && socketOpen == old(socketOpen)
      ensures |old(callbackStack)| > 0 ==> callbackStack == Pop(old(callbackStack))
      ensures |old(callbackStack)| > 0 && Top(old(callbackStack)).ClientCallback? ==>
        events == old(events) + [CallbackInvoked(Top(old(callbackStack)).id, MakeResult(status), Pop(old(callbackStack)))]
        && isShutdown == old(isShutdown) && timerArmed == old(timerArmed) && socketOpen == old(socketOpen)
      ensures |old(callbackStack)| > 0 && Top(old(callbackStack)) == ShutdownOnReturn ==>
        isShutdown && events == old(events) + (if old(isShutdown) then [] else [ShutdownImpl])
        && timerArmed == (old(timerArmed) && old(isShutdown)) && socketOpen == (old(socketOpen) && old(isShutdown))
    {
      ReturnCallbackStack(MakeResult(status));
    }

    /**
     * start (after an accept): shuts the session first; if the remote
     * endpoint cannot be read, reports the error through startError_impl
     * and fails with the session shut; otherwise the session is up and the
     * result is start_impl's.
     */
    method Start(remote: Endpoint, err: ErrorCode, startImplResult: bool) returns (ok: bool)
      requires Valid()
      modifies this
      ensures Valid()
      ensures callbackStack == old(callbackStack)
      ensures remoteEndpoint == remote
      ensures events == old(events) + (if old(isShutdown) then [] else [ShutdownImpl])
                                    + (if IsSet(err) then [StartErrorImpl(err)] else [StartImpl])
      ensures isShutdown == IsSet(err)
      ensures timerArmed == (old(timerArmed) && old(isShutdown)) && socketOpen == (old(socketOpen) && old(isShutdown))
      ensures ok == (!IsSet(err) && startImplResult)
    {
      ShutdownSession();
      remoteEndpoint := remote;
      if IsSet(err) {
        events := events + [StartErrorImpl(err)];
        return false;
      }
      isShutdown := false;
      events := events + [StartImpl];
      ok := startImplResult;
    }

    /** connect: as start, with the error of the socket's connect; the endpoint is recorded only on success. */
    method Connect(endpoint: Endpoint, err: ErrorCode, startImplResult: bool) returns (ok: bool)
      requires Valid()
      modifies this
      ensures Valid()
      ensures callbackStack == old(callbackStack)
      ensures remoteEndpoint == if IsSet(err) then old(remoteEndpoint) else endpoint
      ensures events == old(events) + (if old(isShutdown) then [] else [ShutdownImpl])
                                    + (if IsSet(err) then [StartErrorImpl(err)] else [StartImpl])
      ensures isShutdown == IsSet(err)
      ensures timerArmed == (old(timerArmed) && old(isShutdown))
      ensures socketOpen == if IsSet(err) then old(socketOpen) && old(isShutdown) else true
      ensures ok == (!IsSet(err) && startImplResult)
    {
      ShutdownSession();
      if IsSet(err) {
        events := events + [StartErrorImpl(err)];
        return false;
      }
      socketOpen := true;
      remoteEndpoint := endpoint;
      isShutdown := false;
      events := events + [StartImpl];
      ok := startImplResult;
    }

    /**
     * resolveAndConnect: resolution, connection and reading the remote
     * endpoint, in that order; the first that fails is reported through
     * startError_impl and the session stays shut.
     */
    method ResolveAndConnect(resolveErr: ErrorCode, connectErr: ErrorCode, remote: Endpoint, endpointErr: ErrorCode, startImplResult: bool)
      returns (ok: bool)
      requires Valid()
      modifies this
      ensures Valid()
      ensures callbackStack == old(callbackStack)
      ensures var failure := FirstError(resolveErr, connectErr, endpointErr);
        events == old(events) + (if old(isShutdown) then [] else [ShutdownImpl])
                              + (if failure.Some? then [StartErrorImpl(failure.value)] else [StartImpl])
      ensures isShutdown == FirstError(resolveErr, connectErr, endpointErr).Some?
      ensures timerArmed == (old(timerArmed) && old(isShutdown))
      ensures !IsSet(resolveErr) && !IsSet(connectErr) ==> socketOpen && remoteEndpoint == remote
      ensures IsSet(resolveErr) || IsSet(connectErr) ==>
        socketOpen == (old(socketOpen) && old(isShutdown)) && remoteEndpoint == old(remoteEndpoint)
      ensures ok == (FirstError(resolveErr, connectErr, endpointErr).None? && startImplResult)
    {
      ShutdownSession();
      var failure := FirstError(resolveErr, connectErr, endpointErr);
      if !IsSet(resolveErr) && !IsSet(connectErr) {
        socketOpen := true;
        remoteEndpoint := remote;
      }
      if failure.Some? {
        events := events + [StartErrorImpl(failure.value)];
        return false;
      }
      isShutdown := false;
      events := events + [StartImpl];
      ok := startImplResult;
    }
  }

  /** The accepting side: BasicServer. */
  class BasicServer {
    /** Never set anywhere, so start always succeeds. */
    var running: bool
    /** Whether an accept is outstanding. */
    var accepting: bool
    /** The remote endpoints of the sessions started, in order. */
    var started: seq<Endpoint>

    predicate Valid()
      reads this
    {
      !running
    }

    constructor ()
      ensures Valid() && !accepting && started == []
    {
      running := false;
      accepting := false;
      started := [];
    }

    /** start: fails only while running; otherwise starts accepting. */
    method Start(port: u16) returns (ok: bool)
      requires Valid()
      modifies this
      ensures Valid()
      ensures ok && !old(running)
      ensures accepting && started == old(started)
    {
      if running {
        return false;
      }
      accepting := true;
      ok := true;
    }

    /**
     * handleNewSession: an accept error whose handler returns true stops
     * the server. Otherwise (including an error whose handler returns
     * false) the session starts if the authorisation check approves its
     * remote endpoint, and the next accept is issued.
     */
    method HandleNewSession(remote: Endpoint, err: ErrorCode, errorHandlerStops: bool, authorised: bool) returns (startedSession: bool)
      requires Valid()
      requires accepting
      modifies this
      ensures Valid()
      ensures accepting == !(IsSet(err) && errorHandlerStops)
      ensures startedSession == (accepting && authorised)
      ensures started == old(started) + (if startedSession then [remote] else [])
    {
      if IsSet(err) && errorHandlerStops {
        accepting := false;
        return false;
      }
      startedSession := authorised;
      if authorised {
        started := started + [remote];
      }
      accepting := true;
    }
  }
}

=== FILE: transfer_states.dfy ===
// The per-connection transfer states (WozekServer/states.hpp): a staging
// buffer ("big buffer") with a cursor into it and a running byte count.
// The file stream and the path these structs also hold belong to the file
// system and are outside the model; the progress percentage is kept as a
// number but never computed (it is floating point in the source).

module TransferStates {
  import opened Base
  import BufferUtils

  /**
   * The staging buffer of a file transfer and its cursor: bigBufferTop
   * bytes of bigBuffer are in use, and total counts every byte the cursor
   * has ever advanced over (totalBytesSent or totalBytesRead).
   */
  class BigBufferCursor {
    var bigBuffer: array<byte>
    var bigBufferTop: nat
    var total: nat
    var progress: nat

    /** The cursor never passes the end of the buffer. */
    predicate Valid()
      reads this
    {
      bigBufferTop <= bigBuffer.Length
    }

    /** A fresh state: an empty buffer, and top, total and progress all 0. */
    constructor ()
      ensures Valid()
      ensures bigBuffer.Length == 0 && fresh(bigBuffer)
      ensures bigBufferTop == 0 && total == 0 && progress == 0
    {
      bigBuffer := new byte[0];
      bigBufferTop := 0;
      total := 0;
      progress := 0;
    }

    /** bigBuffer.resize(n): keeps the first bytes, pads with zeros. */
    method Resize(n: nat)
      modifies this
      ensures fresh(bigBuffer) && bigBuffer.Length == n
      ensures forall i :: 0 <= i < n ==> bigBuffer[i] == if i < old(bigBuffer.Length) then old(bigBuffer[i]) else 0
      ensures bigBufferTop == old(bigBufferTop) && total == old(total) && progress == old(progress)
      ensures Valid() <==> old(bigBufferTop) <= n
    {
      var b := new byte[n](_ => 0);
      var keep := Min(n, bigBuffer.Length);
      forall i | 0 <= i < keep {
        b[i] := bigBuffer[i];
      }
      bigBuffer := b;
    }

    /** getRemainingBigBufferSize: the free bytes after the cursor. */
    function Remaining(): (r: nat)
      requires Valid()
      reads this
      ensures r + bigBufferTop == bigBuffer.Length
    {
      bigBuffer.Length - bigBufferTop
    }

    /** A read into getBigBufferEnd(): the bytes land at offset bigBufferTop; the cursor stays. */
    method WriteAtEnd(chunk: seq<byte>)
      requires Valid()
      requires |chunk| <= Remaining()
      modifies bigBuffer
      ensures bigBuffer[..] == BufferUtils.Splice(old(bigBuffer[..]), bigBufferTop, chunk)
      ensures bigBuffer[..bigBufferTop + |chunk|] == old(bigBuffer[..bigBufferTop]) + chunk
    {
      forall i | 0 <= i < |chunk| {
        bigBuffer[bigBufferTop + i] := chunk[i];
      }
      assert bigBuffer[..] == BufferUtils.Splice(old(bigBuffer[..]), bigBufferTop, chunk);
      assert bigBuffer[..bigBufferTop + |chunk|] == old(bigBuffer[..bigBufferTop]) + chunk;
    }

    /** A write from getBigBufferEnd(): the n bytes from offset bigBufferTop. */
    method ReadAtEnd(n: nat) returns (chunk: seq<byte>)
      requires Valid()
      requires n <= Remaining()
      ensures chunk == bigBuffer[bigBufferTop..bigBufferTop + n]
    {
      chunk := bigBuffer[bigBufferTop..bigBufferTop + n];
    }

    /**
     * advance(n): the cursor and the running total both move by n, so
     * their difference stays put; the cursor stays in the buffer exactly
     * when n fits in the free space.
     */
    method Advance(n: nat)
      modifies this
      ensures bigBufferTop == old(bigBufferTop) + n && total == old(total) + n
      ensures total - bigBufferTop == old(total) - old(bigBufferTop)
      ensures bigBuffer == old(bigBuffer) && progress == old(progress)
      ensures Valid() <==> n <= old(bigBuffer.Length) - old(bigBufferTop)
    {
      bigBufferTop := bigBufferTop + n;
      total := total + n;
    }
  }

  /** The variant a connection keeps: Empty, a send in progress, or a receive in progress. */
  datatype State = Empty | FileTransferSend(send: BigBufferCursor) | FileTransferReceive(receive: BigBufferCursor)
}

=== FILE: udp_engine.dfy ===
// The UDP engine (WozekServer/asio_lib/UDP.hpp): a handler's callback
// stack, its writes and its resolution rule, and the server's receive
// loop, which hands every datagram to a fresh handler. Sockets and the
// resolver are outside the model; what they report comes in as parameters.

module UdpEngine {
  import opened Base
  import opened Callbacks
  import opened AsyncUtils

  datatype Endpoint = Endpoint(address: u32, port: u16)

  /** A callback-stack entry: the constructor's bottom entry, which does nothing, or a client's callback. */
  datatype Callback = DoNothing | ClientCallback(id: nat)

  /** A client callback's run: its result, and the stack while it ran. */
  datatype Invoked = Invoked(callback: nat, result: CallbackResult, stackDuringCall: seq<Callback>)

  /** What invoking a popped entry records: nothing for the bottom entry, one run for a client's callback. */
  function RunCallback(callback: Callback, result: CallbackResult, rest: seq<Callback>): (r: seq<Invoked>)
    ensures |r| <= 1
    ensures |r| == 1 <==> callback.ClientCallback?
    ensures |r| == 1 ==> r[0] == Invoked(callback.id, result, rest)
  {
    match callback
    case DoNothing => []
    case ClientCallback(id) => [Invoked(id, result, rest)]
  }

  /** The completion asyncWriteTo installs: branch on the send's error code. */
  function SendCompletion(success: nat, error: nat, safe: bool): Completion<nat>
  {
    ErrorBranch(Callable(success), Callable(error), safe)
  }

  class BasicHandler {
    var callbackStack: seq<Callback>
    var invoked: seq<Invoked>
    /** The byte counts handle has posted to handle_impl, in order. */
    var handled: seq<nat>
    const safe: bool

    /** A new handler's stack holds only the bottom entry, which does nothing. */
    constructor (disableSafe: bool)
      ensures callbackStack == [DoNothing]
      ensures invoked == [] && handled == []
      ensures safe == !disableSafe
    {
      callbackStack := [DoNothing];
      invoked := [];
      handled := [];
      safe := !disableSafe;
    }

    method PushCallbackStack(id: nat)
      modifies this
      ensures callbackStack == Push(old(callbackStack), ClientCallback(id))
      ensures invoked == old(invoked) && handled == old(handled)
    {
      callbackStack := Push(callbackStack, ClientCallback(id));
    }

    /**
     * returnCallbackStack: nothing on an empty stack; otherwise pops the top
     * entry and then invokes it once. The bottom entry does nothing.
     */
    method ReturnCallbackStack(result: CallbackResult)
      modifies this
      ensures handled == old(handled)
      ensures |old(callbackStack)| == 0 ==> callbackStack == old(callbackStack) && invoked == old(invoked)
      ensures |old(callbackStack)| > 0 ==> callbackStack == Pop(old(callbackStack))
      ensures |old(callbackStack)| > 0 ==>
        invoked == old(invoked) + RunCallback(Top(old(callbackStack)), result, Pop(old(callbackStack)))
    {
      if |callbackStack| <= 0 {
        return;
      }
      var callback := Top(callbackStack);
      callbackStack := Pop(callbackStack);
      invoked := invoked + RunCallback(callback, result, callbackStack);
    }

    /** returnCallbackDefault: a result with exactly this status and no value. */
    method ReturnCallbackDefault(status: Status)
      modifies this
      ensures handled == old(handled)
      ensures |old(callbackStack)| == 0 ==> callbackStack == old(callbackStack) && invoked == old(invoked)
      ensures |old(callbackStack)| > 0 ==> callbackStack == Pop(old(callbackStack))
      ensures |old(callbackStack)| > 0 && Top(old(callbackStack)).ClientCallback? ==>
        invoked == old(invoked) + [Invoked(Top(old(callbackStack)).id, MakeResult(status), Pop(old(callbackStack)))]
      ensures |old(callbackStack)| > 0 ==>
        invoked == old(invoked) + RunCallback(Top(old(callbackStack)), MakeResult(status), Pop(old(callbackStack)))
    {
      ReturnCallbackStack(MakeResult(status));
    }

    /** returnCallbackGood: returnCallbackDefault with the Good status. */
    method ReturnCallbackGood()
      modifies this
      ensures handled == old(handled)
      ensures |old(callbackStack)| == 0 ==> callbackStack == old(callbackStack) && invoked == old(invoked)
      ensures |old(callbackStack)| > 0 ==> callbackStack == Pop(old(callbackStack))
      ensures |old(callbackStack)| > 0 ==>
        invoked == old(invoked) + RunCallback(Top(old(callbackStack)), MakeResult(Good), Pop(old(callbackStack)))
      ensures |old(callbackStack)| > 0 && Top(old(callbackStack)).ClientCallback? ==>
        invoked == old(invoked) + [Invoked(Top(old(callbackStack)).id, MakeResult(Good), Pop(old(callbackStack)))]
    {
      ReturnCallbackDefault(Good);
    }

    /** returnCallbackError: returnCallbackDefault with the Error status. */
    method ReturnCallbackError()
      modifies this
      ensures handled == old(handled)
      ensures |old(callbackStack)| == 0 ==> callbackStack == old(callbackStack) && invoked == old(invoked)
      ensures |old(callbackStack)| > 0 ==> callbackStack == Pop(old(callbackStack))
      ensures |old(callbackStack)| > 0 ==>
        invoked == old(invoked) + RunCallback(Top(old(callbackStack)), MakeResult(Error), Pop(old(callbackStack)))
      ensures |old(callbackStack)| > 0 && Top(old(callbackStack)).ClientCallback? ==>
        invoked == old(invoked) + [Invoked(Top(old(callbackStack)).id, MakeResult(Error), Pop(old(callbackStack)))]
    {
      ReturnCallbackDefault(Error);
    }

    /** returnCallbackCriticalError: returnCallbackDefault with the CriticalError status. */
    method ReturnCallbackCriticalError()
      modifies this
      ensures handled == old(handled)
      ensures |old(callbackStack)| == 0 ==> callbackStack == old(callbackStack) && invoked == old(invoked)
      ensures |old(callbackStack)| > 0 ==> callbackStack == Pop(old(callbackStack))
      ensures |old(callbackStack)| > 0 ==>
        invoked == old(invoked) + RunCallback(Top(old(callbackStack)), MakeResult(CriticalError), Pop(old(callbackStack)))
      ensures |old(callbackStack)| > 0 && Top(old(callbackStack)).ClientCallback? ==>
        invoked == old(invoked) + [Invoked(Top(old(callbackStack)).id, MakeResult(CriticalError), Pop(old(callbackStack)))]
    {
      ReturnCallbackDefault(CriticalError);
    }

    /** asyncWriteTo: the completion branches on the send's error code. */
    method AsyncWriteTo(endpoint: Endpoint, success: nat, error: nat) returns (c: Completion<nat>)
      ensures c == SendCompletion(success, error, safe)
    {
      c := SendCompletion(success, error, safe);
    }

    /** handle: posts handle_impl with the datagram's size. */
    method Handle(bytesTransfered: nat)
      modifies this
      ensures handled == old(handled) + [bytesTransfered]
      ensures callbackStack == old(callbackStack) && invoked == old(invoked)
    {
      handled := handled + [bytesTransfered];
    }

    /**
     * resolveAndConnect: true exactly when resolution yields an endpoint.
     * A resolution error is swallowed and shows up as no endpoints.
     */
    method ResolveAndConnect(resolved: seq<Endpoint>) returns (ok: bool)
      ensures ok <==> |resolved| > 0
    {
      ok := |resolved| > 0;
    }
  }

  /** The receiving side: BasicServer. */
  class BasicServer {
    /** Never set anywhere, so start always succeeds. */
    var running: bool
    /** Whether a receive is outstanding. */
    var receiving: bool
    /** The sizes of the datagrams handed to handlers, in order. */
    var handled: seq<nat>

    predicate Valid()
      reads this
    {
      !running
    }

    constructor ()
      ensures Valid() && !receiving && handled == []
    {
      running := false;
      receiving := false;
      handled := [];
    }

    /** start: fails only while running; otherwise binds and starts receiving. */
    method Start(port: u16) returns (ok: bool)
      requires Valid()
      modifies this
      ensures Valid()
      ensures ok && !old(running)
      ensures receiving && handled == old(handled)
    {
      if running {
        return false;
      }
      receiving := true;
      ok := true;
    }

    /**
     * The receive completion: an error whose handler returns true stops the
     * loop; an error whose handler returns false is dropped; a datagram is
     * handed to its handler. In both of the latter cases the next receive
     * is issued.
     */
    method OnDatagram(err: ErrorCode, errorHandlerStops: bool, bytesTransfered: nat)
      requires Valid()
      requires receiving
      modifies this
      ensures Valid()
      ensures receiving == !(IsSet(err) && errorHandlerStops)
      ensures handled == old(handled) + (if IsSet(err) then [] else [bytesTransfered])
    {
      if IsSet(err) {
        if errorHandlerStops {
          receiving := false;
          return;
        }
      } else {
        handled := handled + [bytesTransfered];
      }
      receiving := true;
    }
  }

  /** A send completion runs exactly one handler: the error handler with the code, or the success handler. */
  lemma SendCompletionBranches(success: nat, error: nat, safe: bool, err: ErrorCode)
    ensures Run(SendCompletion(success, error, safe), err)
         == [if IsSet(err) then Invocation(error, Some(err)) else Invocation(success, None)]
  {
  }
}

=== FILE: udp_handler_base.dfy ===
// Reading objects out of a received datagram (WozekServer/UDPServerHandlerBase.hpp).
// The object is passed by reference and the read offset is an in-out
// parameter; here both come in as arguments and their new values come back
// as results. An object is represented by its bytes, whose number is its
// sizeof.

module UdpHandlerBase {
  import opened Base

  /** Where a bounds-checked load of size bytes at off leaves the offset, or None when the datagram is too short. */
  function SafeLoad(size: nat, length: nat, off: nat): Option<nat>
  {
    if length < size + off then None else Some(off + size)
  }

  /** Where a chain of bounds-checked loads leaves the offset, stopping at the first that fails. */
  function SafeLoads(sizes: seq<nat>, length: nat, off: nat): Option<nat>
    decreases |sizes|
  {
    if |sizes| == 0 then Some(off)
    else match SafeLoad(sizes[0], length, off)
      case None => None
      case Some(next) => SafeLoads(sizes[1..], length, next)
  }

  /**
   * loadObjectFromBufferSafe: fails, leaving obj and off as they are, when
   * fewer than sizeof(obj) bytes follow off among the length received;
   * otherwise copies them into obj and advances off past them.
   */
  method LoadObjectFromBufferSafe(obj: seq<byte>, buffer: array<byte>, length: nat, off: nat)
    returns (ok: bool, newObj: seq<byte>, newOff: nat)
    requires length <= buffer.Length
    ensures ok <==> off + |obj| <= length
    ensures (if ok then Some(newOff) else None) == SafeLoad(|obj|, length, off)
    ensures ok ==> newOff <= length && newObj == buffer[off..newOff]
    ensures !ok ==> newObj == obj && newOff == off
  {
    if length < |obj| + off {
      return false, obj, off;
    }
    newObj := buffer[off..off + |obj|];
    newOff := off + |obj|;
    ok := true;
  }

  /** loadObjectFromBuffer: the same copy and advance with no check, so the bytes must lie in the buffer. */
  method LoadObjectFromBuffer(obj: seq<byte>, buffer: array<byte>, off: nat) returns (newObj: seq<byte>, newOff: nat)
    requires off + |obj| <= buffer.Length
    ensures newOff == off + |obj|
    ensures newObj == buffer[off..newOff]
    ensures |newObj| == |obj|
  {
    newObj := buffer[off..off + |obj|];
    newOff := off + |obj|;
  }

  /**
   * A chain of bounds-checked loads from an offset within the datagram
   * succeeds exactly when the objects' sizes, summed, fit in the length
   * after that offset, and it then ends just past them.
   */
  lemma {:induction false} SafeLoadsFit(sizes: seq<nat>, length: nat, off: nat)
    requires off <= length
    ensures SafeLoads(sizes, length, off).Some? <==> off + Sum(sizes) <= length
    ensures SafeLoads(sizes, length, off).Some? ==> SafeLoads(sizes, length, off).value == off + Sum(sizes)
    decreases |sizes|
  {
    if |sizes| > 0 {
      var head := [sizes[0]];
      assert sizes == head + sizes[1..];
      SumAppend(head, sizes[1..]);
      assert head[..0] == [];
      assert Sum(head) == sizes[0];
      assert Sum(sizes) == sizes[0] + Sum(sizes[1..]);
      if sizes[0] + off <= length {
        SafeLoadsFit(sizes[1..], length, off + sizes[0]);
      }
    }
  }
}

=== FILE: udp_server.dfy ===
// The server's UDP requests (WozekServer/UDPWozekServer.cpp): each
// datagram lands in a fresh receiver's 512-byte buffer, byte 0 picks the
// request, and the reply, if any, is built in the same buffer. The
// controller table the requests read and write (accessSafeRead and
// accessSafeWrite) is not part of this model beyond what the requests use
// of a record: its UDP endpoint and its 3-byte rotation. The codes of the
// fetch-state and update-state requests and of the two responses are not
// part of this model either, so they are parameters; the echo request's
// code is EchoRequest::request_id.

module UdpServer {
  import opened Base
  import Datagrams
  import BufferUtils
  import UdpEngine

  /** The receiver's ArrayBuffer<512>. */
  const ReceiverBufferSize: nat := 512

  /** sizeof(rotation): three one-byte values, and the fetch-state response has the same size. */
  const RotationSize: nat := 3

  /** The request and response codes the dispatch and the replies use. */
  datatype UdpCodes = UdpCodes(echoResponse: byte, fetchRequest: byte, fetchResponse: byte, updateRequest: byte)

  /** EchoRequest::request_id, a 1 in a 4-byte id type, compared with the request's first byte. */
  const EchoRequestCode: byte := 1

  /** The switch's case labels are distinct, as C++ requires. */
  predicate DistinctRequests(codes: UdpCodes)
  {
    && codes.fetchRequest != EchoRequestCode
    && codes.updateRequest != EchoRequestCode
    && codes.fetchRequest != codes.updateRequest
  }

  /** What a controller record holds that the requests use. */
  datatype ControllerEntry = ControllerEntry(endpoint: UdpEngine.Endpoint, rotation: seq<byte>)

  /** Every record's rotation is 3 bytes. */
  predicate TableValid(records: map<u32, ControllerEntry>)
  {
    forall id :: id in records ==> |records[id].rotation| == RotationSize
  }

  /** A datagram sent back: where to, and the bytes. */
  datatype Reply = Reply(to: UdpEngine.Endpoint, data: seq<byte>)

  datatype UdpRequest = Echo | FetchState | UpdateState | Unrecognised

  /** handleRequest's switch on byte 0; any other code is only logged. */
  function Dispatch(codes: UdpCodes, code: byte): (r: UdpRequest)
    requires DistinctRequests(codes)
    ensures r == Echo <==> code == EchoRequestCode
    ensures r == FetchState <==> code == codes.fetchRequest
    ensures r == UpdateState <==> code == codes.updateRequest
  {
    if code == EchoRequestCode then Echo
    else if code == codes.fetchRequest then FetchState
    else if code == codes.updateRequest then UpdateState
    else Unrecognised
  }

  // ---------------------------------------------------------------------
  // What the requests compute, on the buffer's bytes
  // ---------------------------------------------------------------------

  /** The id at offset 1, as loadObjectAt(1, id) reads it. */
  function RequestedId(buf: seq<byte>): (id: u32)
    requires |buf| == ReceiverBufferSize
  {
    Datagrams.Pow256Id();
    DecodeLE(buf[1..1 + Datagrams.IdSize])
  }

  /** A fetch is answered with the record's rotation only when the record exists and the sender's address is the record's; the port is not compared. */
  predicate FetchAllowed(records: map<u32, ControllerEntry>, id: u32, sender: UdpEngine.Endpoint)
  {
    id in records && records[id].endpoint.address == sender.address
  }

  /**
   * The fetch-state reply: the response code, then the rotation when the
   * fetch is allowed, and otherwise whatever bytes 1 to 3 of the buffer
   * held, which are the first three bytes of the requested id.
   */
  function FetchReplyData(codes: UdpCodes, buf: seq<byte>, records: map<u32, ControllerEntry>, sender: UdpEngine.Endpoint): (data: seq<byte>)
    requires |buf| == ReceiverBufferSize && TableValid(records)
    ensures |data| == 1 + RotationSize && data[0] == codes.fetchResponse
    ensures FetchAllowed(records, RequestedId(buf), sender) ==> data[1..] == records[RequestedId(buf)].rotation
    ensures !FetchAllowed(records, RequestedId(buf), sender) ==> data[1..] == buf[1..1 + RotationSize]
  {
    var id := RequestedId(buf);
    [codes.fetchResponse] + (if FetchAllowed(records, id, sender) then records[id].rotation else buf[1..1 + RotationSize])
  }

  /** The update-state request: the record with the requested id, if any, takes the 3 bytes at offset 5 as its rotation. */
  function UpdatedRecords(buf: seq<byte>, records: map<u32, ControllerEntry>): (r: map<u32, ControllerEntry>)
    requires |buf| == ReceiverBufferSize && TableValid(records)
    ensures TableValid(r) && r.Keys == records.Keys
    ensures RequestedId(buf) in records ==>
      r[RequestedId(buf)] == records[RequestedId(buf)].(rotation := buf[1 + Datagrams.IdSize..1 + Datagrams.IdSize + RotationSize])
    ensures forall id :: id in records && id != RequestedId(buf) ==> r[id] == records[id]
  {
    var id := RequestedId(buf);
    if id in records then records[id := records[id].(rotation := buf[1 + Datagrams.IdSize..1 + Datagrams.IdSize + RotationSize])]
    else records
  }

  /**
   * An update followed by a fetch of the same id from the record's own
   * address returns the rotation the update carried, whatever the two
   * senders' ports.
   */
  lemma FetchReturnsUpdate(codes: UdpCodes, update: seq<byte>, fetch: seq<byte>, records: map<u32, ControllerEntry>,
                           sender: UdpEngine.Endpoint)
    requires |update| == ReceiverBufferSize && |fetch| == ReceiverBufferSize && TableValid(records)
    requires RequestedId(update) == RequestedId(fetch)
    requires FetchAllowed(records, RequestedId(fetch), sender)
    ensures FetchReplyData(codes, fetch, UpdatedRecords(update, records), sender)
         == [codes.fetchResponse] + update[1 + Datagrams.IdSize..1 + Datagrams.IdSize + RotationSize]
  {
    var data := FetchReplyData(codes, fetch, UpdatedRecords(update, records), sender);
    assert data == [data[0]] + data[1..];
  }

  // ---------------------------------------------------------------------
  // The receiver
  // ---------------------------------------------------------------------

  /** The controller table the requests share. */
  class ControllerTable {
    var records: map<u32, ControllerEntry>

    constructor (records: map<u32, ControllerEntry>)
      ensures this.records == records
    {
      this.records := records;
    }
  }

  /** WozekUDPReceiver: one datagram of bytesTransfered bytes from remoteEndpoint, in a zeroed 512-byte buffer. */
  class Receiver {
    const codes: UdpCodes
    const buffer: BufferUtils.ArrayBuffer
    const remoteEndpoint: UdpEngine.Endpoint
    const bytesTransfered: nat

    ghost predicate Valid()
      reads this, buffer
    {
      && buffer.Valid() && buffer.size == ReceiverBufferSize
      && bytesTransfered <= ReceiverBufferSize
      && DistinctRequests(codes)
    }

    /** A receive of the datagram: its bytes at the front of the buffer, zeros after. */
    constructor (codes: UdpCodes, datagram: seq<byte>, remoteEndpoint: UdpEngine.Endpoint)
      requires |datagram| <= ReceiverBufferSize && DistinctRequests(codes)
      ensures Valid() && fresh(buffer) && fresh(buffer.buffer)
      ensures buffer.buffer[..] == BufferUtils.Splice(Datagrams.Zeros(ReceiverBufferSize), 0, datagram)
      ensures bytesTransfered == |datagram| && this.remoteEndpoint == remoteEndpoint && this.codes == codes
    {
      this.codes := codes;
      this.remoteEndpoint := remoteEndpoint;
      bytesTransfered := |datagram|;
      buffer := new BufferUtils.ArrayBuffer(ReceiverBufferSize);
      new;
      assert buffer.buffer[..] == Datagrams.Zeros(ReceiverBufferSize);
      buffer.SaveBytes(datagram);
    }

    /** handleEchoRequest: byte 0 becomes the echo response code and the first bytesTransfered bytes go back to the sender. */
    method HandleEchoRequest() returns (reply: Reply)
      requires Valid()
      modifies buffer.buffer
      ensures buffer.buffer[..] == BufferUtils.Splice(old(buffer.buffer[..]), 0, [codes.echoResponse])
      ensures reply.to == remoteEndpoint && |reply.data| == bytesTransfered
      ensures bytesTransfered > 0 ==> reply.data == [codes.echoResponse] + old(buffer.buffer[1..bytesTransfered])
    {
      buffer.SaveBytes([codes.echoResponse]);
      var view := buffer.Get(bytesTransfered);
      reply := Reply(remoteEndpoint, buffer.Designated(view));
      if bytesTransfered > 0 {
        assert reply.data == [reply.data[0]] + reply.data[1..];
      }
    }

    /**
     * handleFetchStateRequest: reads the id at offset 1, writes the
     * response code at byte 0 and, when the fetch is allowed, the rotation
     * at offset 1; the first 4 bytes go back whatever the outcome.
     */
    method HandleFetchStateRequest(table: ControllerTable) returns (reply: Reply)
      requires Valid() && TableValid(table.records)
      modifies buffer.buffer
      ensures reply == Reply(remoteEndpoint, FetchReplyData(codes, old(buffer.buffer[..]), table.records, remoteEndpoint))
      ensures buffer.buffer[..] == BufferUtils.Splice(old(buffer.buffer[..]), 0, reply.data)
    {
      ghost var before := buffer.buffer[..];
      var idBytes, _ := buffer.LoadBytesAt(1, Datagrams.IdSize);
      Datagrams.Pow256Id();
      var id: u32 := DecodeLE(idBytes);
      assert id == RequestedId(before);
      buffer.SaveBytes([codes.fetchResponse]);
      if FetchAllowed(table.records, id, remoteEndpoint) {
        var _ := buffer.SaveBytesAt(1, table.records[id].rotation);
        BufferUtils.SpliceSplice(before, 0, [codes.fetchResponse], 1, table.records[id].rotation);
      } else {
        assert BufferUtils.Splice(before, 0, [codes.fetchResponse]) == BufferUtils.Splice(before, 0, [codes.fetchResponse] + before[1..1 + RotationSize]);
      }
      var view := buffer.Get(1 + RotationSize);
      reply := Reply(remoteEndpoint, buffer.Designated(view));
    }

    /**
     * handleUpdateStateRequest: reads the id at offset 1 and, if the record
     * exists, copies the 3 bytes at offset 5 into its rotation. The sender
     * is not checked and nothing is sent back.
     */
    method HandleUpdateStateRequest(table: ControllerTable)
      requires Valid() && TableValid(table.records)
      modifies table
      ensures table.records == UpdatedRecords(buffer.buffer[..], old(table.records))
    {
      var idBytes, _ := buffer.LoadBytesAt(1, Datagrams.IdSize);
      Datagrams.Pow256Id();
      var id: u32 := DecodeLE(idBytes);
      if id in table.records {
        var rotation, _ := buffer.LoadBytesAt(1 + Datagrams.IdSize, RotationSize);
        table.records := table.records[id := table.records[id].(rotation := rotation)];
      }
    }

    /**
     * handleRequest: byte 0 picks the request; an unrecognised code is only
     * logged, with no reply and no change.
     */
    method HandleRequest(table: ControllerTable) returns (reply: Option<Reply>)
      requires Valid() && TableValid(table.records)
      modifies buffer.buffer, table
      ensures var request := Dispatch(codes, old(buffer.buffer[0]));
        && (reply.Some? <==> request == Echo || request == FetchState)
        && (request == FetchState ==>
              reply.value.data == FetchReplyData(codes, old(buffer.buffer[..]), old(table.records), remoteEndpoint))
        && (request == UpdateState ==> table.records == UpdatedRecords(old(buffer.buffer[..]), old(table.records)))
        && (request != UpdateState ==> table.records == old(table.records))
        && (request == Unrecognised || request == UpdateState ==> buffer.buffer[..] == old(buffer.buffer[..]))
    {
      var code, _ := buffer.LoadBytesAt(0, 1);
      match Dispatch(codes, code[0]) {
        case Echo =>
          var r := HandleEchoRequest();
          reply := Some(r);
        case FetchState =>
          var r := HandleFetchStateRequest(table);
          reply := Some(r);
        case UpdateState =>
          HandleUpdateStateRequest(table);
          reply := None;
        case Unrecognised =>
          reply := None;
      }
    }
  }
}

=== FILE: world.dfy ===
// A running world (WozekServer/World.hpp): its main host, set once, and the
// check that a datagram comes from the main host's address. The strand and
// the world's controller list, which nothing reads or writes, are left out.

module World {
  import opened Base
  import UdpEngine

  /** asio's default-constructed UDP endpoint: the any-address, port 0. */
  const DefaultEndpoint: UdpEngine.Endpoint := UdpEngine.Endpoint(0, 0)

  class World {
    var mainHostId: u32
    var mainHostEndpoint: UdpEngine.Endpoint

    /** A new world has no main host: id 0 and the default endpoint. */
    constructor ()
      ensures mainHostId == 0 && mainHostEndpoint == DefaultEndpoint
    {
      mainHostId := 0;
      mainHostEndpoint := DefaultEndpoint;
    }

    /** setMainHost: allowed only while the main host id is still 0; stores the id and endpoint. */
    method SetMainHost(id: u32, remoteEndpoint: UdpEngine.Endpoint)
      requires mainHostId == 0
      modifies this
      ensures mainHostId == id && mainHostEndpoint == remoteEndpoint
    {
      mainHostId := id;
      mainHostEndpoint := remoteEndpoint;
    }

    function GetMainHostRemoteEndpoint(): (e: UdpEngine.Endpoint)
      reads this
      ensures e == mainHostEndpoint
    {
      mainHostEndpoint
    }

    /** validateMainHostEndpoint: the sender's address must be the main host's; the port is not compared. */
    function ValidateMainHostEndpoint(sender: UdpEngine.Endpoint): (ok: bool)
      reads this
      ensures ok <==> sender.address == mainHostEndpoint.address
    {
      sender.address == mainHostEndpoint.address
    }
  }

  /** Any port on the main host's address passes; so a datagram from the main host's own endpoint does. */
  lemma ValidationIgnoresPort(w: World, sender: UdpEngine.Endpoint, port: u16)
    ensures w.ValidateMainHostEndpoint(sender) == w.ValidateMainHostEndpoint(sender.(port := port))
    ensures w.ValidateMainHostEndpoint(w.GetMainHostRemoteEndpoint())
  {
  }
}
